=== FILE: README.md ===
# linkasanote sync engine in Dafny

A model of the synchronisation core of linkasanote, an Android app that keeps
links, favorites and notes on the device and mirrors each collection to a
Nextcloud folder as one JSON file per record. The model follows the Java
sources. Of the Kotlin ports it models only the four places checked against
them and found to behave differently: the whitelist split in `Settings.kt`,
the MIME guard of `JsonFile.kt`'s `getId`, the sync-directory setter of
`Settings.kt`, and `queueOperation` in `OperationsService.kt`, which sends a
processing message only for a request with a listener. The database,
the preferences and the remote folder are maps. Remote answers, local answers,
the clock and client construction are parameters. Everything is pure functions
over immutable datatypes, with a few methods where the source loops.

One module per component:

- `Wrappers`: `Option`, which stands in for Java's nullable references.
- `SyncStates`: the six-field sync state of a record, its transition
  constructor as a total case table, the duplicate constructor, and the
  content-values round trip.
- `CommonUtils`: `arrayAdd`, `charRepeat`, `strRepeat`, `strFirstLine`.
- `UuidKeys`: record keys, a UUID's 16 big-endian bytes in the URL-safe base64
  alphabet of section 5 of RFC 4648, without padding (22 characters). The
  encoder is written out. The decoder is `android.util.Base64`'s state
  machine, which is lenient whatever the flags: it skips characters outside
  the alphabet and accepts '=' padding. It is proved to invert the encoder,
  and to agree with a strict group-by-group decoder on alphabet-only text.
- `JsonValues`: an abstract JSON value and the `org.json` accessors the codecs
  use.
- `Entities`: tags, links, favorites and notes. Covers the normalisation their
  constructors apply, `equals`, `compareTo` (Java's order on UTF-16 code
  units), `isEmpty`, the duplicate key and the related id.
- `EntityJson`: the version-1 JSON documents and their decoders. Decoding an
  encoded non-empty entity gives back an equal entity.
- `SyncLog`: the `sync_result` table behind `LocalSyncResults` (`log`,
  `getFresh`, `getThreshold`, `getIds`, `markAsApplied`, `cleanup`), and the
  provider's update dispatch on it.
- `LocalStore`: the content provider and the three local collections. The
  schema's uniqueness and foreign-key rules are checked on every write, and a
  violating write is refused. Covers `updateOrInsert`, tag references, `update`,
  `delete`, `resetSyncState`, duplicate numbering, `saveDuplicated`,
  `autoResolveConflict`, `getActive`, `getUnsynced`, `getByChunk`, counting and
  the local-data-source deletes.
- `Cloud`: the JSON file naming rules of `JsonFile`, `CloudItem`'s changed
  test, paths and download validation, the folder listing with its filter on
  MIME type, name and size, and `CloudDataSource`'s single-item save and
  delete with their optimistic ETag checks.
- `Reconciler`: `SyncItem`. Covers the per-item decision table, the local and
  remote effect of each decision, the pass over local items, the download of
  remote-only records, and the bookkeeping of the pass result.
- `Orchestrator`: `SyncAdapter.onPerformSync`. The three collection passes run
  in a fixed order and stop at the first fatal result, followed by the
  terminal status and the recorded broadcasts and notifications.
- `Settings`: the preference rules, with the sync directory, sync status,
  filters and the clipboard parameter whitelist.
- `Repository`: the in-memory caches in front of the local store, with their
  dirty-id bookkeeping, and the overall sync status.
- `Operations`: `OperationsService`'s first-in first-out queue of account
  operations, and its worker that reuses one client per target.

Where the documentation and the code disagree, the model follows the code:

- `getThreshold` is documented to give `Long.MAX_VALUE` on an empty table. The
  code reads SQL's NULL through `getLong`, which gives 0, and `markAsApplied`
  then treats 0 as no bound.
- `Provider.update` for note results is documented to run both the note and the
  favorite update. The second update's selection requires the entry to be
  both `note` and `favorite`, so it matches nothing, and its 0 is what is
  returned (see Findings).

## Model

| member | source | states |
|---|---|---|
| CommonUtils.ArrayAdd | app/src/main/java/com/bytesforge/linkasanote/utils/CommonUtils.java:113-118 | the new array is the old one with the element appended at the end |
| CommonUtils.CharRepeat | app/src/main/java/com/bytesforge/linkasanote/utils/CommonUtils.java:120-126 | the string has `repeat` characters, all equal to `ch`, and is empty when `repeat` is not positive |
| CommonUtils.StrRepeat | app/src/main/java/com/bytesforge/linkasanote/utils/CommonUtils.java:128-136 | the result is empty exactly when the count is not positive or the string is null or empty |
| CommonUtils.StrRepeatIsJoin | app/src/main/java/com/bytesforge/linkasanote/utils/CommonUtils.java:128-136 | a repeated string is exactly `repeat` copies joined by the delimiter (none when it is null or empty) |
| CommonUtils.Trim | app/src/main/java/com/bytesforge/linkasanote/utils/CommonUtils.java:158-164 | trimming leaves no character up to U+0020 at either end, never lengthens, and leaves an already trimmed string alone |
| CommonUtils.FirstLine | app/src/main/java/com/bytesforge/linkasanote/utils/CommonUtils.java:161-163 | the first line is a prefix without a line separator, ended by one when shorter than the input |
| CommonUtils.StrFirstLine | app/src/main/java/com/bytesforge/linkasanote/utils/CommonUtils.java:158-164 | null exactly for null or blank input; otherwise a non-empty trimmed text with no line separator |
| CommonUtils.StrFirstLineOfSingleLine | app/src/main/java/com/bytesforge/linkasanote/utils/CommonUtils.java:158-164 | a non-empty trimmed single line is its own first line |
| CommonUtils.StrFirstLineIdempotent | app/src/main/java/com/bytesforge/linkasanote/utils/CommonUtils.java:158-164 | taking the first line of a first line changes nothing |
| SyncStates.Transition | app/src/main/java/com/bytesforge/linkasanote/sync/SyncState.java:103-142 | rowId, ETag and ordinal come from the prior state (or the default); synced iff the target is SYNCED; deleted iff DELETED, CONFLICTED_DELETE, or UNSYNCED over a deleted prior; conflicted iff the prior was or the target is a conflicted state |
| SyncStates.OfState | app/src/main/java/com/bytesforge/linkasanote/sync/SyncState.java:144-146 | a state built from nothing has row id -1, no ETag, ordinal 0, and is conflicted exactly for the two conflicted targets |
| SyncStates.WithETag | app/src/main/java/com/bytesforge/linkasanote/sync/SyncState.java:164-167 | the (eTag, state) constructor carries the given ETag, row id -1, ordinal 0, and is synced iff the target is SYNCED |
| SyncStates.Duplicate | app/src/main/java/com/bytesforge/linkasanote/sync/SyncState.java:148-162 | the duplicate constructor fails exactly without an ETag or with an ordinal below 1; otherwise it is a conflicted, synced, undeleted numbered duplicate with that ETag and ordinal |
| SyncStates.TransitionInvariants | app/src/main/java/com/bytesforge/linkasanote/sync/SyncState.java:103-142 | no transition gives a state both synced and deleted, and none clears a conflict |
| SyncStates.TransitionIdempotent | app/src/main/java/com/bytesforge/linkasanote/sync/SyncState.java:103-142 | applying a transition to its own result changes nothing |
| SyncStates.TransitionComposition | app/src/main/java/com/bytesforge/linkasanote/sync/SyncState.java:103-142 | after two transitions the synced and deleted flags are the second's alone (unless it is UNSYNCED), while the conflict flag accumulates |
| SyncStates.GetContentValues | app/src/main/java/com/bytesforge/linkasanote/sync/SyncState.java:169-183 | the update columns never hold the row id, hold the ETag exactly when there is one, and always hold the ordinal and the three flags with the state's values |
| SyncStates.FromContentValues | app/src/main/java/com/bytesforge/linkasanote/sync/SyncState.java:202-212 | a read from content values needs the row id and takes it; a missing ETag reads as null |
| SyncStates.ContentValuesRoundTrip | app/src/main/java/com/bytesforge/linkasanote/sync/SyncState.java:169-183 | a state's content values read back to the same state once the row id is added, and fail to read without it (also SyncState.java:202-212) |
| SyncStates.ApplyValuesMergesSupplied | app/src/main/java/com/bytesforge/linkasanote/sync/SyncState.java:169-183 | an SQL update of a stored state changes exactly the supplied columns, a null ETag becoming NULL |
| SyncStates.UpdateNeverClearsETag | app/src/main/java/com/bytesforge/linkasanote/sync/SyncState.java:172-176 | writing a state over a stored one keeps the row id, takes the ordinal and flags, and keeps the stored ETag when the written state has none |
| SyncStates.StoredFlag | app/src/main/java/com/bytesforge/linkasanote/sync/SyncState.java:192-197 | a boolean column holds 0 or 1, and 1 exactly for true |
| SyncStates.FromCursor | app/src/main/java/com/bytesforge/linkasanote/sync/SyncState.java:185-200 | a cursor row reads with its row id, ETag and ordinal, and each flag set exactly when its column holds 1 |
| SyncStates.CursorRoundTrip | app/src/main/java/com/bytesforge/linkasanote/sync/SyncState.java:185-200 | a state stored with 0/1 flags reads back from the cursor unchanged |
| UuidKeys.IndexOf | app/src/main/java/com/bytesforge/linkasanote/utils/UuidUtils.java:41 | a character the URL-safe alphabet accepts maps to a 6-bit value whose character is that character |
| UuidKeys.IndexOfCharOf | app/src/main/java/com/bytesforge/linkasanote/utils/UuidUtils.java:41 | every 6-bit value's character decodes back to the value |
| UuidKeys.Quad | app/src/main/java/com/bytesforge/linkasanote/utils/UuidUtils.java:41 | a group of three bytes is written as four characters |
| UuidKeys.EncodeLength | app/src/main/java/com/bytesforge/linkasanote/utils/UuidUtils.java:41 | without padding, n bytes take 4 characters per full group of three, plus 2 or 3 characters for a trailing 1 or 2 bytes |
| UuidKeys.GroupRoundTrip | app/src/main/java/com/bytesforge/linkasanote/utils/UuidUtils.java:41 | the four 6-bit values of three bytes are in range and rebuild the three bytes |
| UuidKeys.DecodeGroupsEncode | app/src/main/java/com/bytesforge/linkasanote/utils/UuidUtils.java:41-52 | the strict reference decoder (alphabet only, no padding) inverts encoding for every byte sequence |
| UuidKeys.DecodeEncodeGroup | app/src/main/java/com/bytesforge/linkasanote/utils/UuidUtils.java:41-52 | for the strict reference decoder, a full group followed by a decodable tail decodes to the group's bytes followed by the tail's |
| UuidKeys.DecodeQuad | app/src/main/java/com/bytesforge/linkasanote/utils/UuidUtils.java:41-52 | for the strict reference decoder, a group's four characters decode to its three bytes ahead of whatever follows |
| UuidKeys.DecodeEncodeShort | app/src/main/java/com/bytesforge/linkasanote/utils/UuidUtils.java:41-52 | for the strict reference decoder, a trailing one or two bytes, or none, survive encoding without padding |
| UuidKeys.DecodeEncodePair | app/src/main/java/com/bytesforge/linkasanote/utils/UuidUtils.java:41-52 | for the strict reference decoder, two trailing bytes survive their three characters |
| UuidKeys.DecodeEncodeSingle | app/src/main/java/com/bytesforge/linkasanote/utils/UuidUtils.java:41-52 | for the strict reference decoder, one trailing byte survives its two characters |
| UuidKeys.DecodeTwo | app/src/main/java/com/bytesforge/linkasanote/utils/UuidUtils.java:41-52 | for the strict reference decoder, two alphabet characters decode to one byte |
| UuidKeys.DecodeThree | app/src/main/java/com/bytesforge/linkasanote/utils/UuidUtils.java:41-52 | for the strict reference decoder, three alphabet characters decode to two bytes |
| UuidKeys.DecodeFour | app/src/main/java/com/bytesforge/linkasanote/utils/UuidUtils.java:41-52 | for the strict reference decoder, four alphabet characters decode to three bytes ahead of the rest |
| UuidKeys.Step | app/src/main/java/com/bytesforge/linkasanote/utils/UuidUtils.java:41-58 | one character in the Android decoder: a character outside the alphabet and other than '=' is skipped with the state unchanged; an alphabet character is accepted only before padding, and the fourth of a group emits three bytes; '=' is accepted only after two or three values of a group or as the second pad |
| UuidKeys.Finish | app/src/main/java/com/bytesforge/linkasanote/utils/UuidUtils.java:41-58 | the end of input is an error exactly after a lone value of a group or a single '=' where two are due; otherwise it emits the pending one or two bytes |
| UuidKeys.Prepend | app/src/main/java/com/bytesforge/linkasanote/utils/UuidUtils.java:58 | bytes emitted before a later error are lost: the call fails as a whole |
| UuidKeys.RunGroup | app/src/main/java/com/bytesforge/linkasanote/utils/UuidUtils.java:41-58 | four alphabet characters pass through the states of one group and emit its three bytes |
| UuidKeys.DecodeAlphabetIsStrict | app/src/main/java/com/bytesforge/linkasanote/utils/UuidUtils.java:41-58 | on text made only of alphabet characters, `Base64.decode` with these flags agrees with the strict reference decoder |
| UuidKeys.DecodeEncode | app/src/main/java/com/bytesforge/linkasanote/utils/UuidUtils.java:41-58 | `Base64.decode` with the same flags inverts encoding for every byte sequence |
| UuidKeys.RunSkips | app/src/main/java/com/bytesforge/linkasanote/utils/UuidUtils.java:41-58 | inserting a character outside the alphabet and other than '=' anywhere does not change the decoding |
| UuidKeys.Padding | app/src/main/java/com/bytesforge/linkasanote/utils/UuidUtils.java:41 | the '=' padding NO_PADDING suppresses has fewer than three characters and completes the text to a multiple of four |
| UuidKeys.DecodePadded | app/src/main/java/com/bytesforge/linkasanote/utils/UuidUtils.java:41-58 | the decoder also accepts the padded encoding and decodes it to the same bytes, although the flags say NO_PADDING |
| UuidKeys.DecodePaddedShort | app/src/main/java/com/bytesforge/linkasanote/utils/UuidUtils.java:41-58 | a trailing one or two bytes, or none, survive encoding with padding |
| UuidKeys.DecodePaddedGroup | app/src/main/java/com/bytesforge/linkasanote/utils/UuidUtils.java:41-58 | a full group ahead of padded text decodes to the group's bytes followed by the rest's |
| UuidKeys.RunQuad | app/src/main/java/com/bytesforge/linkasanote/utils/UuidUtils.java:41-58 | the four characters of a group emit its three bytes ahead of whatever follows |
| UuidKeys.DecodePaddedPair | app/src/main/java/com/bytesforge/linkasanote/utils/UuidUtils.java:41-58 | two bytes survive their three characters and one '=' |
| UuidKeys.RunThreePadded | app/src/main/java/com/bytesforge/linkasanote/utils/UuidUtils.java:41-58 | three values and one '=' decode to two bytes |
| UuidKeys.DecodePaddedSingle | app/src/main/java/com/bytesforge/linkasanote/utils/UuidUtils.java:41-58 | one byte survives its two characters and "==" |
| UuidKeys.RunTwoPadded | app/src/main/java/com/bytesforge/linkasanote/utils/UuidUtils.java:41-58 | two values and "==" decode to one byte |
| UuidKeys.ToBigEndian | app/src/main/java/com/bytesforge/linkasanote/utils/UuidUtils.java:49-51 | a value is written as exactly n base-256 digits |
| UuidKeys.FromBigEndian | app/src/main/java/com/bytesforge/linkasanote/utils/UuidUtils.java:59-60 | n big-endian bytes read as a value below 256^n |
| UuidKeys.BigEndianRoundTrip | app/src/main/java/com/bytesforge/linkasanote/utils/UuidUtils.java:49-60 | a value below 256^n survives writing and reading its n big-endian bytes |
| UuidKeys.LongToBytes | app/src/main/java/com/bytesforge/linkasanote/utils/UuidUtils.java:50-51 | `putLong` writes eight bytes |
| UuidKeys.LongFromBytes | app/src/main/java/com/bytesforge/linkasanote/utils/UuidUtils.java:60 | `getLong` reads a value in the signed 64-bit range |
| UuidKeys.LongRoundTrip | app/src/main/java/com/bytesforge/linkasanote/utils/UuidUtils.java:48-60 | every signed 64-bit value survives `putLong` then `getLong`, negative values included |
| UuidKeys.KeyFromUuid | app/src/main/java/com/bytesforge/linkasanote/utils/UuidUtils.java:35-53 | every key is exactly 22 characters |
| UuidKeys.UuidFromKey | app/src/main/java/com/bytesforge/linkasanote/utils/UuidUtils.java:55-66 | corrected: a UUID comes back exactly when the key decodes to at least 16 bytes; every other key gives null |
| UuidKeys.UuidFromKeyAsWritten | app/src/main/java/com/bytesforge/linkasanote/utils/UuidUtils.java:55-66 | as written: null exactly when the decoder rejects the key; an escaping buffer underflow exactly when the key decodes to fewer than 16 bytes; otherwise the corrected result |
| UuidKeys.ShortKeyEscapes | app/src/main/java/com/bytesforge/linkasanote/utils/UuidUtils.java:58-64 | every well-formed key shorter than 16 bytes throws as written, where the corrected version returns null |
| UuidKeys.UuidKeyVariants | app/src/main/java/com/bytesforge/linkasanote/utils/UuidUtils.java:55-66 | a key need not be what `keyFromUuid` wrote: the key with "==" appended, or with a skipped character inserted anywhere, reads back as the same UUID |
| UuidKeys.ZeroKeyVariants | app/src/main/java/com/bytesforge/linkasanote/utils/UuidUtils.java:55-66 | 22 'A's followed by "==", and 11 'A's, a space and 11 'A's, both read back as the zero UUID, though neither is 22 characters |
| UuidKeys.UuidRoundTrip | app/src/main/java/com/bytesforge/linkasanote/utils/UuidUtils.java:48-70 | every UUID's key reads back as that UUID and passes the length check |
| UuidKeys.EncodeAlphabet | app/src/main/java/com/bytesforge/linkasanote/utils/UuidUtils.java:41-52 | an encoding holds only URL-safe alphabet characters |
| UuidKeys.KeyAlphabet | app/src/main/java/com/bytesforge/linkasanote/utils/UuidUtils.java:48-53 | a key holds only alphabet characters, and in particular no '/', so it can name a file |
| UuidKeys.ZeroUuidKey | app/src/main/java/com/bytesforge/linkasanote/utils/UuidUtils.java:48-66 | the zero UUID's key is 22 'A's, and that key reads back as zero |
| UuidKeys.ZeroBytesEncode | app/src/main/java/com/bytesforge/linkasanote/utils/UuidUtils.java:52 | zero bytes encode to 'A's only |
| Entities.Utf16 | app/src/main/java/com/bytesforge/linkasanote/data/Tag.java:180 | a character is one UTF-16 code unit below U+10000 and a surrogate pair (high surrogate first) above it |
| Entities.Utf16Injective | app/src/main/java/com/bytesforge/linkasanote/data/Tag.java:180 | different characters have different code units |
| Entities.UnitsInjective | app/src/main/java/com/bytesforge/linkasanote/data/Tag.java:180 | different strings have different UTF-16 code-unit sequences |
| Entities.UnitsAppend | app/src/main/java/com/bytesforge/linkasanote/data/Tag.java:180 | the code units of a concatenation are those of its parts |
| Entities.UnitCompare | app/src/main/java/com/bytesforge/linkasanote/data/Tag.java:180 | the code-unit comparison is zero exactly on equal unit sequences |
| Entities.UnitCompareAntisymmetric | app/src/main/java/com/bytesforge/linkasanote/data/Tag.java:180 | swapping the operands of the code-unit comparison negates it |
| Entities.UnitCompareTransitive | app/src/main/java/com/bytesforge/linkasanote/data/Tag.java:180 | the code-unit order is transitive |
| Entities.UnitComparePrefix | app/src/main/java/com/bytesforge/linkasanote/data/Tag.java:180 | a proper prefix of code units sorts first |
| Entities.StrCompare | app/src/main/java/com/bytesforge/linkasanote/data/Tag.java:180 | `String.compareTo` over UTF-16 code units is zero exactly on equal strings |
| Entities.StrCompareByCodeUnit | app/src/main/java/com/bytesforge/linkasanote/data/Tag.java:180 | the order is by code unit, not code point: a string starting with U+1F600 sorts before U+FFFF, and U+E000 after it |
| Entities.StrCompareAntisymmetric | app/src/main/java/com/bytesforge/linkasanote/data/Tag.java:180 | swapping the operands of `String.compareTo` negates the result |
| Entities.StrCompareTransitive | app/src/main/java/com/bytesforge/linkasanote/data/Tag.java:180 | the order `String.compareTo` gives is transitive |
| Entities.StrComparePrefix | app/src/main/java/com/bytesforge/linkasanote/data/Tag.java:180 | a proper prefix sorts first |
| Entities.NullableCompare | app/src/main/java/com/bytesforge/linkasanote/data/Tag.java:171-181 | null sorts before every string, and two strings compare as `String.compareTo` says |
| Entities.NullableCompareIsOrder | app/src/main/java/com/bytesforge/linkasanote/data/Tag.java:171-181 | the null-first comparison is zero exactly on equal keys and is antisymmetric |
| Entities.EmptyToNull | app/src/main/java/com/bytesforge/linkasanote/data/Link.java:126 | null exactly for a null or empty string; otherwise the string itself (also Note.java:114) |
| Entities.EmptyListToNull | app/src/main/java/com/bytesforge/linkasanote/data/Link.java:128-129 | null exactly for a null or empty list; otherwise the list itself (also Note.java:115, Favorite.java:114) |
| Entities.LowerChar | app/src/main/java/com/bytesforge/linkasanote/data/Tag.java:61 | capitals A-Z move to their lower-case letter; every other character is unchanged |
| Entities.Lower | app/src/main/java/com/bytesforge/linkasanote/data/Tag.java:61 | lower-casing keeps the length and lower-cases each character in place |
| Entities.LowerFixes | app/src/main/java/com/bytesforge/linkasanote/data/Tag.java:61 | the result has no capital, and a string without capitals is unchanged |
| Entities.NewTag | app/src/main/java/com/bytesforge/linkasanote/data/Tag.java:59-62 | the tag keeps its creation time; its name is null exactly for a null or empty name, otherwise non-empty, lower-case and of the same length |
| Entities.NewTagIdempotent | app/src/main/java/com/bytesforge/linkasanote/data/Tag.java:59-62 | rebuilding a well-formed tag from its own fields gives it back |
| Entities.TagCompare | app/src/main/java/com/bytesforge/linkasanote/data/Tag.java:171-181 | a tag without a name sorts first |
| Entities.TagCompareConsistent | app/src/main/java/com/bytesforge/linkasanote/data/Tag.java:152-181 | tags compare equal exactly when `equals` holds, and the order is antisymmetric |
| Entities.NewNote | app/src/main/java/com/bytesforge/linkasanote/data/Note.java:107-117 | the note keeps every field except that an empty link id and an empty tag list become null |
| Entities.NewLink | app/src/main/java/com/bytesforge/linkasanote/data/Link.java:118-131 | the link keeps every field except that an empty name and empty tag or note lists become null |
| Entities.NewFavorite | app/src/main/java/com/bytesforge/linkasanote/data/Favorite.java:106-116 | the favorite keeps every field, the name included, except that an empty tag list becomes null |
| Entities.ConstructorsNormalise | app/src/main/java/com/bytesforge/linkasanote/data/Note.java:107-117 | every constructor yields a well-formed entity, and rebuilding a well-formed entity from its own fields gives it back (also Link.java:118-131, Favorite.java:106-116) |
| Entities.NoteCompare | app/src/main/java/com/bytesforge/linkasanote/data/Note.java:345-355 | notes compare equal exactly when their texts are equal |
| Entities.LinkCompare | app/src/main/java/com/bytesforge/linkasanote/data/Link.java:389-399 | links compare equal exactly when their URLs are equal |
| Entities.FavoriteCompare | app/src/main/java/com/bytesforge/linkasanote/data/Favorite.java:351-360 | favorites compare equal exactly when their names are equal |
| Entities.CompareRefinesEquals | app/src/main/java/com/bytesforge/linkasanote/data/Note.java:329-355 | entities that are `equals` compare equal, and link comparison is antisymmetric (also Link.java:372-399, Favorite.java:334-360) |
| Entities.BuildOrphaned | app/src/main/java/com/bytesforge/linkasanote/data/Note.java:371-376 | the orphan has no link, the same id, text and times, the same tags, and a fresh unsynced CONFLICTED_UPDATE state |
| Entities.Item.WithState | app/src/main/java/com/bytesforge/linkasanote/data/Note.java:102-105 | the (record, state) constructor replaces the sync state and keeps id, kind, key, related id, tags and creation time (also Link.java:112-115, Favorite.java:101-104) |
| Entities.Item.RelatedId | app/src/main/java/com/bytesforge/linkasanote/data/Note.java:281-283 | only a note has a related id (also Link.java:289-291, Favorite.java:280-282) |
| Entities.ContentEqualsIgnoresState | app/src/main/java/com/bytesforge/linkasanote/data/Note.java:329-337 | `equals` ignores the sync state entirely (also Link.java:372-381, Favorite.java:334-343) |
| Entities.ContentEqualsReflexiveSymmetric | app/src/main/java/com/bytesforge/linkasanote/data/Note.java:329-337 | `equals` is reflexive and symmetric (also Link.java:372-381, Favorite.java:334-343) |
| EntityJson.EncodeTag | app/src/main/java/com/bytesforge/linkasanote/data/Tag.java:134-145 | an empty tag encodes to null; any other to an object whose "name" is the tag's name |
| EntityJson.DecodeTag | app/src/main/java/com/bytesforge/linkasanote/data/Tag.java:107-116 | a decoded tag is created `now` and normalised, and has no name when "name" cannot be read |
| EntityJson.EncodeTags | app/src/main/java/com/bytesforge/linkasanote/data/Link.java:350-356 | the tag array has one element per tag, a JSON null exactly for an empty tag, and is empty for no tags |
| EntityJson.DecodeTags | app/src/main/java/com/bytesforge/linkasanote/data/Link.java:198-202 | the array decodes exactly when every element is an object, into one tag per element |
| EntityJson.Restamp | app/src/main/java/com/bytesforge/linkasanote/data/Tag.java:107-116 | restamped tags keep their names, so the list is `equals` to the original |
| EntityJson.TagsRoundTrip | app/src/main/java/com/bytesforge/linkasanote/data/Link.java:198-202 | a list of non-empty normalised tags decodes back to the same names created `now`; an empty list comes back as null (also Link.java:350-356) |
| EntityJson.EmptyTagBreaksDecoding | app/src/main/java/com/bytesforge/linkasanote/data/Link.java:198-202 | one empty tag writes a JSON null into the array, which makes the whole array undecodable (also Link.java:350-356) |
| EntityJson.Container | app/src/main/java/com/bytesforge/linkasanote/data/Link.java:357-359 | the container holds version 1 and the body under the entity's name |
| EntityJson.OpenContainer | app/src/main/java/com/bytesforge/linkasanote/data/Link.java:177-192 | a body is read only from a version-1 container, and only with an id that passes the key check |
| EntityJson.EncodeLink | app/src/main/java/com/bytesforge/linkasanote/data/Link.java:336-364 | a link encodes to null exactly when it is empty |
| EntityJson.DecodeLink | app/src/main/java/com/bytesforge/linkasanote/data/Link.java:177-211 | a decoded link comes from a readable version-1 container, carries the body's id and the caller's state, has no notes, and is normalised |
| EntityJson.LinkRoundTrip | app/src/main/java/com/bytesforge/linkasanote/data/Link.java:177-211 | an encodable link reads back as itself with restamped tags, no notes and the caller's state, and so is `equals` to the original (also Link.java:336-364) |
| EntityJson.LinkDecodes | app/src/main/java/com/bytesforge/linkasanote/data/Link.java:177-211 | the container of a link's body reads back as that link |
| EntityJson.LinkFields | app/src/main/java/com/bytesforge/linkasanote/data/Link.java:191-198 | every getter reads back the field the encoder wrote, a null name as "" (also Link.java:344-357) |
| EntityJson.EncodeFavorite | app/src/main/java/com/bytesforge/linkasanote/data/Favorite.java:298-325 | a favorite encodes to null exactly when it is empty |
| EntityJson.DecodeFavorite | app/src/main/java/com/bytesforge/linkasanote/data/Favorite.java:159-193 | a decoded favorite comes from a readable version-1 container, carries the body's id and the caller's state, has a name, and is normalised |
| EntityJson.FavoriteRoundTrip | app/src/main/java/com/bytesforge/linkasanote/data/Favorite.java:159-193 | an encodable favorite reads back with restamped tags and the caller's state, and is `equals` to the original, tag names included (also Favorite.java:298-325) |
| EntityJson.EncodeNote | app/src/main/java/com/bytesforge/linkasanote/data/Note.java:294-321 | a note encodes to null exactly when it is empty |
| EntityJson.DecodeNote | app/src/main/java/com/bytesforge/linkasanote/data/Note.java:160-193 | a decoded note comes from a readable version-1 container, carries the body's id and the caller's state, has text, and is normalised |
| EntityJson.NoteRoundTrip | app/src/main/java/com/bytesforge/linkasanote/data/Note.java:160-193 | an encodable note reads back with restamped tags and the caller's state; a null link id survives as null (also Note.java:294-321) |
| EntityJson.VersionChecked | app/src/main/java/com/bytesforge/linkasanote/data/Link.java:185-188 | a document whose version is not 1 decodes as none of the three kinds (also Favorite.java:159-170, Note.java:160-171) |
| EntityJson.EncodeItem | app/src/main/java/com/bytesforge/linkasanote/data/Link.java:336-364 | an item encodes to null exactly when it is empty (also Favorite.java:298-325, Note.java:294-321) |
| EntityJson.DecodeItem | app/src/main/java/com/bytesforge/linkasanote/data/Link.java:177-211 | a decoded item is of the collection's kind, carries the caller's state, and has a valid key (also Favorite.java:159-193, Note.java:160-193) |
| EntityJson.ItemRoundTrip | app/src/main/java/com/bytesforge/linkasanote/data/Link.java:177-211 | every encodable item decodes back to an item that is `equals` to it, with the same id and the caller's state (also Favorite.java:159-193, Note.java:160-193) |
| SyncLog.ResultValueOf | app/src/main/java/com/bytesforge/linkasanote/data/SyncResult.java:85 | a name that `valueOf` accepts belongs to the result it returns |
| SyncLog.ResultNameRoundTrip | app/src/main/java/com/bytesforge/linkasanote/data/SyncResult.java:85-107 | a result stored by name reads back as the same result |
| SyncLog.NewSyncResult | app/src/main/java/com/bytesforge/linkasanote/data/SyncResult.java:50-54 | the short constructor has row id -1, is created `now`, and keeps every other field |
| SyncLog.GetContentValues | app/src/main/java/com/bytesforge/linkasanote/data/SyncResult.java:100-110 | the columns hold everything but the row id, the result by its name |
| SyncLog.FromContentValues | app/src/main/java/com/bytesforge/linkasanote/data/SyncResult.java:88-98 | a row read from content values takes its row id and its result from the stored name |
| SyncLog.ContentValuesRoundTrip | app/src/main/java/com/bytesforge/linkasanote/data/SyncResult.java:88-110 | a result's content values read back as the same result once the row id is added, and not without it |
| SyncLog.ToStringParts | app/src/main/java/com/bytesforge/linkasanote/data/SyncResult.java:143-146 | the text starts with the entry and ends with the result's name |
| SyncLog.Append | app/src/main/java/com/bytesforge/linkasanote/data/source/local/LocalSyncResults.java:168-178 | `log` appends the result under the next AUTOINCREMENT id, keeps the table well formed, and reports true (also Provider.java:365-368) |
| SyncLog.Threshold | app/src/main/java/com/bytesforge/linkasanote/data/source/local/LocalSyncResults.java:104-117 | the threshold is the largest row id, at or above every row, and 0 on an empty table |
| SyncLog.MarkAsApplied | app/src/main/java/com/bytesforge/linkasanote/data/source/local/LocalSyncResults.java:142-156 | exactly the unapplied rows of the entry at or below the threshold (any row when it is not positive) become applied, and their number is returned |
| SyncLog.CountPending | app/src/main/java/com/bytesforge/linkasanote/data/source/local/LocalSyncResults.java:142-156 | the count is the number of rows the update matches |
| SyncLog.Filter | app/src/main/java/com/bytesforge/linkasanote/data/source/local/LocalSyncResults.java:93-96 | the selected rows are exactly the pending rows of the entry |
| SyncLog.Distinct | app/src/main/java/com/bytesforge/linkasanote/data/source/local/LocalSyncResults.java:122-124 | `DISTINCT` keeps every value once and nothing else |
| SyncLog.GetIdsDrains | app/src/main/java/com/bytesforge/linkasanote/data/source/local/LocalSyncResults.java:85-102 | `getIds` reports a pair exactly when an unapplied row of the entry carries it, each pair once, and leaves no row of the entry unapplied and every other row unchanged |
| SyncLog.GetIdsPairs | app/src/main/java/com/bytesforge/linkasanote/data/source/local/LocalSyncResults.java:85-140 | the reported pairs are exactly those of the unapplied rows of the entry |
| SyncLog.GetIdsOnEmpty | app/src/main/java/com/bytesforge/linkasanote/data/source/local/LocalSyncResults.java:104-117 | on an empty table `getIds` reports nothing and changes nothing |
| SyncLog.InsertByCreated | app/src/main/java/com/bytesforge/linkasanote/data/source/local/LocalSyncResults.java:53-63 | inserting into a list ordered by creation keeps it ordered and adds exactly that row |
| SyncLog.SortedAppend | app/src/main/java/com/bytesforge/linkasanote/data/source/local/LocalSyncResults.java:53-63 | a row no earlier than the last keeps the list ordered |
| SyncLog.SortByCreated | app/src/main/java/com/bytesforge/linkasanote/data/source/local/LocalSyncResults.java:53-63 | `ORDER BY created` yields an ordered permutation of the rows |
| SyncLog.FreshRows | app/src/main/java/com/bytesforge/linkasanote/data/source/local/LocalSyncResults.java:53-63 | the selected rows are exactly the rows of the last seven days that are not RELATED |
| SyncLog.GetFresh | app/src/main/java/com/bytesforge/linkasanote/data/source/local/LocalSyncResults.java:53-63 | `getFresh` is ordered by creation and holds exactly the rows of the last seven days that are not RELATED |
| SyncLog.KeepFresh | app/src/main/java/com/bytesforge/linkasanote/data/source/local/LocalSyncResults.java:158-166 | the kept rows are exactly the fresh ones |
| SyncLog.KeepFreshValid | app/src/main/java/com/bytesforge/linkasanote/data/source/local/LocalSyncResults.java:158-166 | deleting rows keeps the row ids ascending and within the counter |
| SyncLog.AppendLaterValid | app/src/main/java/com/bytesforge/linkasanote/data/source/local/LocalSyncResults.java:168-178 | a row whose id is above every id so far, and within the counter, may go at the end |
| SyncLog.Cleanup | app/src/main/java/com/bytesforge/linkasanote/data/source/local/LocalSyncResults.java:158-166 | `cleanup` keeps exactly the fresh rows and the counter, keeps the table well formed, and returns how many rows went |
| SyncLog.CleanupKeepsFresh | app/src/main/java/com/bytesforge/linkasanote/data/source/local/LocalSyncResults.java:53-63 | `getFresh` sees the same rows before and after `cleanup` (also LocalSyncResults.java:158-166) |
| SyncLog.EntryOf | app/src/main/java/com/bytesforge/linkasanote/data/source/local/LocalLinks.java:342-353 | links and favorites reject RELATED; a note files RELATED under the link table and everything else under its own (also LocalNotes.java:290-303) |
| SyncLog.LogSyncResult | app/src/main/java/com/bytesforge/linkasanote/data/source/local/LocalLinks.java:342-360 | a rejected result adds nothing; otherwise exactly one row is appended carrying the entry id, result, start time, flag and entry (also LocalNotes.java:290-310) |
| SyncLog.MarkThroughProvider | app/src/main/java/com/bytesforge/linkasanote/data/source/Provider.java:480-511 | corrected: the update through a collection's sync-result uri marks that entry's pending rows, reports how many, and notifies exactly when there was one |
| SyncLog.MarkThroughProviderAsWritten | app/src/main/java/com/bytesforge/linkasanote/data/source/Provider.java:490-507 | as written: the rows are marked alike, but the note case falls through into the favorite update, so it reports 0 and never notifies |
| SyncLog.CountBoth | app/src/main/java/com/bytesforge/linkasanote/data/source/Provider.java:498-507 | no row's entry equals two different names |
| SyncLog.NoteMarkCountLost | app/src/main/java/com/bytesforge/linkasanote/data/source/Provider.java:490-511 | one unapplied note result is marked, yet the update as written reports 0 rows and no notification where the corrected one reports 1 and notifies |
| LocalStore.WithTable | app/src/main/java/com/bytesforge/linkasanote/data/source/local/DatabaseHelper.java:37-114 | replacing one collection's table leaves the other tables, the tag tables and the sync log as they were |
| LocalStore.ValidTable | app/src/main/java/com/bytesforge/linkasanote/data/source/local/DatabaseHelper.java:37-94 | every table of a store that meets the schema has distinct row ids, NOT NULL keys and no two rows breaking the (key, duplicated, deleted) uniqueness |
| LocalStore.EmptyDbValid | app/src/main/java/com/bytesforge/linkasanote/data/source/local/DatabaseHelper.java:37-125 | a freshly created database meets every schema constraint |
| LocalStore.PutKeepsTableValid | app/src/main/java/com/bytesforge/linkasanote/data/source/local/DatabaseHelper.java:37-94 | writing a row that fits the constraints under a fresh or its own row id keeps the table's constraints |
| LocalStore.QueryRowId | app/src/main/java/com/bytesforge/linkasanote/data/source/Provider.java:603-621 | an empty entry id gives 0; otherwise the result is positive exactly when a row has that entry id, and is then that row's id |
| LocalStore.LimitClause | app/src/main/java/com/bytesforge/linkasanote/data/source/Provider.java:173-181 | a limit clause exists exactly when the uri has a limit parameter |
| LocalStore.LimitClauseRoundTrip | app/src/main/java/com/bytesforge/linkasanote/data/source/Provider.java:173-181 | the clause "offset,limit" (or "limit") reads back, the part before the first comma as the offset, as the same limit and offset |
| LocalStore.FirstComma | app/src/main/java/com/bytesforge/linkasanote/data/source/Provider.java:177 | the position found is a comma with no comma before it |
| LocalStore.Window | app/src/main/java/com/bytesforge/linkasanote/data/source/Provider.java:173-181 | a query window holds at most `limit` rows, and is the slice starting at `offset` when the offset is in range |
| LocalStore.ChunksPrefix | app/src/main/java/com/bytesforge/linkasanote/data/source/local/LocalLinks.java:150-162 | the first n chunks of a query, concatenated, are its first n times chunk-size rows |
| LocalStore.ByChunkCoversQuery | app/src/main/java/com/bytesforge/linkasanote/data/source/local/LocalLinks.java:150-162 | reading chunks 0 .. numRows / chunk size yields every row of a query returning at most numRows rows, in order, each once |
| LocalStore.AppendTag | app/src/main/java/com/bytesforge/linkasanote/data/source/Provider.java:518-539 | appending a tag fails exactly when the empty name is already stored or the item already references the reused tag; otherwise the tag table stays valid, every old name keeps its id, and the item references the named tag (also DatabaseHelper.java:110-114) |
| LocalStore.SaveTagList | app/src/main/java/com/bytesforge/linkasanote/data/source/local/LocalLinks.java:183-198 | appending a tag list keeps the tag tables valid, only adds references, and only references of this item, and stores at most the given number of tags |
| LocalStore.SaveTags | app/src/main/java/com/bytesforge/linkasanote/data/source/local/LocalLinks.java:183-198 | a non-positive row id fails, a null tag list succeeds, and success means every given tag was stored |
| LocalStore.FreshNamesCons | app/src/main/java/com/bytesforge/linkasanote/data/source/local/LocalLinks.java:188-191 | a tag list is free of repeats and of seen names exactly when its head is unseen and its tail is free of repeats and of seen names, the head included |
| LocalStore.AppendTagSeen | app/src/main/java/com/bytesforge/linkasanote/data/source/Provider.java:518-539 | appending a tag the item already references fails; appending any other succeeds and the item then references exactly the seen names and this one (also DatabaseHelper.java:174-185) |
| LocalStore.SaveTagListSeen | app/src/main/java/com/bytesforge/linkasanote/data/source/local/LocalLinks.java:183-198 | a whole tag list is stored exactly when no name repeats and none was already referenced |
| LocalStore.SaveTagsSucceedsIffDistinct | app/src/main/java/com/bytesforge/linkasanote/data/source/local/LocalLinks.java:183-198 | for an item with no tags yet, saving its tags succeeds exactly when no non-null name occurs twice (also DatabaseHelper.java:174-185) |
| LocalStore.SaveTagsOutcome | app/src/main/java/com/bytesforge/linkasanote/data/source/local/LocalLinks.java:183-198 | for an item with no tags yet and no empty names, saving succeeds exactly when the names are distinct |
| LocalStore.DeleteTagRefs | app/src/main/java/com/bytesforge/linkasanote/data/source/Provider.java:591-601 | exactly the references of this item go; the tag names and the tag counter stay |
| LocalStore.StoredRow | app/src/main/java/com/bytesforge/linkasanote/data/source/Provider.java:541-589 | the upserted row keeps the item's id, kind, link and key, carries the stored tags, takes the state columns over the prior row's state (or a fresh row id), and keeps the prior creation time when the item has none |
| LocalStore.Save | app/src/main/java/com/bytesforge/linkasanote/data/source/local/LocalLinks.java:201-211 | `save` fails with a constraint error exactly when the written row does not fit the schema; otherwise the store stays valid and the sync log is untouched (also Provider.java:293-309, Provider.java:541-571) |
| LocalStore.SavedRow | app/src/main/java/com/bytesforge/linkasanote/data/source/local/LocalLinks.java:201-211 | the row stored has the written state, and is the written row whenever every tag was stored |
| LocalStore.SaveEffect | app/src/main/java/com/bytesforge/linkasanote/data/source/local/LocalLinks.java:201-211 | a fitting save puts the row under the item's entry id, changes no other row or table, and reports success exactly when the tag names are distinct (always without tags) (also Provider.java:541-554) |
| LocalStore.SaveOkEffect | app/src/main/java/com/bytesforge/linkasanote/data/source/local/LocalLinks.java:183-211 | a fitting save succeeds without tags, and with tags exactly when their names are distinct |
| LocalStore.WithTableKeepsValid | app/src/main/java/com/bytesforge/linkasanote/data/source/local/DatabaseHelper.java:37-114 | replacing a table with one meeting its constraints keeps the store valid when no linked row disappears and every tag reference stays in range |
| LocalStore.SaveKeepsValid | app/src/main/java/com/bytesforge/linkasanote/data/source/Provider.java:541-589 | a save whose row fits keeps every schema constraint (also DatabaseHelper.java:37-94) |
| LocalStore.UpdatedRow | app/src/main/java/com/bytesforge/linkasanote/data/source/Provider.java:573-589 | updating a row's state columns keeps its id, content, tags, creation time and row id, sets the four flags from the state, and clears the link id of a note being deleted (also DatabaseHelper.java:91-93) |
| LocalStore.Update | app/src/main/java/com/bytesforge/linkasanote/data/source/local/LocalLinks.java:223-229 | an update reports no change and leaves the store as it was exactly when no row has the id; it fails with a constraint error exactly when the updated row would not fit; a successful update keeps the store valid and changes only that row (also Provider.java:423-456, Provider.java:573-589) |
| LocalStore.UpdateKeepsValid | app/src/main/java/com/bytesforge/linkasanote/data/source/Provider.java:573-589 | rewriting a row in place under its own row id, fitting the constraints, keeps the store valid |
| LocalStore.ResetRow | app/src/main/java/com/bytesforge/linkasanote/data/source/local/LocalLinks.java:232-241 | a reset row loses its ETag and becomes unsynced, nothing else changes |
| LocalStore.ResetRowKeepsClash | app/src/main/java/com/bytesforge/linkasanote/data/source/local/LocalLinks.java:232-241 | a reset never creates or removes a uniqueness clash and keeps the row id (also DatabaseHelper.java:51-53) |
| LocalStore.ResetTable | app/src/main/java/com/bytesforge/linkasanote/data/source/local/LocalLinks.java:232-241 | after a reset no row is synced, the ids are the same, synced rows are reset and the others untouched |
| LocalStore.ResetSyncState | app/src/main/java/com/bytesforge/linkasanote/data/source/local/LocalLinks.java:232-241 | only this collection's table changes, the store stays valid, and the count returned is the number of rows that were synced |
| LocalStore.ResetKeepsValid | app/src/main/java/com/bytesforge/linkasanote/data/source/local/LocalLinks.java:232-241 | resetting a table keeps the store valid |
| LocalStore.Unlink | app/src/main/java/com/bytesforge/linkasanote/data/source/local/DatabaseHelper.java:91-93 | a note pointing at the deleted link gets a null link id; every other row is unchanged |
| LocalStore.UnlinkNotes | app/src/main/java/com/bytesforge/linkasanote/data/source/local/DatabaseHelper.java:91-93 | after a link is deleted the note table has the same ids, and each note is unlinked from it |
| LocalStore.Delete | app/src/main/java/com/bytesforge/linkasanote/data/source/local/LocalLinks.java:244-248 | a delete reports success exactly when a row had that id, removes exactly that row, keeps the store valid, and changes nothing when there was no row (also Provider.java:377-415) |
| LocalStore.DeleteCascade | app/src/main/java/com/bytesforge/linkasanote/data/source/local/DatabaseHelper.java:91-93 | deleting a link clears its notes' link ids, the deleted row's tag references go, and no other table changes (also DatabaseHelper.java:174-185) |
| LocalStore.TableWithoutValid | app/src/main/java/com/bytesforge/linkasanote/data/source/local/DatabaseHelper.java:37-94 | removing a row keeps a table's constraints |
| LocalStore.DeleteKeepsValid | app/src/main/java/com/bytesforge/linkasanote/data/source/local/LocalFavorites.java:236-241 | deleting a favorite or a note keeps every schema constraint (also LocalNotes.java:237-242) |
| LocalStore.DeleteLinkKeepsValid | app/src/main/java/com/bytesforge/linkasanote/data/source/local/LocalLinks.java:244-248 | deleting a link, with its notes unlinked, keeps the foreign key and every other constraint (also DatabaseHelper.java:91-93) |
| LocalStore.MaxOf | app/src/main/java/com/bytesforge/linkasanote/data/source/local/LocalLinks.java:283-284 | the maximum of a non-empty set is in it and bounds it |
| LocalStore.NextDuplicated | app/src/main/java/com/bytesforge/linkasanote/data/source/local/LocalLinks.java:282-299 | a null key gives no answer; otherwise the ordinal is above every ordinal of the key, one above the largest, and 0 when the key has no rows |
| LocalStore.SaveDuplicated | app/src/main/java/com/bytesforge/linkasanote/data/source/local/LocalLinks.java:214-220 | a note is saved orphaned; a link or favorite is saved as a numbered duplicate under the next ordinal, which needs an ETag and a positive ordinal (also LocalNotes.java:205-209, Note.java:371-376) |
| LocalStore.SaveDuplicatedResolvesClash | app/src/main/java/com/bytesforge/linkasanote/data/source/local/LocalLinks.java:214-220 | when a save failed because another row holds the key, the duplicate save succeeds; an orphaned note always saves (also DatabaseHelper.java:51-53) |
| LocalStore.AutoResolveConflict | app/src/main/java/com/bytesforge/linkasanote/data/source/local/LocalLinks.java:325-340 | there is no answer for a note or an absent row, and the store changes only for an existing row (also LocalNotes.java:285-288) |
| LocalStore.AutoResolveConflictResolves | app/src/main/java/com/bytesforge/linkasanote/data/source/local/LocalLinks.java:302-340 | a conflict reported resolved leaves the row unconflicted, and a duplicate with no main row is then SYNCED; the store changes only in that case |
| LocalStore.GetCount | app/src/main/java/com/bytesforge/linkasanote/data/source/local/LocalDataSource.java:416-442 | a column without a value, or a value without a column, is refused; otherwise the count is of all rows, or of the rows whose flag has that value |
| LocalStore.IsConflicted | app/src/main/java/com/bytesforge/linkasanote/data/source/local/LocalDataSource.java:400-404 | true exactly when some row is conflicted |
| LocalStore.IsUnsynced | app/src/main/java/com/bytesforge/linkasanote/data/source/local/LocalDataSource.java:406-414 | true exactly when some row is unsynced |
| LocalStore.GetUnsynced | app/src/main/java/com/bytesforge/linkasanote/data/source/local/LocalLinks.java:114-119 | exactly the unsynced rows, as stored |
| LocalStore.UnsyncedAgree | app/src/main/java/com/bytesforge/linkasanote/data/source/local/LocalLinks.java:114-119 | a table reports unsynced rows exactly when listing its unsynced rows yields some (also LocalDataSource.java:410-414) |
| LocalStore.LogResult | app/src/main/java/com/bytesforge/linkasanote/data/source/local/LocalLinks.java:342-361 | a RELATED result for a link or favorite throws; otherwise exactly one row with the entry id, result and applied flag is appended to the sync log and nothing else changes (also LocalNotes.java:290-304, LocalSyncResults.java:168-179) |
| LocalStore.DeferAsDuplicated | app/src/main/java/com/bytesforge/linkasanote/data/source/local/LocalDataSource.java:118-129 | the retry never reports DELETED; when it defers, the row is deleted, unsynced, keeps its ETag and has an ordinal above every other of its key; on failure the store is unchanged |
| LocalStore.DeleteItem | app/src/main/java/com/bytesforge/linkasanote/data/source/local/LocalDataSource.java:97-129 | DELETED exactly when the row is absent or was never synced, and then the row is gone; DEFERRED leaves the row deleted and unsynced with its ETag; the store stays valid (also LocalDataSource.java:273-290) |
| LocalStore.BeforeTotal | app/src/main/java/com/bytesforge/linkasanote/data/source/local/LocalLinks.java:102 | of any two items one may precede the other in listing order (also LocalFavorites.java:94) |
| LocalStore.BeforeTransitive | app/src/main/java/com/bytesforge/linkasanote/data/source/local/LocalLinks.java:102 | the listing order is transitive (also LocalFavorites.java:94) |
| LocalStore.Insert | app/src/main/java/com/bytesforge/linkasanote/data/source/local/LocalLinks.java:102 | inserting into a sorted list keeps it sorted and adds exactly the item |
| LocalStore.ConsSorted | app/src/main/java/com/bytesforge/linkasanote/data/source/local/LocalLinks.java:102 | an item preceding every element of a sorted list keeps it sorted when put at its head |
| LocalStore.ListedStep | app/src/main/java/com/bytesforge/linkasanote/data/source/local/LocalLinks.java:98-111 | taking one more selected row into the listing keeps it sorted, complete for the ids taken, and free of repeats |
| LocalStore.GetActive | app/src/main/java/com/bytesforge/linkasanote/data/source/local/LocalLinks.java:93-111 | the listing holds every row that is not deleted or is conflicted, restricted to the given ids when there are any, each once, as stored, in listing order (also LocalFavorites.java:85-103) |
| Cloud.NewJsonFile | app/src/main/java/com/bytesforge/linkasanote/sync/files/JsonFile.java:62-73 | a file object exists exactly for an absolute remote path, and then has that path, length 0 and no ETag |
| Cloud.Tail | app/src/main/java/com/bytesforge/linkasanote/sync/files/JsonFile.java:169 | the text after the last '/' is a slash-free suffix of the path, preceded by a '/' unless it is the whole path |
| Cloud.TailStep | app/src/main/java/com/bytesforge/linkasanote/sync/files/JsonFile.java:169 | the slash-free suffix of a path extends by its last character when that is not a '/' |
| Cloud.LastPathSegment | app/src/main/java/com/bytesforge/linkasanote/sync/files/JsonFile.java:169 | a last path segment is never empty and holds no '/' |
| Cloud.TailOfJoin | app/src/main/java/com/bytesforge/linkasanote/sync/files/JsonFile.java:169 | the text after the last '/' of "dir/name" is the name |
| Cloud.LastPathSegmentOfJoin | app/src/main/java/com/bytesforge/linkasanote/sync/files/JsonFile.java:169 | the last segment of "dir/name" is the name |
| Cloud.LastPathSegmentChars | app/src/main/java/com/bytesforge/linkasanote/sync/files/JsonFile.java:169 | a character absent from the path is absent from its last segment |
| Cloud.UriPath | app/src/main/java/com/bytesforge/linkasanote/sync/files/JsonFile.java:169 | `Uri.parse` gives no path exactly when the first ':' ends the string or is not followed by '/'; a path never holds '?' or '#'; without a scheme or authority it is the text before the first '?' or '#' |
| Cloud.PercentDecode | app/src/main/java/com/bytesforge/linkasanote/sync/files/JsonFile.java:169 | decoding never lengthens a segment and leaves one without '%' unchanged |
| Cloud.HexDigit | app/src/main/java/com/bytesforge/linkasanote/sync/files/JsonFile.java:169 | the hex digit an encoder writes for a value below 16 reads back as that value |
| Cloud.PercentDecodeEscape | app/src/main/java/com/bytesforge/linkasanote/sync/files/JsonFile.java:169 | every ASCII character escaped as '%' and two hex digits decodes back to itself, followed by the decoding of the rest |
| Cloud.UriPathChars | app/src/main/java/com/bytesforge/linkasanote/sync/files/JsonFile.java:169 | the URI path is cut out of the string, so it holds no character the string lacks |
| Cloud.UriLastPathSegment | app/src/main/java/com/bytesforge/linkasanote/sync/files/JsonFile.java:169 | a segment is found exactly when the URI has a path with a non-empty segment, so never for an opaque URI; a string without '%' gives that segment undecoded |
| Cloud.UriPathOfPlain | app/src/main/java/com/bytesforge/linkasanote/sync/files/JsonFile.java:169 | a string without ':', '?', '#' or a leading "//" is its own URI path |
| Cloud.UriPathOfAuthority | app/src/main/java/com/bytesforge/linkasanote/sync/files/JsonFile.java:169 | after a "//" authority the URI path is a suffix of the directory followed by "/name" |
| Cloud.UriLastPathSegmentOfJoin | app/src/main/java/com/bytesforge/linkasanote/sync/files/JsonFile.java:169 | for "dir/name" with no ':', '?' or '#', and dir not "/", the URI reading gives the decoded name and the plain reading the name; they agree when the name holds no '%' |
| Cloud.UriPathEndsAtFragment | app/src/main/java/com/bytesforge/linkasanote/sync/files/JsonFile.java:169 | a '#' ends the URI path: "a#b" has path a |
| Cloud.IdOfPath | app/src/main/java/com/bytesforge/linkasanote/sync/files/JsonFile.java:169-178 | an id is found exactly when the last segment is some valid key followed by ".json", and then it is that key |
| Cloud.GetId | app/src/main/java/com/bytesforge/linkasanote/sync/files/JsonFile.java:165-179 | a result means the MIME type was application/json, a path was given, and its last segment is the valid key plus ".json"; every such key is the result |
| Cloud.IdOfSegment | app/src/main/java/com/bytesforge/linkasanote/sync/files/JsonFile.java:170-178 | a segment names an id exactly when it is some valid key followed by ".json", and then it is that key |
| Cloud.GetIdViaUri | app/src/main/java/com/bytesforge/linkasanote/sync/files/JsonFile.java:165-179 | `getId` as written: a result means the MIME type was application/json and the decoded URI segment is the valid key plus ".json"; conversely every such valid key is the result |
| Cloud.UriGetIdOnPlainPath | app/src/main/java/com/bytesforge/linkasanote/sync/files/JsonFile.java:165-179 | for a key and directories without ':', '?', '#' or '%' in the key, `getId` as written and the plain reading both name the stored item (also CloudItem.java:264-267) |
| Cloud.UriPathOfFragmentDirectory | app/src/main/java/com/bytesforge/linkasanote/sync/files/JsonFile.java:169 | when the sync directory holds a '#', the URI path of every stored file is the directory's text before the '#' |
| Cloud.UriFragmentHidesFile | app/src/main/java/com/bytesforge/linkasanote/sync/files/JsonFile.java:165-179 | with a '#' in the sync directory, a stored file names no item under `getId` as written, while the plain reading names it |
| Cloud.UriHashHidesFile | app/src/main/java/com/bytesforge/linkasanote/sync/files/JsonFile.java:165-179 | under sync directory "/Notes #1", the file of the key of 22 'A's names no item as written and names it in the plain reading |
| Cloud.DecodeLeadingEscape | app/src/main/java/com/bytesforge/linkasanote/sync/files/JsonFile.java:169 | a leading "%41" decodes to 'A' |
| Cloud.EscapedSegment | app/src/main/java/com/bytesforge/linkasanote/sync/files/JsonFile.java:169 | "dir/%41name.json" has the decoded segment "Aname.json" and the plain segment "%41name.json" |
| Cloud.UriDecodesEscape | app/src/main/java/com/bytesforge/linkasanote/sync/files/JsonFile.java:165-179 | in any plain directory, the 24-character name "%41" plus 21 'A's names the key of 22 'A's as written and no item in the plain reading |
| Cloud.KotlinGetIdAcceptsAnyMime | app/src/main/java/com/bytesforge/linkasanote/sync/files/JsonFile.kt:123-137 | the Kotlin `getId` agrees with the Java one on JSON files but also names an item for a text/plain file |
| Cloud.JsonFileCompare | app/src/main/java/com/bytesforge/linkasanote/sync/files/JsonFile.java:105-107 | two files compare as equal exactly when their remote paths agree ignoring case |
| Cloud.JsonFileCompareConsistent | app/src/main/java/com/bytesforge/linkasanote/sync/files/JsonFile.java:105-117 | `equals` files compare as 0, the order is antisymmetric, and files differing only in case compare as 0 without being `equals` |
| Cloud.DataSourceDirectory | app/src/main/java/com/bytesforge/linkasanote/data/source/cloud/CloudItem.java:269-274 | the collection directory starts with the sync directory and a '/', and is absolute when the sync directory is |
| Cloud.DirectorySlashInsensitive | app/src/main/java/com/bytesforge/linkasanote/data/source/cloud/CloudItem.java:269-274 | a leading '/' on the collection's directory gives the same directory |
| Cloud.RemotePath | app/src/main/java/com/bytesforge/linkasanote/data/source/cloud/CloudItem.java:264-267 | an item's remote path starts with the sync directory |
| Cloud.RemotePathNamesItem | app/src/main/java/com/bytesforge/linkasanote/data/source/cloud/CloudItem.java:264-279 | the file an item with a valid key is stored under is listed as that item again, and is a legal absolute path when the sync directory is (also JsonFile.java:165-179) |
| Cloud.GeneratedKeyPathRoundTrip | app/src/main/java/com/bytesforge/linkasanote/data/source/cloud/CloudItem.java:264-279 | every key the application generates survives the trip through its remote file name (also UuidUtils.java:43-53) |
| Cloud.GeneratedKeyUriRoundTrip | app/src/main/java/com/bytesforge/linkasanote/data/source/cloud/CloudItem.java:264-279 | every generated key survives its remote path under `getId` as written, when neither directory holds ':', '?' or '#' (also JsonFile.java:165-179) |
| Cloud.UpdateLastSyncedETag | app/src/main/java/com/bytesforge/linkasanote/data/source/cloud/CloudItem.java:247-250 | storing a last-synced ETag changes no other preference |
| Cloud.LastSyncedETagRoundTrip | app/src/main/java/com/bytesforge/linkasanote/data/source/cloud/CloudItem.java:241-250 | after storing a tag, the collection counts as changed for exactly the other tags |
| Cloud.LastSyncedETagOthersKept | app/src/main/java/com/bytesforge/linkasanote/data/source/cloud/CloudItem.java:247-250 | storing one collection's tag keeps the others' (also Settings.java:337-343) |
| Cloud.Accepted | app/src/main/java/com/bytesforge/linkasanote/data/source/cloud/CloudDataSource.java:549-553 | a listed file is taken as an item exactly when `getId` names it and its size is within the 10 KiB limit |
| Cloud.Enter | app/src/main/java/com/bytesforge/linkasanote/data/source/cloud/CloudDataSource.java:549-556 | one listing step adds the file's id with its ETag, overwriting any earlier entry, and keeps every other entry |
| Cloud.DataSourceMap | app/src/main/java/com/bytesforge/linkasanote/data/source/cloud/CloudDataSource.java:542-560 | every key of the remote map is a valid item key |
| Cloud.DataSourceMapMembers | app/src/main/java/com/bytesforge/linkasanote/data/source/cloud/CloudDataSource.java:542-560 | an id is in the remote map exactly when some accepted file is listed as it |
| Cloud.DataSourceMapLastWins | app/src/main/java/com/bytesforge/linkasanote/data/source/cloud/CloudDataSource.java:542-560 | an id carries the ETag of the last file listed as it |
| Cloud.LastListedExtends | app/src/main/java/com/bytesforge/linkasanote/data/source/cloud/CloudDataSource.java:549-556 | the last file listed as an id stays last when a later file is listed as another id |
| Cloud.FileRecordListed | app/src/main/java/com/bytesforge/linkasanote/data/source/cloud/CloudDataSource.java:542-560 | a folder entry's listing record is taken as an item exactly when it is an application/json file no larger than 10 KiB named after a 22-character key, and then as that key and nothing else (also JsonFile.java:165-179) |
| Cloud.Listed | app/src/main/java/com/bytesforge/linkasanote/data/source/cloud/CloudDataSource.java:542-560 | an id is reported exactly for a folder entry passing that filter, with the entry's ETag |
| Cloud.ListedIsDataSourceMap | app/src/main/java/com/bytesforge/linkasanote/data/source/cloud/CloudDataSource.java:542-560 | listing the folder's records in any order, duplicates allowed, gives the remote map exactly the entries of `Listed` |
| Cloud.Execute | app/src/main/java/com/bytesforge/linkasanote/data/source/cloud/CloudDataSource.java:562-589 | a network error is retried at most twice, every retried code was a network error, and a result before the last attempt is not a network error |
| Cloud.ExecuteGivesUp | app/src/main/java/com/bytesforge/linkasanote/data/source/cloud/CloudDataSource.java:562-596 | a persistent network error is returned after three attempts |
| Cloud.FailureCode | app/src/main/java/com/bytesforge/linkasanote/data/source/cloud/CloudDataSource.java:591-596 | a failure never reads as OK, FILE_NOT_FOUND or SYNC_CONFLICT |
| Cloud.ReadFile | app/src/main/java/com/bytesforge/linkasanote/data/source/cloud/CloudItem.java:210-238 | the file's ETag exactly when the server answers and the file exists, FILE_NOT_FOUND exactly when it answers and the file does not |
| Cloud.Download | app/src/main/java/com/bytesforge/linkasanote/data/source/cloud/CloudItem.java:129-179 | FILE_NOT_FOUND exactly when the file is missing; a downloaded item has the requested id and kind, is not empty, and is the one the file's JSON decodes to, SYNCED under the file's ETag |
| Cloud.Upload | app/src/main/java/com/bytesforge/linkasanote/data/source/cloud/CloudItem.java:89-127 | no result offline or for an empty item; OK exactly when the server accepts writes, and then the file and the folder take the new ETag, the file holding the item's JSON as an application/json file of the serialised size; otherwise nothing remote changes, and a rejected upload is a SYNC_CONFLICT (also UploadFileOperation.java:64-99) |
| Cloud.DeleteFile | app/src/main/java/com/bytesforge/linkasanote/data/source/cloud/CloudItem.java:185-208 | OK (FILE_NOT_FOUND included) exactly when the server accepts deletions, and then exactly that file is gone; otherwise nothing changes |
| Cloud.UploadDownloadRoundTrip | app/src/main/java/com/bytesforge/linkasanote/data/source/cloud/CloudItem.java:89-179 | an encodable item uploaded and downloaded again is `equals` to it, SYNCED under the new ETag |
| Cloud.ContentEqualsKeepsEmptiness | app/src/main/java/com/bytesforge/linkasanote/data/Link.java:367-383 | `equals` items are empty together |
| Cloud.DataSourceETag | app/src/main/java/com/bytesforge/linkasanote/data/source/cloud/CloudDataSource.java:515-540 | the folder's ETag exactly when the server answers and the folder exists, or may be created and the server takes writes; at most one folder is created, only a missing one, only when asked and only where writes succeed |
| Cloud.MissingFolderNeedsWrites | app/src/main/java/com/bytesforge/linkasanote/data/source/cloud/CloudDataSource.java:527-538 | a missing folder is not created, and no ETag comes back, where writes fail; where the server takes writes it is created under the new ETag |
| Cloud.SaveLogResult | app/src/main/java/com/bytesforge/linkasanote/data/source/cloud/CloudDataSource.java:135-150 | SAVED logs UPLOADED, CONFLICTED logs CONFLICT, the two errors log ERROR, and any other state has no result |
| Cloud.DeleteLogResult | app/src/main/java/com/bytesforge/linkasanote/data/source/cloud/CloudDataSource.java:198-213 | DELETED logs DELETED, CONFLICTED logs CONFLICT, the two errors log ERROR, and any other state has no result |
| Cloud.Transfer | app/src/main/java/com/bytesforge/linkasanote/data/source/cloud/CloudDataSource.java:102-117 | nothing happens unless the server answers; a remote ETag other than the local one is a conflict without upload; otherwise the item is uploaded, with no result for an empty item |
| Cloud.RecordUpload | app/src/main/java/com/bytesforge/linkasanote/data/source/cloud/CloudDataSource.java:118-133 | a successful upload leaves the row SYNCED under the new ETag (SAVED), a SYNC_CONFLICT leaves it CONFLICTED_UPDATE (CONFLICTED), anything else is ERROR_CLOUD and changes nothing; the store stays valid |
| Cloud.SaveItem | app/src/main/java/com/bytesforge/linkasanote/data/source/cloud/CloudDataSource.java:93-153 | an item that is missing, deleted or conflicted is refused; otherwise the result is the transfer's remote, the recorded local state and exactly one applied log row |
| Cloud.SaveItemSaved | app/src/main/java/com/bytesforge/linkasanote/data/source/cloud/CloudDataSource.java:93-153 | SAVED means the server accepted the upload, the ETags agreed, and the row is now synced under the new ETag with its content unchanged |
| Cloud.SaveItemConflicted | app/src/main/java/com/bytesforge/linkasanote/data/source/cloud/CloudDataSource.java:93-153 | CONFLICTED means nothing was uploaded because the ETags differed or the server refused, and the row is conflicted, not deleted, not synced |
| Cloud.TransferConflictReason | app/src/main/java/com/bytesforge/linkasanote/data/source/cloud/CloudDataSource.java:102-117 | a SYNC_CONFLICT uploads nothing and arises only from differing ETags or a refusing server (also UploadFileOperation.java:78-84) |
| Cloud.SaveItemNoUploadOnMismatch | app/src/main/java/com/bytesforge/linkasanote/data/source/cloud/CloudDataSource.java:110-114 | with a remote ETag other than the local one the remote folder is untouched |
| Cloud.DeletionState | app/src/main/java/com/bytesforge/linkasanote/data/source/cloud/CloudDataSource.java:157-169 | an absent item counts as DELETED without an ETag; a stored one must be deleted, and then its own state is used |
| Cloud.RemoteDelete | app/src/main/java/com/bytesforge/linkasanote/data/source/cloud/CloudDataSource.java:170-182 | no answer without the server; a missing file counts as OK; a file at another ETag is a SYNC_CONFLICT; otherwise the file is deleted |
| Cloud.RecordDelete | app/src/main/java/com/bytesforge/linkasanote/data/source/cloud/CloudDataSource.java:183-196 | OK deletes the row (DELETED), a SYNC_CONFLICT marks it CONFLICTED_DELETE, any other code is ERROR_CLOUD without change; the store stays valid |
| Cloud.DeleteItem | app/src/main/java/com/bytesforge/linkasanote/data/source/cloud/CloudDataSource.java:155-214 | a delete completes only for a deleted or absent item, with the remote delete's folder and the recorded local state |
| Cloud.DeleteItemDeleted | app/src/main/java/com/bytesforge/linkasanote/data/source/cloud/CloudDataSource.java:155-214 | DELETED leaves neither a local row nor a remote file |
| Cloud.DeleteItemConflicted | app/src/main/java/com/bytesforge/linkasanote/data/source/cloud/CloudDataSource.java:155-214 | CONFLICTED means the remote file carries another ETag and is kept, and the row is conflicted and deleted |
| Cloud.DeleteItemCompletes | app/src/main/java/com/bytesforge/linkasanote/data/source/cloud/CloudDataSource.java:155-214 | with the server up and the remote file absent or at the stored ETag, deleting a deleted item always reports DELETED |
| Reconciler.Decide | app/src/main/java/com/bytesforge/linkasanote/sync/SyncItem.java:151-241 | a conflicted item is skipped; Fetch exactly when the item has an ETag and the cloud lists a different one; an upload never concerns a deleted item or one with a foreign ETag; the delete and conflict actions arise only in their branches of the table |
| Reconciler.DecideNeverSynced | app/src/main/java/com/bytesforge/linkasanote/sync/SyncItem.java:159-170 | an item without an ETag is deleted locally when soft-deleted and uploaded otherwise, whatever the cloud lists |
| Reconciler.DecideGreenLight | app/src/main/java/com/bytesforge/linkasanote/sync/SyncItem.java:171-182 | with the cloud listing the item's own ETag a synced item is skipped, a deleted one is deleted on the cloud, a primary one is uploaded, an unsynced duplicate is skipped |
| Reconciler.DecideRemoteMissing | app/src/main/java/com/bytesforge/linkasanote/sync/SyncItem.java:183-205 | with the file gone from the cloud a synced item is marked conflicted or deleted locally as protectLocal says, and an unsynced one is deleted locally if soft-deleted and marked conflicted otherwise |
| Reconciler.DecideFetched | app/src/main/java/com/bytesforge/linkasanote/sync/SyncItem.java:206-238 | the cloud copy is taken exactly when the local item is synced and not deleted; otherwise equal copies delete both or adopt the cloud ETag, and different ones become a conflict of the delete or update kind |
| Reconciler.Stamp | app/src/main/java/com/bytesforge/linkasanote/sync/SyncItem.java:356-357 | every write is given a non-empty ETag |
| Reconciler.LogRow | app/src/main/java/com/bytesforge/linkasanote/sync/SyncItem.java:256-262 | logging RELATED for a link or favorite throws; otherwise exactly one row for the item is appended and nothing else in the pass changes (also LocalLinks.java:342-353) |
| Reconciler.LogWithRelated | app/src/main/java/com/bytesforge/linkasanote/sync/SyncItem.java:253-261 | the item's row and, when it has a related entry, a RELATED row follow one another; a related entry of a link or favorite throws |
| Reconciler.LogRelatedAfter | app/src/main/java/com/bytesforge/linkasanote/sync/SyncItem.java:257-261 | the RELATED row comes right after the item's row and adds no ERROR row |
| Reconciler.Failed | app/src/main/java/com/bytesforge/linkasanote/sync/SyncItem.java:264-268 | a failure raises the fail count by one and appends an ERROR row for the item (also SyncItem.java:357-361) |
| Reconciler.FailedFollows | app/src/main/java/com/bytesforge/linkasanote/sync/SyncItem.java:264-268 | a failure keeps the store valid, the log growing, and the fail count tracking the ERROR rows |
| Reconciler.SavedAs | app/src/main/java/com/bytesforge/linkasanote/sync/SyncItem.java:252-262 | a save that stored the row logs without ERROR rows, and reports a change exactly when every tag was stored |
| Reconciler.SaveKeepsOthers | app/src/main/java/com/bytesforge/linkasanote/sync/SyncItem.java:252 | `save` changes no other row of the collection and leaves the item stored |
| Reconciler.DuplicateStep | app/src/main/java/com/bytesforge/linkasanote/sync/SyncItem.java:273-290 | after the duplicate fallback the item is stored or an ERROR row was logged, and a changed fail count is one failure more |
| Reconciler.DuplicateSaved | app/src/main/java/com/bytesforge/linkasanote/sync/SyncItem.java:276-285 | logging after a stored duplicate keeps the item stored and counts no failure |
| Reconciler.SaveStep | app/src/main/java/com/bytesforge/linkasanote/sync/SyncItem.java:248-291 | a downloaded item ends stored, or with an ERROR row; when it fits the schema it is stored as written without failure; only its own row changes |
| Reconciler.StoredStep | app/src/main/java/com/bytesforge/linkasanote/sync/SyncItem.java:251-262 | a stored save counts no failure and, when it reports a change, leaves the row as written |
| Reconciler.DeleteLocalStep | app/src/main/java/com/bytesforge/linkasanote/sync/SyncItem.java:293-309 | the row is gone afterwards, the change is reported exactly when there was a row, and no failure is counted |
| Reconciler.DeleteCloudStep | app/src/main/java/com/bytesforge/linkasanote/sync/SyncItem.java:311-318 | offline the step throws; the remote file goes or stays, the row goes only after the remote delete succeeded, and a reported change means both are gone |
| Reconciler.UpdateStep | app/src/main/java/com/bytesforge/linkasanote/sync/SyncItem.java:320-342 | a constraint violation of the merged row throws; no change leaves the store as it was; a change merges the state into the row and logs CONFLICT or SYNCED |
| Reconciler.Uploaded | app/src/main/java/com/bytesforge/linkasanote/sync/SyncItem.java:362-378 | any answer but OK or SYNC_CONFLICT changes nothing; OK leaves the row synced under the new ETag; SYNC_CONFLICT leaves it conflicted |
| Reconciler.MarkUploaded | app/src/main/java/com/bytesforge/linkasanote/sync/SyncItem.java:364-375 | a reported change leaves the row SYNCED under the uploaded file's ETag and logs UPLOADED |
| Reconciler.UploadStepAsWritten | app/src/main/java/com/bytesforge/linkasanote/sync/SyncItem.java:350-356 | as written, an empty item's null upload result leaves `syncItem` as an exception without counting a failure |
| Reconciler.UploadStep | app/src/main/java/com/bytesforge/linkasanote/sync/SyncItem.java:344-378 | an empty item or no connection counts one failure with an ERROR row and leaves the remote alone; the remote changes only by the item's file taking its JSON under a new ETag; a change reported after an accepted upload leaves the row synced under that ETag, after a refused one conflicted |
| Reconciler.UploadAnswered | app/src/main/java/com/bytesforge/linkasanote/sync/SyncItem.java:351-378 | no answer is one failure with ERROR logged; an answer counts no failure, and OK leaves the row synced |
| Reconciler.DownloadStep | app/src/main/java/com/bytesforge/linkasanote/sync/SyncItem.java:379-392 | the remote copy exactly when the file downloads, with nothing else changed; otherwise one failure and an ERROR row |
| Reconciler.Notify | app/src/main/java/com/bytesforge/linkasanote/sync/SyncItem.java:239-241 | a broadcast is appended exactly when the operation finished and changed the item |
| Reconciler.Resolve | app/src/main/java/com/bytesforge/linkasanote/sync/SyncItem.java:206-238 | a changed fail count is one failure with an ERROR row; a conflict leaves the row conflicted; taking the cloud copy stores it or logs ERROR |
| Reconciler.ItemStep | app/src/main/java/com/bytesforge/linkasanote/sync/SyncItem.java:151-242 | a skipped item changes nothing; a changed fail count is exactly one failure with an ERROR row for the item |
| Reconciler.ActedListed | app/src/main/java/com/bytesforge/linkasanote/sync/SyncItem.java:96-121 | the ids a pass acts on are exactly the listed items whose decision is not Skip |
| Reconciler.SyncAll | app/src/main/java/com/bytesforge/linkasanote/sync/SyncItem.java:96-121 | the pass over local items keeps the store valid, changes only rows and files of acted-on items, and either aborts with DB_ACCESS_ERROR and no fail count or keeps the status with the fail count tracking the ERROR rows |
| Reconciler.RemoteStep | app/src/main/java/com/bytesforge/linkasanote/sync/SyncItem.java:134-148 | a cloud id with no local row ends stored or with an ERROR row, and the step throws only when the download succeeded and the save threw |
| Reconciler.Visited | app/src/main/java/com/bytesforge/linkasanote/sync/SyncItem.java:134-138 | the remote-only loop visits only cloud ids with no local row |
| Reconciler.RemoteOnly | app/src/main/java/com/bytesforge/linkasanote/sync/SyncItem.java:132-148 | the remote-only loop keeps the store valid, leaves the remote alone, never lowers the fail count, and changes only visited rows |
| Reconciler.RemoteOnlyCovers | app/src/main/java/com/bytesforge/linkasanote/sync/SyncItem.java:132-148 | every visited cloud id ends with a local row or an ERROR row, unless the loop threw |
| Reconciler.UnsyncedItems | app/src/main/java/com/bytesforge/linkasanote/sync/SyncItem.java:97-101 | the unchanged-folder branch visits only unsynced rows, as stored |
| Reconciler.UnsyncedItemsCover | app/src/main/java/com/bytesforge/linkasanote/sync/SyncItem.java:97-101 | every unsynced row is visited, paired with its own ETag |
| Reconciler.AllItems | app/src/main/java/com/bytesforge/linkasanote/sync/SyncItem.java:111-118 | the changed-folder branch visits only stored rows |
| Reconciler.AllItemsCover | app/src/main/java/com/bytesforge/linkasanote/sync/SyncItem.java:111-118 | every row is visited, paired with the ETag the cloud lists for it |
| Reconciler.Listing | app/src/main/java/com/bytesforge/linkasanote/sync/SyncItem.java:104 | when the server answers, the listing is exactly the folder entries that are application/json files of at most 10 KiB named after a 22-character key, each with its ETag; otherwise it is empty (also CloudDataSource.java:542-560) |
| Reconciler.ActedFromTable | app/src/main/java/com/bytesforge/linkasanote/sync/SyncItem.java:151-153 | an acted-on id names a stored row that is not conflicted |
| Reconciler.Prepared | app/src/main/java/com/bytesforge/linkasanote/sync/SyncItem.java:105-110 | only for an empty listing with uploadToEmpty does the table change, and then every row is unsynced with the same ids |
| Reconciler.Delivered | app/src/main/java/com/bytesforge/linkasanote/sync/SyncItem.java:96-128 | a query that fails after n rows delivers the first n rows (all of them when there are fewer); one that does not fail delivers every row |
| Reconciler.ActedPrefix | app/src/main/java/com/bytesforge/linkasanote/sync/SyncItem.java:96-120 | the ids acted on while the rows of a prefix are processed are among those acted on for all the rows |
| Reconciler.Subscribed | app/src/main/java/com/bytesforge/linkasanote/sync/SyncItem.java:96-101 | a query that does not fail processes every row; one that fails ends the pass with DB_ACCESS_ERROR and no fail count, keeping what the rows delivered before the failure did to the store, the folder and the broadcasts; rows and files of items not acted on stay untouched (also SyncItem.java:112-120) |
| Reconciler.ReadFaultAbortsPass | app/src/main/java/com/bytesforge/linkasanote/sync/SyncItem.java:96-128 | a failing `getUnsynced` (unchanged folder), `getAll` or `getIds` (changed folder) ends the pass with DB_ACCESS_ERROR and no fail count; a failing `getIds` after a completed first loop keeps that loop's effects and skips the remote-only loop |
| Reconciler.SyncItems | app/src/main/java/com/bytesforge/linkasanote/sync/SyncItem.java:96-149 | the pass keeps the store valid and the log growing; a DB_ACCESS_ERROR has no fail count; otherwise the fail count tracks the ERROR rows |
| Reconciler.ChangedItems | app/src/main/java/com/bytesforge/linkasanote/sync/SyncItem.java:104-148 | the changed-folder branch visits each cloud id of the order once, as a key set does; it keeps the store valid; a DB_ACCESS_ERROR has no fail count; otherwise the fail count tracks the ERROR rows |
| Reconciler.ListedPass | app/src/main/java/com/bytesforge/linkasanote/sync/SyncItem.java:104-120 | the first loop, including a failing `getAll`, keeps the store valid and either aborts with DB_ACCESS_ERROR or keeps the status with the fail count tracking the ERROR rows |
| Reconciler.Listed | app/src/main/java/com/bytesforge/linkasanote/sync/SyncItem.java:104-118 | preparing the table only touches the table, and every visited item is of the collection's kind |
| Reconciler.UnchangedKeepsSynced | app/src/main/java/com/bytesforge/linkasanote/sync/SyncItem.java:97-101 | when the folder is unchanged every synced row comes out as it went in |
| Reconciler.ConflictedRowKept | app/src/main/java/com/bytesforge/linkasanote/sync/SyncItem.java:152-153 | a conflicted row is left exactly as it was, whether or not the folder changed |
| Reconciler.ListedPassKeepsConflicted | app/src/main/java/com/bytesforge/linkasanote/sync/SyncItem.java:111-153 | the first loop of a changed-folder pass leaves a conflicted row alone |
| Reconciler.CloudRecordsCovered | app/src/main/java/com/bytesforge/linkasanote/sync/SyncItem.java:104-148 | after a changed-folder pass that did not abort, every file left on the cloud that the listing reports has a local row or an ERROR row |
| Reconciler.Finish | app/src/main/java/com/bytesforge/linkasanote/sync/SyncItem.java:90-93 | on success the folder ETag is stored as last synced; otherwise the preferences are untouched |
| Reconciler.Sync | app/src/main/java/com/bytesforge/linkasanote/sync/SyncItem.java:82-94 | SOURCE_NOT_READY exactly when the server does not answer, or the folder is missing and writes fail so it cannot be created, and then nothing changes; on success the folder counts as unchanged for its ETag; otherwise the preferences stay; the fail count is the number of ERROR rows the pass appended; the store stays valid |
| Reconciler.EmptyItemUpload | app/src/main/java/com/bytesforge/linkasanote/sync/SyncItem.java:159-170 | a never-synced empty item is sent to upload; as written the null result throws out of `syncItem`, the corrected step counts one failure and logs ERROR (also SyncItem.java:350-356) |
| Reconciler.EmptyLinkAbortsPass | app/src/main/java/com/bytesforge/linkasanote/sync/SyncItem.java:350-356 | a link with an empty URL, a valid key and never synced makes the written upload throw, while the corrected item step completes (also Link.java:367-369) |
| Orchestrator.WithRemote | app/src/main/java/com/bytesforge/linkasanote/sync/SyncAdapter.java:98-103 | replacing one collection's cloud folder keeps the preferences, the database and the other folders |
| Orchestrator.Notices | app/src/main/java/com/bytesforge/linkasanote/sync/SyncAdapter.java:140-148 | a pass's broadcasts are reported under its collection, one for one and in order |
| Orchestrator.Touch | app/src/main/java/com/bytesforge/linkasanote/sync/SyncAdapter.java:146-174 | a collection's pass sets its sync time to now, the notes pass also the links time, and no other preference changes |
| Orchestrator.Adopt | app/src/main/java/com/bytesforge/linkasanote/sync/SyncAdapter.java:140-148 | after a pass the database is the pass's, the result is the pass's, the events open with the collection's START, the other folders are untouched, and the sync times are stamped |
| Orchestrator.RunCollection | app/src/main/java/com/bytesforge/linkasanote/sync/SyncAdapter.java:140-149 | one collection pass keeps the store valid and the log growing, frames its events with START, stamps its sync time, touches only its own folder, and reports SOURCE_NOT_READY exactly when the cloud does not answer or the collection's folder is missing and cannot be created because writes fail |
| Orchestrator.RanInOrderCons | app/src/main/java/com/bytesforge/linkasanote/sync/SyncAdapter.java:149-177 | a pass that was not fatal, followed by an in-order run of the rest, is an in-order run |
| Orchestrator.TimesTouchedCons | app/src/main/java/com/bytesforge/linkasanote/sync/SyncAdapter.java:146-174 | the sync times a first pass stamped stay stamped through the passes after it |
| Orchestrator.Chain | app/src/main/java/com/bytesforge/linkasanote/sync/SyncAdapter.java:149-178 | a fatal first result ends the run there; otherwise the run goes on with the rest, in order, keeping the store valid and the times stamped |
| Orchestrator.RunAll | app/src/main/java/com/bytesforge/linkasanote/sync/SyncAdapter.java:139-178 | the collections run in the given order, each only while no earlier result was fatal, a run that stops early stops on a fatal result, and every collection that ran has its sync time stamped |
| Orchestrator.TerminalStatus | app/src/main/java/com/bytesforge/linkasanote/sync/SyncAdapter.java:230-265 | ERROR exactly when the run did not succeed; CONFLICT exactly when it succeeded and some table is conflicted; SYNCED exactly when it succeeded and no table is conflicted or unsynced |
| Orchestrator.ResultOf | app/src/main/java/com/bytesforge/linkasanote/sync/SyncAdapter.java:137 | a collection's result is the one it ran with, or the fresh result when it did not run |
| Orchestrator.SourceIf | app/src/main/java/com/bytesforge/linkasanote/sync/SyncAdapter.java:205-222 | a collection is listed exactly when its fail count is positive, with that count |
| Orchestrator.FailSources | app/src/main/java/com/bytesforge/linkasanote/sync/SyncAdapter.java:203-222 | each listed collection has a positive fail count, which is its own, and links come before favorites before notes |
| Orchestrator.FailSourcesListed | app/src/main/java/com/bytesforge/linkasanote/sync/SyncAdapter.java:203-222 | a collection appears in the failure notification exactly when its pass counted failures |
| Orchestrator.Notifications | app/src/main/java/com/bytesforge/linkasanote/sync/SyncAdapter.java:187-227 | a fatal run notifies the database or cloud failure of the last collection that ran; otherwise one notification lists the collections with failures, and there is none when no collection failed |
| Orchestrator.Conclude | app/src/main/java/com/bytesforge/linkasanote/sync/SyncAdapter.java:180-227 | the run's end leaves the database and the folders alone, frames the events with the overall STOP before the notifications, stores the status ERROR/CONFLICT/UNSYNCED/SYNCED by its meaning, and keeps the collection sync times |
| Orchestrator.Cleaned | app/src/main/java/com/bytesforge/linkasanote/sync/SyncAdapter.java:133 | the cleanup keeps exactly the fresh sync-log rows and touches nothing else (also LocalSyncResults.java:158-166) |
| Orchestrator.PerformSync | app/src/main/java/com/bytesforge/linkasanote/sync/SyncAdapter.java:107-228 | without a client only the failed-login notification; without a profile update the failed-cloud notification after START; otherwise the passes run in order, fresh log rows survive, the store stays valid, the events are framed, and the status means what it says |
| Orchestrator.SucceededRanAll | app/src/main/java/com/bytesforge/linkasanote/sync/SyncAdapter.java:181-182 | a run succeeds exactly when all three collections ran and each pass was a success |
| Orchestrator.UnservedCloudStopsAtFavorites | app/src/main/java/com/bytesforge/linkasanote/sync/SyncAdapter.java:139-201 | when the cloud does not answer only the favorites pass runs, and it reports SOURCE_NOT_READY |
| Orchestrator.PerformSyncTimes | app/src/main/java/com/bytesforge/linkasanote/sync/SyncAdapter.java:146-174 | every collection that ran has its sync time at the run's clock, the links time too once notes ran, and no other time moved |
| Orchestrator.ConcludeKeepsTimes | app/src/main/java/com/bytesforge/linkasanote/sync/SyncAdapter.java:183-227 | the end of a run keeps the sync times the passes stamped |
| Settings.GetString | app/src/main/java/com/bytesforge/linkasanote/settings/Settings.java:214-231 | a stored string reads back as itself and a missing key reads as the getter's default |
| Settings.PutString | app/src/main/java/com/bytesforge/linkasanote/settings/Settings.java:515-519 | the written value (or its removal, for null) reads back and every other key is untouched |
| Settings.GetInt | app/src/main/java/com/bytesforge/linkasanote/settings/Settings.java:293-295 | a missing key reads as the default |
| Settings.PutInt | app/src/main/java/com/bytesforge/linkasanote/settings/Settings.java:521-525 | the written integer reads back and every other key is untouched |
| Settings.NormalizeSyncDirectory | app/src/main/java/com/bytesforge/linkasanote/settings/Settings.java:243-252 | the result is always absolute: the default for a null or empty value, the value itself when it starts with "/", and "/" prepended otherwise |
| Settings.NormalizeIdempotent | app/src/main/java/com/bytesforge/linkasanote/settings/Settings.java:243-252 | normalising a normalised directory changes nothing |
| Settings.UpdateLastCollectionSyncTime | app/src/main/java/com/bytesforge/linkasanote/settings/Settings.java:313-335 | the chosen collection's sync time becomes now, the other collections' times and every other key are untouched |
| Settings.CollectionSyncTimeKeysDistinct | app/src/main/java/com/bytesforge/linkasanote/settings/Settings.java:89-93 | the per-collection time keys never collide with the ETag, status or last-sync-time keys (also Settings.java:337-343) |
| Settings.SetSyncStatus | app/src/main/java/com/bytesforge/linkasanote/settings/Settings.java:297-311 | the status reads back; the last-sync time becomes now exactly when the status is neither UNSYNCED nor UNKNOWN; nothing else changes |
| Settings.ResetSyncState | app/src/main/java/com/bytesforge/linkasanote/settings/Settings.java:345-351 | afterwards no collection has a last-synced ETag, the last-sync time is 0 and the status UNSYNCED, and every key outside the sync state is untouched |
| Settings.SetSyncDirectory | app/src/main/java/com/bytesforge/linkasanote/settings/Settings.java:233-241 | the normalised directory reads back; an unchanged directory leaves the preferences identical; a changed one also leaves the sync state reset |
| Settings.KotlinSetterDropsNormalisedInput | app/src/main/java/com/bytesforge/linkasanote/settings/Settings.kt:114-122 | the Kotlin setter compares against its own input, so setting "/b" over "/a" leaves "/a" stored, while the Java setter stores "/b" |
| Settings.KotlinSetterResetsUnchanged | app/src/main/java/com/bytesforge/linkasanote/settings/Settings.kt:114-122 | the Kotlin setter resets the sync state for "a" over a stored "/a", where the Java setter changes nothing |
| Settings.GetFilterType | app/src/main/java/com/bytesforge/linkasanote/settings/Settings.java:352-362 | the result is always a valid ordinal: the stored one when it names a filter type, ALL otherwise |
| Settings.SetFilterType | app/src/main/java/com/bytesforge/linkasanote/settings/Settings.java:364-381 | a null type changes nothing; otherwise the given type reads back, an unchanged type leaves the preferences identical, and other keys are untouched |
| Settings.SetFilterId | app/src/main/java/com/bytesforge/linkasanote/settings/Settings.java:388-398 | the given id (or its absence) reads back, an unchanged id leaves the preferences identical, the cached filter object is dropped exactly for a null id, and other keys are untouched |
| Settings.ResetFilterId | app/src/main/java/com/bytesforge/linkasanote/settings/Settings.java:400-407 | the filter id is cleared, and the cached filter dropped, exactly when a stored id equals the given one; otherwise nothing changes |
| Settings.Find | app/src/main/java/com/bytesforge/linkasanote/settings/Settings.java:219-226 | the result is the first occurrence of the delimiter, and none means no occurrence anywhere |
| Settings.SplitAllJoin | app/src/main/java/com/bytesforge/linkasanote/settings/Settings.java:219-226 | joining the split pieces with the delimiter gives the original string back |
| Settings.SplitAllPiecesClean | app/src/main/java/com/bytesforge/linkasanote/settings/Settings.java:219-226 | no split piece contains the delimiter |
| Settings.DropTrailingEmpty | app/src/main/java/com/bytesforge/linkasanote/settings/Settings.java:219-226 | the result is a prefix of the pieces that does not end in an empty piece, and only empty pieces were dropped |
| Settings.DefaultWhiteListArray | app/src/main/java/com/bytesforge/linkasanote/settings/Settings.java:87 | with nothing stored the parameter whitelist is ["id", "page"] (also Settings.java:219-226) |
| Settings.KotlinWhiteListJoins | app/src/main/java/com/bytesforge/linkasanote/settings/Settings.kt:97-107 | the Kotlin whitelist is empty exactly for a null or empty setting, otherwise joins back to the setting with no entry holding ", "; the Java whitelist is it without trailing empty entries |
| Settings.TrailingDelimiterWhiteLists | app/src/main/java/com/bytesforge/linkasanote/settings/Settings.kt:97-107 | for "id, page, " the Kotlin whitelist is ["id", "page", ""] and the Java one ["id", "page"] (also Settings.java:219-226) |
| Settings.WhiteListJoins | app/src/main/java/com/bytesforge/linkasanote/settings/Settings.java:219-226 | a whitelist setting not ending in an empty entry is the join of its entries, and no entry contains ", " |
| Repository.WithoutAll | app/src/main/java/com/bytesforge/linkasanote/data/source/Repository.java:320-328 | the result holds exactly the elements not in the key set, stays duplicate-free and is no longer |
| Repository.WithoutNothing | app/src/main/java/com/bytesforge/linkasanote/data/source/Repository.java:320-328 | removing keys none of which occur leaves the sequence as it was |
| Repository.Put | app/src/main/java/com/bytesforge/linkasanote/data/source/Repository.java:190-253 | a new key goes last, a present key keeps its place, and the value map is updated at that key |
| Repository.RemoveAll | app/src/main/java/com/bytesforge/linkasanote/data/source/Repository.java:588-595 | the removed keys leave both the order and the value map, and every other entry keeps its place and value |
| Repository.Values | app/src/main/java/com/bytesforge/linkasanote/data/source/Repository.java:173-179 | iterating the cache yields each entry's value in insertion order |
| Repository.InitialWf | app/src/main/java/com/bytesforge/linkasanote/data/source/Repository.java:99-164 | a fresh repository is consistent, counts as dirty, and its first listing reloads |
| Repository.ListingPath | app/src/main/java/com/bytesforge/linkasanote/data/source/Repository.java:166-187 | the listing is served from memory exactly when no refresh is needed, re-reads the dirty ids exactly when the cache is not marked for reload and some id is dirty, and reloads otherwise |
| Repository.ReloadIffStale | app/src/main/java/com/bytesforge/linkasanote/data/source/Repository.java:162-187 | on a consistent cache a full reload happens exactly when it is marked for reload, and a refresh is needed exactly when it is marked or some id is dirty |
| Repository.RefreshItem | app/src/main/java/com/bytesforge/linkasanote/data/source/Repository.java:568-576 | the id joins the dirty set and the next listing refreshes; entries and the reload mark are untouched |
| Repository.RefreshAll | app/src/main/java/com/bytesforge/linkasanote/data/source/Repository.java:562-566 | the cache is marked for reload and nothing else changes |
| Repository.CheckSyncLog | app/src/main/java/com/bytesforge/linkasanote/data/source/Repository.java:578-585 | the sync-complete token joins the dirty set, so the next listing refreshes |
| Repository.RemoveCached | app/src/main/java/com/bytesforge/linkasanote/data/source/Repository.java:587-595 | exactly the given id leaves the cache, the rest keep their order, and the dirty set and reload mark are untouched |
| Repository.PutNewValues | app/src/main/java/com/bytesforge/linkasanote/data/source/Repository.java:190-211 | putting a new key appends its value to the iteration |
| Repository.LoadAppends | app/src/main/java/com/bytesforge/linkasanote/data/source/Repository.java:190-211 | loading rows with distinct new ids appends them, in order, after the entries already there |
| Repository.LoadKeys | app/src/main/java/com/bytesforge/linkasanote/data/source/Repository.java:204-211 | putting the rows in turn leaves exactly their ids, beside those already cached, as entries |
| Repository.LoadKeeps | app/src/main/java/com/bytesforge/linkasanote/data/source/Repository.java:204-211 | an entry that no loaded row names keeps its value |
| Repository.LoadValue | app/src/main/java/com/bytesforge/linkasanote/data/source/Repository.java:204-211 | with distinct ids, each loaded row is the entry under its own id |
| Repository.ReloadCache | app/src/main/java/com/bytesforge/linkasanote/data/source/Repository.java:189-211 | entries and dirty ids are cleared and exactly the delivered rows' ids become entries; a completed read clears the reload mark so the next listing comes from memory, and a failed one keeps the mark along with the rows delivered before the failure |
| Repository.PartialReloadServesDelivered | app/src/main/java/com/bytesforge/linkasanote/data/source/Repository.java:204-211 | after a reload that fails part-way, `getLink` serves every row delivered before the failure from memory, although a cache marked for reload stays marked (also Repository.java:300-307) |
| Repository.ReloadListsRows | app/src/main/java/com/bytesforge/linkasanote/data/source/Repository.java:189-211 | after a completed reload the listing is exactly the rows the store returned, in order |
| Repository.Cached | app/src/main/java/com/bytesforge/linkasanote/data/source/Repository.java:299-308 | an entry is served exactly when the cache exists, the id is not dirty and it is cached, and then it is that entry |
| Repository.GetItem | app/src/main/java/com/bytesforge/linkasanote/data/source/Repository.java:266-297 | a malformed id is refused; a clean cached entry is served from memory; otherwise the stored row is returned, and cleans its dirty id when it replaced an entry or marks the cache for reload when it is new, and a missing row is not found |
| Repository.FetchThenCached | app/src/main/java/com/bytesforge/linkasanote/data/source/Repository.java:266-297 | a row read back into its place is served from memory on the next lookup, and a row new to the cache sends the next listing to a reload |
| Repository.SaveItem | app/src/main/java/com/bytesforge/linkasanote/data/source/Repository.java:311-374 | a stored item is reported DEFERRED and marked dirty, a new link or note moving to the front; a favorite keeps its place only when the cached name matches, else the cache is marked for reload; a uniqueness violation is reported DUPLICATED and raised again, other failures ERROR_LOCAL, both leaving the cache alone (also Repository.java:793-858, Repository.java:1225-1276) |
| Repository.PutFirst | app/src/main/java/com/bytesforge/linkasanote/data/source/Repository.java:322-328 | the item's id comes first, followed by the previous order without it, and every other entry keeps its value |
| Repository.NewItemListedFirst | app/src/main/java/com/bytesforge/linkasanote/data/source/Repository.java:322-330 | a newly saved link or note is the first item listed, and is dirty so it is read back |
| Repository.CloudSaved | app/src/main/java/com/bytesforge/linkasanote/data/source/Repository.java:376-403 | each expected cloud answer is reported and marks the id dirty with the entries untouched; an unexpected answer or a failed call is reported as ERROR_CLOUD and changes nothing |
| Repository.LocalDeleted | app/src/main/java/com/bytesforge/linkasanote/data/source/Repository.java:470-500 | a DEFERRED or DELETED answer is reported and drops the cached entry, the dirty set untouched; any other answer or failure is ERROR_LOCAL and changes nothing |
| Repository.CloudDeleted | app/src/main/java/com/bytesforge/linkasanote/data/source/Repository.java:514-541 | a conflict marks the cache for reload so the item shows again; DELETED and the error answers leave the cache alone; a failed call is ERROR_CLOUD |
| Repository.IdsOfCons | app/src/main/java/com/bytesforge/linkasanote/data/source/Repository.java:246-259 | the ids of a non-empty row list are the head's id plus the tail's ids |
| Repository.Absorb | app/src/main/java/com/bytesforge/linkasanote/data/source/Repository.java:246-259 | the refresh completes exactly when every row read back was already cached, and then the order is unchanged and the read-back ids are no longer dirty; cached entries are never lost |
| Repository.AbsorbStep | app/src/main/java/com/bytesforge/linkasanote/data/source/Repository.java:246-259 | absorbing a cached row and then the rest absorbs the whole list |
| Repository.RefreshDirtyCache | app/src/main/java/com/bytesforge/linkasanote/data/source/Repository.java:213-264 | the sync-complete token leaves the dirty set, the dirty set only shrinks, and a row new to the cache aborts the refresh with the cache marked for reload |
| Repository.RefreshClearsDirty | app/src/main/java/com/bytesforge/linkasanote/data/source/Repository.java:213-264 | a refresh that reads back every requested id and completes leaves nothing dirty, so the next listing comes from memory |
| Repository.SyncStatus | app/src/main/java/com/bytesforge/linkasanote/data/source/Repository.java:1518-1547 | CONFLICT exactly when some collection holds a conflicted row, UNSYNCED exactly when none does but one holds an unsynced row, SYNCED otherwise |
| Repository.ConflictedKinds | app/src/main/java/com/bytesforge/linkasanote/data/source/Repository.java:1518-1523 | some collection is conflicted exactly when the links, favorites or notes table is |
| Repository.UnsyncedKinds | app/src/main/java/com/bytesforge/linkasanote/data/source/Repository.java:1525-1530 | some collection is unsynced exactly when the links, favorites or notes table is |
| Repository.SyncStatusAgreesWithRun | app/src/main/java/com/bytesforge/linkasanote/data/source/Repository.java:1532-1547 | the status the repository computes is the one a successful sync run stores |
| Operations.AccountOf | app/src/main/java/com/bytesforge/linkasanote/sync/operations/OperationsService.java:216 | an account is read only from an ACCOUNT extra that holds one |
| Operations.StringOf | app/src/main/java/com/bytesforge/linkasanote/sync/operations/OperationsService.java:217-229 | a string is read only from an extra under that key that holds one |
| Operations.BundleOf | app/src/main/java/com/bytesforge/linkasanote/sync/operations/OperationsService.java:227 | a bundle is read only from an extra under that key that holds one |
| Operations.BuildOperation | app/src/main/java/com/bytesforge/linkasanote/sync/operations/OperationsService.java:208-234 | a request with neither an ACCOUNT nor a SERVER_URL extra is refused; otherwise it is built exactly when the action is GET_SERVER_INFO or CHECK_CREDENTIALS, else refused as unsupported; the target is the account and server URL, and the listener counts only with a handler (also OperationsService.kt:170-198) |
| Operations.QueueOperation | app/src/main/java/com/bytesforge/linkasanote/sync/operations/OperationsService.java:195-206 | a built item joins the back of the queue and exactly one processing message is sent; a refused request reports the build error |
| Operations.QueueOperationKt | app/src/main/java/com/bytesforge/linkasanote/sync/operations/OperationsService.kt:154-168 | a built item joins the back of the queue, but a processing message is sent exactly when the item has a listener |
| Operations.DispatchOf | app/src/main/java/com/bytesforge/linkasanote/sync/operations/OperationsService.java:114-123 | a result is posted exactly when the item has both listener and handler, and it carries the item's operation and the result |
| Operations.HandleMessage | app/src/main/java/com/bytesforge/linkasanote/sync/operations/OperationsService.java:158-192 | each message takes the oldest pending item, or nothing when the queue is empty; a new client is asked for exactly when the last target differs; a client that cannot be built is the failure result; an operation that reaches the server runs on its own target's client, and the result is dispatched to the listener |
| Operations.HandleMessageAsWritten | app/src/main/java/com/bytesforge/linkasanote/sync/operations/OperationsService.java:172-192 | as written the handler takes the oldest item as well, but records the new target before its client exists, so an operation can be left with no client at all when none was ever built (also OperationsService.kt:125-147) |
| Operations.StaleClientAsWritten | app/src/main/java/com/bytesforge/linkasanote/sync/operations/OperationsService.java:172-192 | as written, after the client for a second target fails to build, the next operation for that target runs on the first target's client (also OperationsService.kt:125-147) |
| Operations.ClientAlwaysOwnTarget | app/src/main/java/com/bytesforge/linkasanote/sync/operations/OperationsService.java:172-192 | with the last target recorded only once its client exists, every operation that reaches the server, over any run of messages, runs on its own target's client |
| Operations.Process | app/src/main/java/com/bytesforge/linkasanote/sync/operations/OperationsService.java:158-169 | each message is handled once and the client always matches the last target |
| Operations.ProcessFifo | app/src/main/java/com/bytesforge/linkasanote/sync/operations/OperationsService.java:158-206 | n messages run the n oldest items in queue order (or all of them) and leave the rest queued |
| Operations.ListenerlessWaitsKt | app/src/main/java/com/bytesforge/linkasanote/sync/operations/OperationsService.kt:154-168 | in Kotlin a request without a listener is queued with no message, so it stays pending |
| Operations.ListenerlessRunsJava | app/src/main/java/com/bytesforge/linkasanote/sync/operations/OperationsService.java:195-206 | in Java the same request is queued with a message and runs, with nothing dispatched |
| Operations.MessageRunsOldestKt | app/src/main/java/com/bytesforge/linkasanote/sync/operations/OperationsService.kt:114-168 | in Kotlin a later request's message runs the older listener-less item, and the request that sent it waits |

## Left out

- User interface: activities, presenters, view models, adapters, the clipboard service, and the presenters' list filters.
- RxJava scheduling, the handler thread, `executeRemoteOperation`'s retry timer and every other concurrency concern. Each operation is sequential here, and interleavings are not modelled.
- The clock: `currentTimeMillis` is a parameter, and one sync pass uses one timestamp.
- The network and the Nextcloud library: what an upload, download, delete or folder read answers is a parameter. `UploadFileOperation` appears only through its outcome, where every failed upload is reported as a conflict.
- `CheckCredentialsOperation`, `GetServerInfoOperation` and `CloudUtils` are not part of this model. Neither are URL normalisation and IDN conversion, which need Android's `Uri` and `Patterns`.
- SQLite: collation, cursor snapshots and query plans. A table is a map from entry id to row with a row-id counter. A failing `getUnsynced`, `getAll` or `getIds` in the reconciler is a parameter: how many rows the query delivers before it fails. It becomes DB_ACCESS_ERROR. Other read failures, and a failing `resetSyncState`, are not modelled.
- `SharedPreferences`, `ContentResolver` and broadcasts are maps and event lists. Toasts, `manualMode` and the notification texts are left out.
- `FilterType` and the resource strings are not part of this model. A filter type is its ordinal together with the number of values, and preference keys are fixed strings.
- Reconciler.ItemStep: the per-item step runs the corrected upload step `UploadStep`, not `UploadStepAsWritten`, so an empty never-synced item counts one failure instead of ending the pass (see Findings).
- Reconciler.SyncAll: built on the corrected `ItemStep`, so it does not show the escaping exception of an empty item's upload.
- Reconciler.Sync: built on the corrected `ItemStep`, for the same reason.
- Cloud.LastPathSegment: the text after the last '/', taken literally, is the reading the listing uses (see Findings). `getId` as written reads the path through `Uri.parse`; that reading is `UriLastPathSegment`, and it decodes only escapes of ASCII bytes. Escapes of bytes 0x80 and above, and malformed escapes, are kept as written rather than decoded as UTF-8 with U+FFFD in place of bad input.
- Cloud.Accepted: built on the corrected `GetId`. A sync directory holding '#' or '?', or a ':' not followed by '/', still lists its files here, where the source lists none (see Findings).
- Cloud.DataSourceMap, Cloud.Listed, Reconciler.Listing and Reconciler.Sync: built on `Cloud.Accepted`, so they inherit the corrected `GetId` and list the files of such a directory too.
- Cloud.Upload: the byte size of the written file is a parameter, because the JSON text format is not modelled. The caller gives it per item body.
- Cloud.Listed: folder files whose names do not end in ".json" are not represented. `getId` rejects every such name, so they never reach the listing.
- Entities.Lower: lower-casing is ASCII A-Z only, because Java's locale-dependent `toLowerCase` has no counterpart over `seq<char>`.
- JsonValues.GetNumber: the accessors do not coerce between strings and numbers as `org.json` does. The codecs only read values of the type they wrote.
- Temporary files, the JSON library's own text format, and the order in which Java's `HashSet` and `HashMap` iterate. Where the source's result depends on that order, the order is a parameter.
- The repository's tag cache, `getTags`, and the `markSyncResultsAsApplied` side effect of a full reload. These do not change the link, favorite or note caches modelled here.
- `Repository.deleteLink`'s cascade over the link's notes, and the repository's callback sets. The notes cascade runs `deleteNote`/`saveNote`, whose local effects are modelled in `LocalStore`.
- The Link, Favorite and Note variants of each `Repository` operation are folded into one operation over `Item`.
- The message counter and the `hashCode` that `queueOperation` returns. The Java `switch` on a null action throws a `NullPointerException`, which is modelled as the same refusal as an unsupported action.
- `SyncItemResult.java` is not part of this model beyond the counters and flags the reconciler sets.
- `ApplicationBackup`, `FilesService`, the legacy `CloudLinks`/`CloudFavorites`/`CloudNotes`, dependency injection and `SyncService`.

## Findings

| source | as written | input that shows it | evidently intended | confidence | as-written member | corrected member |
|---|---|---|---|---|---|---|
| app/src/main/java/com/bytesforge/linkasanote/utils/UuidUtils.java:55-66 | only `IllegalArgumentException` is caught, so a key that decodes to fewer than 16 bytes makes `getLong` throw a `BufferUnderflowException` that escapes | the key "AAAA", which decodes to three zero bytes | null for every key that is not a UUID | high; not executed | UuidKeys.UuidFromKeyAsWritten, UuidKeys.ShortKeyEscapes | UuidKeys.UuidFromKey |
| app/src/main/java/com/bytesforge/linkasanote/data/source/Provider.java:490-507 | the note case has no `break`, so it falls into the favorite case. That case's update selects `entry = 'note' AND entry = 'favorite'`, matches nothing, and its 0 is returned, so no change is notified | one unapplied note result marked through the note sync-result uri | the note rows' count returned, and a change notified | high; not executed | SyncLog.MarkThroughProviderAsWritten, SyncLog.NoteMarkCountLost | SyncLog.MarkThroughProvider |
| app/src/main/java/com/bytesforge/linkasanote/settings/Settings.kt:114-122 | `val oldValue = syncDirectory` inside the setter reads the parameter, not the stored preference | stored "/a", then set "/b": nothing is written; stored "/a", then set "a": the sync state is reset | compare the normalised value against the stored directory, as `Settings.java` does | high; not executed | Settings.KotlinSetterDropsNormalisedInput, Settings.KotlinSetterResetsUnchanged | Settings.SetSyncDirectory |
| app/src/main/java/com/bytesforge/linkasanote/sync/files/JsonFile.kt:123-137 | the MIME guard `mimeType != mimeType` is always false, so any MIME type passes | MIME type "text/plain" with path "/AAAAAAAAAAAAAAAAAAAAAA.json" | only application/json files name an item, as in `JsonFile.java` | high; not executed | Cloud.KotlinGetIdAcceptsAnyMime | Cloud.GetId |
| app/src/main/java/com/bytesforge/linkasanote/sync/SyncItem.java:350-356 | `CloudItem.upload` returns null from `Single.fromCallable` for an empty item. RxJava turns that null into an exception in `blockingGet`, so the `result == null` branch is never reached and the exception ends the pass | a never-synced link with an empty URL under a 22-character key | the empty item counted as one failure with an ERROR log row, and the pass continues | medium; not executed | Reconciler.UploadStepAsWritten, Reconciler.EmptyLinkAbortsPass | Reconciler.UploadStep |
| app/src/main/java/com/bytesforge/linkasanote/sync/operations/OperationsService.java:172-192 | `lastTarget` is set before the client is built, so when building the client for a new target fails, the old client stays cached under the new target | an operation for A, then one for B whose client fails to build, then another for B | the last target recorded only once its client exists, so each operation runs on its own target's client | high; not executed | Operations.HandleMessageAsWritten, Operations.StaleClientAsWritten | Operations.HandleMessage, Operations.ClientAlwaysOwnTarget |
| app/src/main/java/com/bytesforge/linkasanote/sync/files/JsonFile.java:165-179 | the remote path is read with `Uri.parse`, so a '?' or '#' ends the path, a first ':' not followed by '/' makes the URI opaque, and %-escapes in the file name are decoded | sync directory "/Notes #1", which the settings accept: the file "/Notes #1/links/AAAAAAAAAAAAAAAAAAAAAA.json" names no item, so nothing stored there is listed | the item id is read from the file name after the last '/' | medium; not executed (the reading follows Android's `Uri.parse`, whose source is not part of this model) | Cloud.GetIdViaUri, Cloud.UriHashHidesFile | Cloud.GetId |

=== FILE: cloud.dfy ===
/** The cloud side of one collection: the JSON file naming rules of `JsonFile`,
    the per-collection helpers of `CloudItem`, the remote folder as a map from
    item id to (ETag, JSON body), and the single-item save and delete of
    `CloudDataSource`. The remote server is reduced to how it answers. */
module Cloud {
  import opened Wrappers
  import opened SyncStates
  import opened Entities
  import opened JsonValues
  import EntityJson
  import UuidKeys
  import Settings
  import LocalStore
  import SyncLog

  // ---------------------------------------------------------------------------
  // JSON files

  const MimeType: string := "application/json"
  const FileExtension: string := ".json"

  /** A file of the remote folder as the app sees it; the local copy is left out. */
  datatype JsonFile = JsonFile(remotePath: string, length: int, eTag: Option<string>)

  predicate IsAbsolute(path: string) {
    |path| > 0 && path[0] == '/'
  }

  /** The constructor: None stands for the IllegalArgumentException on a
      relative remote path. */
  function NewJsonFile(remotePath: string): (r: Option<JsonFile>)
    ensures r.Some? <==> IsAbsolute(remotePath)
    ensures r.Some? ==> r.value.remotePath == remotePath && r.value.length == 0 && r.value.eTag.None?
  {
    if IsAbsolute(remotePath) then Some(JsonFile(remotePath, 0, None)) else None
  }

  /** `getFileName`. */
  function FileName(id: string): string {
    id + FileExtension
  }

  predicate EndsWith(s: string, suffix: string) {
    |suffix| <= |s| && s[|s| - |suffix|..] == suffix
  }

  /** The characters after the last '/' of `p`. */
  function Tail(p: string): (r: string)
    ensures |r| <= |p| && r == p[|p| - |r|..] && '/' !in r
    ensures |r| < |p| ==> p[|p| - |r| - 1] == '/'
  {
    if |p| == 0 || p[|p| - 1] == '/' then ""
    else
      var t := Tail(p[..|p| - 1]);
      TailStep(p, t);
      t + [p[|p| - 1]]
  }

  /** The tail of all but the last character, extended by that character. */
  lemma TailStep(p: string, t: string)
    requires |p| > 0 && p[|p| - 1] != '/'
    requires |t| <= |p| - 1 && t == p[..|p| - 1][|p| - 1 - |t|..] && '/' !in t
    requires |t| < |p| - 1 ==> p[..|p| - 1][|p| - 1 - |t| - 1] == '/'
    ensures var r := t + [p[|p| - 1]];
      r == p[|p| - |r|..] && '/' !in r && (|r| < |p| ==> p[|p| - |r| - 1] == '/')
  {
    var q := p[..|p| - 1];
    var r := t + [p[|p| - 1]];
    assert q[|p| - 1 - |t|..] + [p[|p| - 1]] == p[|p| - |t| - 1..];
    assert '/' !in r by {
      assert forall i :: 0 <= i < |r| ==> r[i] == if i < |t| then t[i] else p[|p| - 1];
    }
    if |r| < |p| {
      assert p[|p| - |r| - 1] == q[|p| - 1 - |t| - 1];
    }
  }

  /** The last path segment read literally: the last non-empty segment
      between slashes, None when there is none. */
  function LastPathSegment(p: string): (r: Option<string>)
    ensures r.Some? ==> r.value != "" && '/' !in r.value
  {
    if |p| == 0 then None
    else if p[|p| - 1] == '/' then LastPathSegment(p[..|p| - 1])
    else Some(Tail(p))
  }

  /** The last segment holds only characters of the path. */
  lemma {:induction false} LastPathSegmentChars(p: string, c: char)
    requires c !in p
    ensures LastPathSegment(p).Some? ==> c !in LastPathSegment(p).value
    decreases |p|
  {
    if |p| > 0 && p[|p| - 1] == '/' {
      assert forall i :: 0 <= i < |p| - 1 ==> p[..|p| - 1][i] == p[i];
      LastPathSegmentChars(p[..|p| - 1], c);
    } else if |p| > 0 {
      var t := Tail(p);
      assert forall i :: 0 <= i < |t| ==> t[i] == p[|p| - |t| + i];
    }
  }

  /** The tail of a path that ends in a slash-free name is that name. */
  lemma {:induction false} TailOfJoin(dir: string, name: string)
    requires '/' !in name
    ensures Tail(dir + "/" + name) == name
    decreases |name|
  {
    var p := dir + "/" + name;
    if |name| > 0 {
      assert p[..|p| - 1] == dir + "/" + name[..|name| - 1];
      TailOfJoin(dir, name[..|name| - 1]);
      assert name == name[..|name| - 1] + [name[|name| - 1]];
    }
  }

  lemma LastPathSegmentOfJoin(dir: string, name: string)
    requires name != "" && '/' !in name
    ensures LastPathSegment(dir + "/" + name) == Some(name)
  {
    TailOfJoin(dir, name);
  }

  // `Uri.parse(path).getLastPathSegment()`: the path is read as a URI string,
  // so a ':' may end a scheme, "//" may open an authority, '?' and '#' end the
  // path, and the segment's %-escapes are decoded.

  /** Index of the first `c` in `s` (`String.indexOf`), None for -1. */
  function FirstIndex(s: string, c: char): (r: Option<nat>)
    ensures r.Some? ==> r.value < |s| && s[r.value] == c && c !in s[..r.value]
    ensures r.None? <==> c !in s
  {
    if |s| == 0 then None
    else if s[0] == c then Some(0)
    else
      var t := FirstIndex(s[1..], c);
      assert s[1..] == s[..|s|][1..];
      if t.None? then None
      else
        assert s[..t.value + 1] == [s[0]] + s[1..][..t.value];
        Some(t.value + 1)
  }

  /** Where a path starting at `from` ends: at the first '?' or '#', or at the end. */
  function PathEnd(s: string, from: nat): (e: nat)
    requires from <= |s|
    ensures from <= e <= |s| && (e < |s| ==> s[e] == '?' || s[e] == '#')
    ensures forall i :: from <= i < e ==> s[i] != '?' && s[i] != '#'
    decreases |s| - from
  {
    if from == |s| || s[from] == '?' || s[from] == '#' then from else PathEnd(s, from + 1)
  }

  /** The authority's end, scanning from `from`: the first '/' or '\', or the
      end of the string; None when a '?' or '#' comes first, which leaves the
      path empty. */
  function AuthorityEnd(s: string, from: nat): (r: Option<nat>)
    requires from <= |s|
    ensures r.Some? ==> from <= r.value <= |s| && (r.value < |s| ==> s[r.value] == '/' || s[r.value] == '\\')
    ensures r.Some? ==> forall i :: from <= i < r.value ==> s[i] !in "/\\?#"
    ensures r.None? ==> exists i :: from <= i < |s| && (s[i] == '?' || s[i] == '#')
    decreases |s| - from
  {
    if from == |s| then Some(from)
    else if s[from] == '?' || s[from] == '#' then None
    else if s[from] == '/' || s[from] == '\\' then Some(from)
    else AuthorityEnd(s, from + 1)
  }

  /** The encoded path of `Uri.parse(s)`: None for an opaque or scheme-only
      URI (a first ':' not followed by '/'); otherwise the text after the
      scheme and any "//" authority, up to the first '?' or '#'. */
  function UriPath(s: string): (r: Option<string>)
    ensures r.None? <==> exists i :: 0 <= i < |s| && s[i] == ':' && ':' !in s[..i] && (i + 1 == |s| || s[i + 1] != '/')
    ensures r.Some? ==> '?' !in r.value && '#' !in r.value
    ensures r.Some? && ':' !in s && !(|s| > 1 && s[0] == '/' && s[1] == '/') ==> r.value == s[..PathEnd(s, 0)]
  {
    var ssi := FirstIndex(s, ':');
    if ssi.Some? && (ssi.value + 1 == |s| || s[ssi.value + 1] != '/') then None
    else
      var start := if ssi.Some? then ssi.value + 1 else 0;
      if |s| > start + 1 && s[start] == '/' && s[start + 1] == '/' then
        var a := AuthorityEnd(s, start + 2);
        if a.None? then Some("") else Some(s[a.value..PathEnd(s, a.value)])
      else Some(s[start..PathEnd(s, start)])
  }

  /** The value of a hexadecimal digit. */
  function HexValue(c: char): (r: Option<nat>)
    ensures r.Some? ==> r.value < 16
  {
    if '0' <= c <= '9' then Some(c as nat - '0' as nat)
    else if 'a' <= c <= 'f' then Some(c as nat - 'a' as nat + 10)
    else if 'A' <= c <= 'F' then Some(c as nat - 'A' as nat + 10)
    else None
  }

  /** The upper-case hexadecimal digit of a value below 16, as an encoder
      writes it; `HexValue` reads it back. */
  function HexDigit(n: nat): (d: char)
    requires n < 16
    ensures HexValue(d) == Some(n)
  {
    if n < 10 then ('0' as int + n) as char else ('A' as int + n - 10) as char
  }

  /** `Uri.decode` for escapes of ASCII bytes: "%XY" with XY below 0x80 is the
      character XY; anything else is kept as written. */
  function PercentDecode(s: string): (r: string)
    ensures |r| <= |s|
    ensures '%' !in s ==> r == s
    decreases |s|
  {
    if |s| == 0 then ""
    else if |s| >= 3 && s[0] == '%' && HexValue(s[1]).Some? && HexValue(s[2]).Some? && HexValue(s[1]).value < 8 then
      [(HexValue(s[1]).value * 16 + HexValue(s[2]).value) as char] + PercentDecode(s[3..])
    else
      assert '%' !in s ==> '%' !in s[1..] by {
        assert forall i :: 0 <= i < |s| - 1 ==> s[1..][i] == s[i + 1];
      }
      [s[0]] + PercentDecode(s[1..])
  }

  /** An ASCII character escaped as '%' and two hex digits decodes back to
      itself, whatever follows. */
  lemma PercentDecodeEscape(c: char, t: string)
    requires c as int < 128
    ensures PercentDecode(['%', HexDigit(c as int / 16), HexDigit(c as int % 16)] + t) == [c] + PercentDecode(t)
  {
    var s := ['%', HexDigit(c as int / 16), HexDigit(c as int % 16)] + t;
    assert s[1] == HexDigit(c as int / 16) && s[2] == HexDigit(c as int % 16);
    assert s[3..] == t;
  }

  /** The URI path of `s` is cut out of `s`, so it holds no character `s` lacks. */
  lemma UriPathChars(s: string, c: char)
    ensures c !in s && UriPath(s).Some? ==> c !in UriPath(s).value
  {
    var ssi := FirstIndex(s, ':');
    if !(ssi.Some? && (ssi.value + 1 == |s| || s[ssi.value + 1] != '/')) {
      var start := if ssi.Some? then ssi.value + 1 else 0;
      if |s| > start + 1 && s[start] == '/' && s[start + 1] == '/' {
        var a := AuthorityEnd(s, start + 2);
        if a.Some? {
          var e := PathEnd(s, a.value);
          assert forall i :: 0 <= i < e - a.value ==> s[a.value..e][i] == s[a.value + i];
        }
      } else {
        var e := PathEnd(s, start);
        assert forall i :: 0 <= i < e - start ==> s[start..e][i] == s[start + i];
      }
    }
  }

  /** `Uri.parse(s).getLastPathSegment()`: the last non-empty segment of the
      URI's path, decoded. */
  function UriLastPathSegment(s: string): (r: Option<string>)
    ensures r.Some? <==> UriPath(s).Some? && LastPathSegment(UriPath(s).value).Some?
    ensures UriPath(s).None? ==> r.None?
    ensures '%' !in s && r.Some? ==> r == LastPathSegment(UriPath(s).value)
  {
    UriPathChars(s, '%');
    var path := UriPath(s);
    if path.None? then None
    else
      var seg := LastPathSegment(path.value);
      if seg.None? then None
      else
        assert '%' !in path.value ==> '%' !in seg.value by {
          if '%' !in path.value { LastPathSegmentChars(path.value, '%'); }
        }
        Some(PercentDecode(seg.value))
  }

  /** Characters that change how `Uri.parse` reads a path: none of them. */
  predicate UriPlain(s: string) {
    ':' !in s && '?' !in s && '#' !in s
  }

  lemma UriPlainJoin(dir: string, name: string)
    requires UriPlain(dir) && UriPlain(name)
    ensures UriPlain(dir + "/" + name)
  {
    var p := dir + "/" + name;
    forall i | 0 <= i < |p| ensures p[i] != ':' && p[i] != '?' && p[i] != '#' {
      if i < |dir| { assert p[i] == dir[i]; }
      else if i > |dir| { assert p[i] == name[i - |dir| - 1]; }
    }
  }

  /** Without a scheme, an authority, a query or a fragment, the path is the
      whole string. */
  lemma UriPathOfPlain(p: string)
    requires UriPlain(p) && !(|p| > 1 && p[0] == '/' && p[1] == '/')
    ensures UriPath(p) == Some(p)
  {
    assert PathEnd(p, 0) == |p|;
    assert FirstIndex(p, ':').None?;
    assert p[0..|p|] == p;
  }

  /** After a "//" authority the path starts at the authority's first '/', so
      it still ends in "/name". */
  lemma UriPathOfAuthority(dir: string, name: string)
    requires UriPlain(dir + "/" + name) && |dir| >= 2 && dir[0] == '/' && dir[1] == '/'
    ensures exists a :: 2 <= a <= |dir| && UriPath(dir + "/" + name) == Some(dir[a..] + "/" + name)
  {
    var p := dir + "/" + name;
    assert p[0] == '/' && p[1] == '/' && p[|dir|] == '/';
    assert FirstIndex(p, ':').None?;
    var a := AuthorityEnd(p, 2);
    assert a.Some? && a.value <= |dir|;
    var e := PathEnd(p, a.value);
    assert e == |p|;
    assert p[a.value..e] == p[a.value..];
    assert p[a.value..] == dir[a.value..] + "/" + name;
    assert UriPath(p) == Some(p[a.value..e]);
    assert 2 <= a.value <= |dir| && UriPath(p) == Some(dir[a.value..] + "/" + name);
  }

  /** On a path whose directory and name hold none of ':', '?', '#' (and the
      name no '/'), the URI reading gives the decoded name and the plain one
      the name itself; they agree when the name holds no '%'. The directory
      "/" is the exception: "//name" reads as an authority. */
  lemma UriLastPathSegmentOfJoin(dir: string, name: string)
    requires UriPlain(dir) && dir != "/"
    requires name != "" && UriPlain(name) && '/' !in name
    ensures UriLastPathSegment(dir + "/" + name) == Some(PercentDecode(name))
    ensures LastPathSegment(dir + "/" + name) == Some(name)
    ensures '%' !in name ==> UriLastPathSegment(dir + "/" + name) == LastPathSegment(dir + "/" + name)
  {
    var p := dir + "/" + name;
    UriPlainJoin(dir, name);
    LastPathSegmentOfJoin(dir, name);
    if |p| > 1 && p[0] == '/' && p[1] == '/' {
      assert |dir| >= 2;
      assert dir[0] == p[0] && dir[1] == p[1];
      UriPathOfAuthority(dir, name);
      var a :| 2 <= a <= |dir| && UriPath(p) == Some(dir[a..] + "/" + name);
      LastPathSegmentOfJoin(dir[a..], name);
    } else {
      UriPathOfPlain(p);
    }
  }

  /** The id a last path segment names: the segment must be a valid key
      followed by ".json". */
  function IdOfSegment(seg: Option<string>): (r: Option<string>)
    ensures r.Some? <==> exists k :: UuidKeys.IsKeyValidUuid(k) && seg == Some(FileName(k))
    ensures r.Some? ==> UuidKeys.IsKeyValidUuid(r.value) && seg == Some(FileName(r.value))
  {
    if seg.Some? && EndsWith(seg.value, FileExtension) then
      var id := seg.value[..|seg.value| - |FileExtension|];
      assert seg.value == FileName(id);
      if UuidKeys.IsKeyValidUuid(id) then Some(id) else None
    else
      assert forall k :: seg == Some(FileName(k)) ==> EndsWith(seg.value, FileExtension);
      None
  }

  /** The id part of `getId`, once the MIME type has been accepted. */
  function IdOfPath(path: string): (r: Option<string>)
    ensures r.Some? <==> exists k :: UuidKeys.IsKeyValidUuid(k) && LastPathSegment(path) == Some(FileName(k))
    ensures r.Some? ==> UuidKeys.IsKeyValidUuid(r.value) && LastPathSegment(path) == Some(FileName(r.value))
  {
    IdOfSegment(LastPathSegment(path))
  }

  /** `getId` with the path read literally, which the listing uses: the item
      id a remote file stands for, None unless the MIME type is
      application/json, the last path segment ends in ".json", and what
      precedes it passes the key check. `GetIdViaUri` below is the source's
      URI reading. */
  function GetId(mimeType: Option<string>, filePath: Option<string>): (r: Option<string>)
    ensures r.Some? ==> (mimeType == Some(MimeType) && filePath.Some?
      && UuidKeys.IsKeyValidUuid(r.value) && LastPathSegment(filePath.value) == Some(FileName(r.value)))
    ensures forall k :: (mimeType == Some(MimeType) && filePath.Some? && UuidKeys.IsKeyValidUuid(k)
      && LastPathSegment(filePath.value) == Some(FileName(k))) ==> r == Some(k)
  {
    if mimeType.None? || filePath.None? then None
    else if mimeType.value != MimeType then None
    else
      var r := IdOfPath(filePath.value);
      assert forall k, m :: FileName(k) == FileName(m) ==> k == m by {
        forall k, m | FileName(k) == FileName(m) ensures k == m {
          assert k == FileName(k)[..|k|] && m == FileName(m)[..|m|];
        }
      }
      r
  }

  /** `getId` as written: the last segment is taken from `Uri.parse`, so the
      path is read as a URI string. */
  function GetIdViaUri(mimeType: Option<string>, filePath: Option<string>): (r: Option<string>)
    ensures r.Some? ==> (mimeType == Some(MimeType) && filePath.Some?
      && UuidKeys.IsKeyValidUuid(r.value) && UriLastPathSegment(filePath.value) == Some(FileName(r.value)))
    ensures forall k :: (mimeType == Some(MimeType) && filePath.Some? && UuidKeys.IsKeyValidUuid(k)
      && UriLastPathSegment(filePath.value) == Some(FileName(k))) ==> r == Some(k)
  {
    if mimeType.None? || filePath.None? then None
    else if mimeType.value != MimeType then None
    else
      var r := IdOfSegment(UriLastPathSegment(filePath.value));
      assert forall k, m :: FileName(k) == FileName(m) ==> k == m by {
        forall k, m | FileName(k) == FileName(m) ensures k == m {
          assert k == FileName(k)[..|k|] && m == FileName(m)[..|m|];
        }
      }
      r
  }

  /** On the path an item with a plain key is stored under, in a plain
      directory, the URI reading names the same item as the plain one. */
  lemma UriGetIdOnPlainPath(syncDir: string, cloudDir: string, id: string)
    requires UriPlain(syncDir) && UriPlain(cloudDir) && syncDir != ""
    requires UuidKeys.IsKeyValidUuid(id) && UriPlain(id) && '/' !in id && '%' !in id
    ensures GetIdViaUri(Some(MimeType), Some(RemotePath(syncDir, cloudDir, id))) == Some(id)
    ensures GetId(Some(MimeType), Some(RemotePath(syncDir, cloudDir, id))) == Some(id)
  {
    var dir := DataSourceDirectory(syncDir, cloudDir);
    var name := FileName(id);
    assert UriPlain(dir) by {
      if IsAbsolute(cloudDir) {
        assert forall i :: 0 <= i < |dir| ==> dir[i] == if i < |syncDir| then syncDir[i] else cloudDir[i - |syncDir|];
      } else {
        UriPlainJoin(syncDir, cloudDir);
      }
    }
    assert UriPlain(FileExtension) && '/' !in FileExtension && '%' !in FileExtension;
    assert forall c :: c in name ==> c in id || c in FileExtension by {
      forall c | c in name ensures c in id || c in FileExtension {
        var i :| 0 <= i < |name| && name[i] == c;
        if i < |id| { assert name[i] == id[i]; } else { assert name[i] == FileExtension[i - |id|]; }
      }
    }
    UriLastPathSegmentOfJoin(dir, name);
    RemotePathNamesItem(syncDir, cloudDir, id);
  }

  /** A '#' ends the path: what follows it is the fragment. */
  lemma UriPathEndsAtFragment(a: string, b: string)
    requires UriPlain(a) && ':' !in b && |a| >= 2 && !(a[0] == '/' && a[1] == '/')
    ensures UriPath(a + "#" + b) == Some(a)
  {
    var p := a + "#" + b;
    assert ':' !in p;
    assert p[0] == a[0] && p[1] == a[1];
    assert p[|a|] == '#';
    var e := PathEnd(p, 0);
    assert e <= |a|;
    assert p[..e] == a;
  }

  /** A stored file's URI path, when the sync directory holds a '#'. */
  lemma UriPathOfFragmentDirectory(before: string, after: string, cloudDir: string, id: string)
    requires UriPlain(before) && |before| >= 2 && !(before[0] == '/' && before[1] == '/')
    requires ':' !in after && ':' !in cloudDir && ':' !in id
    ensures UriPath(RemotePath(before + "#" + after, cloudDir, id)) == Some(before)
  {
    var syncDir := before + "#" + after;
    var dir := DataSourceDirectory(syncDir, cloudDir);
    var rest := dir[|syncDir|..] + "/" + FileName(id);
    assert dir == syncDir + dir[|syncDir|..];
    assert ':' !in dir[|syncDir|..] by {
      assert forall i :: |syncDir| <= i < |dir| ==> dir[i] == '/' || dir[i] in cloudDir;
    }
    assert ':' !in FileName(id);
    assert RemotePath(syncDir, cloudDir, id) == before + "#" + (after + rest);
    UriPathEndsAtFragment(before, after + rest);
  }

  /** Where the two readings part: a '#' in the sync directory ends the URI's
      path inside the directory, so no file stored there names an item unless
      the directory's text before the '#' happens to end in a key file name. */
  lemma UriFragmentHidesFile(before: string, after: string, cloudDir: string, id: string)
    requires UriPlain(before) && '%' !in before && |before| >= 2 && !(before[0] == '/' && before[1] == '/')
    requires ':' !in after && ':' !in cloudDir && ':' !in id
    requires IdOfPath(before).None?
    requires UuidKeys.IsKeyValidUuid(id) && '/' !in id
    ensures var p := RemotePath(before + "#" + after, cloudDir, id);
      GetIdViaUri(Some(MimeType), Some(p)) == None && GetId(Some(MimeType), Some(p)) == Some(id)
  {
    RemotePathNamesItem(before + "#" + after, cloudDir, id);
    UriPathOfFragmentDirectory(before, after, cloudDir, id);
    LastPathSegmentChars(before, '%');
  }

  /** The sync directory "/Notes #1": its files name no item as written. */
  lemma UriHashHidesFile()
    ensures var k := seq(22, _ => 'A');
      var p := RemotePath("/Notes " + "#" + "1", "links", k);
      GetIdViaUri(Some(MimeType), Some(p)) == None && GetId(Some(MimeType), Some(p)) == Some(k)
  {
    AllAKey();
    NotesDirectory();
    NotesNamesNoItem();
    UriFragmentHidesFile("/Notes ", "1", "links", seq(22, _ => 'A'));
  }

  /** The key of 22 'A's is a valid key without ':' or '/'. */
  lemma AllAKey()
    ensures var k := seq(22, _ => 'A');
      UuidKeys.IsKeyValidUuid(k) && '/' !in k && ':' !in k
  {
  }

  /** The pieces of "/Notes #1/links" hold no ':', and the text before the
      '#' none of '?', '#' or '%'. */
  lemma NotesDirectory()
    ensures UriPlain("/Notes ") && '%' !in "/Notes " && |"/Notes "| >= 2 && "/Notes "[1] != '/'
    ensures ':' !in "1" && ':' !in "links"
  {
  }

  /** The text of "/Notes #1" before its '#' names no item. */
  lemma NotesNamesNoItem()
    ensures IdOfPath("/Notes ").None?
  {
    LastPathSegmentOfJoin("", "Notes ");
    assert "" + "/" + "Notes " == "/Notes ";
    forall k: string ensures FileName(k) != "Notes " {
      assert FileName(k)[|FileName(k)| - 1] == 'n';
    }
  }

  /** A leading "%41" decodes to 'A'. */
  lemma DecodeLeadingEscape(name: string)
    requires '%' !in name
    ensures PercentDecode("%41" + name + FileExtension) == FileName(['A'] + name)
  {
    var s := "%41" + name + FileExtension;
    assert s[0] == '%' && s[1] == '4' && s[2] == '1' && s[3..] == name + FileExtension;
    assert '%' !in FileExtension;
  }

  /** An escape such as "%41" in a file name is decoded, so in any plain
      directory the 24-character name "%41" followed by 21 'A's names the key
      of 22 'A's. */
  lemma UriDecodesEscape(dir: string)
    requires UriPlain(dir) && dir != "/"
    ensures var k := seq(22, _ => 'A');
      var p := dir + "/" + ("%41" + k[1..] + FileExtension);
      GetIdViaUri(Some(MimeType), Some(p)) == Some(k) && GetId(Some(MimeType), Some(p)) == None
  {
    var k := seq(22, _ => 'A');
    EscapedSegment(dir, k[1..]);
    assert ['A'] + k[1..] == k;
    assert UuidKeys.IsKeyValidUuid(k) && !UuidKeys.IsKeyValidUuid("%41" + k[1..]);
    assert IdOfSegment(Some(FileName(k))) == Some(k);
    assert IdOfSegment(Some(FileName("%41" + k[1..]))) == None;
  }

  lemma EscapedNamePlain(name: string)
    requires UriPlain(name) && '%' !in name && '/' !in name
    ensures var seg := "%41" + name + FileExtension;
      UriPlain(seg) && '/' !in seg && seg != "" && seg == FileName("%41" + name)
  {
  }

  /** The two readings of "dir/%41<name>.json". */
  lemma EscapedSegment(dir: string, name: string)
    requires UriPlain(dir) && dir != "/"
    requires UriPlain(name) && '%' !in name && '/' !in name
    ensures var p := dir + "/" + ("%41" + name + FileExtension);
      UriLastPathSegment(p) == Some(FileName(['A'] + name))
      && LastPathSegment(p) == Some(FileName("%41" + name))
  {
    EscapedNamePlain(name);
    UriLastPathSegmentOfJoin(dir, "%41" + name + FileExtension);
    DecodeLeadingEscape(name);
  }

  /** The Kotlin `getId` as written: its MIME guard compares the parameter with
      itself, so any non-null MIME type passes. */
  function GetIdAsWritten(mimeType: Option<string>, filePath: Option<string>): (r: Option<string>) {
    if mimeType.None? || filePath.None? then None else IdOfPath(filePath.value)
  }

  /** The two agree on JSON files; the Kotlin version also names a text file. */
  lemma KotlinGetIdAcceptsAnyMime(path: Option<string>)
    ensures GetIdAsWritten(Some(MimeType), path) == GetId(Some(MimeType), path)
    ensures var k := seq(22, _ => 'A');
      GetIdAsWritten(Some("text/plain"), Some("/" + FileName(k))) == Some(k)
      && GetId(Some("text/plain"), Some("/" + FileName(k))) == None
  {
    var k := seq(22, _ => 'A');
    LastPathSegmentOfJoin("", FileName(k));
    assert "" + "/" + FileName(k) == "/" + FileName(k);
    assert "text/plain"[0] != MimeType[0];
  }

  /** `equals`: the same remote path and length. */
  predicate JsonFileEquals(a: JsonFile, b: JsonFile) {
    a.remotePath == b.remotePath && a.length == b.length
  }

  /** `compareTo`: remote paths compared ignoring case (ASCII letters). */
  function JsonFileCompare(a: JsonFile, b: JsonFile): (r: int)
    ensures r == 0 <==> Lower(a.remotePath) == Lower(b.remotePath)
  {
    StrCompare(Lower(a.remotePath), Lower(b.remotePath))
  }

  /** Equal files compare as 0 and the order is antisymmetric; the converse
      fails, since paths differing in case compare as 0. */
  lemma JsonFileCompareConsistent(a: JsonFile, b: JsonFile)
    ensures JsonFileEquals(a, b) ==> JsonFileCompare(a, b) == 0
    ensures JsonFileCompare(a, b) == -JsonFileCompare(b, a)
    ensures JsonFileCompare(JsonFile("/A", 0, None), JsonFile("/a", 0, None)) == 0
      && !JsonFileEquals(JsonFile("/A", 0, None), JsonFile("/a", 0, None))
  {
    StrCompareAntisymmetric(Lower(a.remotePath), Lower(b.remotePath));
    assert Lower("/A") == "/a" == Lower("/a");
    assert "/A"[1] != "/a"[1];
  }

  // ---------------------------------------------------------------------------
  // Collection paths and the last-synced ETag

  /** `getDataSourceDirectory`: the sync directory followed by the collection's
      directory, with a '/' between them unless the latter starts with one. */
  function DataSourceDirectory(syncDir: string, cloudDir: string): (r: string)
    ensures |r| > |syncDir| && r[..|syncDir|] == syncDir && r[|syncDir|] == '/'
    ensures IsAbsolute(syncDir) ==> IsAbsolute(r)
  {
    if IsAbsolute(cloudDir) then syncDir + cloudDir else syncDir + "/" + cloudDir
  }

  /** A leading slash on the collection directory makes no difference. */
  lemma DirectorySlashInsensitive(syncDir: string, cloudDir: string)
    requires !IsAbsolute(cloudDir)
    ensures DataSourceDirectory(syncDir, "/" + cloudDir) == DataSourceDirectory(syncDir, cloudDir)
  {
    assert IsAbsolute("/" + cloudDir);
    assert syncDir + ("/" + cloudDir) == syncDir + "/" + cloudDir;
  }

  /** `getRemotePath`: the directory, a '/', the file name of the id. */
  function RemotePath(syncDir: string, cloudDir: string, id: string): (r: string)
    ensures |r| > |syncDir| && r[..|syncDir|] == syncDir
  {
    DataSourceDirectory(syncDir, cloudDir) + "/" + FileName(id)
  }

  /** The file an item is stored under names that item again. */
  lemma RemotePathNamesItem(syncDir: string, cloudDir: string, id: string)
    requires UuidKeys.IsKeyValidUuid(id) && '/' !in id
    ensures GetId(Some(MimeType), Some(RemotePath(syncDir, cloudDir, id))) == Some(id)
    ensures IsAbsolute(syncDir) ==> NewJsonFile(RemotePath(syncDir, cloudDir, id)).Some?
  {
    assert '/' !in FileExtension;
    LastPathSegmentOfJoin(DataSourceDirectory(syncDir, cloudDir), FileName(id));
  }

  /** In particular for every key the application generates. */
  lemma GeneratedKeyPathRoundTrip(syncDir: string, cloudDir: string, u: UuidKeys.Uuid)
    requires UuidKeys.ValidUuid(u)
    ensures var k := UuidKeys.KeyFromUuid(u);
      GetId(Some(MimeType), Some(RemotePath(syncDir, cloudDir, k))) == Some(k)
  {
    UuidKeys.KeyAlphabet(u);
    RemotePathNamesItem(syncDir, cloudDir, UuidKeys.KeyFromUuid(u));
  }

  /** The same holds for the URI reading `getId` as written applies, as long
      as neither directory holds ':', '?' or '#'. */
  lemma GeneratedKeyUriRoundTrip(syncDir: string, cloudDir: string, u: UuidKeys.Uuid)
    requires UuidKeys.ValidUuid(u) && UriPlain(syncDir) && UriPlain(cloudDir) && syncDir != ""
    ensures var k := UuidKeys.KeyFromUuid(u);
      GetIdViaUri(Some(MimeType), Some(RemotePath(syncDir, cloudDir, k))) == Some(k)
  {
    UuidKeys.KeyAlphabet(u);
    UriGetIdOnPlainPath(syncDir, cloudDir, UuidKeys.KeyFromUuid(u));
  }

  /** `isCloudDataSourceChanged`: no last-synced ETag, or a different one. */
  function IsCloudDataSourceChanged(p: Settings.Prefs, k: Kind, eTag: string): (r: bool) {
    var last := Settings.LastSyncedETag(p, k);
    last.None? || last.value != eTag
  }

  /** `updateLastSyncedETag`: the tag is stored under this collection's key. */
  function UpdateLastSyncedETag(p: Settings.Prefs, k: Kind, eTag: string): (r: Settings.Prefs)
    ensures forall key :: key != LastSyncedETagKey(k) ==> (key in r <==> key in p) && (key in r ==> r[key] == p[key])
  {
    Settings.PutString(p, LastSyncedETagKey(k), Some(eTag))
  }

  /** After storing a tag the collection counts as unchanged for exactly that
      tag, and the other collections' tags are untouched. */
  lemma LastSyncedETagRoundTrip(p: Settings.Prefs, k: Kind, eTag: string, other: string)
    ensures !IsCloudDataSourceChanged(UpdateLastSyncedETag(p, k, eTag), k, eTag)
    ensures IsCloudDataSourceChanged(UpdateLastSyncedETag(p, k, eTag), k, other) <==> other != eTag
  {
  }

  lemma LastSyncedETagOthersKept(p: Settings.Prefs, k: Kind, eTag: string, k2: Kind)
    requires k2 != k
    ensures Settings.LastSyncedETag(UpdateLastSyncedETag(p, k, eTag), k2) == Settings.LastSyncedETag(p, k2)
  {
    assert LastSyncedETagKey(k2) != LastSyncedETagKey(k) by {
      assert LastSyncedETagKey(k2)[0] != LastSyncedETagKey(k)[0];
    }
  }


  // ---------------------------------------------------------------------------
  // The remote id -> ETag map

  /** What the folder listing reports for one file. */
  datatype RemoteFile = RemoteFile(mimeType: Option<string>, remotePath: Option<string>,
                                   size: int, eTag: Option<string>)

  /** `GLOBAL_JSON_MAX_BODY_SIZE_BYTES`. */
  const JsonMaxBodySize: int := 10 * 1024

  /** The id a listed file is taken for: its `getId`, if it is small enough. */
  function Accepted(f: RemoteFile): (r: Option<string>)
    ensures r.Some? ==> UuidKeys.IsKeyValidUuid(r.value) && f.size <= JsonMaxBodySize
    ensures r.Some? <==> GetId(f.mimeType, f.remotePath).Some? && f.size <= JsonMaxBodySize
    ensures r.Some? ==> r == GetId(f.mimeType, f.remotePath)
  {
    var id := GetId(f.mimeType, f.remotePath);
    if id.Some? && f.size <= JsonMaxBodySize then id else None
  }

  /** The file is listed as item `id`: it has that id and is small enough. */
  predicate ListedAs(f: RemoteFile, id: string) {
    Accepted(f) == Some(id)
  }

  /** One step of the listing: the file's entry, if accepted, replaces any
      earlier one. */
  function Enter(m: map<string, Option<string>>, f: RemoteFile): (r: map<string, Option<string>>)
    ensures forall id :: id in r <==> id in m || ListedAs(f, id)
    ensures forall id :: ListedAs(f, id) ==> r[id] == f.eTag
    ensures forall id :: id in m && !ListedAs(f, id) ==> r[id] == m[id]
  {
    var id := Accepted(f);
    if id.Some? then m[id.value := f.eTag] else m
  }

  /** `getDataSourceMap`: the files in listing order, each accepted one
      overwriting any earlier entry for its id. */
  function DataSourceMap(files: seq<RemoteFile>): (m: map<string, Option<string>>)
    ensures forall id :: id in m ==> UuidKeys.IsKeyValidUuid(id)
  {
    if |files| == 0 then map[]
    else Enter(DataSourceMap(files[..|files| - 1]), files[|files| - 1])
  }

  /** File `i` is the last one listed as `id`. */
  predicate LastListed(files: seq<RemoteFile>, i: int, id: string) {
    0 <= i < |files| && ListedAs(files[i], id) && forall j :: i < j < |files| ==> !ListedAs(files[j], id)
  }

  /** The map holds exactly the ids some accepted file is listed as. */
  lemma {:induction false} DataSourceMapMembers(files: seq<RemoteFile>, id: string)
    ensures id in DataSourceMap(files) <==> exists i :: 0 <= i < |files| && ListedAs(files[i], id)
    decreases |files|
  {
    if |files| > 0 {
      var n := |files| - 1;
      var init := files[..n];
      DataSourceMapMembers(init, id);
      assert DataSourceMap(files) == Enter(DataSourceMap(init), files[n]);
      if id in DataSourceMap(files) {
        if !ListedAs(files[n], id) {
          var i :| 0 <= i < |init| && ListedAs(init[i], id);
          assert files[i] == init[i];
        }
      } else {
        forall i | 0 <= i < |files| ensures !ListedAs(files[i], id) {
          if i < n {
            assert files[i] == init[i];
          }
        }
      }
    }
  }

  /** An id in the map carries the ETag of the last file listed as it. */
  lemma {:induction false} DataSourceMapLastWins(files: seq<RemoteFile>, id: string)
    requires id in DataSourceMap(files)
    ensures exists i :: LastListed(files, i, id) && DataSourceMap(files)[id] == files[i].eTag
    decreases |files|
  {
    var n := |files| - 1;
    var init := files[..n];
    assert DataSourceMap(files) == Enter(DataSourceMap(init), files[n]);
    if ListedAs(files[n], id) {
      assert LastListed(files, n, id);
    } else {
      DataSourceMapLastWins(init, id);
      var i :| LastListed(init, i, id) && DataSourceMap(init)[id] == init[i].eTag;
      LastListedExtends(files, i, id);
      assert DataSourceMap(files)[id] == files[i].eTag;
    }
  }

  /** The last file listed as `id` among all but the final one stays the last
      when the final file is listed as something else. */
  lemma LastListedExtends(files: seq<RemoteFile>, i: int, id: string)
    requires |files| > 0 && LastListed(files[..|files| - 1], i, id) && !ListedAs(files[|files| - 1], id)
    ensures LastListed(files, i, id) && files[i] == files[..|files| - 1][i]
  {
    var init := files[..|files| - 1];
    forall j | i < j < |files| ensures !ListedAs(files[j], id) {
      if j < |init| {
        assert files[j] == init[j];
      }
    }
  }

  // ---------------------------------------------------------------------------
  // The server

  /** The result codes the model distinguishes. */
  datatype Code = Ok | FileNotFound | SyncConflict | SslError | HostNotAvailable | ServerError

  /** `isNetworkError`: only SSL_ERROR and HOST_NOT_AVAILABLE are retried. */
  predicate IsNetworkError(c: Code) {
    c == SslError || c == HostNotAvailable
  }

  /** `GLOBAL_RETRY_ON_NETWORK_ERROR`. */
  const RetryOnNetworkError: nat := 2

  /** `executeRemoteOperation`: the codes of successive attempts; a network
      error is retried while fewer than RetryOnNetworkError retries were made.
      The result is the code returned and the number of attempts made. */
  function Execute(attempts: seq<Code>, made: nat := 0): (r: (Code, nat))
    requires made <= RetryOnNetworkError < |attempts|
    ensures made < r.1 <= RetryOnNetworkError + 1 && r.0 == attempts[r.1 - 1]
    ensures forall i :: made <= i < r.1 - 1 ==> IsNetworkError(attempts[i])
    ensures r.1 <= RetryOnNetworkError ==> !IsNetworkError(r.0)
    decreases RetryOnNetworkError - made
  {
    if made < RetryOnNetworkError && IsNetworkError(attempts[made]) then Execute(attempts, made + 1)
    else (attempts[made], made + 1)
  }

  /** A persistent network error is given up after three attempts. */
  lemma ExecuteGivesUp(attempts: seq<Code>)
    requires |attempts| > RetryOnNetworkError
    requires forall i :: 0 <= i < |attempts| ==> IsNetworkError(attempts[i])
    ensures Execute(attempts) == (attempts[2], 3)
  {
  }

  /** A failure a reachable or unreachable server answers with. */
  datatype Failure = SslFailure | HostFailure | ServerFailure

  function FailureCode(f: Failure): (c: Code)
    ensures c != Ok && c != FileNotFound && c != SyncConflict
  {
    match f
    case SslFailure => SslError
    case HostFailure => HostNotAvailable
    case ServerFailure => ServerError
  }

  /** How the server answers, after retries: no client or no connection at all
      (the operation returns null), every request failing with one code, reads
      served but writes failing with one code, the upload itself failing
      (which the upload operation reports as SYNC_CONFLICT), or every request
      served. */
  datatype Net = Offline | Failing(failure: Failure) | FailingWrites(writeFailure: Failure) | RejectingUploads | Up

  /** Reads are answered. */
  predicate Serves(net: Net) {
    net.FailingWrites? || net == RejectingUploads || net == Up
  }

  /** One collection's folder: its ETag (None while the folder does not
      exist) and, for each file "<name>.json" in it, keyed by `name`, the
      file's ETag, JSON body, and the MIME type and byte size the folder
      listing reports for it. */
  datatype RemoteEntry = RemoteEntry(eTag: string, body: Json, mimeType: Option<string>, size: int)
  datatype Remote = Remote(dirETag: Option<string>, files: map<string, RemoteEntry>)

  /** The file `upload` writes: a `JsonFile`, so of MIME type application/json,
      whose size is the byte length of the serialised body. */
  function Written(eTag: string, body: Json, size: nat): (e: RemoteEntry)
    ensures e.eTag == eTag && e.body == body && e.mimeType == Some(MimeType) && e.size == size
  {
    RemoteEntry(eTag, body, Some(MimeType), size)
  }

  /** The folder entry `name` passes the filter of `getDataSourceMap`: a JSON
      file, named after a key of the right length, no larger than
      JsonMaxBodySize. */
  predicate Listable(name: string, e: RemoteEntry) {
    e.mimeType == Some(MimeType) && UuidKeys.IsKeyValidUuid(name) && '/' !in name && e.size <= JsonMaxBodySize
  }

  /** The record the folder listing gives for entry `name` of folder `dir`. */
  function FileRecord(dir: string, name: string, e: RemoteEntry): (f: RemoteFile)
    ensures f.remotePath == Some(dir + "/" + FileName(name)) && f.eTag == Some(e.eTag)
  {
    RemoteFile(e.mimeType, Some(dir + "/" + FileName(name)), e.size, Some(e.eTag))
  }

  /** A folder entry's record is listed as the entry's own name exactly when
      the entry passes the filter, and never as anything else. */
  lemma FileRecordListed(dir: string, name: string, e: RemoteEntry, id: string)
    requires '/' !in name
    ensures ListedAs(FileRecord(dir, name, e), id) <==> Listable(name, e) && id == name
  {
    var f := FileRecord(dir, name, e);
    assert '/' !in FileExtension;
    assert |FileName(name)| > 0 && '/' !in FileName(name);
    LastPathSegmentOfJoin(dir, FileName(name));
    var g := GetId(f.mimeType, f.remotePath);
    if g.Some? {
      assert FileName(g.value) == FileName(name);
      assert g.value == FileName(g.value)[..|g.value|] && name == FileName(name)[..|name|];
    }
  }

  /** The ids `getDataSourceMap` reports for a folder, each with its file's ETag. */
  function Listed(r: Remote): (m: map<string, string>)
    ensures forall id :: id in m <==> id in r.files && Listable(id, r.files[id])
    ensures forall id :: id in m ==> m[id] == r.files[id].eTag && UuidKeys.IsKeyValidUuid(id)
  {
    map id | id in r.files && Listable(id, r.files[id]) :: r.files[id].eTag
  }

  /** Listing the folder's records in any order, duplicates allowed, gives
      `getDataSourceMap` exactly the entries of `Listed`. */
  lemma ListedIsDataSourceMap(r: Remote, dir: string, names: seq<string>, files: seq<RemoteFile>)
    requires |files| == |names|
    requires forall i :: 0 <= i < |names| ==>
      names[i] in r.files && '/' !in names[i] && files[i] == FileRecord(dir, names[i], r.files[names[i]])
    requires forall id :: id in r.files ==> id in names
    ensures DataSourceMap(files) == map id | id in Listed(r) :: Some(Listed(r)[id])
  {
    var m := DataSourceMap(files);
    var want := map id | id in Listed(r) :: Some(Listed(r)[id]);
    forall id ensures id in m <==> id in want {
      DataSourceMapMembers(files, id);
      if id in want {
        var i :| 0 <= i < |names| && names[i] == id;
        FileRecordListed(dir, names[i], r.files[names[i]], id);
      }
      if id in m {
        var i :| 0 <= i < |files| && ListedAs(files[i], id);
        FileRecordListed(dir, names[i], r.files[names[i]], id);
      }
    }
    forall id | id in m ensures m[id] == want[id] {
      DataSourceMapLastWins(files, id);
      var i :| LastListed(files, i, id) && m[id] == files[i].eTag;
      FileRecordListed(dir, names[i], r.files[names[i]], id);
    }
    assert m == want;
  }

  /** A fetch that can find the object, report FILE_NOT_FOUND (a
      NoSuchElementException), or fail in any other way (null or an error). */
  datatype Fetch<T> = Got(value: T) | NotFound | Failed

  /** `readFile`: the ETag of the item's file. */
  function ReadFile(r: Remote, net: Net, id: string): (f: Fetch<string>)
    ensures f.Got? <==> Serves(net) && id in r.files
    ensures f.Got? ==> f.value == r.files[id].eTag
    ensures f.NotFound? <==> Serves(net) && id !in r.files
  {
    if !Serves(net) then Failed
    else if id in r.files then Got(r.files[id].eTag)
    else NotFound
  }

  /** `download`: the item read from its file under the file's ETag in the
      SYNCED state; a file that does not parse, parses to an empty item, or
      holds another id fails. */
  function Download(r: Remote, net: Net, k: Kind, id: string, now: int): (f: Fetch<Item>)
    ensures f.NotFound? <==> Serves(net) && id !in r.files
    ensures f.Got? ==> Serves(net) && id in r.files
    ensures f.Got? ==> (f.value.Id() == id && f.value.KindOf() == k && !f.value.IsEmpty()
      && f.value.State() == WithETag(r.files[id].eTag, Synced))
    ensures Serves(net) && id in r.files ==>
      var d := EntityJson.DecodeItem(k, r.files[id].body, WithETag(r.files[id].eTag, Synced), now);
      (f.Got? <==> d.Some? && !d.value.IsEmpty() && d.value.Id() == id) && (f.Got? ==> f.value == d.value)
  {
    if !Serves(net) then Failed
    else if id !in r.files then NotFound
    else
      var e := r.files[id];
      var d := EntityJson.DecodeItem(k, e.body, WithETag(e.eTag, Synced), now);
      if d.None? || d.value.IsEmpty() || d.value.Id() != id then Failed else Got(d.value)
  }

  /** The outcome of `upload`: the code and, on success, the file's new ETag. */
  datatype UploadResult = UploadResult(code: Code, eTag: Option<string>)

  /** `upload`: null without a connection or for an empty item (it has no JSON
      form); otherwise the item's JSON is written under `newETag`, which also
      becomes the folder's ETag. `size` is the byte length of the serialised
      JSON, which the caller supplies. */
  function Upload(r: Remote, net: Net, it: Item, newETag: string, size: nat): (res: (Remote, Option<UploadResult>))
    ensures res.1.None? <==> net == Offline || it.IsEmpty()
    ensures res.1.Some? && res.1.value.code == Ok <==> net == Up && !it.IsEmpty()
    ensures res.1.Some? && res.1.value.code == Ok ==>
      res.0.files == r.files[it.Id() := Written(newETag, EntityJson.EncodeItem(it).value, size)]
      && res.0.dirETag == Some(newETag) && res.1.value.eTag == Some(newETag)
    ensures !(res.1.Some? && res.1.value.code == Ok) ==> res.0 == r
    ensures (net == RejectingUploads || (net.FailingWrites? && r.dirETag.Some?)) && !it.IsEmpty() ==>
      res.1 == Some(UploadResult(SyncConflict, None))
  {
    var json := EntityJson.EncodeItem(it);
    if net.Offline? || json.None? then (r, None)
    else match net
      case Failing(f) => (r, Some(UploadResult(FailureCode(f), None)))
      case FailingWrites(f) =>
        // the parent check is a read; creating a missing parent is a write and
        // reports its own code, a failed upload proper reports SYNC_CONFLICT
        if r.dirETag.None? then (r, Some(UploadResult(FailureCode(f), None)))
        else (r, Some(UploadResult(SyncConflict, None)))
      case RejectingUploads => (r, Some(UploadResult(SyncConflict, None)))
      case Up => (Remote(Some(newETag), r.files[it.Id() := Written(newETag, json.value, size)]),
                  Some(UploadResult(Ok, Some(newETag))))
  }

  /** `delete`: FILE_NOT_FOUND counts as OK; a removal changes the folder's ETag. */
  function DeleteFile(r: Remote, net: Net, id: string, newETag: string): (res: (Remote, Option<Code>))
    ensures res.1.None? <==> net == Offline
    ensures res.1 == Some(Ok) <==> net == RejectingUploads || net == Up
    ensures res.1 == Some(Ok) ==> id !in res.0.files && res.0.files == r.files - {id}
    ensures res.1 != Some(Ok) ==> res.0 == r
  {
    match net
    case Offline => (r, None)
    case Failing(f) => (r, Some(FailureCode(f)))
    case FailingWrites(f) => (r, Some(FailureCode(f)))
    case _ =>
      if id in r.files then (Remote(Some(newETag), r.files - {id}), Some(Ok)) else (r, Some(Ok))
  }

  /** Whatever the local ETag was, uploading an encodable item and downloading
      it again gives an item `equals` to it, synced under the new ETag. */
  lemma UploadDownloadRoundTrip(r: Remote, it: Item, newETag: string, size: nat, now: int)
    requires EntityJson.Encodable(it) && !it.IsEmpty()
    ensures var r2 := Upload(r, Up, it, newETag, size).0;
      var d := Download(r2, Up, it.KindOf(), it.Id(), now);
      d.Got? && ContentEquals(d.value, it) && d.value.State() == WithETag(newETag, Synced)
  {
    var r2 := Upload(r, Up, it, newETag, size).0;
    EntityJson.ItemRoundTrip(it, WithETag(newETag, Synced), now);
    var d := EntityJson.DecodeItem(it.KindOf(), EntityJson.EncodeItem(it).value, WithETag(newETag, Synced), now).value;
    ContentEqualsKeepsEmptiness(d, it);
  }

  /** Content-equal items are empty together. */
  lemma ContentEqualsKeepsEmptiness(a: Item, b: Item)
    requires ContentEquals(a, b)
    ensures a.IsEmpty() <==> b.IsEmpty()
  {
  }

  /** `getDataSourceETag`: the folder's ETag; a missing folder is created when
      `create` is set and read again once, without creating. Creating the
      folder is a write, so it fails where writes fail. The count is the
      number of folders created. */
  function DataSourceETag(r: Remote, net: Net, create: bool, newETag: string): (res: (Remote, Option<string>, nat))
    ensures res.2 <= 1 && (res.2 == 1 ==> create && r.dirETag.None? && !net.FailingWrites?)
    ensures res.1.Some? ==> res.0.dirETag == res.1 && res.0.files == r.files
    ensures res.1.Some? <==> Serves(net) && (r.dirETag.Some? || (create && !net.FailingWrites?))
    ensures res.2 == 0 ==> res.0 == r
    decreases create
  {
    if !Serves(net) then (r, None, 0)
    else if r.dirETag.Some? then (r, r.dirETag, 0)
    else if create && !net.FailingWrites? then
      var again := DataSourceETag(r.(dirETag := Some(newETag)), net, false, newETag);
      (again.0, again.1, again.2 + 1)
    else (r, None, 0)
  }

  /** A missing folder comes back under a new ETag where the server takes
      writes, and not where writes fail: the creation is the write that fails. */
  lemma MissingFolderNeedsWrites(r: Remote, f: Failure, newETag: string)
    requires r.dirETag.None?
    ensures DataSourceETag(r, FailingWrites(f), true, newETag) == (r, None, 0)
    ensures DataSourceETag(r, Up, true, newETag) == (r.(dirETag := Some(newETag)), Some(newETag), 1)
  {
  }

  // ---------------------------------------------------------------------------
  // Single-item save and delete

  /** The sync-log result of a save: SAVED, CONFLICTED and the two errors have
      one; any other state makes the method throw. */
  function SaveLogResult(s: LocalStore.ItemState): (r: Option<SyncLog.Result>)
    ensures r == Some(SyncLog.Uploaded) <==> s == LocalStore.ItemSaved
    ensures r == Some(SyncLog.Conflict) <==> s == LocalStore.ItemConflicted
    ensures r == Some(SyncLog.Error) <==> s == LocalStore.ItemErrorLocal || s == LocalStore.ItemErrorCloud
    ensures r.None? || r.value in {SyncLog.Uploaded, SyncLog.Conflict, SyncLog.Error}
  {
    match s
    case ItemSaved => Some(SyncLog.Uploaded)
    case ItemConflicted => Some(SyncLog.Conflict)
    case ItemErrorLocal => Some(SyncLog.Error)
    case ItemErrorCloud => Some(SyncLog.Error)
    case _ => None
  }

  /** The same for a delete, with DELETED in place of SAVED. */
  function DeleteLogResult(s: LocalStore.ItemState): (r: Option<SyncLog.Result>)
    ensures r == Some(SyncLog.Deleted) <==> s == LocalStore.ItemDeleted
    ensures r == Some(SyncLog.Conflict) <==> s == LocalStore.ItemConflicted
    ensures r == Some(SyncLog.Error) <==> s == LocalStore.ItemErrorLocal || s == LocalStore.ItemErrorCloud
    ensures r.None? || r.value in {SyncLog.Deleted, SyncLog.Conflict, SyncLog.Error}
  {
    match s
    case ItemDeleted => Some(SyncLog.Deleted)
    case ItemConflicted => Some(SyncLog.Conflict)
    case ItemErrorLocal => Some(SyncLog.Error)
    case ItemErrorCloud => Some(SyncLog.Error)
    case _ => None
  }

  /** The local store, the folder and the item state a single-item operation
      emits. */
  datatype Report = Report(db: LocalStore.Db, remote: Remote, state: LocalStore.ItemState)

  /** The remote file's ETag, None when there is no file. */
  function CloudETag(r: Remote, id: string): Option<string> {
    if id in r.files then Some(r.files[id].eTag) else None
  }

  /** Whether the save uploads at all: a remote file with an ETag other than
      the local one is a conflict without upload. */
  predicate RemoteAgrees(cloudETag: Option<string>, local: Item) {
    cloudETag.None? || cloudETag == local.ETag()
  }

  /** The remote half of `saveLink`: the file's ETag is read (a missing file
      has none); an ETag other than the local one is a SYNC_CONFLICT without
      upload, otherwise the item is uploaded. None when the read fails or the
      upload returns null. */
  function Transfer(r: Remote, net: Net, it: Item, newETag: string, size: nat): (res: Option<(Remote, UploadResult)>)
    ensures !Serves(net) ==> res.None?
    ensures Serves(net) && !RemoteAgrees(CloudETag(r, it.Id()), it) ==>
      res == Some((r, UploadResult(SyncConflict, None)))
    ensures Serves(net) && RemoteAgrees(CloudETag(r, it.Id()), it) ==>
      (res.None? <==> it.IsEmpty())
      && (res.Some? ==> res.value.0 == Upload(r, net, it, newETag, size).0
                        && Some(res.value.1) == Upload(r, net, it, newETag, size).1)
  {
    var file := ReadFile(r, net, it.Id());
    if file.Failed? then None
    else
      var cloudETag := if file.Got? then Some(file.value) else None;
      if !RemoteAgrees(cloudETag, it) then Some((r, UploadResult(SyncConflict, None)))
      else
        var up := Upload(r, net, it, newETag, size);
        if up.1.None? then None else Some((up.0, up.1.value))
  }

  /** The local half of `saveLink`: the state the upload result calls for and
      the item state it maps to. None when the local update breaks a
      constraint. */
  function RecordUpload(db: LocalStore.Db, k: Kind, id: string, res: UploadResult): (r: Option<(LocalStore.Db, LocalStore.ItemState)>)
    requires LocalStore.Valid(db)
    ensures r.Some? ==> LocalStore.Valid(r.value.0) && r.value.0.log == db.log
    ensures r.Some? && r.value.1 == LocalStore.ItemSaved ==>
      res.code == Ok && res.eTag.Some?
      && LocalStore.Update(db, k, id, WithETag(res.eTag.value, Synced)) == LocalStore.Updated(r.value.0, true)
    ensures r.Some? && r.value.1 == LocalStore.ItemConflicted ==>
      res.code == SyncConflict && LocalStore.Update(db, k, id, OfState(ConflictedUpdate)) == LocalStore.Updated(r.value.0, true)
    ensures r.Some? && r.value.1 == LocalStore.ItemErrorCloud <==>
      res.code != SyncConflict && !(res.code == Ok && res.eTag.Some?)
    ensures r.Some? && r.value.1 == LocalStore.ItemErrorCloud ==> r.value.0 == db
    ensures r.Some? ==> r.value.1 in {LocalStore.ItemSaved, LocalStore.ItemConflicted,
                                      LocalStore.ItemErrorLocal, LocalStore.ItemErrorCloud}
  {
    if res.code == Ok && res.eTag.Some? then
      match LocalStore.Update(db, k, id, WithETag(res.eTag.value, Synced))
      case Updated(db2, ok) => Some((db2, if ok then LocalStore.ItemSaved else LocalStore.ItemErrorLocal))
      case UpdateConflict => None
    else if res.code == SyncConflict then
      match LocalStore.Update(db, k, id, OfState(ConflictedUpdate))
      case Updated(db2, ok) => Some((db2, if ok then LocalStore.ItemConflicted else LocalStore.ItemErrorLocal))
      case UpdateConflict => None
    else Some((db, LocalStore.ItemErrorCloud))
  }

  /** The row the log gained: for `id`, with `result`, applied. */
  predicate LoggedOnce(before: LocalStore.Db, after: LocalStore.Db, id: string, result: SyncLog.Result) {
    |after.log.rows| == |before.log.rows| + 1
    && after.log.rows[..|before.log.rows|] == before.log.rows
    && after.log.rows[|before.log.rows|].entryId == id
    && after.log.rows[|before.log.rows|].result == result
    && after.log.rows[|before.log.rows|].applied
  }

  /** `saveLink`/`saveFavorite`/`saveNote`: upload one local item unless the
      remote file has moved on, record the outcome locally, and log it as
      applied. None when the pipeline ends in an error: the item is missing,
      deleted or conflicted, the remote file cannot be read, the upload
      returns null, or the local update breaks a constraint. */
  function SaveItem(db: LocalStore.Db, r: Remote, net: Net, k: Kind, id: string,
                    now: int, newETag: string, size: nat): (res: Option<Report>)
    requires LocalStore.Valid(db)
    ensures res.Some? ==> LocalStore.Valid(res.value.db) && Serves(net)
    ensures res.Some? ==>
      id in LocalStore.TableOf(db, k).rows
      && !LocalStore.TableOf(db, k).rows[id].State().deleted
      && !LocalStore.TableOf(db, k).rows[id].State().conflicted
    ensures res.Some? ==>
      SaveLogResult(res.value.state).Some?
      && LoggedOnce(db, res.value.db, id, SaveLogResult(res.value.state).value)
    ensures res.Some? ==>
      var tr := Transfer(r, net, LocalStore.TableOf(db, k).rows[id], newETag, size);
      tr.Some? && res.value.remote == tr.value.0
      && RecordUpload(db, k, id, tr.value.1) == Some((res.value.db.(log := db.log), res.value.state))
  {
    var t := LocalStore.TableOf(db, k);
    if id !in t.rows || t.rows[id].State().deleted || t.rows[id].State().conflicted then None
    else
      var tr := Transfer(r, net, t.rows[id], newETag, size);
      if tr.None? then None
      else
        var recorded := RecordUpload(db, k, id, tr.value.1);
        if recorded.None? then None
        else
          var logged := LocalStore.LogResult(recorded.value.0, k, now, now, id,
                                             SaveLogResult(recorded.value.1).value, true);
          Some(Report(logged.value, tr.value.0, recorded.value.1))
  }

  /** A save reported SAVED uploaded the stored item under the new ETag, and
      the local row is now synced under that ETag, unchanged in content. */
  lemma SaveItemSaved(db: LocalStore.Db, r: Remote, net: Net, k: Kind, id: string, now: int, newETag: string, size: nat)
    requires LocalStore.Valid(db)
    ensures var res := SaveItem(db, r, net, k, id, now, newETag, size);
      res.Some? && res.value.state == LocalStore.ItemSaved ==>
      var it := LocalStore.TableOf(db, k).rows[id];
      var t2 := LocalStore.TableOf(res.value.db, k);
      net == Up && RemoteAgrees(CloudETag(r, id), it)
      && res.value.remote.files == r.files[id := Written(newETag, EntityJson.EncodeItem(it).value, size)]
      && id in t2.rows && ContentEquals(t2.rows[id], it)
      && t2.rows[id].State().eTag == Some(newETag) && t2.rows[id].State().synced
      && !t2.rows[id].State().conflicted && !t2.rows[id].State().deleted
  {
    var res := SaveItem(db, r, net, k, id, now, newETag, size);
    if res.Some? && res.value.state == LocalStore.ItemSaved {
      var st := WithETag(newETag, Synced);
      assert !st.conflicted && !st.deleted && st.synced;
    }
  }

  /** A save reported CONFLICTED uploaded nothing: the remote ETag differed
      from the local one or the server refused the upload, and the local row
      is now in the CONFLICTED_UPDATE state with its ETag kept. */
  lemma SaveItemConflicted(db: LocalStore.Db, r: Remote, net: Net, k: Kind, id: string, now: int, newETag: string, size: nat)
    requires LocalStore.Valid(db)
    ensures var res := SaveItem(db, r, net, k, id, now, newETag, size);
      res.Some? && res.value.state == LocalStore.ItemConflicted ==>
      var it := LocalStore.TableOf(db, k).rows[id];
      var t2 := LocalStore.TableOf(res.value.db, k);
      res.value.remote == r
      && (!RemoteAgrees(CloudETag(r, id), it) || net == RejectingUploads || (net.FailingWrites? && r.dirETag.Some?))
      && id in t2.rows && ContentEquals(t2.rows[id], it)
      && t2.rows[id].State().conflicted && !t2.rows[id].State().deleted && !t2.rows[id].State().synced
      && t2.rows[id].State().eTag == it.State().eTag
  {
    var saved := SaveItem(db, r, net, k, id, now, newETag, size);
    if saved.Some? && saved.value.state == LocalStore.ItemConflicted {
      var res := saved.value;
      var it := LocalStore.TableOf(db, k).rows[id];
      var tr := Transfer(r, net, it, newETag, size);
      var db2 := res.db.(log := db.log);
      assert LocalStore.Update(db, k, id, OfState(ConflictedUpdate)) == LocalStore.Updated(db2, true);
      assert LocalStore.TableOf(res.db, k) == LocalStore.TableOf(db2, k);
      TransferConflictReason(r, net, it, newETag, size);
    }
  }

  /** A transfer that ends in SYNC_CONFLICT uploaded nothing, and either the
      ETags disagreed or the server refused the upload. */
  lemma TransferConflictReason(r: Remote, net: Net, it: Item, newETag: string, size: nat)
    requires Transfer(r, net, it, newETag, size).Some? && Transfer(r, net, it, newETag, size).value.1.code == SyncConflict
    ensures Transfer(r, net, it, newETag, size).value.0 == r
    ensures !RemoteAgrees(CloudETag(r, it.Id()), it) || net == RejectingUploads || (net.FailingWrites? && r.dirETag.Some?)
  {
    if RemoteAgrees(CloudETag(r, it.Id()), it) {
      var up := Upload(r, net, it, newETag, size);
      assert up.1 == Some(Transfer(r, net, it, newETag, size).value.1);
    }
  }

  /** When the remote ETag differs from the local one nothing is uploaded. */
  lemma SaveItemNoUploadOnMismatch(db: LocalStore.Db, r: Remote, net: Net, k: Kind, id: string, now: int, newETag: string, size: nat)
    requires LocalStore.Valid(db) && id in LocalStore.TableOf(db, k).rows
    requires !RemoteAgrees(CloudETag(r, id), LocalStore.TableOf(db, k).rows[id])
    ensures var res := SaveItem(db, r, net, k, id, now, newETag, size);
      res.Some? ==> (res.value.remote == r
        && res.value.state in {LocalStore.ItemConflicted, LocalStore.ItemErrorLocal})
  {
  }

  /** The state `deleteLink` works from: the stored state, which must be
      deleted (None otherwise, for the IllegalStateException), or a DELETED
      state without an ETag for an item that is not stored. */
  function DeletionState(t: LocalStore.Table, id: string): (r: Option<SyncState>)
    ensures id !in t.rows ==> r == Some(OfState(Deleted))
    ensures id in t.rows ==> ((r.Some? <==> t.rows[id].State().deleted)
      && (r.Some? ==> r.value == t.rows[id].State()))
  {
    if id !in t.rows then Some(OfState(Deleted))
    else if t.rows[id].State().deleted then Some(t.rows[id].State())
    else None
  }

  /** The remote half of `deleteLink`: the code the local step acts on. A
      missing file is OK; a file whose ETag differs from a known local one is
      a SYNC_CONFLICT; otherwise the file is deleted. None when the read fails
      or the delete returns null. */
  function RemoteDelete(r: Remote, net: Net, id: string, localETag: Option<string>, newETag: string): (res: Option<(Remote, Code)>)
    ensures !Serves(net) <==> res.None?
    ensures Serves(net) && id !in r.files ==> res == Some((r, Ok))
    ensures Serves(net) && id in r.files && localETag.Some? && localETag.value != r.files[id].eTag ==>
      res == Some((r, SyncConflict))
    ensures Serves(net) && id in r.files && (localETag.None? || localETag.value == r.files[id].eTag) ==>
      res == Some((DeleteFile(r, net, id, newETag).0, DeleteFile(r, net, id, newETag).1.value))
  {
    var file := ReadFile(r, net, id);
    if file.Failed? then None
    else if file.NotFound? then Some((r, Ok))
    else if localETag.Some? && file.value != localETag.value then Some((r, SyncConflict))
    else
      var d := DeleteFile(r, net, id, newETag);
      Some((d.0, d.1.value))
  }

  /** The local half of `deleteLink`: OK deletes the row (DELETED even when
      there was none), SYNC_CONFLICT moves the state to CONFLICTED_DELETE,
      anything else is a cloud error. None when the update breaks a
      constraint. */
  function RecordDelete(db: LocalStore.Db, k: Kind, id: string, state: SyncState, code: Code): (r: Option<(LocalStore.Db, LocalStore.ItemState)>)
    requires LocalStore.Valid(db)
    ensures r.Some? ==> LocalStore.Valid(r.value.0) && r.value.0.log == db.log
    ensures code == Ok ==> r == Some((LocalStore.Delete(db, k, id).0, LocalStore.ItemDeleted))
    ensures r.Some? && r.value.1 == LocalStore.ItemConflicted ==>
      code == SyncConflict
      && LocalStore.Update(db, k, id, Transition(Some(state), ConflictedDelete)) == LocalStore.Updated(r.value.0, true)
    ensures code != Ok && code != SyncConflict ==> r == Some((db, LocalStore.ItemErrorCloud))
    ensures r.Some? ==> r.value.1 in {LocalStore.ItemDeleted, LocalStore.ItemConflicted,
                                      LocalStore.ItemErrorLocal, LocalStore.ItemErrorCloud}
  {
    if code == Ok then Some((LocalStore.Delete(db, k, id).0, LocalStore.ItemDeleted))
    else if code == SyncConflict then
      match LocalStore.Update(db, k, id, Transition(Some(state), ConflictedDelete))
      case Updated(db2, ok) => Some((db2, if ok then LocalStore.ItemConflicted else LocalStore.ItemErrorLocal))
      case UpdateConflict => None
    else Some((db, LocalStore.ItemErrorCloud))
  }

  /** `deleteLink`/`deleteFavorite`/`deleteNote`: complete a local deletion in
      the cloud and log the outcome as applied under `started`. None when the
      pipeline ends in an error: the stored item is not deleted, the remote
      file cannot be read, or the local update breaks a constraint. */
  function DeleteItem(db: LocalStore.Db, r: Remote, net: Net, k: Kind, id: string,
                      now: int, started: int, newETag: string): (res: Option<Report>)
    requires LocalStore.Valid(db)
    ensures res.Some? ==> LocalStore.Valid(res.value.db) && Serves(net)
    ensures res.Some? ==> DeletionState(LocalStore.TableOf(db, k), id).Some?
    ensures res.Some? ==>
      DeleteLogResult(res.value.state).Some?
      && LoggedOnce(db, res.value.db, id, DeleteLogResult(res.value.state).value)
    ensures res.Some? ==>
      var state := DeletionState(LocalStore.TableOf(db, k), id).value;
      var rd := RemoteDelete(r, net, id, state.eTag, newETag);
      rd.Some? && res.value.remote == rd.value.0
      && RecordDelete(db, k, id, state, rd.value.1) == Some((res.value.db.(log := db.log), res.value.state))
  {
    var state := DeletionState(LocalStore.TableOf(db, k), id);
    if state.None? then None
    else
      var rd := RemoteDelete(r, net, id, state.value.eTag, newETag);
      if rd.None? then None
      else
        var recorded := RecordDelete(db, k, id, state.value, rd.value.1);
        if recorded.None? then None
        else
          var logged := LocalStore.LogResult(recorded.value.0, k, now, started, id,
                                             DeleteLogResult(recorded.value.1).value, true);
          Some(Report(logged.value, rd.value.0, recorded.value.1))
  }

  /** A delete reported DELETED left neither a local row nor a remote file. */
  lemma DeleteItemDeleted(db: LocalStore.Db, r: Remote, net: Net, k: Kind, id: string, now: int, started: int, newETag: string)
    requires LocalStore.Valid(db)
    ensures var res := DeleteItem(db, r, net, k, id, now, started, newETag);
      res.Some? && res.value.state == LocalStore.ItemDeleted ==>
      id !in LocalStore.TableOf(res.value.db, k).rows && id !in res.value.remote.files
  {
  }

  /** A delete reported CONFLICTED removed nothing remotely: the remote file
      has an ETag other than the stored one, and the row is now in the
      CONFLICTED_DELETE state with its ETag kept. */
  lemma DeleteItemConflicted(db: LocalStore.Db, r: Remote, net: Net, k: Kind, id: string, now: int, started: int, newETag: string)
    requires LocalStore.Valid(db)
    ensures var res := DeleteItem(db, r, net, k, id, now, started, newETag);
      res.Some? && res.value.state == LocalStore.ItemConflicted ==>
      var it := LocalStore.TableOf(db, k).rows[id];
      var t2 := LocalStore.TableOf(res.value.db, k);
      res.value.remote == r && id in r.files && it.ETag().Some? && it.ETag() != Some(r.files[id].eTag)
      && id in t2.rows && t2.rows[id].State().conflicted && t2.rows[id].State().deleted
      && t2.rows[id].State().eTag == it.ETag()
  {
  }

  /** With the server answering and the remote file absent or at the stored
      ETag, deleting a deleted (or unknown) item always completes. */
  lemma DeleteItemCompletes(db: LocalStore.Db, r: Remote, k: Kind, id: string, now: int, started: int, newETag: string)
    requires LocalStore.Valid(db) && DeletionState(LocalStore.TableOf(db, k), id).Some?
    requires id !in r.files || DeletionState(LocalStore.TableOf(db, k), id).value.eTag.None?
      || DeletionState(LocalStore.TableOf(db, k), id).value.eTag == Some(r.files[id].eTag)
    ensures var res := DeleteItem(db, r, Up, k, id, now, started, newETag);
      res.Some? && res.value.state == LocalStore.ItemDeleted
  {
  }
}

=== FILE: common_utils.dfy ===
/** String and array helpers used by the queries and the UI text. */
module CommonUtils {
  import opened Wrappers

  /** `arrayAdd`: a copy of the array with one more element at the end. */
  function ArrayAdd<T>(a: seq<T>, element: T): (r: seq<T>)
    ensures |r| == |a| + 1
    ensures r[..|a|] == a && r[|a|] == element
  {
    a + [element]
  }

  /** `charRepeat`: `repeat` copies of `ch`, and the empty string when `repeat` is not positive. */
  function CharRepeat(ch: char, repeat: int): (r: string)
    ensures |r| == if repeat <= 0 then 0 else repeat
    ensures forall i :: 0 <= i < |r| ==> r[i] == ch
    decreases repeat
  {
    if repeat <= 0 then "" else [ch] + CharRepeat(ch, repeat - 1)
  }

  /** `n` copies of `s` concatenated. */
  function Copies(s: string, n: nat): string {
    if n == 0 then "" else s + Copies(s, n - 1)
  }

  /** `strRepeat`: `repeat` copies of `str` separated by `delimiter`; the empty string
      when `repeat` is not positive or `str` is null or empty; no separator when the
      delimiter is null or empty. */
  function StrRepeat(str: Option<string>, repeat: int, delimiter: Option<string>): (r: string)
    ensures r == "" <==> repeat <= 0 || str.None? || str.value == ""
  {
    if repeat <= 0 || str.None? || str.value == "" then ""
    else if delimiter.None? || delimiter.value == "" then Copies(str.value, repeat)
    else Copies(str.value + delimiter.value, repeat - 1) + str.value
  }

  /** Joins a list of strings with a separator (the shape of an SQL `?, ?, ?` list). */
  function Join(parts: seq<string>, sep: string): string {
    if |parts| == 0 then ""
    else if |parts| == 1 then parts[0]
    else parts[0] + sep + Join(parts[1..], sep)
  }

  /** `strRepeat` is the join of `repeat` copies of `str` with the delimiter (none
      when it is null or empty): the placeholder list of an SQL `IN (…)` clause has
      exactly one `str` per value. */
  lemma StrRepeatIsJoin(str: string, repeat: nat, delimiter: Option<string>)
    requires str != "" && repeat > 0
    ensures StrRepeat(Some(str), repeat, delimiter) == Join(seq(repeat, _ => str), delimiter.GetOr(""))
  {
    if delimiter.None? || delimiter.value == "" {
      CopiesIsJoin(str, repeat, "");
      assert Copies(str + "", repeat - 1) + str == Copies(str, repeat) by {
        assert str + "" == str;
        CopiesSnoc(str, repeat - 1);
      }
    } else {
      CopiesIsJoin(str, repeat, delimiter.value);
    }
  }

  lemma {:induction false} CopiesSnoc(s: string, n: nat)
    ensures Copies(s, n) + s == Copies(s, n + 1)
    decreases n
  {
    if n > 0 {
      CopiesSnoc(s, n - 1);
      assert Copies(s, n) + s == s + (Copies(s, n - 1) + s);
    }
  }

  lemma {:induction false} CopiesIsJoin(s: string, n: nat, sep: string)
    requires n > 0
    ensures Copies(s + sep, n - 1) + s == Join(seq(n, _ => s), sep)
    decreases n
  {
    if n > 1 {
      CopiesIsJoin(s, n - 1, sep);
      assert seq(n, _ => s)[1..] == seq(n - 1, _ => s);
      assert Copies(s + sep, n - 1) + s == (s + sep) + (Copies(s + sep, n - 2) + s);
    }
  }

  /** Java's `String.trim` treats every character up to U+0020 as white space. */
  predicate IsTrimmable(c: char) {
    c <= ' '
  }

  /** A string with no trimmable character at either end. */
  predicate IsTrimmed(s: string) {
    s == "" || (!IsTrimmable(s[0]) && !IsTrimmable(s[|s| - 1]))
  }

  function TrimStart(s: string): (r: string)
    ensures |r| <= |s| && r == s[|s| - |r|..]
    ensures r == "" || !IsTrimmable(r[0])
  {
    if s != "" && IsTrimmable(s[0]) then TrimStart(s[1..]) else s
  }

  function TrimEnd(s: string): (r: string)
    ensures |r| <= |s| && r == s[..|r|]
    ensures r == "" || !IsTrimmable(r[|r| - 1])
  {
    if s != "" && IsTrimmable(s[|s| - 1]) then TrimEnd(s[..|s| - 1]) else s
  }

  /** `String.trim`: removes the trimmable characters at both ends. */
  function Trim(s: string): (r: string)
    ensures IsTrimmed(r)
    ensures |r| <= |s|
    ensures IsTrimmed(s) ==> r == s
  {
    var t := TrimEnd(TrimStart(s));
    assert t == "" || t[0] == TrimStart(s)[0];
    t
  }

  /** Android's line separator. */
  const LineSeparator: char := '\n'

  /** The text before the first line separator. */
  function FirstLine(s: string): (r: string)
    ensures LineSeparator !in r
    ensures |r| <= |s| && r == s[..|r|]
    ensures |r| < |s| ==> s[|r|] == LineSeparator
  {
    if s == "" || s[0] == LineSeparator then "" else [s[0]] + FirstLine(s[1..])
  }

  /** `strFirstLine`: the trimmed first line of the trimmed input; null when the
      input is null or only white space. */
  function StrFirstLine(str: Option<string>): (r: Option<string>)
    ensures r.None? <==> str.None? || Trim(str.value) == ""
    ensures r.Some? ==> r.value != "" && IsTrimmed(r.value) && LineSeparator !in r.value
  {
    if str.None? then None
    else
      var t := Trim(str.value);
      if t == "" then None
      else
        var line := FirstLine(t);
        assert line != "" by {
          assert !IsTrimmable(t[0]);
        }
        var r := Trim(line);
        assert r != "" by {
          TrimKeepsFirst(line);
        }
        assert LineSeparator !in r by {
          TrimIsInfix(line);
        }
        Some(r)
  }

  lemma TrimKeepsFirst(s: string)
    requires s != "" && !IsTrimmable(s[0])
    ensures Trim(s) != ""
  {
    assert TrimStart(s) == s;
    TrimEndKeepsFirst(s);
  }

  lemma {:induction false} TrimEndKeepsFirst(s: string)
    requires s != "" && !IsTrimmable(s[0])
    ensures TrimEnd(s) != ""
  {
    if |s| > 1 && IsTrimmable(s[|s| - 1]) {
      TrimEndKeepsFirst(s[..|s| - 1]);
    }
  }

  lemma TrimIsInfix(s: string)
    ensures forall c :: c in Trim(s) ==> c in s
  {
    var a := TrimStart(s);
    var t := TrimEnd(a);
    forall c | c in t ensures c in s {
      var i :| 0 <= i < |t| && t[i] == c;
      assert a[i] == c;
      assert s[|s| - |a| + i] == c;
    }
  }

  /** The first line of a single trimmed line is the line itself. */
  lemma StrFirstLineOfSingleLine(s: string)
    requires s != "" && IsTrimmed(s) && LineSeparator !in s
    ensures StrFirstLine(Some(s)) == Some(s)
  {
    FirstLineWhole(s);
  }

  lemma {:induction false} FirstLineWhole(s: string)
    requires LineSeparator !in s
    ensures FirstLine(s) == s
  {
    if s != "" {
      FirstLineWhole(s[1..]);
    }
  }

  /** Taking the first line again changes nothing. */
  lemma StrFirstLineIdempotent(str: Option<string>)
    ensures StrFirstLine(StrFirstLine(str)) == StrFirstLine(str)
  {
    var r := StrFirstLine(str);
    if r.Some? {
      StrFirstLineOfSingleLine(r.value);
    }
  }
}

=== FILE: entities.dfy ===
/** The synchronised entities: tags, notes, links and favorites, with the
    normalisation their constructors apply, their `equals`, their `compareTo`
    and the keys the store and the reconciler read from them. */
module Entities {
  import opened Wrappers
  import opened SyncStates

  // ---------------------------------------------------------------------------
  // Java string ordering

  /** The UTF-16 code units a Java string holds for one character: the
      character itself below U+10000, otherwise its surrogate pair. */
  function Utf16(c: char): (u: seq<int>)
    ensures 1 <= |u| <= 2 && (|u| == 2 <==> c as int >= 0x1_0000)
    ensures |u| == 2 <==> 0xD800 <= u[0] < 0xDC00
    ensures forall i :: 0 <= i < |u| ==> 0 <= u[i] < 0x1_0000
  {
    var v := c as int;
    if v < 0x1_0000 then [v]
    else [0xD800 + (v - 0x1_0000) / 0x400, 0xDC00 + (v - 0x1_0000) % 0x400]
  }

  /** A character is recovered from its code units. */
  lemma Utf16Injective(c: char, d: char)
    requires Utf16(c) == Utf16(d)
    ensures c == d
  {
    if c as int >= 0x1_0000 {
      var x, y := c as int - 0x1_0000, d as int - 0x1_0000;
      assert x / 0x400 == y / 0x400 && x % 0x400 == y % 0x400;
      assert x == (x / 0x400) * 0x400 + x % 0x400;
      assert y == (y / 0x400) * 0x400 + y % 0x400;
    }
  }

  /** The UTF-16 code units of a string, as `String.charAt` sees them. */
  function Units(s: string): (u: seq<int>)
    ensures |u| >= |s|
  {
    if s == [] then [] else Utf16(s[0]) + Units(s[1..])
  }

  /** Different strings have different code units. */
  lemma {:induction false} UnitsInjective(a: string, b: string)
    requires Units(a) == Units(b)
    ensures a == b
    decreases |a|
  {
    if a != [] && b != [] {
      var ua, ub := Utf16(a[0]), Utf16(b[0]);
      assert Units(a)[0] == ua[0] && Units(b)[0] == ub[0];
      assert |ua| == |ub|;
      assert Units(a)[..|ua|] == ua && Units(b)[..|ub|] == ub;
      Utf16Injective(a[0], b[0]);
      assert Units(a[1..]) == Units(a)[|ua|..] && Units(b[1..]) == Units(b)[|ub|..];
      UnitsInjective(a[1..], b[1..]);
      assert a == [a[0]] + a[1..] && b == [b[0]] + b[1..];
    }
  }

  /** The units of a concatenation are the units of its parts. */
  lemma {:induction false} UnitsAppend(a: string, b: string)
    ensures Units(a + b) == Units(a) + Units(b)
    decreases |a|
  {
    if a == [] {
      assert a + b == b;
    } else {
      assert (a + b)[0] == a[0] && (a + b)[1..] == a[1..] + b;
      UnitsAppend(a[1..], b);
    }
  }

  /** `String.compareTo` on code units: the difference of the first differing
      units, or the difference of the lengths when one is a prefix of the other. */
  function UnitCompare(a: seq<int>, b: seq<int>): (r: int)
    ensures r == 0 <==> a == b
  {
    if a == [] || b == [] then |a| - |b|
    else if a[0] != b[0] then a[0] - b[0]
    else
      var r := UnitCompare(a[1..], b[1..]);
      assert a == [a[0]] + a[1..] && b == [b[0]] + b[1..];
      r
  }

  lemma {:induction false} UnitCompareAntisymmetric(a: seq<int>, b: seq<int>)
    ensures UnitCompare(a, b) == -UnitCompare(b, a)
  {
    if a != [] && b != [] && a[0] == b[0] {
      UnitCompareAntisymmetric(a[1..], b[1..]);
    }
  }

  lemma {:induction false} UnitCompareTransitive(a: seq<int>, b: seq<int>, c: seq<int>)
    requires UnitCompare(a, b) < 0 && UnitCompare(b, c) < 0
    ensures UnitCompare(a, c) < 0
  {
    if a != [] && b != [] && c != [] && a[0] == b[0] && b[0] == c[0] {
      UnitCompareTransitive(a[1..], b[1..], c[1..]);
    }
  }

  lemma {:induction false} UnitComparePrefix(a: seq<int>, b: seq<int>)
    requires |a| < |b| && a == b[..|a|]
    ensures UnitCompare(a, b) < 0
  {
    if a != [] {
      assert a[1..] == b[1..][..|a| - 1];
      UnitComparePrefix(a[1..], b[1..]);
    }
  }

  /** `String.compareTo`, which compares UTF-16 code units, so a character
      above U+FFFF sorts by its high surrogate. */
  function StrCompare(a: string, b: string): (r: int)
    ensures r == 0 <==> a == b
  {
    if Units(a) == Units(b) then
      UnitsInjective(a, b);
      0
    else UnitCompare(Units(a), Units(b))
  }

  /** Swapping the operands negates the comparison. */
  lemma StrCompareAntisymmetric(a: string, b: string)
    ensures StrCompare(a, b) == -StrCompare(b, a)
  {
    UnitCompareAntisymmetric(Units(a), Units(b));
  }

  /** The order `StrCompare(a, b) < 0` is transitive. */
  lemma StrCompareTransitive(a: string, b: string, c: string)
    requires StrCompare(a, b) < 0 && StrCompare(b, c) < 0
    ensures StrCompare(a, c) < 0
  {
    UnitCompareTransitive(Units(a), Units(b), Units(c));
  }

  /** A proper prefix comes first. */
  lemma StrComparePrefix(a: string, b: string)
    requires |a| < |b| && a == b[..|a|]
    ensures StrCompare(a, b) < 0
  {
    var rest := b[|a|..];
    assert b == a + rest;
    UnitsAppend(a, rest);
    assert |Units(rest)| >= 1;
    UnitComparePrefix(Units(a), Units(b));
  }

  /** The order is not that of code points: U+1F600 is stored as the pair
      D83D DE00, so it sorts before U+FFFF, and so does any string it starts. */
  lemma StrCompareByCodeUnit(s: string)
    ensures StrCompare(['\U{1F600}'] + s, ['\U{FFFF}']) < 0
    ensures StrCompare(['\U{E000}'], ['\U{1F600}'] + s) > 0
  {
    UnitsAppend(['\U{1F600}'], s);
    UnitsAppend(['\U{1F600}'], s);
    assert Units(['\U{1F600}']) == [0xD83D, 0xDE00];
    assert Units(['\U{FFFF}']) == [0xFFFF];
    assert Units(['\U{E000}']) == [0xE000];
  }

  /** The comparison every entity's `compareTo` uses on its sort key: null first,
      then `String.compareTo`. */
  function NullableCompare(a: Option<string>, b: Option<string>): (r: int)
    ensures a.None? && b.Some? ==> r < 0
    ensures a.Some? && b.None? ==> r > 0
    ensures a.Some? && b.Some? ==> r == StrCompare(a.value, b.value)
  {
    if a.None? && b.None? then 0
    else if a.None? then -1
    else if b.None? then 1
    else StrCompare(a.value, b.value)
  }

  /** The nullable comparison is zero exactly on equal keys and is antisymmetric. */
  lemma NullableCompareIsOrder(a: Option<string>, b: Option<string>)
    ensures NullableCompare(a, b) == 0 <==> a == b
    ensures NullableCompare(a, b) == -NullableCompare(b, a)
  {
    if a.Some? && b.Some? {
      StrCompareAntisymmetric(a.value, b.value);
    }
  }

  /** `Strings.isNullOrEmpty`. */
  predicate IsNullOrEmpty(s: Option<string>) {
    s.None? || s.value == ""
  }

  /** Maps the empty string to null, as several constructors do. */
  function EmptyToNull(s: Option<string>): (r: Option<string>)
    ensures IsNullOrEmpty(s) <==> r.None?
    ensures r.Some? ==> r == s
  {
    if IsNullOrEmpty(s) then None else s
  }

  /** Maps an empty list to null, as every constructor does for tags and notes. */
  function EmptyListToNull<T>(s: Option<seq<T>>): (r: Option<seq<T>>)
    ensures r.None? <==> s.None? || s.value == []
    ensures r.Some? ==> r == s
  {
    if s.None? || s.value == [] then None else s
  }

  // ---------------------------------------------------------------------------
  // Tag

  datatype Tag = Tag(created: int, name: Option<string>)

  /** Lower-cases an ASCII letter and leaves every other character alone. */
  function LowerChar(c: char): (r: char)
    ensures 'A' <= c <= 'Z' ==> r as int == c as int + 32
    ensures !('A' <= c <= 'Z') ==> r == c
  {
    if 'A' <= c <= 'Z' then (c as int + 32) as char else c
  }

  function Lower(s: string): (r: string)
    ensures |r| == |s|
    ensures forall i :: 0 <= i < |s| ==> r[i] == LowerChar(s[i])
  {
    seq(|s|, i requires 0 <= i < |s| => LowerChar(s[i]))
  }

  predicate IsLower(s: string) {
    forall i :: 0 <= i < |s| ==> !('A' <= s[i] <= 'Z')
  }

  /** Lower-casing is the identity on a string without capitals, and its result has none. */
  lemma LowerFixes(s: string)
    ensures IsLower(Lower(s))
    ensures IsLower(s) ==> Lower(s) == s
  {
  }

  /** The Tag constructor: an empty name becomes null, any other is lower-cased. */
  function NewTag(created: int, name: Option<string>): (t: Tag)
    ensures t.created == created
    ensures t.name.None? <==> IsNullOrEmpty(name)
    ensures t.name.Some? ==> t.name.value != "" && IsLower(t.name.value)
    ensures t.name.Some? ==> |t.name.value| == |name.value|
  {
    Tag(created, if IsNullOrEmpty(name) then None else Some(Lower(name.value)))
  }

  /** A tag as its constructor leaves it. */
  predicate TagWellFormed(t: Tag) {
    t.name.Some? ==> t.name.value != "" && IsLower(t.name.value)
  }

  /** Rebuilding a well-formed tag with its own fields gives it back. */
  lemma NewTagIdempotent(t: Tag)
    requires TagWellFormed(t)
    ensures NewTag(t.created, t.name) == t
  {
    if t.name.Some? {
      LowerFixes(t.name.value);
    }
  }

  predicate TagIsEmpty(t: Tag) {
    IsNullOrEmpty(t.name)
  }

  /** `Tag.equals`: the name alone decides, the creation time does not. */
  predicate TagEquals(a: Tag, b: Tag) {
    a.name == b.name
  }

  /** Tag `compareTo`: by name, a null name first. */
  function TagCompare(a: Tag, b: Tag): (r: int)
    ensures a.name.None? && b.name.Some? ==> r < 0
  {
    NullableCompare(a.name, b.name)
  }

  /** Tag ordering agrees with tag equality. */
  lemma TagCompareConsistent(a: Tag, b: Tag)
    ensures TagCompare(a, b) == 0 <==> TagEquals(a, b)
    ensures TagCompare(a, b) == -TagCompare(b, a)
  {
    NullableCompareIsOrder(a.name, b.name);
  }

  /** `List<Tag>.equals` under the nullable-list rule of Favorite.equals: two
      null lists are equal, a null and a non-null list are not. */
  predicate TagListEquals(a: Option<seq<Tag>>, b: Option<seq<Tag>>) {
    (a.None? && b.None?)
    || (a.Some? && b.Some? && |a.value| == |b.value|
        && forall i :: 0 <= i < |a.value| ==> TagEquals(a.value[i], b.value[i]))
  }

  // ---------------------------------------------------------------------------
  // Note, Link, Favorite

  datatype Note = Note(
    id: string,
    created: int,
    updated: int,
    note: Option<string>,
    linkId: Option<string>,
    tags: Option<seq<Tag>>,
    state: SyncState)

  datatype Link = Link(
    id: string,
    created: int,
    updated: int,
    link: Option<string>,
    name: Option<string>,
    disabled: bool,
    tags: Option<seq<Tag>>,
    notes: Option<seq<Note>>,
    state: SyncState)

  datatype Favorite = Favorite(
    id: string,
    created: int,
    updated: int,
    name: Option<string>,
    andGate: bool,
    tags: Option<seq<Tag>>,
    state: SyncState)

  /** The Note constructor: an empty link id and an empty tag list become null. */
  function NewNote(id: string, created: int, updated: int, note: Option<string>,
                   linkId: Option<string>, tags: Option<seq<Tag>>, state: SyncState): (n: Note)
    ensures n.id == id && n.created == created && n.updated == updated
    ensures n.note == note && n.state == state
    ensures n.linkId.None? <==> IsNullOrEmpty(linkId)
    ensures n.linkId.Some? ==> n.linkId == linkId
    ensures n.tags.None? <==> tags.None? || tags.value == []
    ensures n.tags.Some? ==> n.tags == tags
  {
    Note(id, created, updated, note, EmptyToNull(linkId), EmptyListToNull(tags), state)
  }

  /** The Link constructor: an empty name and empty tag or note lists become null. */
  function NewLink(id: string, created: int, updated: int, link: Option<string>,
                   name: Option<string>, disabled: bool, tags: Option<seq<Tag>>,
                   notes: Option<seq<Note>>, state: SyncState): (l: Link)
    ensures l.id == id && l.created == created && l.updated == updated
    ensures l.link == link && l.disabled == disabled && l.state == state
    ensures l.name.None? <==> IsNullOrEmpty(name)
    ensures l.name.Some? ==> l.name == name
    ensures l.tags.None? <==> tags.None? || tags.value == []
    ensures l.tags.Some? ==> l.tags == tags
    ensures l.notes.None? <==> notes.None? || notes.value == []
    ensures l.notes.Some? ==> l.notes == notes
  {
    Link(id, created, updated, link, EmptyToNull(name), disabled,
         EmptyListToNull(tags), EmptyListToNull(notes), state)
  }

  /** The Favorite constructor keeps the name as given and nulls an empty tag list. */
  function NewFavorite(id: string, created: int, updated: int, name: Option<string>,
                       andGate: bool, tags: Option<seq<Tag>>, state: SyncState): (f: Favorite)
    ensures f.id == id && f.created == created && f.updated == updated
    ensures f.name == name && f.andGate == andGate && f.state == state
    ensures f.tags.None? <==> tags.None? || tags.value == []
    ensures f.tags.Some? ==> f.tags == tags
  {
    Favorite(id, created, updated, name, andGate, EmptyListToNull(tags), state)
  }

  predicate NoteWellFormed(n: Note) {
    n.linkId != Some("") && n.tags != Some([])
  }

  predicate LinkWellFormed(l: Link) {
    l.name != Some("") && l.tags != Some([]) && l.notes != Some([])
  }

  predicate FavoriteWellFormed(f: Favorite) {
    f.tags != Some([])
  }

  /** Every constructor yields a well-formed entity, and rebuilding a well-formed
      entity from its own fields gives it back. */
  lemma ConstructorsNormalise(n: Note, l: Link, f: Favorite)
    ensures NoteWellFormed(NewNote(n.id, n.created, n.updated, n.note, n.linkId, n.tags, n.state))
    ensures LinkWellFormed(NewLink(l.id, l.created, l.updated, l.link, l.name, l.disabled, l.tags, l.notes, l.state))
    ensures FavoriteWellFormed(NewFavorite(f.id, f.created, f.updated, f.name, f.andGate, f.tags, f.state))
    ensures NoteWellFormed(n) ==> NewNote(n.id, n.created, n.updated, n.note, n.linkId, n.tags, n.state) == n
    ensures LinkWellFormed(l) ==> NewLink(l.id, l.created, l.updated, l.link, l.name, l.disabled, l.tags, l.notes, l.state) == l
    ensures FavoriteWellFormed(f) ==> NewFavorite(f.id, f.created, f.updated, f.name, f.andGate, f.tags, f.state) == f
  {
  }

  /** `isEmpty` of each entity: a note without text, a link without a URL, a
      favorite without a name or without tags. */
  predicate NoteIsEmpty(n: Note) {
    IsNullOrEmpty(n.note)
  }

  predicate LinkIsEmpty(l: Link) {
    IsNullOrEmpty(l.link)
  }

  predicate FavoriteIsEmpty(f: Favorite) {
    IsNullOrEmpty(f.name) || f.tags.None?
  }

  /** `equals` of each entity: a note by id and text, a link by id, URL and name,
      a favorite by id, name, gate and tag names. Sync state, times and (for notes
      and links) tags are ignored. */
  predicate NoteEquals(a: Note, b: Note) {
    a.id == b.id && a.note == b.note
  }

  predicate LinkEquals(a: Link, b: Link) {
    a.id == b.id && a.link == b.link && a.name == b.name
  }

  predicate FavoriteEquals(a: Favorite, b: Favorite) {
    a.id == b.id && a.name == b.name && a.andGate == b.andGate && TagListEquals(a.tags, b.tags)
  }

  /** `compareTo` of each entity: by its display key, null first. */
  function NoteCompare(a: Note, b: Note): (r: int)
    ensures r == 0 <==> a.note == b.note
  {
    NullableCompareIsOrder(a.note, b.note);
    NullableCompare(a.note, b.note)
  }

  function LinkCompare(a: Link, b: Link): (r: int)
    ensures r == 0 <==> a.link == b.link
  {
    NullableCompareIsOrder(a.link, b.link);
    NullableCompare(a.link, b.link)
  }

  function FavoriteCompare(a: Favorite, b: Favorite): (r: int)
    ensures r == 0 <==> a.name == b.name
  {
    NullableCompareIsOrder(a.name, b.name);
    NullableCompare(a.name, b.name)
  }

  /** Entities that compare unequal are never `equals`; the converse fails, since
      two different records may share a display key. */
  lemma CompareRefinesEquals(a: Link, b: Link, c: Favorite, d: Favorite, e: Note, f: Note)
    ensures LinkEquals(a, b) ==> LinkCompare(a, b) == 0
    ensures FavoriteEquals(c, d) ==> FavoriteCompare(c, d) == 0
    ensures NoteEquals(e, f) ==> NoteCompare(e, f) == 0
    ensures LinkCompare(a, b) == -LinkCompare(b, a)
  {
    NullableCompareIsOrder(a.link, b.link);
  }

  /** `Note.buildOrphaned`: the same note detached from its link, with a fresh
      CONFLICTED_UPDATE state. */
  function BuildOrphaned(n: Note): (r: Note)
    ensures r.linkId.None?
    ensures NoteEquals(r, n) && r.created == n.created && r.updated == n.updated
    ensures NoteWellFormed(r) && (n.tags != Some([]) ==> r.tags == n.tags)
    ensures r.state.rowId == -1 && r.state.eTag.None? && r.state.duplicated == 0
    ensures r.state.conflicted && !r.state.deleted && !r.state.synced
  {
    NewNote(n.id, n.created, n.updated, n.note, None, n.tags, OfState(ConflictedUpdate))
  }

  // ---------------------------------------------------------------------------
  // The three kinds behind one interface

  /** The three synchronised collections. */
  datatype Kind = LinkKind | FavoriteKind | NoteKind

  /** `CLOUD_DIRECTORY_NAME` of each kind. */
  function CloudDirectoryName(k: Kind): string {
    match k
    case LinkKind => "links"
    case FavoriteKind => "favorites"
    case NoteKind => "notes"
  }

  /** `TABLE_NAME` of each kind's entry, also the `entry` column of its sync results. */
  function TableName(k: Kind): string {
    match k
    case LinkKind => "link"
    case FavoriteKind => "favorite"
    case NoteKind => "note"
  }

  /** `SETTING_LAST_SYNCED_ETAG` of each kind. */
  function LastSyncedETagKey(k: Kind): string {
    match k
    case LinkKind => "LINKS_LAST_SYNCED_ETAG"
    case FavoriteKind => "FAVORITES_LAST_SYNCED_ETAG"
    case NoteKind => "NOTES_LAST_SYNCED_ETAG"
  }

  /** One stored record of any kind; a collection only ever holds one kind. */
  datatype Item = LinkItem(l: Link) | FavoriteItem(f: Favorite) | NoteItem(n: Note)
  {
    function KindOf(): Kind {
      match this
      case LinkItem(_) => LinkKind
      case FavoriteItem(_) => FavoriteKind
      case NoteItem(_) => NoteKind
    }

    function Id(): string {
      match this
      case LinkItem(l) => l.id
      case FavoriteItem(f) => f.id
      case NoteItem(n) => n.id
    }

    function State(): SyncState {
      match this
      case LinkItem(l) => l.state
      case FavoriteItem(f) => f.state
      case NoteItem(n) => n.state
    }

    function ETag(): Option<string> {
      State().eTag
    }

    function Tags(): Option<seq<Tag>> {
      match this
      case LinkItem(l) => l.tags
      case FavoriteItem(f) => f.tags
      case NoteItem(n) => n.tags
    }

    function Created(): int {
      match this
      case LinkItem(l) => l.created
      case FavoriteItem(f) => f.created
      case NoteItem(n) => n.created
    }

    /** The item factory's `build(item, state)`: the same record under a new state. */
    function WithState(s: SyncState): (r: Item)
      ensures r.State() == s && r.Id() == Id() && r.KindOf() == KindOf()
      ensures r.HasUniqueKey() == HasUniqueKey() && (HasUniqueKey() ==> r.DuplicatedKey() == DuplicatedKey())
      ensures r.RelatedId() == RelatedId() && r.Tags() == Tags() && r.Created() == Created()
    {
      match this
      case LinkItem(l) => LinkItem(l.(state := s))
      case FavoriteItem(f) => FavoriteItem(f.(state := s))
      case NoteItem(n) => NoteItem(n.(state := s))
    }

    predicate IsEmpty() {
      match this
      case LinkItem(l) => LinkIsEmpty(l)
      case FavoriteItem(f) => FavoriteIsEmpty(f)
      case NoteItem(n) => NoteIsEmpty(n)
    }

    /** Whether the table of this kind carries the (key, duplicated, deleted)
        uniqueness constraint; notes do not. */
    predicate HasUniqueKey() {
      !NoteItem?
    }

    /** `getDuplicatedKey`: the URL of a link, the name of a favorite. The note
        version throws and is never reached, since notes have no such key. */
    function DuplicatedKey(): Option<string>
      requires HasUniqueKey()
    {
      match this
      case LinkItem(l) => l.link
      case FavoriteItem(f) => f.name
    }

    /** `getRelatedId`: the link a note belongs to; links and favorites have none. */
    function RelatedId(): (r: Option<string>)
      ensures r.Some? ==> NoteItem?
    {
      match this
      case NoteItem(n) => n.linkId
      case _ => None
    }
  }

  /** The `equals` of the item's own kind; items of different kinds never match. */
  predicate ContentEquals(a: Item, b: Item) {
    match (a, b)
    case (LinkItem(x), LinkItem(y)) => LinkEquals(x, y)
    case (FavoriteItem(x), FavoriteItem(y)) => FavoriteEquals(x, y)
    case (NoteItem(x), NoteItem(y)) => NoteEquals(x, y)
    case _ => false
  }

  /** Content equality ignores the sync state entirely. */
  lemma ContentEqualsIgnoresState(a: Item, b: Item, s: SyncState, t: SyncState)
    ensures ContentEquals(a.WithState(s), b.WithState(t)) <==> ContentEquals(a, b)
  {
  }

  /** Content equality is an equivalence relation (reflexive and symmetric shown). */
  lemma ContentEqualsReflexiveSymmetric(a: Item, b: Item)
    ensures ContentEquals(a, a)
    ensures ContentEquals(a, b) ==> ContentEquals(b, a)
  {
  }
}

=== FILE: entity_json.dfy ===
/** The version-1 JSON documents the entities are stored as in the cloud, and
    their decoders. An empty entity encodes to null; a decoder returns None
    wherever the source catches a JSONException and returns null. */
module EntityJson {
  import opened Wrappers
  import opened SyncStates
  import opened JsonValues
  import opened Entities
  import UuidKeys

  const JsonVersion: int := 1

  // ---------------------------------------------------------------------------
  // Tags

  /** `Tag.getJsonObject`: `{"name": name}`, null for an empty tag. */
  function EncodeTag(t: Tag): (r: Option<Json>)
    ensures r.None? <==> TagIsEmpty(t)
    ensures r.Some? ==> r.value.JObj? && GetString(r.value, "name") == t.name
  {
    if TagIsEmpty(t) then None else Some(JObj(map["name" := JStr(t.name.value)]))
  }

  /** `Tag.from(JSONObject)`: the constructor applied to the "name" string; a
      missing name gives a tag with a null name. The creation time is `now`. */
  function DecodeTag(j: Json, now: int): (t: Tag)
    ensures t.created == now && TagWellFormed(t)
    ensures GetString(j, "name").None? ==> t.name.None?
  {
    NewTag(now, GetString(j, "name"))
  }

  /** The tag array of an entity: one element per tag, a JSON null for an empty one. */
  function EncodeTags(tags: Option<seq<Tag>>): (r: seq<Json>)
    ensures tags.None? ==> r == []
    ensures tags.Some? ==> |r| == |tags.value|
    ensures tags.Some? ==> forall i :: 0 <= i < |r| ==> (r[i] == JNull <==> TagIsEmpty(tags.value[i]))
  {
    if tags.None? then []
    else seq(|tags.value|, i requires 0 <= i < |tags.value| => ArrayElement(EncodeTag(tags.value[i])))
  }

  /** Decodes the tag array; fails when an element is not an object (a JSON null
      among them), since `getJSONObject(i)` throws for it. */
  function DecodeTags(items: seq<Json>, now: int): (r: Option<seq<Tag>>)
    ensures r.Some? <==> forall i :: 0 <= i < |items| ==> items[i].JObj?
    ensures r.Some? ==> |r.value| == |items|
    ensures r.Some? ==> forall i :: 0 <= i < |items| ==> r.value[i] == DecodeTag(items[i], now)
  {
    if forall i :: 0 <= i < |items| ==> items[i].JObj?
    then Some(seq(|items|, i requires 0 <= i < |items| => DecodeTag(items[i], now)))
    else None
  }

  /** The tags a decoder rebuilds: the same names, created `now`. */
  function Restamp(tags: Option<seq<Tag>>, now: int): (r: Option<seq<Tag>>)
    ensures r.None? <==> tags.None?
    ensures TagListEquals(r, tags)
  {
    if tags.None? then None
    else Some(seq(|tags.value|, i requires 0 <= i < |tags.value| => tags.value[i].(created := now)))
  }

  /** Tags that survive a round trip: every one present and as its constructor left it. */
  predicate EncodableTags(tags: Option<seq<Tag>>) {
    tags.Some? ==> forall i :: 0 <= i < |tags.value| ==>
      !TagIsEmpty(tags.value[i]) && TagWellFormed(tags.value[i])
  }

  /** A tag list round-trips up to the creation times; an empty list comes back
      as an empty array, which the constructors turn into null. */
  lemma TagsRoundTrip(tags: Option<seq<Tag>>, now: int)
    requires EncodableTags(tags)
    ensures DecodeTags(EncodeTags(tags), now).Some?
    ensures EmptyListToNull(DecodeTags(EncodeTags(tags), now)) == Restamp(EmptyListToNull(tags), now)
  {
    var enc := EncodeTags(tags);
    if tags.Some? {
      forall i | 0 <= i < |enc|
        ensures enc[i].JObj? && DecodeTag(enc[i], now) == tags.value[i].(created := now)
      {
        var t := tags.value[i];
        assert enc[i] == EncodeTag(t).value;
        NewTagIdempotent(t);
      }
      if tags.value != [] {
        assert DecodeTags(enc, now).value == Restamp(tags, now).value;
      }
    }
  }

  /** A single empty tag makes the whole list undecodable. */
  lemma EmptyTagBreaksDecoding(tags: seq<Tag>, k: nat, now: int)
    requires k < |tags| && TagIsEmpty(tags[k])
    ensures DecodeTags(EncodeTags(Some(tags)), now).None?
  {
    assert EncodeTags(Some(tags))[k] == JNull;
  }

  // ---------------------------------------------------------------------------
  // Envelopes

  /** The container `{"version": 1, <name>: body}`. */
  function Container(name: string, body: map<string, Json>): (j: Json)
    ensures name != "version" ==> GetNumber(j, "version") == Some(JsonVersion)
    ensures name != "version" ==> GetObject(j, name) == Some(JObj(body))
  {
    JObj(map["version" := JNum(JsonVersion), name := JObj(body)])
  }

  /** The body under `name`, when the version is 1 and the body's id passes
      the key check. */
  function OpenContainer(j: Json, name: string): (r: Option<(string, Json)>)
    ensures r.Some? ==> GetNumber(j, "version") == Some(JsonVersion)
    ensures r.Some? ==> UuidKeys.IsKeyValidUuid(r.value.0)
    ensures r.Some? ==> GetObject(j, name) == Some(r.value.1) && GetString(r.value.1, "id") == Some(r.value.0)
  {
    var version := GetNumber(j, "version");
    if version.None? || version.value != JsonVersion then None
    else
      var body := GetObject(j, name);
      if body.None? then None
      else
        var id := GetString(body.value, "id");
        if id.None? || !UuidKeys.IsKeyValidUuid(id.value) then None
        else Some((id.value, body.value))
  }

  // ---------------------------------------------------------------------------
  // Link

  /** `Link.getJsonObject`: a null name is written as "", the tags as an array
      (empty for none); notes and the sync state are not written. */
  function EncodeLink(l: Link): (r: Option<Json>)
    ensures r.None? <==> LinkIsEmpty(l)
  {
    if LinkIsEmpty(l) then None else Some(Container("link", LinkBody(l)))
  }

  /** The fields of a non-empty link's JSON body. */
  function LinkBody(l: Link): map<string, Json>
    requires !LinkIsEmpty(l)
  {
    map["id" := JStr(l.id), "created" := JNum(l.created), "updated" := JNum(l.updated),
        "link" := JStr(l.link.value), "name" := JStr(l.name.GetOr("")),
        "disabled" := JBool(l.disabled), "tags" := JArr(EncodeTags(l.tags))]
  }

  /** `Link.from(JSONObject, SyncState)`. */
  function DecodeLink(j: Json, state: SyncState, now: int): (r: Option<Link>)
    ensures r.Some? ==> OpenContainer(j, "link").Some? && r.value.id == OpenContainer(j, "link").value.0
    ensures r.Some? ==> r.value.state == state && r.value.notes.None? && LinkWellFormed(r.value)
  {
    var c := OpenContainer(j, "link");
    if c.None? then None
    else
      var b := c.value.1;
      var created := GetNumber(b, "created");
      var updated := GetNumber(b, "updated");
      var link := GetString(b, "link");
      var name := GetString(b, "name");
      var disabled := GetBoolean(b, "disabled");
      var tags := GetArray(b, "tags");
      if created.None? || updated.None? || link.None? || name.None? || disabled.None? || tags.None? then None
      else
        var decoded := DecodeTags(tags.value, now);
        if decoded.None? then None
        else Some(NewLink(c.value.0, created.value, updated.value, link, name, disabled.value,
                          decoded, None, state))
  }

  /** A link that can be written and read back: non-empty, keyed by a valid key,
      normalised, and with only present, lower-case tags. */
  predicate EncodableLink(l: Link) {
    !LinkIsEmpty(l) && UuidKeys.IsKeyValidUuid(l.id) && LinkWellFormed(l) && EncodableTags(l.tags)
  }

  /** Writing a link and reading it back gives the same link under the caller's
      state, without notes, with its tags restamped: `equals` to the original. */
  lemma LinkRoundTrip(l: Link, state: SyncState, now: int)
    requires EncodableLink(l)
    ensures DecodeLink(EncodeLink(l).value, state, now)
      == Some(l.(tags := Restamp(l.tags, now), notes := None, state := state))
    ensures LinkEquals(DecodeLink(EncodeLink(l).value, state, now).value, l)
  {
    LinkDecodes(l, EncodeLink(l).value, state, now);
  }

  /** The container of a link's body reads back as that link. */
  lemma LinkDecodes(l: Link, j: Json, state: SyncState, now: int)
    requires EncodableLink(l) && j == Container("link", LinkBody(l))
    ensures DecodeLink(j, state, now) == Some(l.(tags := Restamp(l.tags, now), notes := None, state := state))
  {
    TagsRoundTrip(l.tags, now);
    LinkFields(l);
    var c := OpenContainer(j, "link");
    assert c.Some? && c.value.0 == l.id && c.value.1 == JObj(LinkBody(l));
  }

  /** What each getter reads from a link's body. */
  lemma LinkFields(l: Link)
    requires !LinkIsEmpty(l)
    ensures var b := JObj(LinkBody(l));
      GetString(b, "id") == Some(l.id) && GetNumber(b, "created") == Some(l.created)
      && GetNumber(b, "updated") == Some(l.updated) && GetString(b, "link") == l.link
      && GetString(b, "name") == Some(l.name.GetOr("")) && GetBoolean(b, "disabled") == Some(l.disabled)
      && GetArray(b, "tags") == Some(EncodeTags(l.tags))
  {
  }

  // ---------------------------------------------------------------------------
  // Favorite

  /** `Favorite.getJsonObject`: name, gate and tag array. */
  function EncodeFavorite(f: Favorite): (r: Option<Json>)
    ensures r.None? <==> FavoriteIsEmpty(f)
  {
    if FavoriteIsEmpty(f) then None
    else Some(Container("favorite", map[
      "id" := JStr(f.id), "created" := JNum(f.created), "updated" := JNum(f.updated),
      "name" := JStr(f.name.value), "and_gate" := JBool(f.andGate),
      "tags" := JArr(EncodeTags(f.tags))]))
  }

  /** `Favorite.from(JSONObject, SyncState)`. */
  function DecodeFavorite(j: Json, state: SyncState, now: int): (r: Option<Favorite>)
    ensures r.Some? ==> OpenContainer(j, "favorite").Some? && r.value.id == OpenContainer(j, "favorite").value.0
    ensures r.Some? ==> r.value.state == state && FavoriteWellFormed(r.value) && r.value.name.Some?
  {
    var c := OpenContainer(j, "favorite");
    if c.None? then None
    else
      var b := c.value.1;
      var created := GetNumber(b, "created");
      var updated := GetNumber(b, "updated");
      var name := GetString(b, "name");
      var andGate := GetBoolean(b, "and_gate");
      var tags := GetArray(b, "tags");
      if created.None? || updated.None? || name.None? || andGate.None? || tags.None? then None
      else
        var decoded := DecodeTags(tags.value, now);
        if decoded.None? then None
        else Some(NewFavorite(c.value.0, created.value, updated.value, name, andGate.value, decoded, state))
  }

  predicate EncodableFavorite(f: Favorite) {
    !FavoriteIsEmpty(f) && UuidKeys.IsKeyValidUuid(f.id) && FavoriteWellFormed(f) && EncodableTags(f.tags)
  }

  /** A favorite round-trips under the caller's state with restamped tags, and
      is `equals` to the original (whose equality includes the tag names). */
  lemma FavoriteRoundTrip(f: Favorite, state: SyncState, now: int)
    requires EncodableFavorite(f)
    ensures DecodeFavorite(EncodeFavorite(f).value, state, now)
      == Some(f.(tags := Restamp(f.tags, now), state := state))
    ensures FavoriteEquals(DecodeFavorite(EncodeFavorite(f).value, state, now).value, f)
  {
    TagsRoundTrip(f.tags, now);
    var j := EncodeFavorite(f).value;
    assert OpenContainer(j, "favorite").Some?;
  }

  // ---------------------------------------------------------------------------
  // Note

  /** `Note.getJsonObject`: a null link id is written as "". */
  function EncodeNote(n: Note): (r: Option<Json>)
    ensures r.None? <==> NoteIsEmpty(n)
  {
    if NoteIsEmpty(n) then None
    else Some(Container("note", map[
      "id" := JStr(n.id), "created" := JNum(n.created), "updated" := JNum(n.updated),
      "note" := JStr(n.note.value), "link_id" := JStr(n.linkId.GetOr("")),
      "tags" := JArr(EncodeTags(n.tags))]))
  }

  /** `Note.from(JSONObject, SyncState)`. */
  function DecodeNote(j: Json, state: SyncState, now: int): (r: Option<Note>)
    ensures r.Some? ==> OpenContainer(j, "note").Some? && r.value.id == OpenContainer(j, "note").value.0
    ensures r.Some? ==> r.value.state == state && NoteWellFormed(r.value) && r.value.note.Some?
  {
    var c := OpenContainer(j, "note");
    if c.None? then None
    else
      var b := c.value.1;
      var created := GetNumber(b, "created");
      var updated := GetNumber(b, "updated");
      var note := GetString(b, "note");
      var linkId := GetString(b, "link_id");
      var tags := GetArray(b, "tags");
      if created.None? || updated.None? || note.None? || linkId.None? || tags.None? then None
      else
        var decoded := DecodeTags(tags.value, now);
        if decoded.None? then None
        else Some(NewNote(c.value.0, created.value, updated.value, note, linkId, decoded, state))
  }

  predicate EncodableNote(n: Note) {
    !NoteIsEmpty(n) && UuidKeys.IsKeyValidUuid(n.id) && NoteWellFormed(n) && EncodableTags(n.tags)
  }

  /** A note round-trips under the caller's state; a null link id survives as null. */
  lemma NoteRoundTrip(n: Note, state: SyncState, now: int)
    requires EncodableNote(n)
    ensures DecodeNote(EncodeNote(n).value, state, now)
      == Some(n.(tags := Restamp(n.tags, now), state := state))
    ensures NoteEquals(DecodeNote(EncodeNote(n).value, state, now).value, n)
  {
    TagsRoundTrip(n.tags, now);
    var j := EncodeNote(n).value;
    assert OpenContainer(j, "note").Some?;
  }

  /** A document of an unsupported version never decodes. */
  lemma VersionChecked(j: Json, state: SyncState, now: int)
    requires GetNumber(j, "version") != Some(JsonVersion)
    ensures DecodeLink(j, state, now).None?
    ensures DecodeFavorite(j, state, now).None?
    ensures DecodeNote(j, state, now).None?
  {
  }

  // ---------------------------------------------------------------------------
  // Any kind

  /** `getJsonObject` of an item of any kind. */
  function EncodeItem(it: Item): (r: Option<Json>)
    ensures r.None? <==> it.IsEmpty()
  {
    match it
    case LinkItem(l) => EncodeLink(l)
    case FavoriteItem(f) => EncodeFavorite(f)
    case NoteItem(n) => EncodeNote(n)
  }

  /** The item factory's `from(JSONObject, SyncState)` for one collection. */
  function DecodeItem(kind: Kind, j: Json, state: SyncState, now: int): (r: Option<Item>)
    ensures r.Some? ==> r.value.KindOf() == kind && r.value.State() == state
    ensures r.Some? ==> UuidKeys.IsKeyValidUuid(r.value.Id())
  {
    match kind
    case LinkKind => (var l := DecodeLink(j, state, now); if l.Some? then Some(LinkItem(l.value)) else None)
    case FavoriteKind => (var f := DecodeFavorite(j, state, now); if f.Some? then Some(FavoriteItem(f.value)) else None)
    case NoteKind => (var n := DecodeNote(j, state, now); if n.Some? then Some(NoteItem(n.value)) else None)
  }

  predicate Encodable(it: Item) {
    match it
    case LinkItem(l) => EncodableLink(l)
    case FavoriteItem(f) => EncodableFavorite(f)
    case NoteItem(n) => EncodableNote(n)
  }

  /** Any encodable item decodes back to an item of its kind that is `equals`
      to it, with the caller's state. */
  lemma ItemRoundTrip(it: Item, state: SyncState, now: int)
    requires Encodable(it)
    ensures DecodeItem(it.KindOf(), EncodeItem(it).value, state, now).Some?
    ensures var d := DecodeItem(it.KindOf(), EncodeItem(it).value, state, now).value;
      ContentEquals(d, it) && d.State() == state && d.Id() == it.Id()
  {
    match it
    case LinkItem(l) => LinkRoundTrip(l, state, now);
    case FavoriteItem(f) => FavoriteRoundTrip(f, state, now);
    case NoteItem(n) => NoteRoundTrip(n, state, now);
  }
}

=== FILE: json_values.dfy ===
/** An abstract JSON value and the org.json accessors the entity codecs use.
    Every accessor returns None where org.json throws a JSONException. */
module JsonValues {
  import opened Wrappers

  datatype Json =
    | JNull
    | JBool(b: bool)
    | JNum(n: int)
    | JStr(s: string)
    | JArr(items: seq<Json>)
    | JObj(fields: map<string, Json>)

  /** `JSONArray.put`: a null element is kept as a JSON null. */
  function ArrayElement(value: Option<Json>): (r: Json)
    ensures r == JNull <==> value.None? || value.value == JNull
  {
    if value.Some? then value.value else JNull
  }

  function GetField(j: Json, key: string): (r: Option<Json>)
    ensures r.Some? <==> j.JObj? && key in j.fields && j.fields[key] != JNull
    ensures r.Some? ==> r.value == j.fields[key]
  {
    if j.JObj? && key in j.fields && j.fields[key] != JNull then Some(j.fields[key]) else None
  }

  /** `getInt` / `getLong` on a numeric field. */
  function GetNumber(j: Json, key: string): (r: Option<int>)
    ensures r.Some? <==> GetField(j, key).Some? && GetField(j, key).value.JNum?
    ensures r.Some? ==> j.fields[key] == JNum(r.value)
  {
    var f := GetField(j, key);
    if f.Some? && f.value.JNum? then Some(f.value.n) else None
  }

  function GetString(j: Json, key: string): (r: Option<string>)
    ensures r.Some? <==> GetField(j, key).Some? && GetField(j, key).value.JStr?
    ensures r.Some? ==> j.fields[key] == JStr(r.value)
  {
    var f := GetField(j, key);
    if f.Some? && f.value.JStr? then Some(f.value.s) else None
  }

  function GetBoolean(j: Json, key: string): (r: Option<bool>)
    ensures r.Some? <==> GetField(j, key).Some? && GetField(j, key).value.JBool?
    ensures r.Some? ==> j.fields[key] == JBool(r.value)
  {
    var f := GetField(j, key);
    if f.Some? && f.value.JBool? then Some(f.value.b) else None
  }

  function GetArray(j: Json, key: string): (r: Option<seq<Json>>)
    ensures r.Some? <==> GetField(j, key).Some? && GetField(j, key).value.JArr?
    ensures r.Some? ==> j.fields[key] == JArr(r.value)
  {
    var f := GetField(j, key);
    if f.Some? && f.value.JArr? then Some(f.value.items) else None
  }

  function GetObject(j: Json, key: string): (r: Option<Json>)
    ensures r.Some? <==> GetField(j, key).Some? && GetField(j, key).value.JObj?
    ensures r.Some? ==> r.value.JObj? && j.fields[key] == r.value
  {
    var f := GetField(j, key);
    if f.Some? && f.value.JObj? then f else None
  }
}

=== FILE: local_store.dfy ===
/** The local store behind the content provider: one table per collection keyed
    by entry id, the tag tables, and the sync log, with the constraints of the
    database schema checked on every write. A write that breaks a constraint is
    rolled back and reported as a constraint failure. */
module LocalStore {
  import opened Wrappers
  import opened SyncStates
  import opened Entities
  import SyncLog

  // ---------------------------------------------------------------------------
  // Tables and constraints

  /** One collection's table: the rows by entry id and the AUTOINCREMENT counter.
      A stored item's state carries its row id. */
  datatype Table = Table(rows: map<string, Item>, lastRowId: int)

  /** A row of an item–tag table: which collection, the item's row, the tag's row. */
  datatype TagRef = TagRef(kind: Kind, itemRowId: int, tagId: int)

  /** The tag table (row ids of the named tags) and the three item–tag tables. */
  datatype TagTable = TagTable(names: map<string, int>, lastTagId: int, refs: set<TagRef>)

  datatype Db = Db(links: Table, favorites: Table, notes: Table, tags: TagTable, log: SyncLog.Log)

  function TableOf(db: Db, k: Kind): Table {
    match k
    case LinkKind => db.links
    case FavoriteKind => db.favorites
    case NoteKind => db.notes
  }

  function WithTable(db: Db, k: Kind, t: Table): (r: Db)
    ensures TableOf(r, k) == t
    ensures forall k2 :: k2 != k ==> TableOf(r, k2) == TableOf(db, k2)
    ensures r.tags == db.tags && r.log == db.log
  {
    match k
    case LinkKind => db.(links := t)
    case FavoriteKind => db.(favorites := t)
    case NoteKind => db.(notes := t)
  }

  /** The NOT NULL content column of each table: the link's URL, the favorite's
      name, the note's text. */
  predicate KeyPresent(it: Item) {
    match it
    case LinkItem(l) => l.link.Some?
    case FavoriteItem(f) => f.name.Some?
    case NoteItem(n) => n.note.Some?
  }

  /** Two rows the UNIQUE (key, duplicated, deleted) constraint of the link and
      favorite tables cannot hold together. Notes carry no such constraint. */
  predicate Clash(a: Item, b: Item) {
    a.HasUniqueKey() && b.HasUniqueKey() && a.KindOf() == b.KindOf()
    && a.DuplicatedKey() == b.DuplicatedKey()
    && a.State().duplicated == b.State().duplicated
    && a.State().deleted == b.State().deleted
  }

  /** The note table's foreign key: a link id is null or names a stored link. */
  predicate LinkExists(db: Db, linkId: Option<string>) {
    linkId.None? || linkId.value in db.links.rows
  }

  /** Whether writing `it` as the row `id` of table `k` keeps every constraint. */
  predicate RowFits(db: Db, k: Kind, id: string, it: Item) {
    KeyPresent(it) && it.KindOf() == k && it.Id() == id
    && (forall o :: o in TableOf(db, k).rows && o != id ==> !Clash(it, TableOf(db, k).rows[o]))
    && (k == NoteKind ==> LinkExists(db, it.RelatedId()))
  }

  predicate TableValid(t: Table, k: Kind) {
    t.lastRowId >= 0
    && (forall id :: id in t.rows ==>
          t.rows[id].Id() == id && t.rows[id].KindOf() == k && KeyPresent(t.rows[id])
          && 0 < t.rows[id].State().rowId <= t.lastRowId)
    && (forall a, b :: a in t.rows && b in t.rows && a != b ==>
          t.rows[a].State().rowId != t.rows[b].State().rowId && !Clash(t.rows[a], t.rows[b]))
  }

  predicate TagsValid(tt: TagTable) {
    tt.lastTagId >= 0
    && (forall n :: n in tt.names ==> 0 < tt.names[n] <= tt.lastTagId)
    && (forall n, m :: n in tt.names && m in tt.names && n != m ==> tt.names[n] != tt.names[m])
    && (forall r :: r in tt.refs ==> 0 < r.tagId <= tt.lastTagId)
  }

  /** Every schema constraint: row ids, NOT NULL keys, the uniqueness constraints,
      the note–link foreign key, the tag table, the sync log. */
  predicate Valid(db: Db) {
    TableValid(db.links, LinkKind) && TableValid(db.favorites, FavoriteKind)
    && TableValid(db.notes, NoteKind) && TagsValid(db.tags) && SyncLog.Valid(db.log)
    && (forall id :: id in db.notes.rows ==> LinkExists(db, db.notes.rows[id].RelatedId()))
    && (forall ref :: ref in db.tags.refs ==> 0 < ref.itemRowId <= TableOf(db, ref.kind).lastRowId)
  }

  /** Each table of a valid store meets the row-level constraints. */
  lemma ValidTable(db: Db, k: Kind)
    requires Valid(db)
    ensures TableValid(TableOf(db, k), k)
  {
  }

  const EmptyDb: Db := Db(Table(map[], 0), Table(map[], 0), Table(map[], 0),
                          TagTable(map[], 0, {}), SyncLog.EmptyLog)

  lemma EmptyDbValid()
    ensures Valid(EmptyDb)
  {
  }

  /** The row-level constraints of a table hold after writing a fitting row. */
  lemma PutKeepsTableValid(db: Db, k: Kind, id: string, it: Item, lastRowId: int)
    requires TableValid(TableOf(db, k), k) && RowFits(db, k, id, it)
    requires lastRowId >= TableOf(db, k).lastRowId && 0 < it.State().rowId <= lastRowId
    requires forall o :: o in TableOf(db, k).rows && o != id ==>
      TableOf(db, k).rows[o].State().rowId != it.State().rowId
    ensures TableValid(Table(TableOf(db, k).rows[id := it], lastRowId), k)
  {
    var t := TableOf(db, k);
    var rows := t.rows[id := it];
    forall a, b | a in rows && b in rows && a != b
      ensures rows[a].State().rowId != rows[b].State().rowId && !Clash(rows[a], rows[b])
    {
      if a == id {
        assert !Clash(it, t.rows[b]);
      } else if b == id {
        assert !Clash(it, t.rows[a]);
        assert Clash(rows[a], rows[b]) == Clash(rows[b], rows[a]);
      }
    }
  }

  // ---------------------------------------------------------------------------
  // Provider helpers

  /** `queryRowId` on an entity table: 0 for an empty id, otherwise the row id of
      the row with that entry id, or 0 when there is none. */
  function QueryRowId(t: Table, id: string): (r: int)
    requires TableValid(t, LinkKind) || TableValid(t, FavoriteKind) || TableValid(t, NoteKind)
    ensures r >= 0
    ensures r > 0 <==> id != "" && id in t.rows
    ensures r > 0 ==> r == t.rows[id].State().rowId
  {
    if id == "" || id !in t.rows then 0 else t.rows[id].State().rowId
  }

  /** The SQL limit clause a query uri's `limit` and `offset` parameters become:
      "offset,limit" with both, "limit" alone, none without a limit. */
  function LimitClause(limit: Option<string>, offset: Option<string>): (r: Option<string>)
    ensures r.Some? <==> limit.Some?
  {
    if limit.None? then None
    else if offset.Some? then Some(offset.value + "," + limit.value)
    else Some(limit.value)
  }

  /** How SQLite reads "a,b": the text before the first comma is the offset. */
  function ParseLimitClause(c: string): (r: (Option<string>, string))
  {
    if ',' !in c then (None, c)
    else
      var i := FirstComma(c);
      (Some(c[..i]), c[i + 1..])
  }

  function FirstComma(c: string): (i: nat)
    requires ',' in c
    ensures i < |c| && c[i] == ',' && ',' !in c[..i]
  {
    if c[0] == ',' then 0
    else
      assert ',' in c[1..] by {
        var j :| 0 <= j < |c| && c[j] == ',';
        assert c[1..][j - 1] == ',';
      }
      var i := 1 + FirstComma(c[1..]);
      assert c[..i] == [c[0]] + c[1..][..i - 1];
      i
  }

  /** A clause built from numeric parameters reads back as the same limit and offset. */
  lemma {:induction false} LimitClauseRoundTrip(limit: string, offset: Option<string>)
    requires ',' !in limit
    requires offset.Some? ==> ',' !in offset.value
    ensures ParseLimitClause(LimitClause(Some(limit), offset).value) == (offset, limit)
  {
    if offset.Some? {
      var c := offset.value + "," + limit;
      assert c[|offset.value|] == ',';
      FirstCommaAt(c, |offset.value|);
      assert c[..|offset.value|] == offset.value;
      assert c[|offset.value| + 1..] == limit;
    }
  }

  lemma {:induction false} FirstCommaAt(c: string, i: nat)
    requires i < |c| && c[i] == ',' && ',' !in c[..i]
    ensures ',' in c && FirstComma(c) == i
  {
    if i > 0 {
      assert c[0] == c[..i][0];
      assert c[1..][..i - 1] == c[..i][1..];
      assert c[1..][i - 1] == ',';
      FirstCommaAt(c[1..], i - 1);
    }
  }

  /** `GLOBAL_QUERY_CHUNK_SIZE`. */
  const ChunkSize: nat := 20

  /** The rows a query with limit `limit` and offset `offset` returns. */
  function Window<T>(s: seq<T>, offset: nat, limit: nat): (r: seq<T>)
    ensures |r| <= limit
    ensures offset <= |s| ==> r == s[offset..if offset + limit <= |s| then offset + limit else |s|]
  {
    if offset >= |s| then [] else s[offset..if offset + limit <= |s| then offset + limit else |s|]
  }

  /** The chunks 0 .. `count` - 1 of a query, concatenated in order. */
  function Chunks<T>(s: seq<T>, count: nat): seq<T> {
    if count == 0 then [] else Chunks(s, count - 1) + Window(s, (count - 1) * ChunkSize, ChunkSize)
  }

  lemma {:induction false} ChunksPrefix<T>(s: seq<T>, count: nat)
    ensures Chunks(s, count) == s[..if count * ChunkSize <= |s| then count * ChunkSize else |s|]
  {
    if count > 0 {
      ChunksPrefix(s, count - 1);
    }
  }

  /** `getByChunk`: the chunks 0 .. numRows / chunk size, each of chunk-size rows
      at offset chunk * chunk size, deliver every row of a query whose result has
      at most `numRows` rows, once and in order. The count is taken over the whole
      table, so it bounds any filtered query. */
  lemma ByChunkCoversQuery<T>(s: seq<T>, numRows: nat)
    requires |s| <= numRows
    ensures Chunks(s, numRows / ChunkSize + 1) == s
  {
    ChunksPrefix(s, numRows / ChunkSize + 1);
  }

  // ---------------------------------------------------------------------------
  // Tags

  /** `appendTag`: reuses the tag row with this name (a null or empty name is
      never looked up) or inserts one, then adds the item–tag reference. None is
      the constraint failure: a second empty-named tag, or a reference the item
      already has. The tag's transaction is then rolled back. */
  function AppendTag(tt: TagTable, k: Kind, itemRowId: int, name: Option<string>): (r: Option<TagTable>)
    requires TagsValid(tt)
    ensures r.None? <==>
      (name == Some("") && "" in tt.names)
      || (name.Some? && name.value != "" && name.value in tt.names
          && TagRef(k, itemRowId, tt.names[name.value]) in tt.refs)
    ensures r.Some? ==> TagsValid(r.value) && tt.refs <= r.value.refs
    ensures r.Some? ==> forall n :: n in tt.names ==> n in r.value.names && r.value.names[n] == tt.names[n]
    ensures r.Some? && name.Some? ==>
      name.value in r.value.names && TagRef(k, itemRowId, r.value.names[name.value]) in r.value.refs
  {
    var reused := name.Some? && name.value != "" && name.value in tt.names;
    if !reused && name.Some? && name.value in tt.names then None
    else
      var tagId := if reused then tt.names[name.value] else tt.lastTagId + 1;
      var names := if !reused && name.Some? then tt.names[name.value := tagId] else tt.names;
      var ref := TagRef(k, itemRowId, tagId);
      if ref in tt.refs then None
      else Some(TagTable(names, if reused then tt.lastTagId else tagId, tt.refs + {ref}))
  }

  /** Appends the tags in order and stops at the first failure; the count says
      how many were stored. */
  function SaveTagList(tt: TagTable, k: Kind, itemRowId: int, tags: seq<Tag>): (r: (TagTable, nat))
    requires TagsValid(tt)
    ensures TagsValid(r.0) && r.1 <= |tags| && tt.refs <= r.0.refs
    ensures forall ref :: ref in r.0.refs - tt.refs ==> ref.kind == k && ref.itemRowId == itemRowId
    decreases |tags|
  {
    if tags == [] then (tt, 0)
    else
      match AppendTag(tt, k, itemRowId, tags[0].name)
      case None => (tt, 0)
      case Some(tt2) =>
        var (tt3, n) := SaveTagList(tt2, k, itemRowId, tags[1..]);
        (tt3, n + 1)
  }

  /** `saveTags`: false for a row id that is not positive, true without tags,
      otherwise whether every tag was stored. The stored tags are returned too. */
  function SaveTags(tt: TagTable, k: Kind, itemRowId: int, tags: Option<seq<Tag>>)
    : (r: (TagTable, bool, Option<seq<Tag>>))
    requires TagsValid(tt)
    ensures TagsValid(r.0) && tt.refs <= r.0.refs
    ensures forall ref :: ref in r.0.refs - tt.refs ==> ref.kind == k && ref.itemRowId == itemRowId
    ensures r.1 ==> r.2 == tags
    ensures itemRowId > 0 && tags.None? ==> r.1
  {
    if itemRowId <= 0 then (tt, false, None)
    else if tags.None? then (tt, true, None)
    else
      var (tt2, n) := SaveTagList(tt, k, itemRowId, tags.value);
      assert tags.value[..|tags.value|] == tags.value;
      (tt2, n == |tags.value|, Some(tags.value[..n]))
  }

  /** No two tags of the list carry the same non-null name. */
  predicate DistinctNames(tags: seq<Tag>) {
    forall i, j :: 0 <= i < j < |tags| && tags[i].name.Some? ==> tags[i].name != tags[j].name
  }

  predicate NoEmptyNames(tags: seq<Tag>) {
    forall i :: 0 <= i < |tags| ==> tags[i].name != Some("")
  }

  predicate Unreferenced(tt: TagTable, k: Kind, itemRowId: int) {
    forall ref :: ref in tt.refs ==> !(ref.kind == k && ref.itemRowId == itemRowId)
  }

  /** The invariant of a tag list being appended for one item: the names already
      appended are exactly those whose tag the item references. */
  predicate SeenTags(tt: TagTable, k: Kind, itemRowId: int, seen: set<string>) {
    seen <= tt.names.Keys
    && (forall n :: n in seen ==> TagRef(k, itemRowId, tt.names[n]) in tt.refs)
    && (forall ref, n :: (ref in tt.refs && ref.kind == k && ref.itemRowId == itemRowId
          && n in tt.names && tt.names[n] == ref.tagId) ==> n in seen)
  }

  /** No name repeats within the list, and none was seen before it. */
  predicate FreshNames(tags: seq<Tag>, seen: set<string>) {
    DistinctNames(tags) && (forall i :: 0 <= i < |tags| && tags[i].name.Some? ==> tags[i].name.value !in seen)
  }

  lemma FreshNamesCons(tags: seq<Tag>, seen: set<string>)
    requires tags != []
    ensures var name := tags[0].name;
      FreshNames(tags, seen) <==>
        !(name.Some? && name.value in seen)
        && FreshNames(tags[1..], if name.Some? then seen + {name.value} else seen)
  {
    var name := tags[0].name;
    var rest := tags[1..];
    var seen2 := if name.Some? then seen + {name.value} else seen;
    if FreshNames(tags, seen) {
      forall i | 0 <= i < |rest| && rest[i].name.Some? ensures rest[i].name.value !in seen2 {
        assert rest[i] == tags[i + 1];
      }
      forall i, j | 0 <= i < j < |rest| && rest[i].name.Some? ensures rest[i].name != rest[j].name {
        assert rest[i] == tags[i + 1] && rest[j] == tags[j + 1];
      }
    }
    if !(name.Some? && name.value in seen) && FreshNames(rest, seen2) {
      forall i, j | 0 <= i < j < |tags| && tags[i].name.Some? ensures tags[i].name != tags[j].name {
        assert tags[j] == rest[j - 1];
        if i > 0 { assert tags[i] == rest[i - 1]; }
      }
      forall i | 0 <= i < |tags| && tags[i].name.Some? ensures tags[i].name.value !in seen {
        if i > 0 { assert tags[i] == rest[i - 1]; }
      }
    }
  }

  /** Appending a name not seen yet succeeds and keeps the invariant; a seen one fails. */
  lemma AppendTagSeen(tt: TagTable, k: Kind, itemRowId: int, name: Option<string>, seen: set<string>)
    requires TagsValid(tt) && SeenTags(tt, k, itemRowId, seen) && name != Some("")
    ensures name.Some? && name.value in seen ==> AppendTag(tt, k, itemRowId, name).None?
    ensures !(name.Some? && name.value in seen) ==>
      AppendTag(tt, k, itemRowId, name).Some?
      && SeenTags(AppendTag(tt, k, itemRowId, name).value, k, itemRowId,
                  if name.Some? then seen + {name.value} else seen)
  {
    if !(name.Some? && name.value in seen) {
      if name.Some? && name.value in tt.names {
        assert TagRef(k, itemRowId, tt.names[name.value]) !in tt.refs;
      }
      var tt2 := AppendTag(tt, k, itemRowId, name).value;
      var seen2 := if name.Some? then seen + {name.value} else seen;
      forall ref, n | ref in tt2.refs && ref.kind == k && ref.itemRowId == itemRowId
          && n in tt2.names && tt2.names[n] == ref.tagId
        ensures n in seen2
      {
        if ref in tt.refs && n !in tt.names {
          assert ref.tagId <= tt.lastTagId;
        }
      }
    }
  }

  lemma {:induction false} SaveTagListSeen(tt: TagTable, k: Kind, itemRowId: int, tags: seq<Tag>, seen: set<string>)
    requires TagsValid(tt) && NoEmptyNames(tags) && SeenTags(tt, k, itemRowId, seen)
    ensures SaveTagList(tt, k, itemRowId, tags).1 == |tags| <==> FreshNames(tags, seen)
    decreases |tags|
  {
    if tags != [] {
      var name := tags[0].name;
      var rest := tags[1..];
      var seen2 := if name.Some? then seen + {name.value} else seen;
      FreshNamesCons(tags, seen);
      AppendTagSeen(tt, k, itemRowId, name, seen);
      if !(name.Some? && name.value in seen) {
        assert NoEmptyNames(rest) by {
          forall i | 0 <= i < |rest| ensures rest[i].name != Some("") { assert rest[i] == tags[i + 1]; }
        }
        SaveTagListSeen(AppendTag(tt, k, itemRowId, name).value, k, itemRowId, rest, seen2);
      }
    }
  }

  /** Storing the tags of an item that references no tag yet succeeds exactly
      when no name occurs twice: a repeated name reuses its tag row, and the
      second reference breaks the uniqueness of item–tag pairs. */
  lemma SaveTagsSucceedsIffDistinct(tt: TagTable, k: Kind, itemRowId: int, tags: seq<Tag>)
    requires TagsValid(tt) && NoEmptyNames(tags) && Unreferenced(tt, k, itemRowId)
    requires itemRowId > 0
    ensures SaveTags(tt, k, itemRowId, Some(tags)).1 <==> DistinctNames(tags)
  {
    SaveTagListSeen(tt, k, itemRowId, tags, {});
    assert FreshNames(tags, {}) <==> DistinctNames(tags);
  }

  lemma SaveTagsOutcome(tt: TagTable, k: Kind, itemRowId: int, tags: Option<seq<Tag>>)
    requires TagsValid(tt) && Unreferenced(tt, k, itemRowId) && itemRowId > 0
    ensures tags.Some? && NoEmptyNames(tags.value) ==>
      (SaveTags(tt, k, itemRowId, tags).1 <==> DistinctNames(tags.value))
  {
    if tags.Some? && NoEmptyNames(tags.value) {
      SaveTagsSucceedsIffDistinct(tt, k, itemRowId, tags.value);
    }
  }

  /** `deleteTagReferences`: drops every reference of one item. */
  function DeleteTagRefs(tt: TagTable, k: Kind, itemRowId: int): (r: TagTable)
    requires TagsValid(tt)
    ensures TagsValid(r) && Unreferenced(r, k, itemRowId)
    ensures r.names == tt.names && r.lastTagId == tt.lastTagId
    ensures forall ref :: ref in r.refs <==> ref in tt.refs && !(ref.kind == k && ref.itemRowId == itemRowId)
  {
    tt.(refs := set ref | ref in tt.refs && !(ref.kind == k && ref.itemRowId == itemRowId))
  }

  // ---------------------------------------------------------------------------
  // Upsert

  /** The row an upsert writes: the item's own columns, its state's columns
      merged over the stored row's (over NULLs on insert, under a new row id),
      `created` only when positive (a missing one reads as 0), and the given
      tags. A link's notes live in the note table, not in its row. */
  function StoredRow(it: Item, prior: Option<Item>, newRowId: int, tags: Option<seq<Tag>>): (r: Item)
    ensures r.Id() == it.Id() && r.KindOf() == it.KindOf() && r.RelatedId() == it.RelatedId()
    ensures r.Tags() == tags && KeyPresent(r) == KeyPresent(it)
    ensures it.HasUniqueKey() ==> r.DuplicatedKey() == it.DuplicatedKey()
    ensures tags == it.Tags() ==> ContentEquals(r, it)
    ensures r.State() == ApplyValues(if prior.Some? then prior.value.State() else Default.(rowId := newRowId),
                                     GetContentValues(it.State()))
    ensures r.Created() == (if it.Created() > 0 then it.Created() else if prior.Some? then prior.value.Created() else 0)
  {
    var st := ApplyValues(if prior.Some? then prior.value.State() else Default.(rowId := newRowId),
                          GetContentValues(it.State()));
    var created := if it.Created() > 0 then it.Created() else if prior.Some? then prior.value.Created() else 0;
    match it
    case LinkItem(l) => LinkItem(l.(created := created, tags := tags, notes := None, state := st))
    case FavoriteItem(f) => FavoriteItem(f.(created := created, tags := tags, state := st))
    case NoteItem(n) => NoteItem(n.(created := created, tags := tags, state := st))
  }

  /** The row `save` would write for `it`: over the row with its entry id when
      `queryRowId` finds one, otherwise as a new row. */
  function Written(db: Db, it: Item): (r: Item)
    requires Valid(db)
  {
    var t := TableOf(db, it.KindOf());
    var prior := if QueryRowId(t, it.Id()) > 0 then Some(t.rows[it.Id()]) else None;
    StoredRow(it, prior, t.lastRowId + 1, it.Tags())
  }

  /** Whether `save` passes the schema: a new row's entry id must be unused
      (only an empty id can reach an existing one), and the written row must fit. */
  predicate SaveFits(db: Db, it: Item)
    requires Valid(db)
  {
    var t := TableOf(db, it.KindOf());
    (it.Id() == "" ==> "" !in t.rows) && RowFits(db, it.KindOf(), it.Id(), Written(db, it))
  }

  datatype SaveOutcome = Saved(db: Db, ok: bool) | SaveConflict

  /** `save`: `updateOrInsert` in one transaction, then `saveTags`. The row is
      updated in place (its tag references cleared) when its entry id is
      found, inserted under the next row id otherwise. A broken constraint is
      the SQLiteConstraintException, with nothing written; the result is
      whether every tag was stored, the row being kept either way. */
  function Save(db: Db, it: Item): (r: SaveOutcome)
    requires Valid(db)
    ensures r.SaveConflict? <==> !SaveFits(db, it)
    ensures r.Saved? ==> Valid(r.db) && r.db.log == db.log
  {
    if !SaveFits(db, it) then SaveConflict
    else
      var t := TableOf(db, it.KindOf());
      var lastRowId := if QueryRowId(t, it.Id()) > 0 then t.lastRowId else t.lastRowId + 1;
      SaveKeepsValid(db, it, SavedRow(db, it), lastRowId, SavedTags(db, it).0);
      Saved(PutSaved(db, it), SavedTags(db, it).1)
  }

  /** The store after a fitting `save`: `SavedRow` under the item's entry id
      (a fresh row id when the entry is new), the tag tables of `SavedTags`. */
  function PutSaved(db: Db, it: Item): Db
    requires Valid(db)
  {
    var k := it.KindOf();
    var t := TableOf(db, k);
    var lastRowId := if QueryRowId(t, it.Id()) > 0 then t.lastRowId else t.lastRowId + 1;
    WithTable(db, k, Table(t.rows[it.Id() := SavedRow(db, it)], lastRowId)).(tags := SavedTags(db, it).0)
  }

  /** The tag tables after `save` cleared the row's references and appended
      its tags, whether every tag was stored, and the tags it stored. */
  function SavedTags(db: Db, it: Item): (TagTable, bool, Option<seq<Tag>>)
    requires Valid(db)
  {
    var rowId := Written(db, it).State().rowId;
    SaveTags(DeleteTagRefs(db.tags, it.KindOf(), rowId), it.KindOf(), rowId, it.Tags())
  }

  /** The row `save` stores: `Written` with the tags actually stored. */
  function SavedRow(db: Db, it: Item): (r: Item)
    requires Valid(db)
    ensures r.State() == Written(db, it).State()
    ensures SavedTags(db, it).1 ==> r == Written(db, it)
  {
    var t := TableOf(db, it.KindOf());
    StoredRow(it, if QueryRowId(t, it.Id()) > 0 then Some(t.rows[it.Id()]) else None, t.lastRowId + 1, SavedTags(db, it).2)
  }

  /** What a successful `save` leaves behind: the row under the item's entry id
      holds the merged state, and the whole written row once every tag was
      stored; no other row and no other table changes. The result is true
      exactly when no tag name repeats. */
  lemma SaveEffect(db: Db, it: Item)
    requires Valid(db) && SaveFits(db, it)
    ensures Save(db, it).Saved?
    ensures var r := Save(db, it); var k := it.KindOf(); var t := TableOf(db, k); var t2 := TableOf(r.db, k);
      it.Id() in t2.rows && t2.rows.Keys == t.rows.Keys + {it.Id()}
      && (forall o :: o in t.rows && o != it.Id() ==> t2.rows[o] == t.rows[o])
      && (forall k2 :: k2 != k ==> TableOf(r.db, k2) == TableOf(db, k2))
      && t2.rows[it.Id()].State() == Written(db, it).State()
      && (r.ok ==> t2.rows[it.Id()] == Written(db, it))
    ensures it.Tags().None? ==> Save(db, it).ok
    ensures it.Tags().Some? && NoEmptyNames(it.Tags().value) ==>
      (Save(db, it).ok <==> DistinctNames(it.Tags().value))
  {
    SaveTableEffect(db, it);
    SaveOkEffect(db, it);
    PutRowFacts(db, it, Save(db, it).db, Save(db, it).ok);
  }

  /** The row and table facts of `SaveEffect`, for any store that holds
      `SavedRow` under the item's id and otherwise the old rows. */
  lemma PutRowFacts(db: Db, it: Item, db2: Db, ok: bool)
    requires Valid(db)
    requires TableOf(db2, it.KindOf()).rows == TableOf(db, it.KindOf()).rows[it.Id() := SavedRow(db, it)]
    requires forall k2 :: k2 != it.KindOf() ==> TableOf(db2, k2) == TableOf(db, k2)
    requires ok ==> SavedTags(db, it).1
    ensures var k := it.KindOf(); var t := TableOf(db, k); var t2 := TableOf(db2, k);
      it.Id() in t2.rows && t2.rows.Keys == t.rows.Keys + {it.Id()}
      && (forall o :: o in t.rows && o != it.Id() ==> t2.rows[o] == t.rows[o])
      && (forall k2 :: k2 != k ==> TableOf(db2, k2) == TableOf(db, k2))
      && t2.rows[it.Id()].State() == Written(db, it).State()
      && (ok ==> t2.rows[it.Id()] == Written(db, it))
  {
  }

  /** The table side of `SaveEffect`: `SavedRow` under the item's id, every
      other table as it was. */
  lemma SaveTableEffect(db: Db, it: Item)
    requires Valid(db)
    ensures TableOf(PutSaved(db, it), it.KindOf()).rows == TableOf(db, it.KindOf()).rows[it.Id() := SavedRow(db, it)]
    ensures forall k2 :: k2 != it.KindOf() ==> TableOf(PutSaved(db, it), k2) == TableOf(db, k2)
  {
    var k := it.KindOf();
    var t := TableOf(db, k);
    var lastRowId := if QueryRowId(t, it.Id()) > 0 then t.lastRowId else t.lastRowId + 1;
    PutRow(db, k, t.rows, it.Id(), SavedRow(db, it), lastRowId, SavedTags(db, it).0);
  }

  /** Writing `row` under `id` into table `k` (and replacing the tag tables)
      changes that table's rows only there and keeps every other table. */
  lemma PutRow(db: Db, k: Kind, rows: map<string, Item>, id: string, row: Item, lastRowId: int, tt: TagTable)
    ensures var db2 := WithTable(db, k, Table(rows[id := row], lastRowId)).(tags := tt);
      TableOf(db2, k).rows == rows[id := row]
      && (forall k2 :: k2 != k ==> TableOf(db2, k2) == TableOf(db, k2))
  {
    var db2 := WithTable(db, k, Table(rows[id := row], lastRowId)).(tags := tt);
    assert TableOf(db2, k) == TableOf(WithTable(db, k, Table(rows[id := row], lastRowId)), k);
  }

  /** The result side of `SaveEffect`: whether every tag was stored. */
  lemma SaveOkEffect(db: Db, it: Item)
    requires Valid(db) && SaveFits(db, it)
    ensures Save(db, it).Saved?
    ensures it.Tags().None? ==> Save(db, it).ok
    ensures it.Tags().Some? && NoEmptyNames(it.Tags().value) ==>
      (Save(db, it).ok <==> DistinctNames(it.Tags().value))
  {
    var k := it.KindOf();
    var rowId := Written(db, it).State().rowId;
    assert rowId > 0;
    assert Unreferenced(DeleteTagRefs(db.tags, k, rowId), k, rowId);
    SaveTagsOutcome(DeleteTagRefs(db.tags, k, rowId), k, rowId, it.Tags());
  }

  /** Replacing one table and the tag tables keeps the store valid when the new
      table is valid, the note–link foreign key still holds, no link a note
      refers to disappears, and every tag reference names a row id in range. */
  lemma WithTableKeepsValid(db: Db, k: Kind, t: Table, tt: TagTable)
    requires Valid(db) && TableValid(t, k) && TagsValid(tt)
    requires k == LinkKind ==> db.links.rows.Keys <= t.rows.Keys
    requires k == NoteKind ==> forall id :: id in t.rows ==> LinkExists(db, t.rows[id].RelatedId())
    requires forall ref :: ref in tt.refs ==>
      0 < ref.itemRowId <= (if ref.kind == k then t.lastRowId else TableOf(db, ref.kind).lastRowId)
    ensures Valid(WithTable(db, k, t).(tags := tt))
  {
    match k
    case LinkKind => WithLinksKeepsValid(db, t, tt);
    case FavoriteKind =>
      assert Valid(db.(favorites := t, tags := tt));
    case NoteKind =>
      assert Valid(db.(notes := t, tags := tt));
  }

  lemma WithLinksKeepsValid(db: Db, t: Table, tt: TagTable)
    requires Valid(db) && TableValid(t, LinkKind) && TagsValid(tt)
    requires db.links.rows.Keys <= t.rows.Keys
    requires forall ref :: ref in tt.refs ==>
      0 < ref.itemRowId <= (if ref.kind == LinkKind then t.lastRowId else TableOf(db, ref.kind).lastRowId)
    ensures Valid(db.(links := t, tags := tt))
  {
    var db2 := db.(links := t, tags := tt);
    forall id | id in db2.notes.rows ensures LinkExists(db2, db2.notes.rows[id].RelatedId()) {
      assert LinkExists(db, db.notes.rows[id].RelatedId());
    }
  }

  lemma SaveKeepsValid(db: Db, it: Item, row: Item, lastRowId: int, tt: TagTable)
    requires Valid(db) && SaveFits(db, it)
    requires var t := TableOf(db, it.KindOf());
      row.State() == Written(db, it).State() && row.Id() == it.Id() && row.KindOf() == it.KindOf()
      && row.RelatedId() == it.RelatedId() && KeyPresent(row)
      && (it.HasUniqueKey() ==> row.DuplicatedKey() == it.DuplicatedKey())
      && lastRowId == (if QueryRowId(t, it.Id()) > 0 then t.lastRowId else t.lastRowId + 1)
    requires TagsValid(tt)
    requires forall ref :: ref in tt.refs ==>
      (ref in db.tags.refs || (ref.kind == it.KindOf() && ref.itemRowId == row.State().rowId))
    ensures var k := it.KindOf(); var t := TableOf(db, k);
      Valid(WithTable(db, k, Table(t.rows[it.Id() := row], lastRowId)).(tags := tt))
  {
    var k := it.KindOf();
    var t := TableOf(db, k);
    var id := it.Id();
    var w := Written(db, it);
    assert RowFits(db, k, id, row) by {
      forall o | o in t.rows && o != id ensures !Clash(row, t.rows[o]) {
        assert !Clash(w, t.rows[o]);
      }
    }
    forall o | o in t.rows && o != id ensures t.rows[o].State().rowId != row.State().rowId {
      if QueryRowId(t, id) > 0 {
        assert row.State().rowId == t.rows[id].State().rowId;
      }
    }
    assert 0 < row.State().rowId <= lastRowId;
    PutKeepsTableValid(db, k, id, row, lastRowId);
    var t2 := Table(t.rows[id := row], lastRowId);
    if k == NoteKind {
      forall nid | nid in t2.rows ensures LinkExists(db, t2.rows[nid].RelatedId()) {
        if nid == id {
          assert LinkExists(db, row.RelatedId());
        }
      }
    }
    WithTableKeepsValid(db, k, t2, tt);
  }

  // ---------------------------------------------------------------------------
  // State updates

  /** The row an item-state update leaves: the state's columns merged over the
      stored ones and, for a note being deleted, a null link id. */
  function UpdatedRow(row: Item, st: SyncState): (r: Item)
    ensures r.Id() == row.Id() && r.KindOf() == row.KindOf() && KeyPresent(r) == KeyPresent(row)
    ensures row.HasUniqueKey() ==> r.DuplicatedKey() == row.DuplicatedKey()
    ensures r.State() == ApplyValues(row.State(), GetContentValues(st))
    ensures r.RelatedId() == (if row.NoteItem? && st.deleted then None else row.RelatedId())
    ensures ContentEquals(r, row) && r.Tags() == row.Tags() && r.Created() == row.Created()
    ensures r.State().rowId == row.State().rowId
      && r.State().eTag == (if st.eTag.Some? then st.eTag else row.State().eTag)
      && r.State().duplicated == st.duplicated && r.State().conflicted == st.conflicted
      && r.State().deleted == st.deleted && r.State().synced == st.synced
  {
    UpdateNeverClearsETag(row.State(), st);
    var r := row.WithState(ApplyValues(row.State(), GetContentValues(st)));
    if r.NoteItem? && st.deleted then NoteItem(r.n.(linkId := None)) else r
  }

  datatype UpdateOutcome = Updated(db: Db, ok: bool) | UpdateConflict

  /** `update(id, state)` through the item uri: `updateEntry` finds no row for
      an empty or unknown id (false, nothing written); otherwise the merged row
      must fit the constraints, else the SQLiteConstraintException. */
  function Update(db: Db, k: Kind, id: string, st: SyncState): (r: UpdateOutcome)
    requires Valid(db)
    ensures r.Updated? ==> Valid(r.db) && r.db.log == db.log && r.db.tags == db.tags
    ensures (r.Updated? && !r.ok) <==> QueryRowId(TableOf(db, k), id) == 0
    ensures r.Updated? && !r.ok ==> r.db == db
    ensures r.UpdateConflict? <==>
      QueryRowId(TableOf(db, k), id) > 0 && !RowFits(db, k, id, UpdatedRow(TableOf(db, k).rows[id], st))
    ensures r.Updated? && r.ok ==>
      TableOf(r.db, k) == TableOf(db, k).(rows := TableOf(db, k).rows[id := UpdatedRow(TableOf(db, k).rows[id], st)])
      && (forall k2 :: k2 != k ==> TableOf(r.db, k2) == TableOf(db, k2))
  {
    var t := TableOf(db, k);
    if QueryRowId(t, id) == 0 then Updated(db, false)
    else
      var row := UpdatedRow(t.rows[id], st);
      if !RowFits(db, k, id, row) then UpdateConflict
      else
        var t2 := t.(rows := t.rows[id := row]);
        UpdateKeepsValid(db, k, id, row);
        Updated(WithTable(db, k, t2).(tags := db.tags), true)
  }

  lemma UpdateKeepsValid(db: Db, k: Kind, id: string, row: Item)
    requires Valid(db) && id in TableOf(db, k).rows && RowFits(db, k, id, row)
    requires row.State().rowId == TableOf(db, k).rows[id].State().rowId
    ensures Valid(WithTable(db, k, TableOf(db, k).(rows := TableOf(db, k).rows[id := row])).(tags := db.tags))
  {
    var t := TableOf(db, k);
    PutKeepsTableValid(db, k, id, row, t.lastRowId);
    assert Table(t.rows[id := row], t.lastRowId) == t.(rows := t.rows[id := row]);
    WithTableKeepsValid(db, k, t.(rows := t.rows[id := row]), db.tags);
  }

  /** The columns `resetSyncState` writes: a null ETag and `synced` false. */
  const ResetValues: ContentValues := map[ETagCol := NullV, SyncedCol := BoolV(false)]

  /** A synced row's state after `resetSyncState`: no ETag, not synced. */
  function ResetRow(row: Item): (r: Item)
    ensures r.Id() == row.Id() && r.KindOf() == row.KindOf() && KeyPresent(r) == KeyPresent(row)
    ensures r == row.WithState(row.State().(eTag := None, synced := false))
  {
    row.WithState(ApplyValues(row.State(), ResetValues))
  }

  lemma ResetRowKeepsClash(a: Item, b: Item)
    ensures Clash(a, b) == Clash(ResetRow(a), b) == Clash(a, ResetRow(b)) == Clash(ResetRow(a), ResetRow(b))
    ensures ResetRow(a).State().rowId == a.State().rowId
  {
  }

  /** The table after `resetSyncState`: only the synced rows are rewritten. */
  function ResetTable(t: Table, k: Kind): (r: Table)
    requires TableValid(t, k)
    ensures TableValid(r, k) && r.rows.Keys == t.rows.Keys && r.lastRowId == t.lastRowId
    ensures forall id :: id in t.rows ==>
      r.rows[id] == if t.rows[id].State().synced then ResetRow(t.rows[id]) else t.rows[id]
    ensures forall id :: id in r.rows ==> !r.rows[id].State().synced
  {
    var rows := map id | id in t.rows :: if t.rows[id].State().synced then ResetRow(t.rows[id]) else t.rows[id];
    forall id | id in rows
      ensures rows[id].Id() == id && rows[id].KindOf() == k && KeyPresent(rows[id])
      ensures 0 < rows[id].State().rowId <= t.lastRowId && !rows[id].State().synced
    {
      ResetRowKeepsClash(t.rows[id], t.rows[id]);
    }
    forall a, b | a in rows && b in rows && a != b
      ensures rows[a].State().rowId != rows[b].State().rowId && !Clash(rows[a], rows[b])
    {
      ResetRowKeepsClash(t.rows[a], t.rows[b]);
    }
    t.(rows := rows)
  }

  /** `resetSyncState`: every synced row loses its ETag and becomes unsynced; the
      count of such rows is returned. Afterwards no row of the table is synced,
      and nothing else changes. */
  function ResetSyncState(db: Db, k: Kind): (r: (Db, nat))
    requires Valid(db)
    ensures Valid(r.0) && r.0.log == db.log && r.0.tags == db.tags
    ensures forall k2 :: k2 != k ==> TableOf(r.0, k2) == TableOf(db, k2)
    ensures TableOf(r.0, k) == ResetTable(TableOf(db, k), k)
    ensures r.1 == |set id | id in TableOf(db, k).rows && TableOf(db, k).rows[id].State().synced|
  {
    var t := TableOf(db, k);
    ValidTable(db, k);
    var t2 := ResetTable(t, k);
    ResetKeepsValid(db, k);
    (WithTable(db, k, t2).(tags := db.tags), |set id | id in t.rows && t.rows[id].State().synced|)
  }

  lemma ResetKeepsValid(db: Db, k: Kind)
    requires Valid(db)
    ensures Valid(WithTable(db, k, ResetTable(TableOf(db, k), k)).(tags := db.tags))
  {
    ValidTable(db, k);
    var t2 := ResetTable(TableOf(db, k), k);
    if k == NoteKind {
      forall id | id in t2.rows ensures LinkExists(db, t2.rows[id].RelatedId()) {
        assert t2.rows[id].RelatedId() == db.notes.rows[id].RelatedId();
      }
    }
    WithTableKeepsValid(db, k, t2, db.tags);
  }

  // ---------------------------------------------------------------------------
  // Deletion

  /** A note whose link is gone: the foreign key's ON DELETE SET NULL. */
  function Unlink(row: Item, linkId: string): (r: Item)
    ensures r.Id() == row.Id() && r.KindOf() == row.KindOf() && r.State() == row.State()
    ensures KeyPresent(r) == KeyPresent(row)
    ensures r.RelatedId() == (if row.RelatedId() == Some(linkId) then None else row.RelatedId())
  {
    if row.NoteItem? && row.n.linkId == Some(linkId) then NoteItem(row.n.(linkId := None)) else row
  }

  /** The note table after the link `linkId` is deleted. */
  function UnlinkNotes(t: Table, linkId: string): (r: Table)
    requires TableValid(t, NoteKind)
    ensures TableValid(r, NoteKind) && r.rows.Keys == t.rows.Keys && r.lastRowId == t.lastRowId
    ensures forall nid :: nid in t.rows ==> r.rows[nid] == Unlink(t.rows[nid], linkId)
  {
    var rows := map nid | nid in t.rows :: Unlink(t.rows[nid], linkId);
    forall a, b | a in rows && b in rows && a != b
      ensures rows[a].State().rowId != rows[b].State().rowId && !Clash(rows[a], rows[b])
    {
      assert !Clash(t.rows[a], t.rows[b]);
    }
    t.(rows := rows)
  }

  /** `delete(id)` through the item uri: true exactly when a row was removed.
      Its tag references go with it, and deleting a link unlinks its notes
      (`DeleteCascade`). */
  function Delete(db: Db, k: Kind, id: string): (r: (Db, bool))
    requires Valid(db)
    ensures Valid(r.0) && r.0.log == db.log
    ensures r.1 <==> id in TableOf(db, k).rows
    ensures !r.1 ==> r.0 == db
    ensures TableOf(r.0, k) == TableOf(db, k).(rows := TableOf(db, k).rows - {id})
  {
    var t := TableOf(db, k);
    if id !in t.rows then (db, false)
    else
      var db2 := WithTable(db, k, t.(rows := t.rows - {id})).(tags := DeleteTagRefs(db.tags, k, t.rows[id].State().rowId));
      if k == LinkKind then
        DeleteLinkKeepsValid(db, id);
        (db2.(notes := UnlinkNotes(db.notes, id)), true)
      else
        DeleteKeepsValid(db, k, id);
        (db2, true)
  }

  /** What else a deletion touches: a link takes its notes' link ids with it,
      the item's tag references go, and every other table is as it was. */
  lemma DeleteCascade(db: Db, k: Kind, id: string)
    requires Valid(db)
    ensures var r := Delete(db, k, id);
      (k != FavoriteKind ==> TableOf(r.0, FavoriteKind) == TableOf(db, FavoriteKind))
      && (k == FavoriteKind ==> r.0.links == db.links && r.0.notes == db.notes)
      && (k == NoteKind ==> r.0.links == db.links)
      && (k == LinkKind && r.1 ==> r.0.notes == UnlinkNotes(db.notes, id))
      && (r.1 ==> r.0.tags == DeleteTagRefs(db.tags, k, TableOf(db, k).rows[id].State().rowId))
  {
  }

  /** Dropping one row keeps a table's row-level constraints. */
  lemma TableWithoutValid(t: Table, k: Kind, id: string)
    requires TableValid(t, k)
    ensures TableValid(t.(rows := t.rows - {id}), k)
  {
  }

  /** Deleting a favorite or a note keeps the store valid. */
  lemma DeleteKeepsValid(db: Db, k: Kind, id: string)
    requires Valid(db) && id in TableOf(db, k).rows && k != LinkKind
    ensures var t := TableOf(db, k);
      Valid(WithTable(db, k, t.(rows := t.rows - {id})).(tags := DeleteTagRefs(db.tags, k, t.rows[id].State().rowId)))
  {
    var t := TableOf(db, k);
    ValidTable(db, k);
    TableWithoutValid(t, k, id);
    WithTableKeepsValid(db, k, t.(rows := t.rows - {id}), DeleteTagRefs(db.tags, k, t.rows[id].State().rowId));
  }

  /** Deleting a link and unlinking its notes keeps the store valid. */
  lemma DeleteLinkKeepsValid(db: Db, id: string)
    requires Valid(db) && id in db.links.rows
    ensures var t := db.links;
      Valid(WithTable(db, LinkKind, t.(rows := t.rows - {id}))
              .(tags := DeleteTagRefs(db.tags, LinkKind, t.rows[id].State().rowId))
              .(notes := UnlinkNotes(db.notes, id)))
  {
    var t := db.links;
    ValidTable(db, LinkKind);
    TableWithoutValid(t, LinkKind, id);
    var db3 := WithTable(db, LinkKind, t.(rows := t.rows - {id}))
                 .(tags := DeleteTagRefs(db.tags, LinkKind, t.rows[id].State().rowId))
                 .(notes := UnlinkNotes(db.notes, id));
    forall nid | nid in db3.notes.rows ensures LinkExists(db3, db3.notes.rows[nid].RelatedId()) {
      assert LinkExists(db, db.notes.rows[nid].RelatedId());
    }
  }

  // ---------------------------------------------------------------------------
  // Duplicates

  /** The duplicate ordinals of the rows whose uniqueness key is `key`. */
  function DuplicatesOf(t: Table, key: string): set<int> {
    set id | id in t.rows && t.rows[id].HasUniqueKey() && t.rows[id].DuplicatedKey() == Some(key)
      :: t.rows[id].State().duplicated
  }

  /** A set with no element is the empty set. */
  lemma EmptyOrHasElement(s: set<int>)
    ensures s == {} || exists x :: x in s
  {
    if forall x :: x !in s {
      assert s == {};
    }
  }

  lemma {:induction false} MaxExists(s: set<int>)
    requires s != {}
    ensures exists m :: m in s && forall x :: x in s ==> x <= m
  {
    EmptyOrHasElement(s);
    var y :| y in s;
    var rest := s - {y};
    EmptyOrHasElement(rest);
    if rest == {} {
      forall x | x in s ensures x <= y {
        assert x in rest || x == y;
      }
    } else {
      MaxExists(rest);
      var m :| m in rest && forall x :: x in rest ==> x <= m;
      var top := if y > m then y else m;
      forall x | x in s ensures x <= top {
        if x != y {
          assert x in rest;
        }
      }
      assert top in s;
    }
  }

  function MaxOf(s: set<int>): (m: int)
    requires s != {}
    ensures m in s && forall x :: x in s ==> x <= m
  {
    MaxExists(s);
    var m :| m in s && (forall x :: x in s ==> x <= m); m
  }

  /** `getNextDuplicated`: MAX(duplicated) + 1 over the rows with this key, and 0
      when there is none (the aggregate's NULL reads as 0). A null key cannot be
      bound to the query: None. */
  function NextDuplicated(t: Table, key: Option<string>): (r: Option<int>)
    ensures r.None? <==> key.None?
    ensures r.Some? ==> forall d :: d in DuplicatesOf(t, key.value) ==> d < r.value
    ensures r.Some? && DuplicatesOf(t, key.value) != {} ==> r.value - 1 in DuplicatesOf(t, key.value)
    ensures r.Some? && DuplicatesOf(t, key.value) == {} ==> r.value == 0
  {
    if key.None? then None
    else
      var ds := DuplicatesOf(t, key.value);
      if ds == {} then Some(0) else Some(MaxOf(ds) + 1)
  }

  /** `getMain` finds a row: one with this key and ordinal 0. */
  predicate HasMain(t: Table, key: string) {
    0 in DuplicatesOf(t, key)
  }

  /** `saveDuplicated`. A link or favorite is saved as a numbered duplicate: the
      duplicate state built from its ETag and the next ordinal for its key. None
      is the IllegalArgumentException of that constructor (no ETag, or an ordinal
      that is not positive) or of binding a null key. A note is saved orphaned. */
  function SaveDuplicated(db: Db, it: Item): (r: Option<SaveOutcome>)
    requires Valid(db)
    ensures it.NoteItem? ==> r == Some(Save(db, NoteItem(BuildOrphaned(it.n))))
    ensures !it.NoteItem? ==>
      var next := NextDuplicated(TableOf(db, it.KindOf()), it.DuplicatedKey());
      (r.Some? <==> it.ETag().Some? && next.Some? && next.value > 0)
      && (r.Some? ==> r.value == Save(db, it.WithState(SyncState(-1, it.ETag(), next.value, true, false, true))))
  {
    if it.NoteItem? then Some(Save(db, NoteItem(BuildOrphaned(it.n))))
    else
      var next := NextDuplicated(TableOf(db, it.KindOf()), it.DuplicatedKey());
      if next.None? then None
      else
        var dup := Duplicate(it.ETag(), next.value);
        if dup.None? then None else Some(Save(db, it.WithState(dup.value)))
  }

  /** The fallback does what it is for: when `save` failed only because another
      row holds the same key, ordinal and deleted flag, the numbered duplicate
      fits. An orphaned note always fits. */
  lemma SaveDuplicatedResolvesClash(db: Db, it: Item)
    requires Valid(db) && KeyPresent(it) && it.ETag().Some? && it.State().duplicated >= 0
    requires it.Id() == "" ==> "" !in TableOf(db, it.KindOf()).rows
    requires !it.NoteItem? ==> exists o :: o in TableOf(db, it.KindOf()).rows && Clash(Written(db, it), TableOf(db, it.KindOf()).rows[o])
    ensures SaveDuplicated(db, it).Some? && SaveDuplicated(db, it).value.Saved?
  {
    var k := it.KindOf();
    var t := TableOf(db, k);
    if it.NoteItem? {
      var o := NoteItem(BuildOrphaned(it.n));
      assert SaveFits(db, o);
    } else {
      var o :| o in t.rows && Clash(Written(db, it), t.rows[o]);
      var key := it.DuplicatedKey().value;
      UpdateNeverClearsETag(if QueryRowId(t, it.Id()) > 0 then t.rows[it.Id()].State() else Default.(rowId := t.lastRowId + 1), it.State());
      assert t.rows[o].State().duplicated in DuplicatesOf(t, key);
      var next := NextDuplicated(t, it.DuplicatedKey()).value;
      var it2 := it.WithState(Duplicate(it.ETag(), next).value);
      var w := Written(db, it2);
      UpdateNeverClearsETag(if QueryRowId(t, it.Id()) > 0 then t.rows[it.Id()].State() else Default.(rowId := t.lastRowId + 1), it2.State());
      forall o2 | o2 in t.rows && o2 != it.Id() ensures !Clash(w, t.rows[o2]) {
        if t.rows[o2].HasUniqueKey() && t.rows[o2].DuplicatedKey() == Some(key) {
          assert t.rows[o2].State().duplicated in DuplicatesOf(t, key);
        }
      }
      assert SaveFits(db, it2);
    }
  }

  // ---------------------------------------------------------------------------
  // Conflict auto-resolution

  /** `autoResolveConflict` on a link or favorite: a row that is not a numbered
      duplicate is resolved exactly when it is not conflicted; a duplicate is
      left alone while its main row (same key, ordinal 0) exists, and is set
      SYNCED otherwise. None is an error: no such row, a constraint failure, or
      a note, whose store does not support the operation. */
  function AutoResolveConflict(db: Db, k: Kind, id: string): (r: Option<(Db, bool)>)
    requires Valid(db)
    ensures k == NoteKind || id !in TableOf(db, k).rows ==> r.None?
    ensures r.Some? && r.value.0 != db ==> QueryRowId(TableOf(db, k), id) > 0
  {
    var t := TableOf(db, k);
    if k == NoteKind || id !in t.rows then None
    else
      var row := t.rows[id];
      if !row.State().IsDuplicated() then Some((db, !row.State().conflicted))
      else if HasMain(t, row.DuplicatedKey().value) then Some((db, false))
      else
        match Update(db, k, id, OfState(Synced))
        case Updated(db2, ok) => Some((db2, ok))
        case UpdateConflict => None
  }

  /** A conflict is reported resolved only when the row is then not conflicted,
      and a numbered duplicate only when no main row holds its key. The store
      changes only when a duplicate without a main row is set SYNCED. */
  lemma AutoResolveConflictResolves(db: Db, k: Kind, id: string)
    requires Valid(db)
    ensures var r := AutoResolveConflict(db, k, id);
      r.Some? && r.value.1 ==>
        id in TableOf(r.value.0, k).rows
        && !TableOf(r.value.0, k).rows[id].State().conflicted
        && (TableOf(db, k).rows[id].State().IsDuplicated() ==>
              !HasMain(TableOf(db, k), TableOf(db, k).rows[id].DuplicatedKey().value)
              && TableOf(r.value.0, k).rows[id].State().synced)
    ensures var r := AutoResolveConflict(db, k, id);
      r.Some? && r.value.0 != db ==>
        TableOf(db, k).rows[id].State().IsDuplicated()
        && !HasMain(TableOf(db, k), TableOf(db, k).rows[id].DuplicatedKey().value)
  {
  }

  // ---------------------------------------------------------------------------
  // Queries

  /** The two flag columns `getCount` is asked about. */
  datatype Flag = ConflictedFlag | SyncedFlag

  function FlagOf(s: SyncState, f: Flag): bool {
    match f
    case ConflictedFlag => s.conflicted
    case SyncedFlag => s.synced
  }

  function RowsWhere(t: Table, f: Flag, v: bool): set<string> {
    set id | id in t.rows && FlagOf(t.rows[id].State(), f) == v
  }

  /** `getCount`: column and value must both be given or both be absent (None is
      the InvalidParameterException); the count of all rows, or of the rows whose
      flag has that value. */
  function GetCount(t: Table, column: Option<Flag>, value: Option<bool>): (r: Option<nat>)
    ensures r.None? <==> column.None? != value.None?
    ensures column.None? && value.None? ==> r == Some(|t.rows|)
    ensures column.Some? && value.Some? ==> r == Some(|RowsWhere(t, column.value, value.value)|)
    ensures r.Some? ==> r.value <= |t.rows|
  {
    if column.None? != value.None? then None
    else if column.None? then Some(|t.rows|)
    else
      var ids := RowsWhere(t, column.value, value.value);
      assert ids <= t.rows.Keys;
      SubsetCardinality(ids, t.rows.Keys);
      Some(|ids|)
  }

  lemma SubsetCardinality(a: set<string>, b: set<string>)
    requires a <= b
    ensures |a| <= |b|
  {
    assert b == a + (b - a);
  }

  /** A set has a positive size exactly when it has a member. */
  lemma NonEmptyHasMember(s: set<string>)
    ensures |s| > 0 <==> exists x :: x in s
  {
    if forall x :: x !in s {
      assert s == {};
    } else {
      var x :| x in s;
      assert s == (s - {x}) + {x};
    }
  }

  /** `isConflicted`: some row has the conflicted flag. */
  function IsConflicted(t: Table): (r: bool)
    ensures r <==> exists id :: id in t.rows && t.rows[id].State().conflicted
  {
    var ids := RowsWhere(t, ConflictedFlag, true);
    NonEmptyHasMember(ids);
    assert forall id :: id in ids <==> id in t.rows && t.rows[id].State().conflicted;
    GetCount(t, Some(ConflictedFlag), Some(true)).value > 0
  }

  /** `isUnsynced`: some row, conflicted or not, has synced = 0. */
  function IsUnsynced(t: Table): (r: bool)
    ensures r <==> exists id :: id in t.rows && !t.rows[id].State().synced
  {
    var ids := RowsWhere(t, SyncedFlag, false);
    NonEmptyHasMember(ids);
    assert forall id :: id in ids <==> id in t.rows && !t.rows[id].State().synced;
    GetCount(t, Some(SyncedFlag), Some(false)).value > 0
  }

  /** `getUnsynced`: exactly the rows with synced = 0, as stored. */
  function GetUnsynced(t: Table): (r: map<string, Item>)
    ensures forall id :: id in r <==> id in t.rows && !t.rows[id].State().synced
    ensures forall id :: id in r ==> r[id] == t.rows[id]
  {
    map id | id in t.rows && !t.rows[id].State().synced :: t.rows[id]
  }

  /** The table reports unsynced rows exactly when `getUnsynced` yields some. */
  lemma UnsyncedAgree(t: Table)
    ensures IsUnsynced(t) <==> GetUnsynced(t) != map[]
  {
    if IsUnsynced(t) {
      var id :| id in t.rows && !t.rows[id].State().synced;
      assert id in GetUnsynced(t);
    }
  }

  // ---------------------------------------------------------------------------
  // Sync log

  /** `logSyncResult` of a collection: one more row in the sync log and nothing
      else written; None when a link or favorite is asked to log RELATED. */
  function LogResult(db: Db, k: Kind, now: int, started: int, id: string,
                     result: SyncLog.Result, applied: bool): (r: Option<Db>)
    requires Valid(db)
    ensures r.None? <==> k != NoteKind && result == SyncLog.Related
    ensures r.Some? ==> Valid(r.value) && r.value == db.(log := r.value.log)
    ensures r.Some? ==> (|r.value.log.rows| == |db.log.rows| + 1
      && r.value.log.rows[..|db.log.rows|] == db.log.rows
      && r.value.log.rows[|db.log.rows|].entryId == id
      && r.value.log.rows[|db.log.rows|].result == result
      && r.value.log.rows[|db.log.rows|].applied == applied)
  {
    var l := SyncLog.LogSyncResult(db.log, k, now, started, id, result, applied);
    if l.None? then None else Some(db.(log := l.value.0))
  }

  // ---------------------------------------------------------------------------
  // Deleting an item from the user's side

  /** `DataSource.ItemState`: what an item operation reports to its caller. */
  datatype ItemState =
    | ItemDeferred | ItemDeleted | ItemDuplicated | ItemSaved | ItemConflicted
    | ItemErrorLocal | ItemErrorCloud | ItemErrorExtra

  /** What `deleteLink`/`deleteFavorite`/`deleteNote` leave: the store and the
      item state emitted, None when the pipeline ends in an error. */
  datatype DeleteOutcome = DeleteOutcome(db: Db, state: Option<ItemState>)

  /** The retry after a soft-delete broke the uniqueness constraint: the row is
      renumbered with the next ordinal for its key and then marked DELETED. */
  function DeferAsDuplicated(db: Db, k: Kind, id: string, st: SyncState): (r: DeleteOutcome)
    requires Valid(db) && k != NoteKind && id in TableOf(db, k).rows
    ensures Valid(r.db)
    ensures r.state != Some(ItemDeleted)
    ensures r.state.None? ==> r.db == db
    ensures r.state == Some(ItemDeferred) ==>
      var t := TableOf(db, k);
      id in TableOf(r.db, k).rows &&
      var row := TableOf(r.db, k).rows[id];
      st.eTag.Some? && row.State().deleted && !row.State().synced && row.State().eTag == st.eTag
      && (forall d :: d in DuplicatesOf(t, t.rows[id].DuplicatedKey().value) ==> d < row.State().duplicated)
  {
    var t := TableOf(db, k);
    var next := NextDuplicated(t, t.rows[id].DuplicatedKey());
    if next.None? then DeleteOutcome(db, None)
    else
      var dup := Duplicate(st.eTag, next.value);
      if dup.None? then DeleteOutcome(db, None)
      else
        match Update(db, k, id, Transition(Some(dup.value), Deleted))
        case Updated(db2, ok) => DeleteOutcome(db2, if ok then Some(ItemDeferred) else None)
        case UpdateConflict => DeleteOutcome(db, None)
  }

  /** `deleteLink` and its twins. An absent item counts as deleted. A never
      synced item (not synced, no ETag) is removed outright. Any other item is
      soft-deleted with the DELETED transition and left for the next sync to
      delete remotely, its ETag kept; a link or favorite whose soft-delete breaks
      the uniqueness constraint is renumbered first. */
  function DeleteItem(db: Db, k: Kind, id: string): (r: DeleteOutcome)
    requires Valid(db)
    ensures Valid(r.db)
    ensures r.state.None? ==> r.db == db
    ensures r.state == Some(ItemDeleted) <==>
      id !in TableOf(db, k).rows
      || (!TableOf(db, k).rows[id].State().synced && TableOf(db, k).rows[id].State().eTag.None?)
    ensures r.state == Some(ItemDeleted) ==> id !in TableOf(r.db, k).rows
    ensures r.state == Some(ItemDeferred) ==>
      id in TableOf(r.db, k).rows &&
      var row := TableOf(r.db, k).rows[id];
      row.State().deleted && !row.State().synced
      && row.State().eTag == TableOf(db, k).rows[id].State().eTag
  {
    var t := TableOf(db, k);
    if id !in t.rows then DeleteOutcome(db, Some(ItemDeleted))
    else
      var st := t.rows[id].State();
      if !st.synced && st.eTag.None? then DeleteOutcome(Delete(db, k, id).0, Some(ItemDeleted))
      else
        match Update(db, k, id, Transition(Some(st), Deleted))
        case Updated(db2, ok) => DeleteOutcome(db2, if ok then Some(ItemDeferred) else None)
        case UpdateConflict =>
          if k == NoteKind then DeleteOutcome(db, None) else DeferAsDuplicated(db, k, id, st)
  }

  // ---------------------------------------------------------------------------
  // Listing

  /** The rows `getActive` selects: not deleted, or conflicted. */
  predicate Active(it: Item) {
    !it.State().deleted || it.State().conflicted
  }

  /** The entry ids `getActive(ids)` selects; an absent or empty id list means
      no restriction. */
  function Selected(t: Table, ids: seq<string>): set<string> {
    set id | id in t.rows && Active(t.rows[id]) && (|ids| == 0 || id in ids)
  }

  /** The listing order: favorites by name ascending (null first), links and
      notes by creation time descending. Ties may come in either order. */
  predicate Before(a: Item, b: Item) {
    if a.FavoriteItem? && b.FavoriteItem? then NullableCompare(a.f.name, b.f.name) <= 0
    else a.Created() >= b.Created()
  }

  lemma BeforeTotal(a: Item, b: Item)
    ensures Before(a, b) || Before(b, a)
  {
    if a.FavoriteItem? && b.FavoriteItem? {
      NullableCompareIsOrder(a.f.name, b.f.name);
    }
  }

  lemma BeforeTransitive(a: Item, b: Item, c: Item)
    requires a.KindOf() == b.KindOf() == c.KindOf()
    requires Before(a, b) && Before(b, c)
    ensures Before(a, c)
  {
    if a.FavoriteItem? {
      var x, y, z := a.f.name, b.f.name, c.f.name;
      NullableCompareIsOrder(x, y);
      NullableCompareIsOrder(y, z);
      if x.Some? && y.Some? && z.Some? && NullableCompare(x, y) < 0 && NullableCompare(y, z) < 0 {
        StrCompareTransitive(x.value, y.value, z.value);
      }
    }
  }

  predicate Sorted(s: seq<Item>) {
    forall i, j :: 0 <= i < j < |s| ==> Before(s[i], s[j])
  }

  predicate SameKind(s: seq<Item>, k: Kind) {
    forall i :: 0 <= i < |s| ==> s[i].KindOf() == k
  }

  /** Inserts `x` before the first element it may precede. */
  function Insert(x: Item, s: seq<Item>): (r: seq<Item>)
    requires Sorted(s) && SameKind(s, x.KindOf())
    ensures Sorted(r) && SameKind(r, x.KindOf())
    ensures multiset(r) == multiset(s) + multiset{x}
    ensures forall e :: e in r <==> e in s || e == x
  {
    if s == [] then [x]
    else if Before(x, s[0]) then
      forall j | 0 < j < |s| ensures Before(x, s[j]) {
        BeforeTransitive(x, s[0], s[j]);
      }
      ConsSorted(x, s, x.KindOf());
      [x] + s
    else
      var rest := Insert(x, s[1..]);
      BeforeTotal(x, s[0]);
      HeadPrecedes(x, s, rest);
      ConsSorted(s[0], rest, x.KindOf());
      assert s == [s[0]] + s[1..];
      [s[0]] + rest
  }

  /** The head of a sorted list may precede whatever its tail became with
      an item it may precede added. */
  lemma HeadPrecedes(x: Item, s: seq<Item>, rest: seq<Item>)
    requires Sorted(s) && s != [] && Before(s[0], x)
    requires forall e :: e in rest <==> e in s[1..] || e == x
    ensures forall j :: 0 <= j < |rest| ==> Before(s[0], rest[j])
  {
    forall j | 0 <= j < |rest| ensures Before(s[0], rest[j]) {
      assert rest[j] in rest;
      if rest[j] != x {
        assert rest[j] in s[1..];
        var m :| 0 <= m < |s[1..]| && s[1..][m] == rest[j];
        assert s[m + 1] == rest[j];
      }
    }
  }

  /** An item of the same kind that may precede every element of a sorted
      list keeps it sorted at its head. */
  lemma ConsSorted(a: Item, s: seq<Item>, k: Kind)
    requires Sorted(s) && SameKind(s, k) && a.KindOf() == k
    requires forall j :: 0 <= j < |s| ==> Before(a, s[j])
    ensures Sorted([a] + s) && SameKind([a] + s, k)
  {
    var r := [a] + s;
    forall i, j | 0 <= i < j < |r| ensures Before(r[i], r[j]) {
      assert r[j] == s[j - 1];
      if i > 0 {
        assert r[i] == s[i - 1];
      }
    }
  }

  /** What the listing loop keeps: `r` holds, sorted and once each, the rows of
      the selected ids already taken. */
  ghost predicate Listed(t: Table, k: Kind, sel: set<string>, remaining: set<string>, r: seq<Item>) {
    remaining <= sel && sel <= t.rows.Keys && Sorted(r) && SameKind(r, k)
    && (forall i :: 0 <= i < |r| ==> r[i].Id() in sel - remaining && r[i] == t.rows[r[i].Id()])
    && (forall id :: id in sel - remaining ==> t.rows[id] in r)
    && (forall e :: multiset(r)[e] <= 1)
  }

  lemma ListedStep(t: Table, k: Kind, sel: set<string>, remaining: set<string>, r: seq<Item>, id: string)
    requires TableValid(t, k)
    requires Listed(t, k, sel, remaining, r) && id in remaining
    ensures Sorted(r) && SameKind(r, t.rows[id].KindOf())
    ensures Listed(t, k, sel, remaining - {id}, Insert(t.rows[id], r))
  {
    var x := t.rows[id];
    var r2 := Insert(x, r);
    assert forall i :: 0 <= i < |r| ==> r[i].Id() != id;
    assert multiset(r)[x] == 0;
    assert forall e :: multiset(r2)[e] <= 1;
    ListedMembers(t, k, sel, remaining, r, id);
  }

  lemma ListedMembers(t: Table, k: Kind, sel: set<string>, remaining: set<string>, r: seq<Item>, id: string)
    requires TableValid(t, k)
    requires Listed(t, k, sel, remaining, r) && id in remaining
    ensures var r2 := Insert(t.rows[id], r);
      (forall i :: 0 <= i < |r2| ==> r2[i].Id() in sel - (remaining - {id}) && r2[i] == t.rows[r2[i].Id()])
      && (forall id2 :: id2 in sel - (remaining - {id}) ==> t.rows[id2] in r2)
  {
    var x := t.rows[id];
    var r2 := Insert(x, r);
    forall i | 0 <= i < |r2| ensures r2[i].Id() in sel - (remaining - {id}) && r2[i] == t.rows[r2[i].Id()] {
      assert r2[i] in r2;
      if r2[i] != x {
        var j :| 0 <= j < |r| && r[j] == r2[i];
      }
    }
  }

  /** `getActive(ids)`: every selected row once, in listing order. */
  method GetActive(t: Table, k: Kind, ids: seq<string>) returns (r: seq<Item>)
    requires TableValid(t, k)
    ensures Sorted(r)
    ensures forall i :: 0 <= i < |r| ==> r[i].Id() in Selected(t, ids) && r[i] == t.rows[r[i].Id()]
    ensures forall id :: id in Selected(t, ids) ==> t.rows[id] in r
    ensures forall e :: multiset(r)[e] <= 1
  {
    var sel := Selected(t, ids);
    var remaining := sel;
    r := [];
    while remaining != {}
      invariant Listed(t, k, sel, remaining, r)
      decreases |remaining|
    {
      StringSetMember(remaining);
      var id :| id in remaining;
      ListedStep(t, k, sel, remaining, r, id);
      r := Insert(t.rows[id], r);
      remaining := remaining - {id};
    }
  }

  lemma StringSetMember(s: set<string>)
    ensures s == {} || exists x :: x in s
  {
    if forall x :: x !in s {
      assert s == {};
    }
  }
}

=== FILE: operations.dfy ===
/** `OperationsService`: account operations (server info, credentials check)
    queued first in, first out and run one per handler message on a single
    worker, which reuses its cloud client while the target stays the same.
    The worker is a sequential state machine; whether a client can be built
    and what the server answers are parameters. */
module Operations {
  import opened Wrappers

  const ActionGetServerInfo: string := "GET_SERVER_INFO"
  const ActionCheckCredentials: string := "CHECK_CREDENTIALS"
  const ExtraAccount: string := "ACCOUNT"
  const ExtraCredentials: string := "CREDENTIALS"
  const ExtraServerUrl: string := "SERVER_URL"
  const ExtraServerVersion: string := "SERVER_VERSION"

  // ---------------------------------------------------------------------------
  // Requests

  datatype Account = Account(name: string, accountType: string)

  /** An intent extra: an account, a string, or a bundle of strings; each may be null. */
  datatype Extra =
    | AccountExtra(account: Option<Account>)
    | StringExtra(text: Option<string>)
    | BundleExtra(entries: Option<map<string, string>>)

  datatype Intent = Intent(action: Option<string>, extras: map<string, Extra>)

  /** `getParcelableExtra(ACCOUNT)`: null when absent or of another type. */
  function AccountOf(i: Intent): (r: Option<Account>)
    ensures r.Some? ==> ExtraAccount in i.extras && i.extras[ExtraAccount] == AccountExtra(r)
  {
    if ExtraAccount in i.extras && i.extras[ExtraAccount].AccountExtra? then i.extras[ExtraAccount].account else None
  }

  /** `getStringExtra(key)`: null when absent or of another type. */
  function StringOf(i: Intent, key: string): (r: Option<string>)
    ensures r.Some? ==> key in i.extras && i.extras[key] == StringExtra(r)
  {
    if key in i.extras && i.extras[key].StringExtra? then i.extras[key].text else None
  }

  /** `getBundleExtra(key)`: null when absent or of another type. */
  function BundleOf(i: Intent, key: string): (r: Option<map<string, string>>)
    ensures r.Some? ==> key in i.extras && i.extras[key] == BundleExtra(r)
  {
    if key in i.extras && i.extras[key].BundleExtra? then i.extras[key].entries else None
  }

  /** Whom an operation talks to. Two targets are `equals` exactly when their
      accounts and their server URLs are; datatype equality is that relation. */
  datatype Target = Target(account: Option<Account>, serverUrl: Option<string>)

  datatype Operation =
    | GetServerInfo(serverUrl: Option<string>)
    | CheckCredentials(credentials: Option<map<string, string>>, serverVersion: Option<string>)

  /** A queued operation; `hasListener` is a non-null listener AND a non-null handler. */
  datatype Item = Item(target: Target, operation: Operation, hasListener: bool)

  datatype BuildError = NoTarget | Unsupported(action: Option<string>)

  datatype Built = Built(item: Item) | Refused(error: BuildError)

  /** `buildOperation`: an ACCOUNT or a SERVER_URL extra is required, and the
      action must be one of the two known ones. */
  function BuildOperation(i: Intent, listener: bool, handler: bool): (r: Built)
    ensures r == Refused(NoTarget) <==> ExtraAccount !in i.extras && ExtraServerUrl !in i.extras
    ensures (ExtraAccount in i.extras || ExtraServerUrl in i.extras) ==>
      (r.Built? <==> i.action == Some(ActionGetServerInfo) || i.action == Some(ActionCheckCredentials))
    ensures r.Refused? && r.error != NoTarget ==> r.error == Unsupported(i.action)
    ensures r.Built? ==> r.item.target == Target(AccountOf(i), StringOf(i, ExtraServerUrl))
                         && r.item.hasListener == (listener && handler)
    ensures r.Built? && i.action == Some(ActionGetServerInfo) ==>
      r.item.operation == GetServerInfo(StringOf(i, ExtraServerUrl))
    ensures r.Built? && i.action == Some(ActionCheckCredentials) ==>
      r.item.operation == CheckCredentials(BundleOf(i, ExtraCredentials), StringOf(i, ExtraServerVersion))
  {
    if ExtraAccount !in i.extras && ExtraServerUrl !in i.extras then Refused(NoTarget)
    else
      var target := Target(AccountOf(i), StringOf(i, ExtraServerUrl));
      if i.action == Some(ActionGetServerInfo) then
        Built(Item(target, GetServerInfo(StringOf(i, ExtraServerUrl)), listener && handler))
      else if i.action == Some(ActionCheckCredentials) then
        Built(Item(target, CheckCredentials(BundleOf(i, ExtraCredentials), StringOf(i, ExtraServerVersion)),
                   listener && handler))
      else Refused(Unsupported(i.action))
  }

  // ---------------------------------------------------------------------------
  // The worker

  /** The pending queue, the number of processing messages not yet handled,
      the handler's `lastTarget`, and the target the cached client was built for. */
  datatype Service = Service(queue: seq<Item>, messages: nat, lastTarget: Option<Target>, client: Option<Target>)

  const Fresh: Service := Service([], 0, None, None)

  /** The cached client is the one for the last target. */
  predicate ClientMatches(s: Service) {
    s.client == s.lastTarget
  }

  datatype Queued = Queued(s: Service) | NotQueued(error: BuildError)

  /** `queueOperation`: the built item joins the back of the queue and one
      processing message is always sent. */
  function QueueOperation(s: Service, i: Intent, listener: bool, handler: bool): (r: Queued)
    ensures r.Queued? <==> BuildOperation(i, listener, handler).Built?
    ensures r.NotQueued? ==> r.error == BuildOperation(i, listener, handler).error
    ensures r.Queued? ==> r.s.queue == s.queue + [BuildOperation(i, listener, handler).item]
                          && r.s.messages == s.messages + 1
                          && r.s.lastTarget == s.lastTarget && r.s.client == s.client
  {
    match BuildOperation(i, listener, handler)
    case Refused(e) => NotQueued(e)
    case Built(item) => Queued(s.(queue := s.queue + [item], messages := s.messages + 1))
  }

  /** The Kotlin `queueOperation`: the item joins the back of the queue, but a
      processing message is sent only when it has a listener. */
  function QueueOperationKt(s: Service, i: Intent, listener: bool, handler: bool): (r: Queued)
    ensures r.Queued? <==> BuildOperation(i, listener, handler).Built?
    ensures r.NotQueued? ==> r.error == BuildOperation(i, listener, handler).error
    ensures r.Queued? ==> r.s.queue == s.queue + [BuildOperation(i, listener, handler).item]
                          && r.s.lastTarget == s.lastTarget && r.s.client == s.client
    ensures r.Queued? ==> (r.s.messages == s.messages + 1 <==> listener && handler)
                          && (r.s.messages == s.messages <==> !(listener && handler))
  {
    match BuildOperation(i, listener, handler)
    case Refused(e) => NotQueued(e)
    case Built(item) =>
      Queued(s.(queue := s.queue + [item], messages := s.messages + if item.hasListener then 1 else 0))
  }

  /** What an executed operation gives: the server's answer, or the failure to
      build an account or client (`AccountsException`, `IOException`). */
  datatype RemoteResult = Replied(ok: bool) | ClientFailure

  datatype Dispatch = Dispatch(operation: Operation, result: RemoteResult)

  /** One handled message: the service after it, the item it took, the result,
      the target of the client the operation ran on, what was posted to the
      listener, and whether a new client was asked for. */
  datatype Step = Step(s: Service, ran: Option<Item>, result: Option<RemoteResult>, via: Option<Target>,
                       dispatched: Option<Dispatch>, rebuilt: bool)

  /** `lastTarget == null || !lastTarget.equals(target)`. */
  predicate NeedsClient(s: Service, t: Target) {
    s.lastTarget.None? || s.lastTarget.value != t
  }

  /** An operation that reached the server ran on the client built for its own target. */
  predicate OnOwnClient(step: Step) {
    step.result.Some? && step.result.value.Replied? ==> step.ran.Some? && step.via == Some(step.ran.value.target)
  }

  /** `dispatchResult`: posted only when both listener and handler are set. */
  function DispatchOf(item: Item, result: RemoteResult): (d: Option<Dispatch>)
    ensures d.Some? <==> item.hasListener
    ensures d.Some? ==> d.value == Dispatch(item.operation, result)
  {
    if item.hasListener then Some(Dispatch(item.operation, result)) else None
  }

  /** `handleMessage` with `executeOperationItem`: the oldest item is taken and
      run; a new client is built when the target changed, and the last target
      is recorded only once its client exists. `connects` says whether building
      the client succeeds, `ok` what the server answers. */
  function HandleMessage(s: Service, connects: bool, ok: bool): (r: Step)
    requires s.messages > 0 && ClientMatches(s)
    ensures ClientMatches(r.s) && r.s.messages == s.messages - 1
    ensures s.queue == [] ==> r == Step(s.(messages := s.messages - 1), None, None, None, None, false)
    ensures s.queue != [] ==> r.ran == Some(s.queue[0]) && r.s.queue == s.queue[1..]
    ensures r.rebuilt <==> s.queue != [] && NeedsClient(s, s.queue[0].target)
    ensures r.result == Some(ClientFailure) <==> r.rebuilt && !connects
    ensures r.result.Some? <==> r.ran.Some?
    ensures OnOwnClient(r) && (r.result.Some? && r.result.value.Replied? ==> r.s.lastTarget == Some(r.ran.value.target))
    ensures r.ran.Some? ==> r.result.Some? && r.dispatched == DispatchOf(r.ran.value, r.result.value)
    ensures r.result == Some(ClientFailure) ==> r.s.lastTarget == s.lastTarget && r.s.client == s.client
  {
    var s1 := s.(messages := s.messages - 1);
    if s.queue == [] then Step(s1, None, None, None, None, false)
    else
      var item := s.queue[0];
      var s2 := s1.(queue := s.queue[1..]);
      if NeedsClient(s, item.target) then
        if connects then
          var result := Replied(ok);
          Step(s2.(lastTarget := Some(item.target), client := Some(item.target)), Some(item), Some(result),
               Some(item.target), DispatchOf(item, result), true)
        else Step(s2, Some(item), Some(ClientFailure), None, DispatchOf(item, ClientFailure), true)
      else
        var result := Replied(ok);
        Step(s2, Some(item), Some(result), s.client, DispatchOf(item, result), false)
  }

  /** The same handler as written: `lastTarget` is set before the client is
      built, so a failed build leaves the previous target's client cached
      under the new target. None when the operation would run on no client. */
  function HandleMessageAsWritten(s: Service, connects: bool, ok: bool): (r: Option<Step>)
    requires s.messages > 0
    ensures r.Some? && s.queue != [] ==> r.value.ran == Some(s.queue[0]) && r.value.s.queue == s.queue[1..]
                                         && r.value.s.lastTarget == Some(s.queue[0].target)
    ensures r.None? <==> s.queue != [] && !NeedsClient(s, s.queue[0].target) && s.client.None?
  {
    var s1 := s.(messages := s.messages - 1);
    if s.queue == [] then Some(Step(s1, None, None, None, None, false))
    else
      var item := s.queue[0];
      var s2 := s1.(queue := s.queue[1..]);
      if NeedsClient(s, item.target) then
        var s3 := s2.(lastTarget := Some(item.target));
        if connects then
          var result := Replied(ok);
          Some(Step(s3.(client := Some(item.target)), Some(item), Some(result), Some(item.target),
                    DispatchOf(item, result), true))
        else Some(Step(s3, Some(item), Some(ClientFailure), None, DispatchOf(item, ClientFailure), true))
      else if s.client.None? then None
      else
        var result := Replied(ok);
        Some(Step(s2, Some(item), Some(result), s.client, DispatchOf(item, result), false))
  }

  /** As written: after a client for B fails to build, the next operation for
      B runs on the client built for A. */
  lemma StaleClientAsWritten()
    ensures var a := Target(None, Some("https://a.example"));
      var b := Target(None, Some("https://b.example"));
      var item := Item(b, GetServerInfo(Some("https://b.example")), false);
      var s := Service([item, item], 2, Some(a), Some(a));
      var first := HandleMessageAsWritten(s, false, true);
      first.Some? && first.value.result == Some(ClientFailure)
      && var second := HandleMessageAsWritten(first.value.s, true, true);
      second.Some? && second.value.ran == Some(item) && second.value.result == Some(Replied(true))
      && second.value.via == Some(a) && a != item.target
  {
  }

  /** With the last target recorded only on success, every operation that
      reaches the server runs on the client of its own target. */
  lemma {:induction false} ClientAlwaysOwnTarget(s: Service, connects: seq<bool>, oks: seq<bool>)
    requires ClientMatches(s) && |connects| == |oks| && s.messages >= |connects|
    ensures forall i :: 0 <= i < |Process(s, connects, oks).1| ==> OnOwnClient(Process(s, connects, oks).1[i])
    decreases |connects|
  {
    if |connects| > 0 {
      var step := HandleMessage(s, connects[0], oks[0]);
      ClientAlwaysOwnTarget(step.s, connects[1..], oks[1..]);
      var rest := Process(step.s, connects[1..], oks[1..]);
      assert Process(s, connects, oks).1 == [step] + rest.1;
      assert forall i :: 1 <= i < |rest.1| + 1 ==> ([step] + rest.1)[i] == rest.1[i - 1];
    }
  }

  /** One handled message per entry of `connects` and `oks`, in turn. */
  function Process(s: Service, connects: seq<bool>, oks: seq<bool>): (r: (Service, seq<Step>))
    requires ClientMatches(s) && |connects| == |oks| && s.messages >= |connects|
    ensures ClientMatches(r.0) && |r.1| == |connects| && r.0.messages == s.messages - |connects|
    decreases |connects|
  {
    if |connects| == 0 then (s, [])
    else
      var step := HandleMessage(s, connects[0], oks[0]);
      var rest := Process(step.s, connects[1..], oks[1..]);
      (rest.0, [step] + rest.1)
  }

  /** The items taken, in order. */
  function Taken(steps: seq<Step>): (r: seq<Item>)
    ensures |r| <= |steps|
  {
    if steps == [] then []
    else if steps[0].ran.Some? then [steps[0].ran.value] + Taken(steps[1..])
    else Taken(steps[1..])
  }

  /** First in, first out: `n` messages run the `n` oldest items (or all of
      them), in queue order, and leave the rest queued. */
  lemma {:induction false} ProcessFifo(s: Service, connects: seq<bool>, oks: seq<bool>)
    requires ClientMatches(s) && |connects| == |oks| && s.messages >= |connects|
    ensures var n := if |connects| < |s.queue| then |connects| else |s.queue|;
      var r := Process(s, connects, oks);
      Taken(r.1) == s.queue[..n] && r.0.queue == s.queue[n..]
    decreases |connects|
  {
    if |connects| > 0 {
      var step := HandleMessage(s, connects[0], oks[0]);
      ProcessFifo(step.s, connects[1..], oks[1..]);
      var rest := Process(step.s, connects[1..], oks[1..]);
      assert Process(s, connects, oks).1 == [step] + rest.1;
      if s.queue != [] {
        assert s.queue[1..][..(if |connects| - 1 < |s.queue| - 1 then |connects| - 1 else |s.queue| - 1)]
               == s.queue[1..(if |connects| < |s.queue| then |connects| else |s.queue|)];
        assert [s.queue[0]] + s.queue[1..(if |connects| < |s.queue| then |connects| else |s.queue|)]
               == s.queue[..(if |connects| < |s.queue| then |connects| else |s.queue|)];
      }
    }
  }

  // ---------------------------------------------------------------------------
  // The two queueing disciplines on one request without a listener

  /** A server-info request with only a SERVER_URL extra. */
  function ServerInfoIntent(url: string): Intent {
    Intent(Some(ActionGetServerInfo), map[ExtraServerUrl := StringExtra(Some(url))])
  }

  /** Kotlin: a request without a listener stays queued, since no message is
      sent for it; the queue holds exactly one item. */
  lemma ListenerlessWaitsKt(url: string)
    ensures var q := QueueOperationKt(Fresh, ServerInfoIntent(url), false, false);
      q.Queued? && |q.s.queue| == 1 && q.s.messages == 0
  {
  }

  /** Java: the same request is queued with a message, and handling that
      message empties the queue again; a queue size of one is only seen before
      the worker runs. */
  lemma ListenerlessRunsJava(url: string, connects: bool, ok: bool)
    ensures var q := QueueOperation(Fresh, ServerInfoIntent(url), false, false);
      q.Queued? && |q.s.queue| == 1 && q.s.messages == 1
      && HandleMessage(q.s, connects, ok).s.queue == []
      && HandleMessage(q.s, connects, ok).dispatched.None?
  {
  }

  /** Kotlin: a later request with a listener sends a message, but that message
      runs the oldest item, the listener-less one; the new request waits. */
  lemma MessageRunsOldestKt(url: string, connects: bool, ok: bool)
    ensures var q1 := QueueOperationKt(Fresh, ServerInfoIntent(url), false, false);
      var q2 := QueueOperationKt(q1.s, ServerInfoIntent(url), true, true);
      q1.Queued? && q2.Queued? && q2.s.messages == 1
      && var step := HandleMessage(q2.s, connects, ok);
      step.ran == Some(q1.s.queue[0]) && step.dispatched.None? && |step.s.queue| == 1
      && step.s.queue[0].hasListener && step.s.messages == 0
  {
  }
}

=== FILE: orchestrator.dfy ===
/** `SyncAdapter.onPerformSync`: the three collection passes in a fixed order,
    stopped by the first fatal result, followed by the terminal sync status,
    the stop broadcast and the failure notifications. Broadcasts and
    notifications are recorded as a list of events. */
module Orchestrator {
  import opened Wrappers
  import opened Entities
  import LocalStore
  import Cloud
  import SyncLog
  import Settings
  import Reconciler
  import JsonValues

  // ---------------------------------------------------------------------------
  // Events

  /** `ACTION_SYNC` and the per-collection actions. */
  datatype Channel = Overall | Collection(k: Kind)

  datatype Phase = SyncStart | SyncStop

  /** One entry of the failure notification listing item failures. */
  datatype FailSource = FailSource(k: Kind, count: nat)

  /** The failure notifications `onPerformSync` can raise. */
  datatype Failure =
    | FailedLogin
    | FailedProfile
    | FailedDatabase
    | FailedCloudAccess
    | FailedItems(sources: seq<FailSource>)

  datatype Event =
    | Broadcast(channel: Channel, phase: Phase)
    | ItemNotice(k: Kind, notice: Reconciler.Notice)
    | Notification(failure: Failure)

  // ---------------------------------------------------------------------------
  // The world a run reads and writes

  /** The preferences, the local database and the three cloud folders. */
  datatype World = World(prefs: Settings.Prefs, db: LocalStore.Db,
                         favorites: Cloud.Remote, links: Cloud.Remote, notes: Cloud.Remote)

  function RemoteOf(w: World, k: Kind): Cloud.Remote {
    match k
    case LinkKind => w.links
    case FavoriteKind => w.favorites
    case NoteKind => w.notes
  }

  function WithRemote(w: World, k: Kind, r: Cloud.Remote): (v: World)
    ensures RemoteOf(v, k) == r && v.prefs == w.prefs && v.db == w.db
    ensures forall k2 :: k2 != k ==> RemoteOf(v, k2) == RemoteOf(w, k2)
  {
    match k
    case LinkKind => w.(links := r)
    case FavoriteKind => w.(favorites := r)
    case NoteKind => w.(notes := r)
  }

  /** How one collection's local reads go: the orders in which its rows and
      its remote-only ids are visited, and where the reads fail. */
  datatype Orders = Orders(local: seq<string>, cloud: seq<string>, faults: Reconciler.ReadFaults)

  /** What the run depends on besides the world: whether an account client
      exists, whether the profile update succeeds, the connection, the two
      sync options, the clock, how each collection's local reads go, and the
      byte length of a serialised JSON body. */
  datatype Env = Env(hasClient: bool, profileUpdated: bool, net: Cloud.Net,
                     uploadToEmpty: bool, protectLocal: bool, started: int, now: int,
                     favoriteOrders: Orders, linkOrders: Orders, noteOrders: Orders,
                     bodySize: JsonValues.Json -> nat)

  function OrdersOf(e: Env, k: Kind): Orders {
    match k
    case LinkKind => e.linkOrders
    case FavoriteKind => e.favoriteOrders
    case NoteKind => e.noteOrders
  }

  /** Favorites first, then links, then notes. */
  const PassOrder: seq<Kind> := [FavoriteKind, LinkKind, NoteKind]

  // ---------------------------------------------------------------------------
  // One collection

  datatype Ran = Ran(k: Kind, result: Reconciler.ItemResult)

  function Notices(k: Kind, ns: seq<Reconciler.Notice>): (evs: seq<Event>)
    ensures |evs| == |ns| && forall i :: 0 <= i < |ns| ==> evs[i] == ItemNotice(k, ns[i])
  {
    if ns == [] then [] else [ItemNotice(k, ns[0])] + Notices(k, ns[1..])
  }

  /** After `k` ran: its sync time is `now`, so is the links time when `k` is
      notes, and every collection time is either kept or `now`. */
  ghost predicate Stamped(p: Settings.Prefs, q: Settings.Prefs, k: Kind, now: int) {
    Settings.LastCollectionSyncTime(q, k) == now
    && (k == NoteKind ==> Settings.LastCollectionSyncTime(q, LinkKind) == now)
    && forall k2 :: Settings.LastCollectionSyncTime(q, k2) in {Settings.LastCollectionSyncTime(p, k2), now}
  }

  /** Stamping on top of prefs whose collection times equal `p`'s is stamping `p`. */
  lemma StampedThrough(p: Settings.Prefs, p1: Settings.Prefs, q: Settings.Prefs, k: Kind, now: int)
    requires forall k2 :: Settings.LastCollectionSyncTime(p1, k2) == Settings.LastCollectionSyncTime(p, k2)
    requires Stamped(p1, q, k, now)
    ensures Stamped(p, q, k, now)
  {
  }

  /** The collection's sync-time bookkeeping: the notes pass also advances the
      links time, as notes refer to links. */
  function Touch(p: Settings.Prefs, k: Kind, now: int): (r: Settings.Prefs)
    ensures Stamped(p, r, k, now)
    ensures k != NoteKind ==> forall k2 :: k2 != k ==>
      Settings.LastCollectionSyncTime(r, k2) == Settings.LastCollectionSyncTime(p, k2)
    ensures forall key :: key != Settings.CollectionSyncTimeKey(k) && key != Settings.CollectionSyncTimeKey(LinkKind) ==>
      (key in r <==> key in p) && (key in r ==> r[key] == p[key])
  {
    var q := Settings.UpdateLastCollectionSyncTime(p, k, now);
    if k == NoteKind then Settings.UpdateLastCollectionSyncTime(q, LinkKind, now) else q
  }

  /** The world after collection `k`'s pass ended in `out`: the pass's
      preferences with the sync times stamped, its database and its folder,
      and the pass's notices between the collection's START and STOP. */
  function Adopt(w: World, k: Kind, out: Reconciler.Outcome, now: int): (r: (World, Reconciler.ItemResult, seq<Event>))
    requires forall k2 :: Settings.LastCollectionSyncTime(out.s.prefs, k2) == Settings.LastCollectionSyncTime(w.prefs, k2)
    ensures r.0.db == out.s.db && r.1 == out.result
    ensures |r.2| >= 2 && r.2[0] == Broadcast(Collection(k), SyncStart)
            && r.2[|r.2| - 1] == Broadcast(Collection(k), SyncStop)
    ensures forall k2 :: k2 != k ==> RemoteOf(r.0, k2) == RemoteOf(w, k2)
    ensures Stamped(w.prefs, r.0.prefs, k, now)
  {
    var s := out.s;
    var w2 := WithRemote(w.(prefs := Touch(s.prefs, k, now), db := s.db), k, s.remote);
    StampedThrough(w.prefs, s.prefs, w2.prefs, k, now);
    (w2, out.result,
     [Broadcast(Collection(k), SyncStart)] + Notices(k, out.notices) + [Broadcast(Collection(k), SyncStop)])
  }

  /** One `SyncItem.sync` between its START and STOP broadcasts. None when the
      pass throws. */
  function RunCollection(w: World, e: Env, k: Kind): (r: Option<(World, Reconciler.ItemResult, seq<Event>)>)
    requires LocalStore.Valid(w.db)
    ensures r.Some? ==> LocalStore.Valid(r.value.0.db) && Reconciler.LogGrows(w.db, r.value.0.db)
    ensures r.Some? ==> (|r.value.2| >= 2 && r.value.2[0] == Broadcast(Collection(k), SyncStart)
                         && r.value.2[|r.value.2| - 1] == Broadcast(Collection(k), SyncStop))
    ensures r.Some? ==> forall k2 :: k2 != k ==> RemoteOf(r.value.0, k2) == RemoteOf(w, k2)
    ensures r.Some? ==> Stamped(w.prefs, r.value.0.prefs, k, e.now)
    ensures r.Some? ==> (r.value.1.status == Reconciler.SourceNotReady <==>
      !Cloud.Serves(e.net) || (RemoteOf(w, k).dirETag.None? && e.net.FailingWrites?))
  {
    var o := OrdersOf(e, k);
    var c := Reconciler.Config(k, e.net, e.uploadToEmpty, e.protectLocal, e.started, e.now, o.faults, e.bodySize);
    var out := Reconciler.Sync(Reconciler.Session(w.prefs, w.db, RemoteOf(w, k)), c, o.local, o.cloud);
    if out.None? then None else Some(Adopt(w, k, out.value, e.now))
  }

  /** `rans` records a run over `kinds` that went in order and stopped at the
      first fatal result: every collection before the last was not fatal, and
      a run that stopped early ended on a fatal one. */
  predicate RanInOrder(rans: seq<Ran>, kinds: seq<Kind>) {
    |rans| <= |kinds| && (|kinds| > 0 ==> |rans| > 0)
    && (forall i :: 0 <= i < |rans| ==> rans[i].k == kinds[i])
    && (forall i :: 0 <= i < |rans| - 1 ==> !rans[i].result.IsFatal())
    && (|rans| < |kinds| ==> rans[|rans| - 1].result.IsFatal())
  }

  lemma RanInOrderCons(ran: Ran, rans: seq<Ran>, kinds: seq<Kind>)
    requires |kinds| > 0 && ran.k == kinds[0] && !ran.result.IsFatal() && RanInOrder(rans, kinds[1..])
    ensures RanInOrder([ran] + rans, kinds)
  {
    var r := [ran] + rans;
    assert forall i :: 1 <= i < |r| ==> r[i] == rans[i - 1];
  }

  /** Every collection in `rans` has its sync time at `now`, the links time too
      once notes ran, and no collection time moved anywhere but to `now`. */
  ghost predicate TimesTouched(p: Settings.Prefs, q: Settings.Prefs, rans: seq<Ran>, now: int) {
    (forall i :: 0 <= i < |rans| ==> Settings.LastCollectionSyncTime(q, rans[i].k) == now)
    && ((exists i :: 0 <= i < |rans| && rans[i].k == NoteKind) ==> Settings.LastCollectionSyncTime(q, LinkKind) == now)
    && (forall k2 :: Settings.LastCollectionSyncTime(q, k2) in {Settings.LastCollectionSyncTime(p, k2), now})
  }

  lemma TimesTouchedCons(p0: Settings.Prefs, p1: Settings.Prefs, p2: Settings.Prefs, ran: Ran, rans: seq<Ran>, now: int)
    requires Stamped(p0, p1, ran.k, now)
    requires TimesTouched(p1, p2, rans, now)
    ensures TimesTouched(p0, p2, [ran] + rans, now)
  {
    var all := [ran] + rans;
    assert forall i :: 1 <= i < |all| ==> all[i] == rans[i - 1];
    assert Settings.LastCollectionSyncTime(p2, ran.k) in {Settings.LastCollectionSyncTime(p1, ran.k), now};
    if ran.k == NoteKind {
      assert Settings.LastCollectionSyncTime(p2, LinkKind) in {Settings.LastCollectionSyncTime(p1, LinkKind), now};
    }
    if exists i :: 0 <= i < |all| && all[i].k == NoteKind {
      var i :| 0 <= i < |all| && all[i].k == NoteKind;
      if i > 0 {
        assert rans[i - 1].k == NoteKind;
      }
    }
  }

  /** The run over `kinds` given the first collection's outcome and, when that
      result was not fatal, the run over the rest. */
  function Chain(w: World, kinds: seq<Kind>, now: int, first: (World, Reconciler.ItemResult, seq<Event>),
                 rest: Option<(World, seq<Ran>, seq<Event>)>): (r: Option<(World, seq<Ran>, seq<Event>)>)
    requires |kinds| > 0
    requires LocalStore.Valid(first.0.db) && Reconciler.LogGrows(w.db, first.0.db)
    requires Stamped(w.prefs, first.0.prefs, kinds[0], now)
    requires rest.Some? ==> LocalStore.Valid(rest.value.0.db) && Reconciler.LogGrows(first.0.db, rest.value.0.db)
    requires rest.Some? ==> RanInOrder(rest.value.1, kinds[1..])
    requires rest.Some? ==> TimesTouched(first.0.prefs, rest.value.0.prefs, rest.value.1, now)
    ensures r.Some? ==> LocalStore.Valid(r.value.0.db) && Reconciler.LogGrows(w.db, r.value.0.db)
    ensures r.Some? ==> RanInOrder(r.value.1, kinds)
    ensures r.Some? ==> TimesTouched(w.prefs, r.value.0.prefs, r.value.1, now)
    ensures first.1.IsFatal() ==> r == Some((first.0, [Ran(kinds[0], first.1)], first.2))
    ensures !first.1.IsFatal() ==> (r.Some? <==> rest.Some?)
  {
    var ran := Ran(kinds[0], first.1);
    if ran.result.IsFatal() then
      TimesTouchedCons(w.prefs, first.0.prefs, first.0.prefs, ran, [], now);
      Some((first.0, [ran], first.2))
    else if rest.None? then None
    else
      Reconciler.LogGrowsTransitive(w.db, first.0.db, rest.value.0.db);
      RanInOrderCons(ran, rest.value.1, kinds);
      TimesTouchedCons(w.prefs, first.0.prefs, rest.value.0.prefs, ran, rest.value.1, now);
      Some((rest.value.0, [ran] + rest.value.1, first.2 + rest.value.2))
  }

  /** The collections of `kinds` in turn, each only while no earlier result was
      fatal. */
  function RunAll(w: World, e: Env, kinds: seq<Kind>): (r: Option<(World, seq<Ran>, seq<Event>)>)
    requires LocalStore.Valid(w.db)
    ensures r.Some? ==> LocalStore.Valid(r.value.0.db) && Reconciler.LogGrows(w.db, r.value.0.db)
    ensures r.Some? ==> RanInOrder(r.value.1, kinds)
    ensures r.Some? ==> TimesTouched(w.prefs, r.value.0.prefs, r.value.1, e.now)
    decreases |kinds|
  {
    if |kinds| == 0 then Some((w, [], []))
    else
      var first := RunCollection(w, e, kinds[0]);
      if first.None? then None
      else
        Chain(w, kinds, e.now, first.value,
              if first.value.1.IsFatal() then None else RunAll(first.value.0, e, kinds[1..]))
  }

  // ---------------------------------------------------------------------------
  // The end of a run

  /** The run failed on a fatal result: the last collection that ran decides. */
  predicate Fatal(rans: seq<Ran>) {
    |rans| > 0 && rans[|rans| - 1].result.IsFatal()
  }

  /** `success`: no fatal result and every collection's pass a success. */
  predicate Succeeded(rans: seq<Ran>) {
    !Fatal(rans) && forall i :: 0 <= i < |rans| ==> rans[i].result.IsSuccess()
  }

  /** `saveLastSyncStatus`: CONFLICT before UNSYNCED before SYNCED, ERROR
      when the run did not succeed. */
  function TerminalStatus(success: bool, db: LocalStore.Db): (status: int)
    ensures status in {Settings.StatusSynced, Settings.StatusUnsynced, Settings.StatusError, Settings.StatusConflict}
    ensures status == Settings.StatusError <==> !success
    ensures status == Settings.StatusConflict <==> success && exists k :: LocalStore.IsConflicted(LocalStore.TableOf(db, k))
    ensures status == Settings.StatusSynced <==>
      success && forall k :: !LocalStore.IsConflicted(LocalStore.TableOf(db, k)) && !LocalStore.IsUnsynced(LocalStore.TableOf(db, k))
  {
    if !success then Settings.StatusError
    else if LocalStore.IsConflicted(db.links) || LocalStore.IsConflicted(db.favorites) || LocalStore.IsConflicted(db.notes) then
      assert LocalStore.IsConflicted(db.links) ==> LocalStore.IsConflicted(LocalStore.TableOf(db, LinkKind));
      assert LocalStore.IsConflicted(db.favorites) ==> LocalStore.IsConflicted(LocalStore.TableOf(db, FavoriteKind));
      assert LocalStore.IsConflicted(db.notes) ==> LocalStore.IsConflicted(LocalStore.TableOf(db, NoteKind));
      Settings.StatusConflict
    else if LocalStore.IsUnsynced(db.links) || LocalStore.IsUnsynced(db.favorites) || LocalStore.IsUnsynced(db.notes) then
      assert LocalStore.IsUnsynced(db.links) ==> LocalStore.IsUnsynced(LocalStore.TableOf(db, LinkKind));
      assert LocalStore.IsUnsynced(db.favorites) ==> LocalStore.IsUnsynced(LocalStore.TableOf(db, FavoriteKind));
      assert LocalStore.IsUnsynced(db.notes) ==> LocalStore.IsUnsynced(LocalStore.TableOf(db, NoteKind));
      Settings.StatusUnsynced
    else Settings.StatusSynced
  }

  function ResultOf(rans: seq<Ran>, k: Kind): (r: Reconciler.ItemResult)
    ensures (exists i :: 0 <= i < |rans| && rans[i].k == k) || r == Reconciler.Fresh
  {
    if |rans| == 0 then Reconciler.Fresh
    else if rans[0].k == k then rans[0].result
    else ResultOf(rans[1..], k)
  }

  /** The place of a collection in the failure notification. */
  function ReportRank(k: Kind): nat {
    match k
    case LinkKind => 0
    case FavoriteKind => 1
    case NoteKind => 2
  }

  function SourceIf(rans: seq<Ran>, k: Kind): (r: seq<FailSource>)
    ensures |r| <= 1 && (|r| == 1 <==> ResultOf(rans, k).failsCount > 0)
    ensures |r| == 1 ==> r[0] == FailSource(k, ResultOf(rans, k).failsCount)
  {
    var n := ResultOf(rans, k).failsCount;
    if n > 0 then [FailSource(k, n)] else []
  }

  /** The item failures worth reporting, links first, then favorites, then
      notes: each with a positive count, which is that collection's. */
  function FailSources(rans: seq<Ran>): (sources: seq<FailSource>)
    ensures forall i :: 0 <= i < |sources| ==>
      sources[i].count > 0 && sources[i].count == ResultOf(rans, sources[i].k).failsCount
    ensures forall i, j :: 0 <= i < j < |sources| ==> ReportRank(sources[i].k) < ReportRank(sources[j].k)
  {
    SourceIf(rans, LinkKind) + SourceIf(rans, FavoriteKind) + SourceIf(rans, NoteKind)
  }

  /** A collection is reported exactly when its pass counted failures. */
  lemma FailSourcesListed(rans: seq<Ran>, k: Kind)
    ensures (exists i :: 0 <= i < |FailSources(rans)| && FailSources(rans)[i].k == k)
            <==> ResultOf(rans, k).failsCount > 0
  {
    var a, b, c := SourceIf(rans, LinkKind), SourceIf(rans, FavoriteKind), SourceIf(rans, NoteKind);
    var s := FailSources(rans);
    assert s == a + b + c;
    if ResultOf(rans, k).failsCount > 0 {
      match k
      case LinkKind => assert s[0].k == k;
      case FavoriteKind => assert s[|a|].k == k;
      case NoteKind => assert s[|a| + |b|].k == k;
    }
  }

  /** The notifications after the STOP broadcast: the fatal cause of the last
      collection that ran, or the collections with item failures. */
  function Notifications(rans: seq<Ran>): (evs: seq<Event>)
    ensures Fatal(rans) && rans[|rans| - 1].result.status == Reconciler.DbAccessError ==>
      evs == [Notification(FailedDatabase)]
    ensures Fatal(rans) && rans[|rans| - 1].result.status == Reconciler.SourceNotReady ==>
      evs == [Notification(FailedCloudAccess)]
    ensures !Fatal(rans) ==>
      (evs == [] <==> FailSources(rans) == []) && (evs != [] ==> evs == [Notification(FailedItems(FailSources(rans)))])
  {
    if Fatal(rans) then
      var last := rans[|rans| - 1].result;
      if last.status == Reconciler.DbAccessError then [Notification(FailedDatabase)]
      else [Notification(FailedCloudAccess)]
    else
      var sources := FailSources(rans);
      if sources == [] then [] else [Notification(FailedItems(sources))]
  }

  // ---------------------------------------------------------------------------
  // `onPerformSync`

  datatype Report = Report(w: World, ran: seq<Ran>, events: seq<Event>)

  /** The run's events open with the overall START broadcast, and the overall
      STOP broadcast comes right before the failure notifications, which end them. */
  predicate Framed(events: seq<Event>, rans: seq<Ran>) {
    var tail := Notifications(rans);
    |events| >= 2 + |tail| && events[0] == Broadcast(Overall, SyncStart)
    && events[|events| - |tail| - 1] == Broadcast(Overall, SyncStop) && events[|events| - |tail|..] == tail
  }

  /** The stored sync status: ERROR exactly when the run did not succeed,
      otherwise CONFLICT when a collection holds a conflicted row, SYNCED when
      none holds a conflicted or unsynced row (and UNSYNCED in between). */
  ghost predicate StatusMeans(prefs: Settings.Prefs, db: LocalStore.Db, rans: seq<Ran>) {
    var status := Settings.SyncStatus(prefs);
    (status == Settings.StatusError <==> !Succeeded(rans))
    && (status == Settings.StatusConflict <==>
          Succeeded(rans) && exists k :: LocalStore.IsConflicted(LocalStore.TableOf(db, k)))
    && (status == Settings.StatusSynced <==>
          Succeeded(rans) && forall k :: !LocalStore.IsConflicted(LocalStore.TableOf(db, k))
                                         && !LocalStore.IsUnsynced(LocalStore.TableOf(db, k)))
  }

  /** After the passes: `saveLastSyncStatus`, the STOP broadcast and the
      notifications. The database and the cloud are left alone. */
  function Conclude(w: World, rans: seq<Ran>, evs: seq<Event>, now: int): (r: Report)
    ensures r.ran == rans && r.w.db == w.db && r.w.favorites == w.favorites
            && r.w.links == w.links && r.w.notes == w.notes
    ensures Framed(r.events, rans) && StatusMeans(r.w.prefs, w.db, rans)
    ensures Settings.SyncStatus(r.w.prefs) != Settings.StatusUnsynced ==> Settings.LastSyncTime(r.w.prefs) == now
    ensures forall k :: Settings.LastCollectionSyncTime(r.w.prefs, k) == Settings.LastCollectionSyncTime(w.prefs, k)
  {
    var status := TerminalStatus(Succeeded(rans), w.db);
    forall k ensures Settings.CollectionSyncTimeKey(k) != Settings.SyncStatusKey
                     && Settings.CollectionSyncTimeKey(k) != Settings.LastSyncTimeKey {
      Settings.CollectionSyncTimeKeysDistinct(k, k);
    }
    var tail := Notifications(rans);
    var ev := [Broadcast(Overall, SyncStart)] + evs + [Broadcast(Overall, SyncStop)] + tail;
    assert ev[|ev| - |tail|..] == tail;
    Report(w.(prefs := Settings.SetSyncStatus(w.prefs, status, now)), rans, ev)
  }

  /** `LocalSyncResults.cleanup` at the start of a run. */
  function Cleaned(w: World, now: int): (v: World)
    requires LocalStore.Valid(w.db)
    ensures LocalStore.Valid(v.db) && v.prefs == w.prefs
    ensures v.favorites == w.favorites && v.links == w.links && v.notes == w.notes
    ensures forall x :: x in v.db.log.rows <==> x in w.db.log.rows && SyncLog.IsFresh(x, now / 1000)
  {
    w.(db := w.db.(log := SyncLog.Cleanup(w.db.log, now / 1000).0))
  }

  /** A log that only grew still holds every entry it had. */
  lemma LogGrowsKeeps(a: LocalStore.Db, b: LocalStore.Db)
    requires Reconciler.LogGrows(a, b)
    ensures forall x :: x in a.log.rows ==> x in b.log.rows
  {
    forall x | x in a.log.rows ensures x in b.log.rows {
      var i :| 0 <= i < |a.log.rows| && a.log.rows[i] == x;
      assert b.log.rows[i] == x;
    }
  }

  /** The whole run. None when a collection pass throws. */
  function PerformSync(w: World, e: Env): (r: Option<Report>)
    requires LocalStore.Valid(w.db)
    ensures !e.hasClient ==> r == Some(Report(w, [], [Notification(FailedLogin)]))
    ensures e.hasClient && !e.profileUpdated ==>
      r == Some(Report(w, [], [Broadcast(Overall, SyncStart), Notification(FailedProfile)]))
    ensures r.Some? ==> LocalStore.Valid(r.value.w.db)
    ensures e.hasClient && e.profileUpdated && r.Some? ==> RanInOrder(r.value.ran, PassOrder)
    ensures e.hasClient && e.profileUpdated && r.Some? ==> forall x ::
      x in w.db.log.rows && SyncLog.IsFresh(x, e.now / 1000) ==> x in r.value.w.db.log.rows
    ensures e.hasClient && e.profileUpdated && r.Some? ==>
      Framed(r.value.events, r.value.ran) && StatusMeans(r.value.w.prefs, r.value.w.db, r.value.ran)
  {
    if !e.hasClient then Some(Report(w, [], [Notification(FailedLogin)]))
    else if !e.profileUpdated then Some(Report(w, [], [Broadcast(Overall, SyncStart), Notification(FailedProfile)]))
    else
      var cleaned := Cleaned(w, e.now);
      var run := RunAll(cleaned, e, PassOrder);
      if run.None? then None
      else
        LogGrowsKeeps(cleaned.db, run.value.0.db);
        Some(Conclude(run.value.0, run.value.1, run.value.2, e.now))
  }

  // ---------------------------------------------------------------------------
  // Properties of a run

  /** A run succeeds exactly when all three collections ran and each pass was a success. */
  lemma SucceededRanAll(rans: seq<Ran>)
    requires RanInOrder(rans, PassOrder)
    ensures Succeeded(rans) <==> |rans| == 3 && forall i :: 0 <= i < 3 ==> rans[i].result.IsSuccess()
  {
  }

  /** When the cloud does not serve, the favorites pass reports it and nothing
      else runs: the status is ERROR and the cloud-access failure is notified. */
  lemma {:induction false} UnservedCloudStopsAtFavorites(w: World, e: Env)
    requires LocalStore.Valid(w.db) && e.hasClient && e.profileUpdated && !Cloud.Serves(e.net)
    ensures var res := PerformSync(w, e);
      res.Some? ==>
      var r := res.value;
      |r.ran| == 1 && r.ran[0].k == FavoriteKind && r.ran[0].result.status == Reconciler.SourceNotReady
      && Settings.SyncStatus(r.w.prefs) == Settings.StatusError
      && r.events[|r.events| - 1] == Notification(FailedCloudAccess)
  {
    var res := PerformSync(w, e);
    if res.Some? {
      var r := res.value;
      assert r.ran[0].result.status == Reconciler.SourceNotReady;
      assert Fatal(r.ran);
    }
  }

  /** Every collection that ran has its sync time at the run's clock, and so
      has the links collection once the notes pass ran; no other collection
      time moved. */
  lemma PerformSyncTimes(w: World, e: Env)
    requires LocalStore.Valid(w.db) && e.hasClient && e.profileUpdated
    ensures var res := PerformSync(w, e);
      res.Some? ==> TimesTouched(w.prefs, res.value.w.prefs, res.value.ran, e.now)
  {
    if PerformSync(w, e).Some? {
      var cleaned := Cleaned(w, e.now);
      var run := RunAll(cleaned, e, PassOrder);
      ConcludeKeepsTimes(w.prefs, run.value.0, run.value.1, run.value.2, e.now);
    }
  }

  lemma ConcludeKeepsTimes(p: Settings.Prefs, w: World, rans: seq<Ran>, evs: seq<Event>, now: int)
    requires TimesTouched(p, w.prefs, rans, now)
    ensures TimesTouched(p, Conclude(w, rans, evs, now).w.prefs, rans, now)
  {
    var q := Conclude(w, rans, evs, now).w.prefs;
    assert forall k :: Settings.LastCollectionSyncTime(q, k) == Settings.LastCollectionSyncTime(w.prefs, k);
  }
}

=== FILE: reconciler.dfy ===
/** `SyncItem`: one collection's pass. The item-level decision table, the
    local and remote effect of each decision, the per-item pass over the
    local items, the download of remote-only items, and the bookkeeping of
    the pass result. */
module Reconciler {
  import opened Wrappers
  import opened SyncStates
  import opened Entities
  import LocalStore
  import Cloud
  import EntityJson
  import SyncLog
  import Settings
  import JsonValues

  // ---------------------------------------------------------------------------
  // The pass result

  datatype Status = FailsCount | DbAccessError | SourceNotReady

  /** `SyncItemResult`: the status of the pass and the number of item-level
      failures it met. */
  datatype ItemResult = ItemResult(status: Status, failsCount: nat) {
    /** The pass could not be carried out at all; later collections are skipped. */
    predicate IsFatal() {
      status == DbAccessError || status == SourceNotReady
    }

    /** The pass ran and no item failed. */
    predicate IsSuccess() {
      status == FailsCount && failsCount == 0
    }
  }

  /** The result a pass starts with. */
  const Fresh: ItemResult := ItemResult(FailsCount, 0)

  // ---------------------------------------------------------------------------
  // The decision table

  /** What `syncItem` does with one local item. */
  datatype Action = Skip | DeleteLocal | Upload | DeleteCloud | MarkConflicted | Fetch

  /** `syncItem`'s choice for a local item, given the ETag the cloud lists for
      it (None when the cloud has no file for it). A conflicted item waits for
      the user; a remote change is never overwritten by an upload; a local
      change is never dropped; a remote file is only removed for a locally
      deleted item; only a remote ETag other than the local one calls for a
      download. */
  function Decide(it: Item, cloudETag: Option<string>, protectLocal: bool): (a: Action)
    ensures it.State().conflicted ==> a == Skip
    ensures a == Fetch <==>
      !it.State().conflicted && it.ETag().Some? && cloudETag.Some? && it.ETag() != cloudETag
    ensures a == Upload ==> !it.State().deleted && (it.ETag().None? || it.ETag() == cloudETag)
    ensures a == DeleteCloud ==>
      it.State().deleted && !it.State().synced && cloudETag.Some? && it.ETag() == cloudETag
    ensures a == DeleteLocal ==>
      it.State().deleted || (it.State().synced && !protectLocal && cloudETag.None?)
    ensures a == MarkConflicted ==>
      (cloudETag.None? && it.ETag().Some?
       && (if it.State().synced then protectLocal else !it.State().deleted))
  {
    var s := it.State();
    if s.conflicted then Skip
    else if s.eTag.None? then (if s.deleted then DeleteLocal else Upload)
    else if s.eTag == cloudETag then
      if s.synced then Skip
      else if s.deleted then DeleteCloud
      else if s.duplicated != 0 then Skip
      else Upload
    else if cloudETag.None? then
      if s.synced then (if protectLocal then MarkConflicted else DeleteLocal)
      else if s.deleted then DeleteLocal
      else MarkConflicted
    else Fetch
  }

  /** A never-synced item (no ETag) is deleted locally when soft-deleted and
      uploaded otherwise, whatever the cloud lists. */
  lemma DecideNeverSynced(it: Item, cloudETag: Option<string>, protectLocal: bool)
    requires !it.State().conflicted && it.ETag().None?
    ensures Decide(it, cloudETag, protectLocal) == (if it.State().deleted then DeleteLocal else Upload)
  {
  }

  /** Green light (the cloud lists the item's own ETag): a synced item is left
      alone, an unsynced deleted one is deleted in the cloud, an unsynced
      primary one is uploaded, an unsynced duplicate is left alone. */
  lemma DecideGreenLight(it: Item, protectLocal: bool)
    requires !it.State().conflicted && it.ETag().Some?
    ensures var a := Decide(it, it.ETag(), protectLocal);
      (it.State().synced ==> a == Skip)
      && (!it.State().synced && it.State().deleted ==> a == DeleteCloud)
      && (!it.State().synced && !it.State().deleted ==>
            a == (if it.State().duplicated != 0 then Skip else Upload))
  {
  }

  /** The cloud lost a file the item was synced with: a synced item is kept as
      a conflict under `protectLocal` and deleted otherwise; an unsynced item is
      deleted if soft-deleted and kept as a conflict otherwise. */
  lemma DecideRemoteMissing(it: Item, protectLocal: bool)
    requires !it.State().conflicted && it.ETag().Some?
    ensures var a := Decide(it, None, protectLocal);
      (it.State().synced ==> a == (if protectLocal then MarkConflicted else DeleteLocal))
      && (!it.State().synced ==> a == (if it.State().deleted then DeleteLocal else MarkConflicted))
  {
  }

  /** What is done with a downloaded remote copy of a local item. */
  datatype Resolution = TakeCloud | DeleteBoth | AdoptETag | Conflict(state: State)

  /** The changed-on-cloud branch: an untouched local copy (synced, not
      deleted) is overwritten by the remote one; a touched one that already
      matches the remote content is deleted everywhere when deleted locally,
      or simply marked synced; a touched one that differs becomes a conflict,
      of the delete kind when deleted locally. */
  function DecideFetched(it: Item, cloud: Item): (r: Resolution)
    ensures r == TakeCloud <==> it.State().synced && !it.State().deleted
    ensures r == DeleteBoth ==> it.State().deleted && ContentEquals(it, cloud)
    ensures r == AdoptETag ==> !it.State().deleted && ContentEquals(it, cloud)
    ensures r.Conflict? <==> !(it.State().synced && !it.State().deleted) && !ContentEquals(it, cloud)
    ensures r.Conflict? ==> r.state == (if it.State().deleted then ConflictedDelete else ConflictedUpdate)
  {
    if it.State().synced && !it.State().deleted then TakeCloud
    else if ContentEquals(it, cloud) then
      if it.State().deleted then DeleteBoth else AdoptETag
    else Conflict(if it.State().deleted then ConflictedDelete else ConflictedUpdate)
  }

  // ---------------------------------------------------------------------------
  // The state of a pass

  /** The statuses of `sendSyncBroadcast` a pass sends for single items. */
  datatype NoticeStatus = StatusCreated | StatusUpdated | StatusDeleted | StatusUploaded | StatusDownloaded

  /** One broadcast about one item. */
  datatype Notice = Notice(status: NoticeStatus, id: string)

  /** Where the local reads of a pass fail: `getUnsynced` or `getAll` after
      delivering the given number of rows, `getIds` before delivering any.
      None and false stand for a read that succeeds. */
  datatype ReadFaults = ReadFaults(unsynced: Option<nat>, all: Option<nat>, ids: bool)

  /** The fixed inputs of a pass: the collection, how the server answers, the
      two sync settings, the start time of the run, the clock, where the local
      reads fail, and the byte length of an item's serialised JSON (which the
      model does not compute). */
  datatype Config = Config(k: Kind, net: Cloud.Net, uploadToEmpty: bool, protectLocal: bool,
                           started: int, now: int, faults: ReadFaults,
                           bodySize: JsonValues.Json -> nat)

  /** The state a pass carries: the local store, the collection's folder, the
      result so far, the broadcasts sent, and the number of remote writes made
      (which names the ETag of the next one). */
  datatype Pass = Pass(db: LocalStore.Db, remote: Cloud.Remote, result: ItemResult,
                       notices: seq<Notice>, writes: nat)

  /** How one item operation ends: normally, saying whether it changed the
      item (`notifyChanged`), or with an exception that leaves `syncItem`. */
  datatype Step = Done(p: Pass, changed: bool) | Thrown(p: Pass)

  function Digit(d: nat): char
    requires d < 10
  {
    "0123456789"[d]
  }

  /** The ETag the server gives the write numbered `n`: ETags are opaque, and
      any naming that tells writes apart serves. */
  function Stamp(n: nat): (s: string)
    ensures |s| > 0
    decreases n
  {
    if n < 10 then [Digit(n)] else Stamp(n / 10) + [Digit(n % 10)]
  }

  /** The log grew by appending only. */
  predicate LogGrows(a: LocalStore.Db, b: LocalStore.Db) {
    |a.log.rows| <= |b.log.rows| && b.log.rows[..|a.log.rows|] == a.log.rows
  }

  /** Rows of collection `k` outside `ids` are as they were. */
  ghost predicate Keeps(a: LocalStore.Db, b: LocalStore.Db, k: Kind, ids: set<string>) {
    (forall x :: x !in ids ==> (x in LocalStore.TableOf(a, k).rows <==> x in LocalStore.TableOf(b, k).rows))
    && (forall x :: x !in ids && x in LocalStore.TableOf(a, k).rows ==>
          LocalStore.TableOf(b, k).rows[x] == LocalStore.TableOf(a, k).rows[x])
  }

  /** The number of ERROR rows. */
  function ErrorRows(rows: seq<SyncLog.SyncResult>): nat {
    if |rows| == 0 then 0
    else ErrorRows(rows[..|rows| - 1]) + (if rows[|rows| - 1].result == SyncLog.Error then 1 else 0)
  }

  /** Every failure counted since `p` is an ERROR row logged since `p`, and
      the other way round. */
  predicate TracksErrors(p: Pass, q: Pass) {
    ErrorRows(q.db.log.rows) - ErrorRows(p.db.log.rows) == q.result.failsCount - p.result.failsCount
  }

  /** The log holds an ERROR row for `id`. */
  predicate HasError(db: LocalStore.Db, id: string) {
    exists j :: 0 <= j < |db.log.rows| && db.log.rows[j].entryId == id
                && db.log.rows[j].result == SyncLog.Error
  }

  lemma LogGrowsTransitive(a: LocalStore.Db, b: LocalStore.Db, c: LocalStore.Db)
    requires LogGrows(a, b) && LogGrows(b, c)
    ensures LogGrows(a, c)
  {
    assert c.log.rows[..|a.log.rows|] == c.log.rows[..|b.log.rows|][..|a.log.rows|];
  }

  /** An ERROR row stays in a log that only grows. */
  lemma HasErrorKept(a: LocalStore.Db, b: LocalStore.Db, id: string)
    requires HasError(a, id) && LogGrows(a, b)
    ensures HasError(b, id)
  {
    var j :| 0 <= j < |a.log.rows| && a.log.rows[j].entryId == id && a.log.rows[j].result == SyncLog.Error;
    assert b.log.rows[j] == b.log.rows[..|a.log.rows|][j];
  }

  // ---------------------------------------------------------------------------
  // Logging

  /** `logSyncResult(started, id, result)`: one row, not applied. None is the
      RuntimeException a link or favorite throws for RELATED. */
  function LogRow(p: Pass, c: Config, id: string, result: SyncLog.Result): (q: Option<Pass>)
    requires LocalStore.Valid(p.db)
    ensures q.None? <==> c.k != NoteKind && result == SyncLog.Related
    ensures q.Some? ==> (LocalStore.Valid(q.value.db) && q.value == p.(db := q.value.db)
      && q.value.db == p.db.(log := q.value.db.log) && LogGrows(p.db, q.value.db)
      && |q.value.db.log.rows| == |p.db.log.rows| + 1
      && q.value.db.log.rows[|p.db.log.rows|].entryId == id
      && q.value.db.log.rows[|p.db.log.rows|].result == result
      && !q.value.db.log.rows[|p.db.log.rows|].applied)
    ensures q.Some? ==>
      ErrorRows(q.value.db.log.rows) == ErrorRows(p.db.log.rows) + (if result == SyncLog.Error then 1 else 0)
  {
    var db := LocalStore.LogResult(p.db, c.k, c.now, c.started, id, result, false);
    if db.None? then None
    else
      assert db.value.log.rows[..|db.value.log.rows| - 1] == p.db.log.rows;
      Some(p.(db := db.value))
  }

  /** The row for the item and, when it has a related entry (a note's link),
      a RELATED row for that entry. */
  function LogWithRelated(p: Pass, c: Config, id: string, related: Option<string>,
                          result: SyncLog.Result): (q: Option<Pass>)
    requires LocalStore.Valid(p.db) && result != SyncLog.Related && result != SyncLog.Error
    ensures q.None? <==> related.Some? && c.k != NoteKind
    ensures q.Some? ==> (LocalStore.Valid(q.value.db) && q.value == p.(db := q.value.db)
      && q.value.db == p.db.(log := q.value.db.log) && LogGrows(p.db, q.value.db)
      && |q.value.db.log.rows| > |p.db.log.rows|
      && q.value.db.log.rows[|p.db.log.rows|].entryId == id
      && q.value.db.log.rows[|p.db.log.rows|].result == result)
    ensures q.Some? ==> ErrorRows(q.value.db.log.rows) == ErrorRows(p.db.log.rows)
  {
    var q := LogRow(p, c, id, result).value;
    if related.None? then Some(q) else LogRelatedAfter(p, q, c, id, related.value, result)
  }

  /** The RELATED row that follows the item's own row `q` appended to `p`. */
  function LogRelatedAfter(p: Pass, q: Pass, c: Config, id: string, related: string,
                           result: SyncLog.Result): (r: Option<Pass>)
    requires LocalStore.Valid(p.db) && LocalStore.Valid(q.db)
    requires q == p.(db := q.db) && q.db == p.db.(log := q.db.log) && LogGrows(p.db, q.db)
    requires |q.db.log.rows| > |p.db.log.rows|
    requires q.db.log.rows[|p.db.log.rows|].entryId == id && q.db.log.rows[|p.db.log.rows|].result == result
    requires ErrorRows(q.db.log.rows) == ErrorRows(p.db.log.rows)
    ensures r.None? <==> c.k != NoteKind
    ensures r.Some? ==> (LocalStore.Valid(r.value.db) && r.value == p.(db := r.value.db)
      && r.value.db == p.db.(log := r.value.db.log) && LogGrows(p.db, r.value.db)
      && |r.value.db.log.rows| > |p.db.log.rows|
      && r.value.db.log.rows[|p.db.log.rows|].entryId == id
      && r.value.db.log.rows[|p.db.log.rows|].result == result)
    ensures r.Some? ==> ErrorRows(r.value.db.log.rows) == ErrorRows(p.db.log.rows)
  {
    var q2 := LogRow(q, c, related, SyncLog.Related);
    if q2.None? then None
    else
      LoggedTwice(p, q, q2.value);
      q2
  }

  /** Two passes that each only appended log rows append to the first pass's
      log, and the rows the first one appended stay in place. */
  lemma LoggedTwice(p: Pass, q: Pass, r: Pass)
    requires q == p.(db := q.db) && q.db == p.db.(log := q.db.log) && LogGrows(p.db, q.db)
    requires r == q.(db := r.db) && r.db == q.db.(log := r.db.log) && LogGrows(q.db, r.db)
    requires |q.db.log.rows| > |p.db.log.rows|
    ensures r == p.(db := r.db) && r.db == p.db.(log := r.db.log) && LogGrows(p.db, r.db)
    ensures r.db.log.rows[|p.db.log.rows|] == q.db.log.rows[|p.db.log.rows|]
  {
    LogGrowsTransitive(p.db, q.db, r.db);
    assert r.db.log.rows[|p.db.log.rows|] == r.db.log.rows[..|q.db.log.rows|][|p.db.log.rows|];
  }

  /** `incFailsCount` and an ERROR row for the item (`logError`). */
  function Failed(p: Pass, c: Config, id: string): (q: Pass)
    requires LocalStore.Valid(p.db)
    ensures LocalStore.Valid(q.db) && q.db == p.db.(log := q.db.log) && LogGrows(p.db, q.db)
    ensures q == p.(db := q.db, result := q.result)
    ensures q.result == p.result.(failsCount := p.result.failsCount + 1)
    ensures HasError(q.db, id) && TracksErrors(p, q)
  {
    var q := LogRow(p, c, id, SyncLog.Error).value;
    assert q.db.log.rows[|p.db.log.rows|].entryId == id;
    q.(result := p.result.(failsCount := p.result.failsCount + 1))
  }

  // ---------------------------------------------------------------------------
  // Item operations

  /** The folder's files other than `id` are as they were. */
  ghost predicate RemoteKeeps(a: Cloud.Remote, b: Cloud.Remote, ids: set<string>) {
    (forall x :: x !in ids ==> (x in a.files <==> x in b.files))
    && (forall x :: x !in ids && x in a.files ==> b.files[x] == a.files[x])
  }

  /** What every item operation keeps: a valid store, a log that only grows,
      the other rows of the collection, the other remote files, the status of
      the pass, and a fail count that grows with the ERROR rows. */
  ghost predicate Follows(p: Pass, q: Pass, k: Kind, id: string) {
    LocalStore.Valid(q.db) && LogGrows(p.db, q.db) && Keeps(p.db, q.db, k, {id})
    && RemoteKeeps(p.remote, q.remote, {id})
    && q.result.status == p.result.status && q.result.failsCount >= p.result.failsCount
    && TracksErrors(p, q) && q.writes >= p.writes
  }

  /** A failure is an item operation like any other. */
  lemma FailedFollows(p: Pass, c: Config, id: string, k: Kind)
    requires LocalStore.Valid(p.db)
    ensures Follows(p, Failed(p, c, id), k, id)
  {
    var q := Failed(p, c, id);
    assert q.db == p.db.(log := q.db.log);
  }

  /** A successful save (or duplicate save) logs DOWNLOADED, plus RELATED for a
      note's link; `success` is whether every tag was stored. */
  function SavedAs(p: Pass, c: Config, cloud: Item, ok: bool): (s: Step)
    requires LocalStore.Valid(p.db) && cloud.KindOf() == c.k
    ensures s.Done? && s.p.db == p.db.(log := s.p.db.log) && LocalStore.Valid(s.p.db)
    ensures s.p == p.(db := s.p.db) && LogGrows(p.db, s.p.db) && s.changed == ok
    ensures ErrorRows(s.p.db.log.rows) == ErrorRows(p.db.log.rows)
  {
    if !ok then Done(p, false)
    else Done(LogWithRelated(p, c, cloud.Id(), cloud.RelatedId(), SyncLog.Downloaded).value, true)
  }

  /** `save` touches no other row of the collection and leaves the item stored. */
  lemma SaveKeepsOthers(db: LocalStore.Db, it: Item)
    requires LocalStore.Valid(db)
    ensures var s := LocalStore.Save(db, it);
      s.Saved? ==>
      Keeps(db, s.db, it.KindOf(), {it.Id()})
      && it.Id() in LocalStore.TableOf(s.db, it.KindOf()).rows
      && (s.ok ==> LocalStore.TableOf(s.db, it.KindOf()).rows[it.Id()] == LocalStore.Written(db, it))
  {
    if LocalStore.Save(db, it).Saved? {
      LocalStore.SaveEffect(db, it);
    }
  }

  /** The fallback of `save`: `saveDuplicated`, whose IllegalArgumentException
      leaves `syncItem`, and whose constraint violation counts one failure. */
  function DuplicateStep(p: Pass, c: Config, cloud: Item): (s: Step)
    requires LocalStore.Valid(p.db) && cloud.KindOf() == c.k
    ensures Follows(p, s.p, c.k, cloud.Id()) && s.p.remote == p.remote && s.p.writes == p.writes
    ensures s.Done? ==> cloud.Id() in LocalStore.TableOf(s.p.db, c.k).rows || HasError(s.p.db, cloud.Id())
    ensures s.p.result != p.result ==>
      (s.Done? && s.p.result.failsCount == p.result.failsCount + 1 && HasError(s.p.db, cloud.Id()))
  {
    match LocalStore.SaveDuplicated(p.db, cloud)
    case None => Thrown(p)
    case Some(Saved(db2, ok)) =>
      var stored := if cloud.NoteItem? then NoteItem(BuildOrphaned(cloud.n))
                    else cloud.WithState(SyncState(-1, cloud.ETag(),
                           LocalStore.NextDuplicated(LocalStore.TableOf(p.db, c.k), cloud.DuplicatedKey()).value,
                           true, false, true));
      SaveKeepsOthers(p.db, stored);
      DuplicateSaved(p, c, cloud, db2, ok)
    case Some(SaveConflict) =>
      FailedFollows(p, c, cloud.Id(), c.k);
      Done(Failed(p, c, cloud.Id()), false)
  }

  /** The logging after `saveDuplicated` stored the item's row in `db2`. */
  function DuplicateSaved(p: Pass, c: Config, cloud: Item, db2: LocalStore.Db, ok: bool): (s: Step)
    requires LocalStore.Valid(p.db) && cloud.KindOf() == c.k
    requires LocalStore.Valid(db2) && db2.log == p.db.log && Keeps(p.db, db2, c.k, {cloud.Id()})
    requires cloud.Id() in LocalStore.TableOf(db2, c.k).rows
    ensures Follows(p, s.p, c.k, cloud.Id()) && s.p.remote == p.remote && s.p.writes == p.writes
    ensures s.Done? && s.p.result == p.result && cloud.Id() in LocalStore.TableOf(s.p.db, c.k).rows
  {
    var s := SavedAs(p.(db := db2), c, cloud, ok);
    FollowsThroughTable(p, db2, s.p, c.k, cloud.Id());
    s
  }

  /** `save` of a downloaded item: stored under its id, or, when that breaks
      a constraint, through `saveDuplicated` (a numbered duplicate, a note as
      an orphan). Either way the item ends stored or logged as an error, and
      no other row of the collection changes. */
  function SaveStep(p: Pass, c: Config, cloud: Item): (s: Step)
    requires LocalStore.Valid(p.db) && cloud.KindOf() == c.k
    ensures Follows(p, s.p, c.k, cloud.Id()) && s.p.remote == p.remote && s.p.writes == p.writes
    ensures s.Done? ==> cloud.Id() in LocalStore.TableOf(s.p.db, c.k).rows || HasError(s.p.db, cloud.Id())
    ensures LocalStore.SaveFits(p.db, cloud) ==>
      (s.Done? && s.p.result == p.result && cloud.Id() in LocalStore.TableOf(s.p.db, c.k).rows
       && (s.changed ==> LocalStore.TableOf(s.p.db, c.k).rows[cloud.Id()] == LocalStore.Written(p.db, cloud)))
    ensures s.p.result != p.result ==>
      (s.Done? && !LocalStore.SaveFits(p.db, cloud) && s.p.result.failsCount == p.result.failsCount + 1
       && HasError(s.p.db, cloud.Id()))
  {
    if LocalStore.Save(p.db, cloud).Saved? then StoredStep(p, c, cloud) else DuplicateStep(p, c, cloud)
  }

  /** The branch of `SaveStep` where `save` stored the row. */
  function StoredStep(p: Pass, c: Config, cloud: Item): (s: Step)
    requires LocalStore.Valid(p.db) && cloud.KindOf() == c.k && LocalStore.Save(p.db, cloud).Saved?
    ensures Follows(p, s.p, c.k, cloud.Id()) && s.p.remote == p.remote && s.p.writes == p.writes
    ensures s.Done? && s.p.result == p.result && cloud.Id() in LocalStore.TableOf(s.p.db, c.k).rows
    ensures s.changed ==> LocalStore.TableOf(s.p.db, c.k).rows[cloud.Id()] == LocalStore.Written(p.db, cloud)
  {
    var saved := LocalStore.Save(p.db, cloud);
    SaveKeepsOthers(p.db, cloud);
    var s := SavedAs(p.(db := saved.db), c, cloud, saved.ok);
    FollowsThroughTable(p, saved.db, s.p, c.k, cloud.Id());
    s
  }

  /** Rewriting one row of collection `k` and then appending non-error log rows
      follows the pass it started from. */
  lemma FollowsThroughTable(p: Pass, db2: LocalStore.Db, q: Pass, k: Kind, id: string)
    requires LocalStore.Valid(p.db) && LocalStore.Valid(db2) && db2.log == p.db.log
    requires Keeps(p.db, db2, k, {id})
    requires LocalStore.Valid(q.db) && q == p.(db := q.db) && q.db == db2.(log := q.db.log)
    requires LogGrows(db2, q.db) && ErrorRows(q.db.log.rows) == ErrorRows(db2.log.rows)
    ensures Follows(p, q, k, id) && LocalStore.TableOf(q.db, k) == LocalStore.TableOf(db2, k)
  {
  }

  /** `deleteLocal`: the row goes (with DELETED logged, plus RELATED for a
      note's link); `notifyChanged` is whether there was a row. */
  function DeleteLocalStep(p: Pass, c: Config, it: Item): (s: Step)
    requires LocalStore.Valid(p.db) && it.KindOf() == c.k
    ensures Follows(p, s.p, c.k, it.Id()) && s.p.remote == p.remote && s.p.writes == p.writes
    ensures s.Done? && s.p.result == p.result
    ensures it.Id() !in LocalStore.TableOf(s.p.db, c.k).rows
    ensures s.changed <==> it.Id() in LocalStore.TableOf(p.db, c.k).rows
  {
    var (db2, ok) := LocalStore.Delete(p.db, c.k, it.Id());
    if !ok then Done(p, false)
    else
      var q := LogWithRelated(p.(db := db2), c, it.Id(), it.RelatedId(), SyncLog.Deleted).value;
      FollowsThroughTable(p, db2, q, c.k, it.Id());
      Done(q, true)
  }

  /** `deleteCloud`: the remote file goes first, and the row only once that
      succeeded. Without a connection the null result throws. */
  function DeleteCloudStep(p: Pass, c: Config, it: Item): (s: Step)
    requires LocalStore.Valid(p.db) && it.KindOf() == c.k
    ensures Follows(p, s.p, c.k, it.Id()) && s.p.result == p.result && s.p.writes == p.writes + 1
    ensures s.Thrown? <==> c.net == Cloud.Offline
    ensures s.p.remote.files == p.remote.files || s.p.remote.files == p.remote.files - {it.Id()}
    ensures it.Id() in LocalStore.TableOf(p.db, c.k).rows && it.Id() !in LocalStore.TableOf(s.p.db, c.k).rows ==>
      it.Id() !in s.p.remote.files
    ensures (c.net == Cloud.Up || c.net == Cloud.RejectingUploads) ==>
      it.Id() !in s.p.remote.files && it.Id() !in LocalStore.TableOf(s.p.db, c.k).rows
    ensures s.Done? && s.changed ==> it.Id() !in s.p.remote.files && it.Id() !in LocalStore.TableOf(s.p.db, c.k).rows
  {
    var d := Cloud.DeleteFile(p.remote, c.net, it.Id(), Stamp(p.writes));
    var p2 := p.(remote := d.0, writes := p.writes + 1);
    if d.1.None? then Thrown(p2)
    else if d.1.value != Cloud.Ok then Done(p2, false)
    else DeleteLocalStep(p2, c, it)
  }

  /** `update(item, state)`: the state is merged into the row (with CONFLICT or
      SYNCED logged, plus RELATED for a note's link); `notifyChanged` is whether
      there was a row. A constraint the merged row breaks throws. */
  function UpdateStep(p: Pass, c: Config, it: Item, st: SyncState): (s: Step)
    requires LocalStore.Valid(p.db) && it.KindOf() == c.k
    ensures Follows(p, s.p, c.k, it.Id()) && s.p.remote == p.remote && s.p.writes == p.writes
    ensures s.p.result == p.result
    ensures s.Thrown? <==> LocalStore.Update(p.db, c.k, it.Id(), st).UpdateConflict?
    ensures s.Done? && !s.changed ==> s.p.db == p.db
    ensures s.Done? && s.changed ==>
      (it.Id() in LocalStore.TableOf(p.db, c.k).rows
       && LocalStore.TableOf(s.p.db, c.k).rows
            == LocalStore.TableOf(p.db, c.k).rows[it.Id() := LocalStore.UpdatedRow(LocalStore.TableOf(p.db, c.k).rows[it.Id()], st)])
  {
    match LocalStore.Update(p.db, c.k, it.Id(), st)
    case UpdateConflict => Thrown(p)
    case Updated(db2, ok) =>
      if !ok then Done(p, false)
      else
        var result := if st.conflicted then SyncLog.Conflict else SyncLog.Synced;
        Done(LogWithRelated(p.(db := db2), c, it.Id(), it.RelatedId(), result).value, true)
  }

  /** What `upload` does with a result: on success an UPLOADED broadcast and the
      row SYNCED under the file's ETag (UPLOADED logged); on SYNC_CONFLICT the
      row becomes CONFLICTED_UPDATE; on anything else nothing. */
  function Uploaded(p: Pass, c: Config, it: Item, res: Cloud.UploadResult): (s: Step)
    requires LocalStore.Valid(p.db) && it.KindOf() == c.k
    ensures Follows(p, s.p, c.k, it.Id()) && s.p.remote == p.remote && s.p.writes == p.writes
    ensures s.p.result == p.result
    ensures res.code != Cloud.Ok && res.code != Cloud.SyncConflict ==> s == Done(p, false)
    ensures s.Done? && s.changed && res.code == Cloud.Ok ==>
      (res.eTag.Some? && it.Id() in LocalStore.TableOf(s.p.db, c.k).rows
       && LocalStore.TableOf(s.p.db, c.k).rows[it.Id()].State().eTag == res.eTag
       && LocalStore.TableOf(s.p.db, c.k).rows[it.Id()].State().synced
       && !LocalStore.TableOf(s.p.db, c.k).rows[it.Id()].State().conflicted)
    ensures s.Done? && s.changed && res.code == Cloud.SyncConflict ==>
      (it.Id() in LocalStore.TableOf(s.p.db, c.k).rows
       && LocalStore.TableOf(s.p.db, c.k).rows[it.Id()].State().conflicted
       && !LocalStore.TableOf(s.p.db, c.k).rows[it.Id()].State().deleted)
  {
    if res.code == Cloud.Ok then
      var p2 := p.(notices := p.notices + [Notice(StatusUploaded, it.Id())]);
      if res.eTag.None? then Thrown(p2) else MarkUploaded(p2, c, it, res.eTag.value)
    else if res.code == Cloud.SyncConflict then UpdateStep(p, c, it, OfState(ConflictedUpdate))
    else Done(p, false)
  }

  /** The bookkeeping after an upload succeeded: the row marked synced under
      the new ETag, then UPLOADED logged, plus RELATED for a note's link. */
  function MarkUploaded(p: Pass, c: Config, it: Item, eTag: string): (s: Step)
    requires LocalStore.Valid(p.db) && it.KindOf() == c.k
    ensures Follows(p, s.p, c.k, it.Id()) && s.p.remote == p.remote && s.p.writes == p.writes
    ensures s.p.result == p.result
    ensures s.Done? && s.changed ==>
      (it.Id() in LocalStore.TableOf(s.p.db, c.k).rows
       && LocalStore.TableOf(s.p.db, c.k).rows[it.Id()].State().eTag == Some(eTag)
       && LocalStore.TableOf(s.p.db, c.k).rows[it.Id()].State().synced
       && !LocalStore.TableOf(s.p.db, c.k).rows[it.Id()].State().conflicted)
  {
    match LocalStore.Update(p.db, c.k, it.Id(), WithETag(eTag, Synced))
    case UpdateConflict => Thrown(p)
    case Updated(db2, ok) =>
      if !ok then Done(p, false)
      else
        var q := LogWithRelated(p.(db := db2), c, it.Id(), it.RelatedId(), SyncLog.Uploaded).value;
        FollowsThroughTable(p, db2, q, c.k, it.Id());
        Done(q, true)
  }

  /** The size of the file `upload` writes for `it`; 0 for an item without a
      JSON form, which is never written. */
  function BodySize(c: Config, it: Item): nat {
    var json := EntityJson.EncodeItem(it);
    if json.Some? then c.bodySize(json.value) else 0
  }

  /** `upload` as the code reads: the null result of an item without a JSON
      form (or of a lost connection) is checked for, but the `Single` has
      already turned it into a NullPointerException, which leaves `syncItem`. */
  function UploadStepAsWritten(p: Pass, c: Config, it: Item): (s: Step)
    requires LocalStore.Valid(p.db) && it.KindOf() == c.k
    ensures Follows(p, s.p, c.k, it.Id()) && s.p.writes == p.writes + 1
    ensures it.IsEmpty() ==> s.Thrown? && s.p.result == p.result
  {
    var u := Cloud.Upload(p.remote, c.net, it, Stamp(p.writes), BodySize(c, it));
    var p2 := p.(remote := u.0, writes := p.writes + 1);
    if u.1.None? then Thrown(p2) else Uploaded(p2, c, it, u.1.value)
  }

  /** `upload` as its null check intends: a null result counts one failure,
      logs ERROR for the item and lets the pass go on. The upload itself
      replaces the item's file, or leaves the folder alone. */
  function UploadStep(p: Pass, c: Config, it: Item): (s: Step)
    requires LocalStore.Valid(p.db) && it.KindOf() == c.k
    ensures Follows(p, s.p, c.k, it.Id()) && s.p.writes == p.writes + 1
    ensures it.IsEmpty() || c.net == Cloud.Offline ==>
      (s.Done? && !s.changed && s.p.result.failsCount == p.result.failsCount + 1
       && HasError(s.p.db, it.Id()) && s.p.remote == p.remote)
    ensures s.p.remote != p.remote ==>
      (c.net == Cloud.Up && !it.IsEmpty()
       && s.p.remote.files == p.remote.files[it.Id() := Cloud.Written(Stamp(p.writes), EntityJson.EncodeItem(it).value,
                                                                       c.bodySize(EntityJson.EncodeItem(it).value))])
    ensures !it.IsEmpty() && c.net != Cloud.Offline ==> s.p.result == p.result
    ensures s.Done? && s.changed && c.net == Cloud.Up ==>
      (it.Id() in LocalStore.TableOf(s.p.db, c.k).rows
       && LocalStore.TableOf(s.p.db, c.k).rows[it.Id()].State().eTag == Some(Stamp(p.writes))
       && LocalStore.TableOf(s.p.db, c.k).rows[it.Id()].State().synced)
    ensures s.Done? && s.changed && c.net != Cloud.Up ==>
      (it.Id() in LocalStore.TableOf(s.p.db, c.k).rows
       && LocalStore.TableOf(s.p.db, c.k).rows[it.Id()].State().conflicted)
  {
    var u := Cloud.Upload(p.remote, c.net, it, Stamp(p.writes), BodySize(c, it));
    var p2 := p.(remote := u.0, writes := p.writes + 1);
    assert RemoteKeeps(p.remote, p2.remote, {it.Id()});
    var s := UploadAnswered(p2, c, it, u.1);
    FollowsAfterRemote(p, p2, s.p, c.k, it.Id());
    s
  }

  /** What `upload` makes of the cloud's answer, once the file is written:
      no answer is one failure with ERROR logged, an answer goes to `Uploaded`. */
  function UploadAnswered(p: Pass, c: Config, it: Item, res: Option<Cloud.UploadResult>): (s: Step)
    requires LocalStore.Valid(p.db) && it.KindOf() == c.k
    ensures Follows(p, s.p, c.k, it.Id()) && s.p.writes == p.writes && s.p.remote == p.remote
    ensures res.None? ==>
      (s.Done? && !s.changed && s.p.result.failsCount == p.result.failsCount + 1 && HasError(s.p.db, it.Id()))
    ensures res.Some? ==> s.p.result == p.result
    ensures s.Done? && s.changed && res.Some? && res.value.code == Cloud.Ok ==>
      (res.value.eTag.Some? && it.Id() in LocalStore.TableOf(s.p.db, c.k).rows
       && LocalStore.TableOf(s.p.db, c.k).rows[it.Id()].State().eTag == res.value.eTag
       && LocalStore.TableOf(s.p.db, c.k).rows[it.Id()].State().synced)
    ensures s.Done? && s.changed && res.Some? && res.value.code != Cloud.Ok ==>
      (it.Id() in LocalStore.TableOf(s.p.db, c.k).rows
       && LocalStore.TableOf(s.p.db, c.k).rows[it.Id()].State().conflicted)
  {
    if res.None? then
      FailedFollows(p, c, it.Id(), c.k);
      Done(Failed(p, c, it.Id()), false)
    else Uploaded(p, c, it, res.value)
  }

  /** An item operation that first rewrote the item's remote file still
      follows the pass it started from. */
  lemma FollowsAfterRemote(p: Pass, p2: Pass, q: Pass, k: Kind, id: string)
    requires p2 == p.(remote := p2.remote, writes := p2.writes) && p2.writes >= p.writes
    requires LocalStore.Valid(p.db) && RemoteKeeps(p.remote, p2.remote, {id})
    requires Follows(p2, q, k, id)
    ensures Follows(p, q, k, id)
  {
  }

  /** `download`: the remote copy, announced with a DOWNLOADED broadcast; a
      missing or unreadable file counts one failure and logs ERROR. */
  function DownloadStep(p: Pass, c: Config, id: string): (r: (Pass, Option<Item>))
    requires LocalStore.Valid(p.db)
    ensures Follows(p, r.0, c.k, id) && r.0.remote == p.remote && r.0.writes == p.writes
    ensures r.0.db.links == p.db.links && r.0.db.favorites == p.db.favorites && r.0.db.notes == p.db.notes
    ensures r.1.Some? <==> Cloud.Download(p.remote, c.net, c.k, id, c.now).Got?
    ensures r.1.Some? ==>
      (r.1 == Some(Cloud.Download(p.remote, c.net, c.k, id, c.now).value)
       && r.0.db == p.db && r.0.result == p.result)
    ensures r.1.None? ==> r.0.result.failsCount == p.result.failsCount + 1 && HasError(r.0.db, id)
  {
    match Cloud.Download(p.remote, c.net, c.k, id, c.now)
    case Got(it) => (p.(notices := p.notices + [Notice(StatusDownloaded, id)]), Some(it))
    case _ => FailedFollows(p, c, id, c.k); (Failed(p, c, id), None)
  }

  // ---------------------------------------------------------------------------
  // One local item

  /** The broadcast `syncItem` ends with when the operation changed the item. */
  function Notify(s: Step, status: NoticeStatus, id: string): (r: Step)
    ensures r.p == s.p.(notices := r.p.notices) && r.Done? == s.Done? && (r.Done? ==> r.changed == s.changed)
    ensures r.p.notices == s.p.notices + (if s.Done? && s.changed then [Notice(status, id)] else [])
  {
    if s.Done? && s.changed then Done(s.p.(notices := s.p.notices + [Notice(status, id)]), true) else s
  }

  /** The changed-on-cloud branch once the remote copy is in hand. */
  function Resolve(p: Pass, c: Config, it: Item, cloud: Item): (s: Step)
    requires LocalStore.Valid(p.db) && it.KindOf() == c.k && cloud.KindOf() == c.k && cloud.Id() == it.Id()
    ensures Follows(p, s.p, c.k, it.Id())
    ensures s.p.result != p.result ==>
      (s.Done? && s.p.result.failsCount == p.result.failsCount + 1 && HasError(s.p.db, it.Id()))
    ensures DecideFetched(it, cloud).Conflict? && s.Done? && s.changed ==>
      (it.Id() in LocalStore.TableOf(s.p.db, c.k).rows && LocalStore.TableOf(s.p.db, c.k).rows[it.Id()].State().conflicted
       && s.p.remote == p.remote)
    ensures DecideFetched(it, cloud) == TakeCloud && s.Done? ==>
      it.Id() in LocalStore.TableOf(s.p.db, c.k).rows || HasError(s.p.db, it.Id())
  {
    match DecideFetched(it, cloud)
    case TakeCloud => Notify(SaveStep(p, c, cloud), StatusUpdated, it.Id())
    case DeleteBoth => Notify(DeleteCloudStep(p, c, it), StatusDeleted, it.Id())
    case AdoptETag =>
      if cloud.ETag().None? then Thrown(p)
      else Notify(UpdateStep(p, c, it, WithETag(cloud.ETag().value, Synced)), StatusUpdated, it.Id())
    case Conflict(st) => Notify(UpdateStep(p, c, it, OfState(st)), StatusUpdated, it.Id())
  }

  /** `syncItem`: the decision for one local item carried out. A skipped item
      leaves everything as it was; otherwise only that item's row and that
      item's remote file can change, and a failure is one more count with an
      ERROR row for the item. */
  function ItemStep(p: Pass, c: Config, it: Item, cloudETag: Option<string>): (s: Step)
    requires LocalStore.Valid(p.db) && it.KindOf() == c.k
    ensures Follows(p, s.p, c.k, it.Id())
    ensures Decide(it, cloudETag, c.protectLocal) == Skip ==> s == Done(p, false)
    ensures s.p.result != p.result ==>
      (s.Done? && s.p.result.failsCount == p.result.failsCount + 1 && HasError(s.p.db, it.Id()))
  {
    match Decide(it, cloudETag, c.protectLocal)
    case Skip => Done(p, false)
    case DeleteLocal => Notify(DeleteLocalStep(p, c, it), StatusDeleted, it.Id())
    case Upload => Notify(UploadStep(p, c, it), StatusUpdated, it.Id())
    case DeleteCloud => Notify(DeleteCloudStep(p, c, it), StatusDeleted, it.Id())
    case MarkConflicted => Notify(UpdateStep(p, c, it, OfState(ConflictedUpdate)), StatusUpdated, it.Id())
    case Fetch =>
      var (p2, cloud) := DownloadStep(p, c, it.Id());
      if cloud.None? then Done(p2, false)
      else Resolve(p2, c, it, cloud.value)
  }

  // ---------------------------------------------------------------------------
  // The pass over local items

  /** The ids of the listed items the decision does not skip: the only rows
      and remote files the pass over local items may change. */
  function Acted(items: seq<(Item, Option<string>)>, protectLocal: bool): set<string>
    decreases |items|
  {
    if |items| == 0 then {}
    else (if Decide(items[0].0, items[0].1, protectLocal) == Skip then {} else {items[0].0.Id()})
         + Acted(items[1..], protectLocal)
  }

  lemma {:induction false} ActedListed(items: seq<(Item, Option<string>)>, protectLocal: bool, x: string)
    ensures x in Acted(items, protectLocal) <==>
      exists i :: 0 <= i < |items| && items[i].0.Id() == x && Decide(items[i].0, items[i].1, protectLocal) != Skip
    decreases |items|
  {
    if |items| > 0 {
      ActedListed(items[1..], protectLocal, x);
      if x in Acted(items[1..], protectLocal) {
        var i :| 0 <= i < |items[1..]| && items[1..][i].0.Id() == x && Decide(items[1..][i].0, items[1..][i].1, protectLocal) != Skip;
        assert items[i + 1] == items[1..][i];
      }
      if exists i :: 0 <= i < |items| && items[i].0.Id() == x && Decide(items[i].0, items[i].1, protectLocal) != Skip {
        var i :| 0 <= i < |items| && items[i].0.Id() == x && Decide(items[i].0, items[i].1, protectLocal) != Skip;
        if i > 0 {
          assert items[1..][i - 1] == items[i];
        }
      }
    }
  }

  lemma KeepsTransitive(a: LocalStore.Db, b: LocalStore.Db, c: LocalStore.Db, k: Kind, s: set<string>, t: set<string>)
    requires Keeps(a, b, k, s) && Keeps(b, c, k, t)
    ensures Keeps(a, c, k, s + t)
  {
  }

  lemma RemoteKeepsTransitive(a: Cloud.Remote, b: Cloud.Remote, c: Cloud.Remote, s: set<string>, t: set<string>)
    requires RemoteKeeps(a, b, s) && RemoteKeeps(b, c, t)
    ensures RemoteKeeps(a, c, s + t)
  {
  }

  /** The subscription over local items: each item in turn, until one throws,
      which the error handler turns into a database access error that ends the
      pass with no failure count. */
  function SyncAll(p: Pass, c: Config, items: seq<(Item, Option<string>)>): (r: (Pass, bool))
    requires LocalStore.Valid(p.db)
    requires forall i :: 0 <= i < |items| ==> items[i].0.KindOf() == c.k
    ensures LocalStore.Valid(r.0.db) && LogGrows(p.db, r.0.db) && r.0.writes >= p.writes
    ensures Keeps(p.db, r.0.db, c.k, Acted(items, c.protectLocal))
    ensures RemoteKeeps(p.remote, r.0.remote, Acted(items, c.protectLocal))
    ensures r.1 ==> r.0.result == ItemResult(DbAccessError, 0)
    ensures !r.1 ==>
      r.0.result.status == p.result.status && r.0.result.failsCount >= p.result.failsCount && TracksErrors(p, r.0)
    ensures Acted(items, c.protectLocal) == {} ==> r == (p, false)
    decreases |items|
  {
    if |items| == 0 then (p, false)
    else
      match ItemStep(p, c, items[0].0, items[0].1)
      case Thrown(q) => (q.(result := ItemResult(DbAccessError, 0)), true)
      case Done(q, _) =>
        var r := SyncAll(q, c, items[1..]);
        KeepsTransitive(p.db, q.db, r.0.db, c.k,
          if Decide(items[0].0, items[0].1, c.protectLocal) == Skip then {} else {items[0].0.Id()},
          Acted(items[1..], c.protectLocal));
        RemoteKeepsTransitive(p.remote, q.remote, r.0.remote,
          if Decide(items[0].0, items[0].1, c.protectLocal) == Skip then {} else {items[0].0.Id()},
          Acted(items[1..], c.protectLocal));
        LogGrowsTransitive(p.db, q.db, r.0.db);
        r
  }

  /** The rows a query delivers before it fails after `fault` rows, or all of
      them when it does not fail. */
  function Delivered(items: seq<(Item, Option<string>)>, fault: Option<nat>): (d: seq<(Item, Option<string>)>)
    ensures |d| <= |items| && d == items[..|d|]
    ensures fault.None? ==> d == items
    ensures fault.Some? ==> |d| == if fault.value < |items| then fault.value else |items|
  {
    if fault.Some? && fault.value < |items| then items[..fault.value] else items
  }

  /** The acted-on ids of a prefix are acted-on ids of the whole. */
  lemma ActedPrefix(items: seq<(Item, Option<string>)>, n: nat, protectLocal: bool)
    requires n <= |items|
    ensures Acted(items[..n], protectLocal) <= Acted(items, protectLocal)
  {
    forall x | x in Acted(items[..n], protectLocal) ensures x in Acted(items, protectLocal) {
      ActedListed(items[..n], protectLocal, x);
      ActedListed(items, protectLocal, x);
      var i :| 0 <= i < n && items[..n][i].0.Id() == x && Decide(items[..n][i].0, items[..n][i].1, protectLocal) != Skip;
      assert items[i] == items[..n][i];
    }
  }

  /** A subscription to a local query: the rows delivered are synchronised in
      turn; a query that fails calls the error handler, which records a
      database access error with no failure count and ends the pass. */
  function Subscribed(p: Pass, c: Config, items: seq<(Item, Option<string>)>, fault: Option<nat>): (r: (Pass, bool))
    requires LocalStore.Valid(p.db)
    requires forall i :: 0 <= i < |items| ==> items[i].0.KindOf() == c.k
    ensures LocalStore.Valid(r.0.db) && LogGrows(p.db, r.0.db) && r.0.writes >= p.writes
    ensures fault.None? ==> r == SyncAll(p, c, items)
    ensures fault.Some? ==> r.1 && r.0.result == ItemResult(DbAccessError, 0)
    ensures var v := SyncAll(p, c, Delivered(items, fault)).0;
      r.0.db == v.db && r.0.remote == v.remote && r.0.notices == v.notices && r.0.writes == v.writes
    ensures Keeps(p.db, r.0.db, c.k, Acted(Delivered(items, fault), c.protectLocal))
    ensures Keeps(p.db, r.0.db, c.k, Acted(items, c.protectLocal))
    ensures RemoteKeeps(p.remote, r.0.remote, Acted(items, c.protectLocal))
    ensures r.1 ==> r.0.result == ItemResult(DbAccessError, 0)
    ensures !r.1 ==>
      r.0.result.status == p.result.status && r.0.result.failsCount >= p.result.failsCount && TracksErrors(p, r.0)
  {
    var d := Delivered(items, fault);
    var v := SyncAll(p, c, d);
    ActedPrefix(items, |d|, c.protectLocal);
    KeepsWider(p.db, v.0.db, c.k, Acted(d, c.protectLocal), Acted(items, c.protectLocal));
    if fault.None? then v
    else (v.0.(result := ItemResult(DbAccessError, 0)), true)
  }

  // ---------------------------------------------------------------------------
  // Cloud records with no local row

  /** One cloud id with no local row: downloaded, then saved, with CREATED
      announced when the save changed the table. A save that throws escapes
      the whole synchronisation (None), as this loop runs outside any
      subscription. */
  function RemoteStep(p: Pass, c: Config, id: string): (q: Option<Pass>)
    requires LocalStore.Valid(p.db)
    ensures q.Some? ==> Follows(p, q.value, c.k, id) && q.value.remote == p.remote && q.value.writes == p.writes
    ensures q.Some? ==> id in LocalStore.TableOf(q.value.db, c.k).rows || HasError(q.value.db, id)
    ensures q.None? ==> Cloud.Download(p.remote, c.net, c.k, id, c.now).Got?
  {
    var (p2, cloud) := DownloadStep(p, c, id);
    if cloud.None? then Some(p2)
    else
      match Notify(SaveStep(p2, c, cloud.value), StatusCreated, id)
      case Thrown(_) => None
      case Done(p3, _) =>
        LogGrowsTransitive(p.db, p2.db, p3.db);
        Some(p3)
  }

  /** The cloud ids the remote-only loop visits: those in `order` that are
      listed on the cloud and have no local row. */
  function Visited(order: seq<string>, cloudIds: set<string>, localIds: set<string>): (v: set<string>)
    ensures v <= cloudIds - localIds
  {
    set i | 0 <= i < |order| && order[i] in cloudIds && order[i] !in localIds :: order[i]
  }

  /** The remote-only loop, visiting the cloud ids in `order` (the iteration
      order of a hash set, which the source leaves unspecified). */
  function RemoteOnly(p: Pass, c: Config, order: seq<string>, cloudIds: set<string>, localIds: set<string>): (q: Option<Pass>)
    requires LocalStore.Valid(p.db)
    ensures q.Some? ==>
      LocalStore.Valid(q.value.db) && LogGrows(p.db, q.value.db) && q.value.remote == p.remote && q.value.writes == p.writes
      && q.value.result.status == p.result.status && q.value.result.failsCount >= p.result.failsCount
      && TracksErrors(p, q.value)
    ensures q.Some? ==> Keeps(p.db, q.value.db, c.k, Visited(order, cloudIds, localIds))
    decreases |order|
  {
    if |order| == 0 then Some(p)
    else
      assert Visited(order, cloudIds, localIds)
        == (if order[0] in cloudIds && order[0] !in localIds then {order[0]} else {})
           + Visited(order[1..], cloudIds, localIds) by {
        forall x | x in Visited(order[1..], cloudIds, localIds) ensures x in Visited(order, cloudIds, localIds) {
          var i :| 0 <= i < |order[1..]| && order[1..][i] in cloudIds && order[1..][i] !in localIds && order[1..][i] == x;
          assert order[i + 1] == x;
        }
      }
      if order[0] !in cloudIds || order[0] in localIds then RemoteOnly(p, c, order[1..], cloudIds, localIds)
      else
        match RemoteStep(p, c, order[0])
        case None => None
        case Some(p2) =>
          var q := RemoteOnly(p2, c, order[1..], cloudIds, localIds);
          if q.None? then None
          else
            KeepsTransitive(p.db, p2.db, q.value.db, c.k, {order[0]}, Visited(order[1..], cloudIds, localIds));
            LogGrowsTransitive(p.db, p2.db, q.value.db);
            q
  }

  /** Every cloud id the loop visits ends up with a local row or with an ERROR
      row in the sync log, unless the loop threw. */
  lemma {:induction false} RemoteOnlyCovers(p: Pass, c: Config, order: seq<string>, cloudIds: set<string>,
                                            localIds: set<string>, id: string)
    requires LocalStore.Valid(p.db)
    requires id in order && id in cloudIds && id !in localIds
    ensures var q := RemoteOnly(p, c, order, cloudIds, localIds);
      q.Some? ==> id in LocalStore.TableOf(q.value.db, c.k).rows || HasError(q.value.db, id)
    decreases |order|
  {
    var q := RemoteOnly(p, c, order, cloudIds, localIds);
    if q.Some? {
      var rest := order[1..];
      if order[0] != id {
        assert id in rest;
      }
      if order[0] !in cloudIds || order[0] in localIds {
        RemoteOnlyCovers(p, c, rest, cloudIds, localIds, id);
      } else {
        var s := RemoteStep(p, c, order[0]);
        assert s.Some?;
        var p2 := s.value;
        var r := RemoteOnly(p2, c, rest, cloudIds, localIds);
        assert r.Some? && q == r;
        if id in rest {
          RemoteOnlyCovers(p2, c, rest, cloudIds, localIds, id);
        } else {
          assert order[0] == id;
          assert id !in Visited(rest, cloudIds, localIds);
          if HasError(p2.db, id) {
            HasErrorKept(p2.db, r.value.db, id);
          } else {
            assert id in LocalStore.TableOf(p2.db, c.k).rows;
          }
        }
      }
    }
  }

  // ---------------------------------------------------------------------------
  // The collection pass

  /** `getUnsynced` in `order`: each unsynced row paired with its own ETag, so
      that every one of them meets the green-light or never-synced branch. */
  function UnsyncedItems(t: LocalStore.Table, order: seq<string>): (items: seq<(Item, Option<string>)>)
    requires forall id :: id in t.rows ==> t.rows[id].Id() == id
    ensures forall i :: 0 <= i < |items| ==>
      items[i].0.Id() in t.rows && t.rows[items[i].0.Id()] == items[i].0 && !items[i].0.State().synced
      && items[i].1 == items[i].0.ETag()
    decreases |order|
  {
    if |order| == 0 then []
    else
      var rest := UnsyncedItems(t, order[1..]);
      if order[0] in t.rows && !t.rows[order[0]].State().synced then
        var it := t.rows[order[0]];
        var items := [(it, it.ETag())] + rest;
        assert forall j :: 0 <= j < |rest| ==> items[j + 1] == rest[j];
        items
      else rest
  }

  /** Every unsynced row whose id `order` lists is visited. */
  lemma {:induction false} UnsyncedItemsCover(t: LocalStore.Table, order: seq<string>, id: string)
    requires forall x :: x in t.rows ==> t.rows[x].Id() == x
    requires id in order && id in t.rows && !t.rows[id].State().synced
    ensures (t.rows[id], t.rows[id].ETag()) in UnsyncedItems(t, order)
    decreases |order|
  {
    if order[0] != id {
      assert id in order[1..];
      UnsyncedItemsCover(t, order[1..], id);
    }
  }

  /** `getAll` in `order`, each row paired with the ETag the cloud listing
      gives its id, if any. */
  function AllItems(t: LocalStore.Table, order: seq<string>, listing: map<string, string>): (items: seq<(Item, Option<string>)>)
    requires forall id :: id in t.rows ==> t.rows[id].Id() == id
    ensures forall i :: 0 <= i < |items| ==>
      items[i].0.Id() in t.rows && t.rows[items[i].0.Id()] == items[i].0
      && items[i].1 == (if items[i].0.Id() in listing then Some(listing[items[i].0.Id()]) else None)
    decreases |order|
  {
    if |order| == 0 then []
    else
      var rest := AllItems(t, order[1..], listing);
      if order[0] in t.rows then
        var it := t.rows[order[0]];
        [(it, if order[0] in listing then Some(listing[order[0]]) else None)] + rest
      else rest
  }

  /** Every row whose id `order` lists is visited, paired with its listed ETag. */
  lemma {:induction false} AllItemsCover(t: LocalStore.Table, order: seq<string>, listing: map<string, string>, id: string)
    requires forall x :: x in t.rows ==> t.rows[x].Id() == x
    requires id in order && id in t.rows
    ensures (t.rows[id], if id in listing then Some(listing[id]) else None) in AllItems(t, order, listing)
    decreases |order|
  {
    if order[0] != id {
      assert id in order[1..];
      AllItemsCover(t, order[1..], listing, id);
    }
  }

  /** `getDataSourceMap` of the collection's folder: the ETag of every file
      that passes its filter, or nothing at all when the listing fails, as its
      errors are swallowed. */
  function Listing(r: Cloud.Remote, net: Cloud.Net): (m: map<string, string>)
    ensures Cloud.Serves(net) ==> m == Cloud.Listed(r)
    ensures forall id :: id in m ==> id in r.files && Cloud.Listable(id, r.files[id]) && Some(m[id]) == Cloud.CloudETag(r, id)
    ensures !Cloud.Serves(net) ==> m == map[]
  {
    if Cloud.Serves(net) then Cloud.Listed(r) else map[]
  }

  /** An acted-on id names a row of the table the snapshot was taken from,
      and that row is not conflicted. */
  lemma ActedFromTable(items: seq<(Item, Option<string>)>, t: LocalStore.Table, protectLocal: bool, x: string)
    requires forall i :: 0 <= i < |items| ==> items[i].0.Id() in t.rows && t.rows[items[i].0.Id()] == items[i].0
    requires x in Acted(items, protectLocal)
    ensures x in t.rows && !t.rows[x].State().conflicted
    ensures exists i :: 0 <= i < |items| && items[i].0 == t.rows[x]
  {
    ActedListed(items, protectLocal, x);
  }

  /** The local table the pass over local items starts from: all rows marked
      unsynced when the cloud listing came back empty and uploading to an empty
      folder is allowed (the cloud copy is taken to be lost). */
  function Prepared(p: Pass, c: Config, listing: map<string, string>): (q: Pass)
    requires LocalStore.Valid(p.db)
    ensures LocalStore.Valid(q.db) && q.db.log == p.db.log && q == p.(db := q.db)
    ensures LocalStore.TableOf(q.db, c.k).rows.Keys == LocalStore.TableOf(p.db, c.k).rows.Keys
    ensures forall id :: id in LocalStore.TableOf(p.db, c.k).rows && !LocalStore.TableOf(p.db, c.k).rows[id].State().synced ==>
      LocalStore.TableOf(q.db, c.k).rows[id] == LocalStore.TableOf(p.db, c.k).rows[id]
    ensures q.db != p.db ==> |listing| == 0 && c.uploadToEmpty
    ensures |listing| == 0 && c.uploadToEmpty ==>
      forall id :: id in LocalStore.TableOf(q.db, c.k).rows ==> !LocalStore.TableOf(q.db, c.k).rows[id].State().synced
  {
    if |listing| == 0 && c.uploadToEmpty then p.(db := LocalStore.ResetSyncState(p.db, c.k).0) else p
  }

  /** `syncItems`: the unsynced rows alone when the collection's folder is
      unchanged; otherwise every row against the cloud listing, then the cloud
      records with no local row. None when the remote-only loop throws. */
  function SyncItems(p: Pass, c: Config, changed: bool, order: seq<string>, cloudOrder: seq<string>): (q: Option<Pass>)
    requires LocalStore.Valid(p.db) && p.result.status == FailsCount
    ensures q.None? ==> changed
    ensures q.Some? ==> LocalStore.Valid(q.value.db) && LogGrows(p.db, q.value.db) && q.value.writes >= p.writes
    ensures q.Some? ==> q.value.result.status in {FailsCount, DbAccessError}
    ensures q.Some? && q.value.result.status == FailsCount ==>
      q.value.result.failsCount >= p.result.failsCount && TracksErrors(p, q.value)
    ensures q.Some? && q.value.result.status == DbAccessError ==> q.value.result.failsCount == 0
  {
    if !changed then
      var t := LocalStore.TableOf(p.db, c.k);
      LocalStore.ValidTable(p.db, c.k);
      var items := UnsyncedItems(t, order);
      ItemsOfKind(t, c.k, items);
      Some(Subscribed(p, c, items, c.faults.unsynced).0)
    else ChangedItems(p, c, order, cloudOrder)
  }

  /** The changed-folder branch of `syncItems`: every row against the cloud
      listing, then, unless the first loop aborted, the remote-only loop. That
      loop runs over a key set, so it visits each id of `cloudOrder` once, at
      its first occurrence. */
  function ChangedItems(p: Pass, c: Config, order: seq<string>, cloudOrder: seq<string>): (q: Option<Pass>)
    requires LocalStore.Valid(p.db) && p.result.status == FailsCount
    ensures q.Some? ==> LocalStore.Valid(q.value.db) && LogGrows(p.db, q.value.db) && q.value.writes >= p.writes
    ensures q.Some? ==> q.value.result.status in {FailsCount, DbAccessError}
    ensures q.Some? && q.value.result.status == FailsCount ==>
      q.value.result.failsCount >= p.result.failsCount && TracksErrors(p, q.value)
    ensures q.Some? && q.value.result.status == DbAccessError ==> q.value.result.failsCount == 0
  {
    var first := ListedPass(p, c, order);
    var q := first.0;
    if first.1 then Some(q)
    else if c.faults.ids then Some(q.(result := ItemResult(DbAccessError, 0)))
    else
      var r := RemoteOnly(q, c, SyncLog.Distinct(cloudOrder), Listing(q.remote, c.net).Keys, LocalStore.TableOf(q.db, c.k).rows.Keys);
      if r.Some? then
        LogGrowsTransitive(p.db, q.db, r.value.db);
        TracksErrorsTransitive(p, q, r.value);
        r
      else r
  }

  /** A local read that fails ends the collection pass with a database access
      error and no failure count: `getUnsynced` when the folder is unchanged,
      `getAll` or `getIds` when it changed. What the rows delivered before the
      failure did to the store and the folder stays done. */
  lemma ReadFaultAbortsPass(p: Pass, c: Config, changed: bool, order: seq<string>, cloudOrder: seq<string>)
    requires LocalStore.Valid(p.db) && p.result.status == FailsCount
    ensures var q := SyncItems(p, c, changed, order, cloudOrder);
      (if changed then c.faults.all.Some? || c.faults.ids else c.faults.unsynced.Some?) ==>
        q.Some? && q.value.result == ItemResult(DbAccessError, 0)
    ensures var q := SyncItems(p, c, changed, order, cloudOrder);
      changed && c.faults.all.None? && c.faults.ids && !ListedPass(p, c, order).1 ==>
        q.Some? && q.value == ListedPass(p, c, order).0.(result := ItemResult(DbAccessError, 0))
  {
  }

  /** The first loop of the changed-folder branch: the table prepared for an
      empty folder, then every row against the listing. True when it aborted. */
  function ListedPass(p: Pass, c: Config, order: seq<string>): (r: (Pass, bool))
    requires LocalStore.Valid(p.db) && p.result.status == FailsCount
    ensures LocalStore.Valid(r.0.db) && LogGrows(p.db, r.0.db) && r.0.writes >= p.writes
    ensures r.1 ==> r.0.result == ItemResult(DbAccessError, 0)
    ensures !r.1 ==> r.0.result.status == FailsCount && r.0.result.failsCount >= p.result.failsCount && TracksErrors(p, r.0)
  {
    var (p1, items) := Listed(p, c, order);
    Subscribed(p1, c, items, c.faults.all)
  }

  /** The pass prepared for the listing, with every row of the table in
      `order` paired with its listed ETag. */
  function Listed(p: Pass, c: Config, order: seq<string>): (r: (Pass, seq<(Item, Option<string>)>))
    requires LocalStore.Valid(p.db)
    ensures LocalStore.Valid(r.0.db) && r.0.db.log == p.db.log && r.0 == p.(db := r.0.db)
    ensures forall i :: 0 <= i < |r.1| ==> r.1[i].0.KindOf() == c.k
  {
    var p1 := Prepared(p, c, Listing(p.remote, c.net));
    var t1 := LocalStore.TableOf(p1.db, c.k);
    LocalStore.ValidTable(p1.db, c.k);
    var items := AllItems(t1, order, Listing(p.remote, c.net));
    ItemsOfKind(t1, c.k, items);
    (p1, items)
  }

  /** Items drawn from a table of collection `k` are of kind `k`. */
  lemma ItemsOfKind(t: LocalStore.Table, k: Kind, items: seq<(Item, Option<string>)>)
    requires LocalStore.TableValid(t, k)
    requires forall i :: 0 <= i < |items| ==> items[i].0.Id() in t.rows && t.rows[items[i].0.Id()] == items[i].0
    ensures forall i :: 0 <= i < |items| ==> items[i].0.KindOf() == k
  {
  }

  lemma TracksErrorsTransitive(p: Pass, q: Pass, r: Pass)
    requires TracksErrors(p, q) && TracksErrors(q, r)
    ensures TracksErrors(p, r)
  {
  }

  lemma KeepsWider(a: LocalStore.Db, b: LocalStore.Db, k: Kind, s: set<string>, t: set<string>)
    requires Keeps(a, b, k, s) && s <= t
    ensures Keeps(a, b, k, t)
  {
  }

  /** When the folder is unchanged, only unsynced rows can change: every
      synced row comes out exactly as it went in. */
  lemma UnchangedKeepsSynced(p: Pass, c: Config, order: seq<string>, cloudOrder: seq<string>)
    requires LocalStore.Valid(p.db) && p.result.status == FailsCount
    ensures var q := SyncItems(p, c, false, order, cloudOrder);
      q.Some? && Keeps(p.db, q.value.db, c.k, LocalStore.GetUnsynced(LocalStore.TableOf(p.db, c.k)).Keys)
  {
    var t := LocalStore.TableOf(p.db, c.k);
    var items := UnsyncedItems(t, order);
    var acted := Acted(items, c.protectLocal);
    forall x | x in acted
      ensures x in LocalStore.GetUnsynced(t).Keys
    {
      ActedFromTable(items, t, c.protectLocal, x);
    }
    KeepsWider(p.db, Subscribed(p, c, items, c.faults.unsynced).0.db, c.k, acted, LocalStore.GetUnsynced(t).Keys);
  }

  /** A conflicted row waits for the user: whether or not the folder changed,
      the collection pass leaves it exactly as it was. */
  lemma ConflictedRowKept(p: Pass, c: Config, changed: bool, order: seq<string>, cloudOrder: seq<string>, id: string)
    requires LocalStore.Valid(p.db) && p.result.status == FailsCount
    requires id in LocalStore.TableOf(p.db, c.k).rows
    requires LocalStore.TableOf(p.db, c.k).rows[id].State().conflicted && !LocalStore.TableOf(p.db, c.k).rows[id].State().synced
    ensures var q := SyncItems(p, c, changed, order, cloudOrder);
      q.Some? ==> (id in LocalStore.TableOf(q.value.db, c.k).rows
                   && LocalStore.TableOf(q.value.db, c.k).rows[id] == LocalStore.TableOf(p.db, c.k).rows[id])
  {
    if changed {
      ChangedPassKeepsConflicted(p, c, order, cloudOrder, id);
    } else {
      UnchangedPassKeepsConflicted(p, c, order, cloudOrder, id);
    }
  }

  /** The unchanged-folder case of `ConflictedRowKept`. */
  lemma UnchangedPassKeepsConflicted(p: Pass, c: Config, order: seq<string>, cloudOrder: seq<string>, id: string)
    requires LocalStore.Valid(p.db) && p.result.status == FailsCount
    requires id in LocalStore.TableOf(p.db, c.k).rows
    requires LocalStore.TableOf(p.db, c.k).rows[id].State().conflicted && !LocalStore.TableOf(p.db, c.k).rows[id].State().synced
    ensures var q := SyncItems(p, c, false, order, cloudOrder);
      q.Some? ==> (id in LocalStore.TableOf(q.value.db, c.k).rows
                   && LocalStore.TableOf(q.value.db, c.k).rows[id] == LocalStore.TableOf(p.db, c.k).rows[id])
  {
    var t := LocalStore.TableOf(p.db, c.k);
    var items := UnsyncedItems(t, order);
    if id in Acted(items, c.protectLocal) {
      ActedFromTable(items, t, c.protectLocal, id);
    }
  }

  /** The changed-folder case of `ConflictedRowKept`. */
  lemma ChangedPassKeepsConflicted(p: Pass, c: Config, order: seq<string>, cloudOrder: seq<string>, id: string)
    requires LocalStore.Valid(p.db) && p.result.status == FailsCount
    requires id in LocalStore.TableOf(p.db, c.k).rows
    requires LocalStore.TableOf(p.db, c.k).rows[id].State().conflicted && !LocalStore.TableOf(p.db, c.k).rows[id].State().synced
    ensures var q := SyncItems(p, c, true, order, cloudOrder);
      q.Some? ==> (id in LocalStore.TableOf(q.value.db, c.k).rows
                   && LocalStore.TableOf(q.value.db, c.k).rows[id] == LocalStore.TableOf(p.db, c.k).rows[id])
  {
    ListedPassKeepsConflicted(p, c, order, id);
    var (q, aborted) := ListedPass(p, c, order);
    if !aborted {
      var localIds := LocalStore.TableOf(q.db, c.k).rows.Keys;
      assert id !in Visited(SyncLog.Distinct(cloudOrder), Listing(q.remote, c.net).Keys, localIds);
    }
  }

  /** The first loop of a changed-folder pass leaves a conflicted row alone. */
  lemma ListedPassKeepsConflicted(p: Pass, c: Config, order: seq<string>, id: string)
    requires LocalStore.Valid(p.db) && p.result.status == FailsCount
    requires id in LocalStore.TableOf(p.db, c.k).rows
    requires LocalStore.TableOf(p.db, c.k).rows[id].State().conflicted && !LocalStore.TableOf(p.db, c.k).rows[id].State().synced
    ensures var q := ListedPass(p, c, order).0;
      id in LocalStore.TableOf(q.db, c.k).rows && LocalStore.TableOf(q.db, c.k).rows[id] == LocalStore.TableOf(p.db, c.k).rows[id]
  {
    var (p1, items) := Listed(p, c, order);
    var t1 := LocalStore.TableOf(p1.db, c.k);
    if id in Acted(items, c.protectLocal) {
      ActedFromTable(items, t1, c.protectLocal, id);
    }
  }

  /** After a changed-folder pass that did not abort, every file the folder
      listing shows has a local row or an ERROR row in the sync log, provided
      the remote-only loop's order lists every id the pass may see. */
  lemma {:induction false} CloudRecordsCovered(p: Pass, c: Config, order: seq<string>, cloudOrder: seq<string>, id: string)
    requires LocalStore.Valid(p.db) && p.result.status == FailsCount && Cloud.Serves(c.net)
    requires forall x :: x in p.remote.files || x in LocalStore.TableOf(p.db, c.k).rows ==> x in cloudOrder
    ensures var q := SyncItems(p, c, true, order, cloudOrder);
      q.Some? && q.value.result.status == FailsCount && id in Listing(q.value.remote, c.net) ==>
        id in LocalStore.TableOf(q.value.db, c.k).rows || HasError(q.value.db, id)
  {
    var first := ListedPass(p, c, order);
    var q := first.0;
    if !first.1 && !c.faults.ids && id in Listing(q.remote, c.net) {
      var localIds := LocalStore.TableOf(q.db, c.k).rows.Keys;
      var cloudIds := Listing(q.remote, c.net).Keys;
      if id !in localIds {
        ListedPassOrdered(p, c, order, cloudOrder, id);
        RemoteOnlyCovers(q, c, SyncLog.Distinct(cloudOrder), cloudIds, localIds, id);
      }
    }
  }

  /** Every file the first loop leaves on the cloud was already there or is a
      row of the table, so an order covering both lists it. */
  lemma ListedPassOrdered(p: Pass, c: Config, order: seq<string>, cloudOrder: seq<string>, id: string)
    requires LocalStore.Valid(p.db) && p.result.status == FailsCount
    requires forall x :: x in p.remote.files || x in LocalStore.TableOf(p.db, c.k).rows ==> x in cloudOrder
    ensures id in ListedPass(p, c, order).0.remote.files ==> id in cloudOrder
  {
    var (p1, items) := Listed(p, c, order);
    var t1 := LocalStore.TableOf(p1.db, c.k);
    if id in Acted(items, c.protectLocal) {
      ActedFromTable(items, t1, c.protectLocal, id);
    }
  }

  // ---------------------------------------------------------------------------
  // `sync`

  /** What one collection pass reads and writes: the preferences (holding the
      last synced folder ETag), the local database and the cloud. */
  datatype Session = Session(prefs: Settings.Prefs, db: LocalStore.Db, remote: Cloud.Remote)

  datatype Outcome = Outcome(s: Session, result: ItemResult, notices: seq<Notice>)

  /** The folder ETag `sync` starts from: the folder is created when missing. */
  function FolderETag(s: Session, c: Config): (r: (Cloud.Remote, Option<string>)) {
    var (r1, eTag, _) := Cloud.DataSourceETag(s.remote, c.net, true, Stamp(0));
    (r1, eTag)
  }

  /** The end of `sync`: the folder ETag is stored as last synced on success. */
  function Finish(s: Session, c: Config, eTag: string, q: Pass): (o: Outcome)
    ensures o.s.db == q.db && o.s.remote == q.remote && o.result == q.result && o.notices == q.notices
    ensures o.result.IsSuccess() ==> !Cloud.IsCloudDataSourceChanged(o.s.prefs, c.k, eTag)
    ensures !o.result.IsSuccess() ==> o.s.prefs == s.prefs
    ensures forall k2 :: Settings.LastCollectionSyncTime(o.s.prefs, k2) == Settings.LastCollectionSyncTime(s.prefs, k2)
  {
    forall k2 ensures Settings.CollectionSyncTimeKey(k2) != LastSyncedETagKey(c.k) {
      Settings.CollectionSyncTimeKeysDistinct(c.k, k2);
    }
    if q.result.IsSuccess() then
      Cloud.LastSyncedETagRoundTrip(s.prefs, c.k, eTag, eTag);
      Outcome(Session(Cloud.UpdateLastSyncedETag(s.prefs, c.k, eTag), q.db, q.remote), q.result, q.notices)
    else Outcome(Session(s.prefs, q.db, q.remote), q.result, q.notices)
  }

  /** `SyncItem.sync` for the collection `c.k`. Without a folder ETag (the
      server does not answer, or the missing folder cannot be created) the
      result is SOURCE_NOT_READY and nothing is touched; otherwise the items
      are synchronised, and the folder ETag is recorded as last synced exactly
      when the result is a success. None when the remote-only loop throws. */
  function Sync(s: Session, c: Config, order: seq<string>, cloudOrder: seq<string>): (o: Option<Outcome>)
    requires LocalStore.Valid(s.db)
    ensures o.None? ==> Cloud.Serves(c.net)
    ensures o.Some? ==> LocalStore.Valid(o.value.s.db) && LogGrows(s.db, o.value.s.db)
    ensures o.Some? ==> (o.value.result.status == SourceNotReady <==>
      !Cloud.Serves(c.net) || (s.remote.dirETag.None? && c.net.FailingWrites?))
    ensures o.Some? && o.value.result.status == SourceNotReady ==>
      o.value.s == s && o.value.notices == [] && o.value.result.failsCount == 0
    ensures o.Some? && o.value.result.IsSuccess() ==>
      FolderETag(s, c).1.Some? && !Cloud.IsCloudDataSourceChanged(o.value.s.prefs, c.k, FolderETag(s, c).1.value)
    ensures o.Some? && !o.value.result.IsSuccess() ==> o.value.s.prefs == s.prefs
    ensures o.Some? && o.value.result.status == FailsCount ==>
      o.value.result.failsCount == ErrorRows(o.value.s.db.log.rows) - ErrorRows(s.db.log.rows)
    ensures o.Some? && o.value.result.status == DbAccessError ==> o.value.result.failsCount == 0
    ensures o.Some? ==>
      forall k2 :: Settings.LastCollectionSyncTime(o.value.s.prefs, k2) == Settings.LastCollectionSyncTime(s.prefs, k2)
  {
    var (r1, eTag) := FolderETag(s, c);
    if eTag.None? then Some(Outcome(s, ItemResult(SourceNotReady, 0), []))
    else
      var p := Pass(s.db, r1, Fresh, [], 1);
      var q := SyncItems(p, c, Cloud.IsCloudDataSourceChanged(s.prefs, c.k, eTag.value), order, cloudOrder);
      if q.None? then None else Some(Finish(s, c, eTag.value, q.value))
  }

  // ---------------------------------------------------------------------------
  // The null upload result

  /** A never-synced item with no content is sent to `upload`, whose cloud call
      yields no result. As written that null escapes as an exception, which the
      subscription turns into a database access error for the whole collection;
      the corrected step counts one failure and logs ERROR for the item. */
  lemma EmptyItemUpload(p: Pass, c: Config, it: Item)
    requires LocalStore.Valid(p.db) && it.KindOf() == c.k
    requires it.IsEmpty() && it.ETag().None? && !it.State().deleted && !it.State().conflicted
    ensures Decide(it, None, c.protectLocal) == Upload
    ensures UploadStepAsWritten(p, c, it).Thrown?
    ensures var s := UploadStep(p, c, it);
      s.Done? && s.p.result.failsCount == p.result.failsCount + 1 && HasError(s.p.db, it.Id())
    ensures var s := ItemStep(p, c, it, None);
      s.Done? && s.p.result.status == p.result.status
  {
  }

  /** The concrete case: a link stored with an empty URL under a 22-character
      key, never synchronised. */
  lemma EmptyLinkAbortsPass(p: Pass, c: Config)
    requires LocalStore.Valid(p.db) && c.k == LinkKind
    ensures var it := LinkItem(Link("AAAAAAAAAAAAAAAAAAAAAA", 0, 0, Some(""), Some("name"), false, None, None, SyncStates.Default));
      UploadStepAsWritten(p, c, it).Thrown? && ItemStep(p, c, it, None).Done?
  {
    var it := LinkItem(Link("AAAAAAAAAAAAAAAAAAAAAA", 0, 0, Some(""), Some("name"), false, None, None, SyncStates.Default));
    EmptyItemUpload(p, c, it);
  }
}

=== FILE: repository.dfy ===
/** `Repository`: one in-memory cache per collection in front of the local
    store, and the overall sync status. The local store's answers (the rows a
    query returns, whether a save met a uniqueness violation) are parameters;
    the store itself is `LocalStore`. */
module Repository {
  import opened Wrappers
  import opened Entities
  import UuidKeys
  import LocalStore
  import SyncLog
  import Settings
  import Orchestrator

  // ---------------------------------------------------------------------------
  // The insertion-ordered map behind each cache (`LinkedHashMap`)

  /** Ids mapped to items, with the ids in insertion order. */
  datatype Ordered = Ordered(keys: seq<string>, vals: map<string, Item>)

  predicate Distinct(s: seq<string>) {
    forall i, j :: 0 <= i < j < |s| ==> s[i] != s[j]
  }

  ghost predicate OrderedValid(o: Ordered) {
    Distinct(o.keys) && (forall id :: id in o.vals <==> id in o.keys)
  }

  const EmptyOrdered: Ordered := Ordered([], map[])

  /** `s` with every element of `ids` dropped, the rest in order. */
  function WithoutAll(s: seq<string>, ids: set<string>): (r: seq<string>)
    ensures forall x :: x in r <==> x in s && x !in ids
    ensures Distinct(s) ==> Distinct(r)
    ensures |r| <= |s|
  {
    if s == [] then []
    else if s[0] in ids then WithoutAll(s[1..], ids)
    else
      var rest := WithoutAll(s[1..], ids);
      assert Distinct(s) ==> s[0] !in s[1..];
      [s[0]] + rest
  }

  /** A key set that drops nothing leaves the sequence as it was. */
  lemma {:induction false} WithoutNothing(s: seq<string>, ids: set<string>)
    requires forall i :: 0 <= i < |s| ==> s[i] !in ids
    ensures WithoutAll(s, ids) == s
  {
    if s != [] {
      WithoutNothing(s[1..], ids);
    }
  }

  /** `put`: a new key goes last, a present one keeps its place. */
  function Put(o: Ordered, id: string, it: Item): (r: Ordered)
    requires OrderedValid(o)
    ensures OrderedValid(r) && r.vals == o.vals[id := it]
    ensures id in o.vals ==> r.keys == o.keys
    ensures id !in o.vals ==> r.keys == o.keys + [id]
  {
    if id in o.vals then Ordered(o.keys, o.vals[id := it])
    else Ordered(o.keys + [id], o.vals[id := it])
  }

  /** `remove` of every key in `ids`. */
  function RemoveAll(o: Ordered, ids: set<string>): (r: Ordered)
    requires OrderedValid(o)
    ensures OrderedValid(r) && r.keys == WithoutAll(o.keys, ids)
    ensures forall x :: (x in r.vals <==> x in o.vals && x !in ids) && (x in r.vals ==> r.vals[x] == o.vals[x])
  {
    Ordered(WithoutAll(o.keys, ids), map x | x in o.vals && x !in ids :: o.vals[x])
  }

  /** The items in key order: what iterating `values()` yields. */
  function Values(o: Ordered): (r: seq<Item>)
    requires OrderedValid(o)
    ensures |r| == |o.keys| && forall i :: 0 <= i < |o.keys| ==> r[i] == o.vals[o.keys[i]]
  {
    seq(|o.keys|, i requires 0 <= i < |o.keys| => o.vals[o.keys[i]])
  }

  // ---------------------------------------------------------------------------
  // One collection's cache

  /** The entries (`null` until first used), the ids to re-read (`null` until
      first used), and the `cacheIsDirty` flag that forces a full reload. */
  datatype Cache = Cache(entries: Option<Ordered>, dirty: Option<set<string>>, stale: bool)

  /** A repository starts with no cache, marked for reload. */
  const Initial: Cache := Cache(None, None, true)

  /** The dirty-set entry that asks for the collection's sync log to be read. */
  const SyncCompleteToken: string := ""

  /** What every operation keeps: a cache not marked for reload exists. */
  ghost predicate Wf(c: Cache) {
    (c.entries.Some? ==> OrderedValid(c.entries.value)) && (!c.stale ==> c.entries.Some?)
  }

  function EntriesOf(c: Cache): Ordered {
    if c.entries.Some? then c.entries.value else EmptyOrdered
  }

  function DirtyOf(c: Cache): set<string> {
    if c.dirty.Some? then c.dirty.value else {}
  }

  lemma InitialWf()
    ensures Wf(Initial) && IsDirty(Initial) && ListingPath(Initial) == Reload
  {
  }

  /** `isLinkCacheDirty`. */
  predicate IsDirty(c: Cache) {
    c.stale || c.entries.None?
  }

  /** `isLinkCacheNeedRefresh`. */
  predicate NeedsRefresh(c: Cache) {
    IsDirty(c) || DirtyOf(c) != {}
  }

  /** How `getLinks` answers: from the cache, by re-reading the dirty ids, or
      by reloading the whole collection. */
  datatype Path = FromCache | RefreshDirty | Reload

  function ListingPath(c: Cache): (p: Path)
    ensures p == FromCache <==> !NeedsRefresh(c)
    ensures p == RefreshDirty <==> !c.stale && DirtyOf(c) != {}
    ensures p == Reload <==> c.stale || (c.entries.None? && DirtyOf(c) == {})
  {
    var needRefresh := DirtyOf(c) != {};
    if !c.stale && c.entries.Some? && !needRefresh then FromCache
    else if needRefresh && !c.stale then RefreshDirty
    else Reload
  }

  /** On a well-formed cache the reload flag alone decides a full reload. */
  lemma ReloadIffStale(c: Cache)
    requires Wf(c)
    ensures ListingPath(c) == Reload <==> c.stale
    ensures NeedsRefresh(c) <==> c.stale || DirtyOf(c) != {}
  {
  }

  /** `refreshLink`: the id is re-read on the next listing. */
  function RefreshItem(c: Cache, id: string): (r: Cache)
    requires Wf(c)
    ensures Wf(r) && DirtyOf(r) == DirtyOf(c) + {id} && EntriesOf(r) == EntriesOf(c) && r.stale == c.stale
    ensures NeedsRefresh(r)
  {
    c.(dirty := Some(DirtyOf(c) + {id}))
  }

  /** `refreshLinks`: the next listing reloads everything. */
  function RefreshAll(c: Cache): (r: Cache)
    requires Wf(c)
    ensures Wf(r) && r.stale && ListingPath(r) == Reload
    ensures r.entries == c.entries && r.dirty == c.dirty
  {
    c.(stale := true)
  }

  /** `checkLinksSyncLog`: the next listing reads the sync log. */
  function CheckSyncLog(c: Cache): (r: Cache)
    requires Wf(c)
    ensures Wf(r) && SyncCompleteToken in DirtyOf(r) && NeedsRefresh(r)
  {
    RefreshItem(c, SyncCompleteToken)
  }

  /** `removeCachedLink`. */
  function RemoveCached(c: Cache, id: string): (r: Cache)
    requires Wf(c)
    ensures Wf(r) && r.entries.Some? && r.dirty == c.dirty && r.stale == c.stale
    ensures forall x :: (x in EntriesOf(r).vals <==> x in EntriesOf(c).vals && x != id)
    ensures EntriesOf(r).keys == WithoutAll(EntriesOf(c).keys, {id})
  {
    c.(entries := Some(RemoveAll(EntriesOf(c), {id})))
  }

  // ---------------------------------------------------------------------------
  // Full reload

  predicate DistinctIds(rows: seq<Item>) {
    forall i, j :: 0 <= i < j < |rows| ==> rows[i].Id() != rows[j].Id()
  }

  function Load(o: Ordered, rows: seq<Item>): (r: Ordered)
    requires OrderedValid(o)
    ensures OrderedValid(r)
    decreases |rows|
  {
    if rows == [] then o else Load(Put(o, rows[0].Id(), rows[0]), rows[1..])
  }

  lemma PutNewValues(o: Ordered, it: Item)
    requires OrderedValid(o) && it.Id() !in o.vals
    ensures Values(Put(o, it.Id(), it)) == Values(o) + [it]
  {
    var p := Put(o, it.Id(), it);
    forall i | 0 <= i < |o.keys|
      ensures p.vals[p.keys[i]] == o.vals[o.keys[i]]
    {
      assert o.keys[i] != it.Id();
    }
  }

  /** Loading rows with distinct new ids appends them, in order, after the
      entries already there. */
  lemma {:induction false} LoadAppends(o: Ordered, rows: seq<Item>)
    requires OrderedValid(o) && DistinctIds(rows)
    requires forall i :: 0 <= i < |rows| ==> rows[i].Id() !in o.vals
    ensures Values(Load(o, rows)) == Values(o) + rows
    decreases |rows|
  {
    if rows != [] {
      PutNewValues(o, rows[0]);
      var p := Put(o, rows[0].Id(), rows[0]);
      var tail := rows[1..];
      assert DistinctIds(tail) by {
        forall i, j | 0 <= i < j < |tail| ensures tail[i].Id() != tail[j].Id() {
          assert tail[i] == rows[i + 1] && tail[j] == rows[j + 1];
        }
      }
      assert forall i :: 0 <= i < |tail| ==> tail[i].Id() !in p.vals by {
        forall i | 0 <= i < |tail| ensures tail[i].Id() !in p.vals {
          assert tail[i] == rows[i + 1];
        }
      }
      LoadAppends(p, tail);
      assert Load(o, rows) == Load(p, tail);
      AppendHead(Values(o), rows);
    }
  }

  lemma AppendHead(a: seq<Item>, s: seq<Item>)
    requires s != []
    ensures a + [s[0]] + s[1..] == a + s
  {
    assert s == [s[0]] + s[1..];
  }

  /** Loading puts exactly the rows' ids into the map, beside those already there. */
  lemma {:induction false} LoadKeys(o: Ordered, rows: seq<Item>)
    requires OrderedValid(o)
    ensures Load(o, rows).vals.Keys == o.vals.Keys + IdsOf(rows)
    decreases |rows|
  {
    if rows != [] {
      LoadKeys(Put(o, rows[0].Id(), rows[0]), rows[1..]);
      IdsOfCons(rows);
    }
  }

  /** An entry no loaded row names keeps its value. */
  lemma {:induction false} LoadKeeps(o: Ordered, rows: seq<Item>, id: string)
    requires OrderedValid(o) && id in o.vals && id !in IdsOf(rows)
    ensures id in Load(o, rows).vals && Load(o, rows).vals[id] == o.vals[id]
    decreases |rows|
  {
    if rows != [] {
      IdsOfCons(rows);
      LoadKeeps(Put(o, rows[0].Id(), rows[0]), rows[1..], id);
    }
  }

  /** With distinct ids, every loaded row is the entry under its own id. */
  lemma {:induction false} LoadValue(o: Ordered, rows: seq<Item>, i: nat)
    requires OrderedValid(o) && DistinctIds(rows) && i < |rows|
    ensures rows[i].Id() in Load(o, rows).vals && Load(o, rows).vals[rows[i].Id()] == rows[i]
    decreases |rows|
  {
    var p := Put(o, rows[0].Id(), rows[0]);
    var tail := rows[1..];
    if i == 0 {
      assert rows[0].Id() !in IdsOf(tail) by {
        forall j | 0 <= j < |tail| ensures tail[j].Id() != rows[0].Id() {
          assert tail[j] == rows[j + 1];
        }
      }
      LoadKeeps(p, tail, rows[0].Id());
    } else {
      assert DistinctIds(tail) by {
        forall a, b | 0 <= a < b < |tail| ensures tail[a].Id() != tail[b].Id() {
          assert tail[a] == rows[a + 1] && tail[b] == rows[b + 1];
        }
      }
      LoadValue(p, tail, i - 1);
      assert tail[i - 1] == rows[i];
    }
  }

  /** `getAndCacheLocalLinks`: the cache and the dirty set are cleared, and the
      store's active rows are put in query order as they arrive. `rows` are
      the rows delivered: all of them when the query `completed`, those before
      the failure otherwise. Only a query that completes clears the reload
      flag; the rows delivered before a failure stay cached either way. */
  function ReloadCache(c: Cache, rows: seq<Item>, completed: bool): (r: Cache)
    requires Wf(c)
    ensures Wf(r) && DirtyOf(r) == {} && r.entries.Some?
    ensures EntriesOf(r).vals.Keys == IdsOf(rows)
    ensures completed ==> !r.stale && ListingPath(r) == FromCache
    ensures !completed ==> r.stale == c.stale
  {
    LoadKeys(EmptyOrdered, rows);
    Cache(Some(Load(EmptyOrdered, rows)), Some({}), if completed then false else c.stale)
  }

  /** After a completed reload the listing is exactly the store's rows. */
  lemma ReloadListsRows(c: Cache, rows: seq<Item>)
    requires Wf(c) && DistinctIds(rows)
    ensures Values(EntriesOf(ReloadCache(c, rows, true))) == rows
  {
    LoadAppends(EmptyOrdered, rows);
  }

  /** A reload whose query fails part-way leaves the rows delivered so far
      cached and clean: `getLink` serves each of them from memory, while the
      cache, if it was marked for reload, stays marked. */
  lemma PartialReloadServesDelivered(c: Cache, rows: seq<Item>, i: nat, stored: Option<Item>)
    requires Wf(c) && DistinctIds(rows) && i < |rows| && UuidKeys.IsKeyValidUuid(rows[i].Id())
    ensures var r := ReloadCache(c, rows, false);
      GetItem(r, rows[i].Id(), stored) == FromMemory(rows[i]) && (c.stale ==> ListingPath(r) == Reload)
  {
    LoadValue(EmptyOrdered, rows, i);
  }

  // ---------------------------------------------------------------------------
  // Single items

  /** `getCachedLink`: an entry counts only while its id is not dirty. */
  function Cached(c: Cache, id: string): (r: Option<Item>)
    ensures r.Some? <==> c.entries.Some? && id !in DirtyOf(c) && id in c.entries.value.vals
    ensures r.Some? ==> r.value == c.entries.value.vals[id]
  {
    if c.entries.Some? && id !in DirtyOf(c) && id in c.entries.value.vals then Some(c.entries.value.vals[id])
    else None
  }

  /** What `getLink` gives: a refusal of a malformed id, the cached entry, the
      stored row with the cache it leaves, or nothing found. */
  datatype Lookup = InvalidId | FromMemory(it: Item) | FromStore(it: Item, c: Cache) | NotFound(c: Cache)

  /** `getLink`; `stored` is what the store holds under `id`. A row read from
      the store that replaces an entry stops being dirty; one that is new marks
      the whole cache for reload, since its place in the order is unknown. */
  function GetItem(c: Cache, id: string, stored: Option<Item>): (r: Lookup)
    requires Wf(c)
    ensures r == InvalidId <==> !UuidKeys.IsKeyValidUuid(id)
    ensures UuidKeys.IsKeyValidUuid(id) && Cached(c, id).Some? ==> r == FromMemory(Cached(c, id).value)
    ensures UuidKeys.IsKeyValidUuid(id) && Cached(c, id).None? ==> (r.NotFound? <==> stored.None?)
    ensures r.FromStore? ==> (Wf(r.c) && stored == Some(r.it) && r.c.entries.Some?
      && id in r.c.entries.value.vals && r.c.entries.value.vals[id] == r.it)
    ensures r.FromStore? && id in EntriesOf(c).vals ==>
      DirtyOf(r.c) == DirtyOf(c) - {id} && r.c.stale == c.stale && r.c.entries.value.keys == EntriesOf(c).keys
    ensures r.FromStore? && id !in EntriesOf(c).vals ==> r.c.stale && DirtyOf(r.c) == DirtyOf(c)
    ensures r.NotFound? ==> Wf(r.c) && EntriesOf(r.c) == EntriesOf(c) && DirtyOf(r.c) == DirtyOf(c)
  {
    if !UuidKeys.IsKeyValidUuid(id) then InvalidId
    else
      var hit := Cached(c, id);
      if hit.Some? then FromMemory(hit.value)
      else
        var o, d := EntriesOf(c), DirtyOf(c);
        if stored.None? then NotFound(Cache(Some(o), Some(d), c.stale))
        else if id in o.vals then FromStore(stored.value, Cache(Some(Put(o, id, stored.value)), Some(d - {id}), c.stale))
        else FromStore(stored.value, Cache(Some(Put(o, id, stored.value)), Some(d), true))
  }

  /** A row read back into its place is served from memory by the next
      `getLink`; a row new to the cache sends the next listing to a reload. */
  lemma FetchThenCached(c: Cache, id: string, stored: Option<Item>, later: Option<Item>)
    requires Wf(c) && GetItem(c, id, stored).FromStore?
    ensures var r := GetItem(c, id, stored);
      (id in EntriesOf(c).vals ==> GetItem(r.c, id, later) == FromMemory(r.it))
      && (id !in EntriesOf(c).vals ==> ListingPath(r.c) == Reload)
  {
  }

  // ---------------------------------------------------------------------------
  // Saving and deleting

  /** The states the repository reports to its callbacks. */
  datatype ItemState = Deferred | Duplicated | ErrorLocal | ErrorCloud | Saved | Conflicted | Deleted | ErrorExtra

  /** How the local save ended: stored, refused by the uniqueness constraint,
      or failed otherwise (including a save that reported false). */
  datatype LocalSave = Stored | UniqueViolation | StoreFailed

  datatype SaveReport = SaveReport(c: Cache, notified: ItemState, raised: bool)

  /** The favorite cache's test: an entry under the id with the same, non-null name. */
  predicate SameNameCached(c: Cache, f: Favorite) {
    f.id in EntriesOf(c).vals && EntriesOf(c).vals[f.id].FavoriteItem?
    && EntriesOf(c).vals[f.id].f.name.Some? && EntriesOf(c).vals[f.id].f.name == f.name
  }

  /** The local half of `saveLink`/`saveFavorite`/`saveNote`: the cache
      bookkeeping of a stored item, the state passed to the callbacks, and
      whether the uniqueness violation is raised again to the caller. */
  function SaveItem(c: Cache, it: Item, outcome: LocalSave): (r: SaveReport)
    requires Wf(c)
    ensures Wf(r.c)
    ensures r.raised <==> outcome == UniqueViolation && it.HasUniqueKey()
    ensures r.notified == Duplicated <==> r.raised
    ensures outcome == Stored <==> r.notified == Deferred
    ensures outcome != Stored ==> r.c == c && r.notified in {Duplicated, ErrorLocal}
    ensures outcome == Stored && !it.FavoriteItem? ==>
      DirtyOf(r.c) == DirtyOf(c) + {it.Id()} && r.c.stale == c.stale
    ensures outcome == Stored && !it.FavoriteItem? && it.State().rowId < 0 ==>
      var o := EntriesOf(r.c);
      |o.keys| > 0 && o.keys[0] == it.Id() && o.keys[1..] == WithoutAll(EntriesOf(c).keys, {it.Id()})
      && (it.Id() !in EntriesOf(c).vals ==> o.vals[it.Id()] == it)
      && (forall x :: x != it.Id() ==> (x in o.vals <==> x in EntriesOf(c).vals))
      && (forall x :: x != it.Id() && x in o.vals ==> o.vals[x] == EntriesOf(c).vals[x])
    ensures outcome == Stored && !it.FavoriteItem? && it.State().rowId >= 0 ==> EntriesOf(r.c) == EntriesOf(c)
    ensures outcome == Stored && it.FavoriteItem? && SameNameCached(c, it.f) ==>
      DirtyOf(r.c) == DirtyOf(c) + {it.Id()} && r.c.stale == c.stale
    ensures outcome == Stored && it.FavoriteItem? && !SameNameCached(c, it.f) ==>
      r.c.stale && DirtyOf(r.c) == DirtyOf(c)
  {
    match outcome
    case UniqueViolation => if it.HasUniqueKey() then SaveReport(c, Duplicated, true) else SaveReport(c, ErrorLocal, false)
    case StoreFailed => SaveReport(c, ErrorLocal, false)
    case Stored =>
      var o := EntriesOf(c);
      var c1 := c.(entries := Some(o));
      if it.FavoriteItem? then
        if SameNameCached(c, it.f) then SaveReport(RefreshItem(c1, it.Id()), Deferred, false)
        else SaveReport(RefreshAll(c1), Deferred, false)
      else if it.State().rowId < 0 then
        SaveReport(RefreshItem(c1.(entries := Some(PutFirst(o, it))), it.Id()), Deferred, false)
      else SaveReport(RefreshItem(c1, it.Id()), Deferred, false)
  }

  /** The cache's optimistic insert: the item's id moved to the front, its
      entry added unless one is already cached. */
  function PutFirst(o: Ordered, it: Item): (r: Ordered)
    requires OrderedValid(o)
    ensures OrderedValid(r)
    ensures |r.keys| > 0 && r.keys[0] == it.Id() && r.keys[1..] == WithoutAll(o.keys, {it.Id()})
    ensures it.Id() !in o.vals ==> r.vals[it.Id()] == it
    ensures forall x :: x != it.Id() ==> (x in r.vals <==> x in o.vals)
    ensures forall x :: x != it.Id() && x in r.vals ==> r.vals[x] == o.vals[x]
  {
    var keys := [it.Id()] + WithoutAll(o.keys, {it.Id()});
    assert keys[1..] == WithoutAll(o.keys, {it.Id()});
    Ordered(keys, map[it.Id() := it] + o.vals)
  }

  /** A new link or note saved locally is listed first once it has been read back. */
  lemma NewItemListedFirst(c: Cache, it: Item)
    requires Wf(c) && !it.FavoriteItem? && it.State().rowId < 0 && it.Id() !in EntriesOf(c).vals
    ensures var r := SaveItem(c, it, Stored).c;
      Values(EntriesOf(r))[0] == it && it.Id() in DirtyOf(r)
  {
  }

  /** The cloud half of a save: every answer the cloud gives marks the id for
      re-reading; an unexpected answer or an error is reported as ERROR_CLOUD
      and leaves the cache alone. `answer` is None when the cloud call fails. */
  function CloudSaved(c: Cache, id: string, answer: Option<ItemState>): (r: (Cache, ItemState))
    requires Wf(c)
    ensures Wf(r.0)
    ensures r.1 in {Saved, Conflicted, ErrorLocal, ErrorCloud}
    ensures answer.Some? && answer.value in {Saved, Conflicted, ErrorLocal, ErrorCloud} ==>
      r.1 == answer.value && DirtyOf(r.0) == DirtyOf(c) + {id} && EntriesOf(r.0) == EntriesOf(c)
    ensures !(answer.Some? && answer.value in {Saved, Conflicted, ErrorLocal, ErrorCloud}) ==> r == (c, ErrorCloud)
  {
    if answer.Some? && answer.value in {Saved, Conflicted, ErrorLocal, ErrorCloud} then (RefreshItem(c, id), answer.value)
    else (c, ErrorCloud)
  }

  /** The local half of `deleteLink`: a DEFERRED or DELETED answer drops the
      entry; anything else is reported as ERROR_LOCAL and keeps it. */
  function LocalDeleted(c: Cache, id: string, answer: Option<ItemState>): (r: (Cache, ItemState))
    requires Wf(c)
    ensures Wf(r.0)
    ensures answer == Some(Deferred) || answer == Some(Deleted) ==>
      r.1 == answer.value && id !in EntriesOf(r.0).vals && DirtyOf(r.0) == DirtyOf(c)
    ensures !(answer == Some(Deferred) || answer == Some(Deleted)) ==> r == (c, ErrorLocal)
  {
    if answer == Some(Deferred) || answer == Some(Deleted) then (RemoveCached(c, id), answer.value)
    else (c, ErrorLocal)
  }

  /** The cloud half of `deleteLink`: only a conflict brings the item back,
      through a full reload. */
  function CloudDeleted(c: Cache, answer: Option<ItemState>): (r: (Cache, ItemState))
    requires Wf(c)
    ensures Wf(r.0)
    ensures answer == Some(Conflicted) ==> r.1 == Conflicted && r.0.stale
    ensures answer.Some? && answer.value in {Deleted, ErrorLocal, ErrorCloud} ==> r == (c, answer.value)
    ensures answer.None? || answer.value !in {Deleted, Conflicted, ErrorLocal, ErrorCloud} ==> r == (c, ErrorCloud)
  {
    if answer == Some(Conflicted) then (RefreshAll(c), Conflicted)
    else if answer.Some? && answer.value in {Deleted, ErrorLocal, ErrorCloud} then (c, answer.value)
    else (c, ErrorCloud)
  }

  // ---------------------------------------------------------------------------
  // Re-reading the dirty ids

  /** The ids the sync log reports as deleted, read only when the token is set. */
  function DeletedIds(c: Cache, pairs: seq<(string, SyncLog.Result)>): set<string> {
    if SyncCompleteToken in DirtyOf(c) then set p | p in pairs && p.1 == SyncLog.Deleted :: p.0 else {}
  }

  /** The ids asked of the store: the dirty ids but the token and, when the
      token is set, the logged ids that were not deletions. */
  function Requested(c: Cache, pairs: seq<(string, SyncLog.Result)>): set<string> {
    (DirtyOf(c) - {SyncCompleteToken})
    + (if SyncCompleteToken in DirtyOf(c) then set p | p in pairs && p.1 != SyncLog.Deleted :: p.0 else {})
  }

  /** The entry ids of `items`. */
  function IdsOf(items: seq<Item>): set<string> {
    set i | 0 <= i < |items| :: items[i].Id()
  }

  lemma IdsOfCons(items: seq<Item>)
    requires items != []
    ensures IdsOf(items) == {items[0].Id()} + IdsOf(items[1..])
  {
    forall x | x in IdsOf(items) ensures x in {items[0].Id()} + IdsOf(items[1..]) {
      var i :| 0 <= i < |items| && items[i].Id() == x;
      if i > 0 {
        assert items[1..][i - 1] == items[i];
      }
    }
    forall x | x in IdsOf(items[1..]) ensures x in IdsOf(items) {
      var i :| 0 <= i < |items[1..]| && items[1..][i].Id() == x;
      assert items[i + 1] == items[1..][i];
    }
  }

  /** Puts the rows read back in turn; each replaced entry stops being dirty,
      and the first row new to the cache stops the refresh. */
  function Absorb(o: Ordered, d: set<string>, fetched: seq<Item>): (r: (Ordered, set<string>, bool))
    requires OrderedValid(o)
    ensures OrderedValid(r.0) && r.1 <= d
    ensures r.2 <==> forall i :: 0 <= i < |fetched| ==> fetched[i].Id() in o.vals
    ensures r.2 ==> r.0.keys == o.keys && r.1 == d - IdsOf(fetched)
    ensures r.2 ==> forall x :: x in r.0.vals <==> x in o.vals
    ensures forall x :: x in o.vals ==> x in r.0.vals
    decreases |fetched|
  {
    if fetched == [] then (o, d, true)
    else
      var id := fetched[0].Id();
      if id in o.vals then
        var rest := Absorb(Put(o, id, fetched[0]), d - {id}, fetched[1..]);
        AbsorbStep(o, d, fetched, rest);
        rest
      else (Put(o, id, fetched[0]), d, false)
  }

  /** What `Absorb` promises of `r`. */
  ghost predicate Absorbed(o: Ordered, d: set<string>, fetched: seq<Item>, r: (Ordered, set<string>, bool)) {
    OrderedValid(r.0) && r.1 <= d
    && (r.2 <==> forall i :: 0 <= i < |fetched| ==> fetched[i].Id() in o.vals)
    && (r.2 ==> r.0.keys == o.keys && r.1 == d - IdsOf(fetched))
    && (r.2 ==> forall x :: x in r.0.vals <==> x in o.vals)
    && (forall x :: x in o.vals ==> x in r.0.vals)
  }

  /** Absorbing a cached row and then the rest absorbs them all. */
  lemma AbsorbStep(o: Ordered, d: set<string>, fetched: seq<Item>, rest: (Ordered, set<string>, bool))
    requires OrderedValid(o) && fetched != [] && fetched[0].Id() in o.vals
    requires Absorbed(Put(o, fetched[0].Id(), fetched[0]), d - {fetched[0].Id()}, fetched[1..], rest)
    ensures Absorbed(o, d, fetched, rest)
  {
    assert forall i :: 1 <= i < |fetched| ==> fetched[i] == fetched[1..][i - 1];
    IdsOfCons(fetched);
  }

  /** `refreshDirtyAndGetCachedLinks`: the token leaves the dirty set, the
      logged deletions leave the cache, and the rows the store returns for the
      requested ids are put in place. `pairs` is the collection's sync-log
      answer, `fetched` the store's rows for `Requested(c, pairs)`. The flag
      says whether the refresh completed; one that met a new row fails and
      marks the cache for reload. */
  function RefreshDirtyCache(c: Cache, pairs: seq<(string, SyncLog.Result)>, fetched: seq<Item>): (r: (Cache, bool))
    requires Wf(c)
    ensures Wf(r.0) && r.0.entries.Some? && SyncCompleteToken !in DirtyOf(r.0)
    ensures DirtyOf(r.0) <= DirtyOf(c)
    ensures r.1 <==> forall i :: 0 <= i < |fetched| ==>
      fetched[i].Id() in EntriesOf(c).vals && fetched[i].Id() !in DeletedIds(c, pairs)
    ensures r.1 ==> (r.0.stale == c.stale
      && EntriesOf(r.0).keys == WithoutAll(EntriesOf(c).keys, DeletedIds(c, pairs))
      && (forall i :: 0 <= i < |fetched| ==> fetched[i].Id() !in DirtyOf(r.0)))
    ensures !r.1 ==> r.0.stale
  {
    var o := RemoveAll(EntriesOf(c), DeletedIds(c, pairs));
    var d := DirtyOf(c) - {SyncCompleteToken};
    var (o2, d2, ok) := Absorb(o, d, fetched);
    (Cache(Some(o2), Some(d2), if ok then c.stale else true), ok)
  }

  /** A refresh that reads back every requested id and completes leaves
      nothing dirty: the next listing is served from the cache. */
  lemma RefreshClearsDirty(c: Cache, pairs: seq<(string, SyncLog.Result)>, fetched: seq<Item>)
    requires Wf(c) && !c.stale
    requires forall x :: x in Requested(c, pairs) ==> exists i :: 0 <= i < |fetched| && fetched[i].Id() == x
    requires RefreshDirtyCache(c, pairs, fetched).1
    ensures ListingPath(RefreshDirtyCache(c, pairs, fetched).0) == FromCache
  {
    var r := RefreshDirtyCache(c, pairs, fetched).0;
    assert forall x :: x in DirtyOf(r) ==> x in Requested(c, pairs);
    assert DirtyOf(r) == {};
  }

  // ---------------------------------------------------------------------------
  // Sync status

  /** `getSyncStatus`: CONFLICT if a collection holds a conflicted row, else
      UNSYNCED if one holds an unsynced row, else SYNCED. */
  function SyncStatus(db: LocalStore.Db): (status: int)
    ensures status == Settings.StatusConflict <==> exists k :: LocalStore.IsConflicted(LocalStore.TableOf(db, k))
    ensures status == Settings.StatusUnsynced <==>
      (forall k :: !LocalStore.IsConflicted(LocalStore.TableOf(db, k)))
      && exists k :: LocalStore.IsUnsynced(LocalStore.TableOf(db, k))
    ensures status == Settings.StatusSynced <==>
      forall k :: !LocalStore.IsConflicted(LocalStore.TableOf(db, k)) && !LocalStore.IsUnsynced(LocalStore.TableOf(db, k))
  {
    var conflicted := LocalStore.IsConflicted(db.links) || LocalStore.IsConflicted(db.favorites)
                      || LocalStore.IsConflicted(db.notes);
    var unsynced := LocalStore.IsUnsynced(db.links) || LocalStore.IsUnsynced(db.favorites)
                    || LocalStore.IsUnsynced(db.notes);
    ConflictedKinds(db);
    UnsyncedKinds(db);
    if conflicted then Settings.StatusConflict
    else if unsynced then Settings.StatusUnsynced
    else Settings.StatusSynced
  }

  /** Some collection is conflicted exactly when one of the three tables is. */
  lemma ConflictedKinds(db: LocalStore.Db)
    ensures (exists k :: LocalStore.IsConflicted(LocalStore.TableOf(db, k)))
      <==> LocalStore.IsConflicted(db.links) || LocalStore.IsConflicted(db.favorites) || LocalStore.IsConflicted(db.notes)
  {
    assert LocalStore.TableOf(db, LinkKind) == db.links && LocalStore.TableOf(db, FavoriteKind) == db.favorites
      && LocalStore.TableOf(db, NoteKind) == db.notes;
  }

  /** Some collection is unsynced exactly when one of the three tables is. */
  lemma UnsyncedKinds(db: LocalStore.Db)
    ensures (exists k :: LocalStore.IsUnsynced(LocalStore.TableOf(db, k)))
      <==> LocalStore.IsUnsynced(db.links) || LocalStore.IsUnsynced(db.favorites) || LocalStore.IsUnsynced(db.notes)
  {
    assert LocalStore.TableOf(db, LinkKind) == db.links && LocalStore.TableOf(db, FavoriteKind) == db.favorites
      && LocalStore.TableOf(db, NoteKind) == db.notes;
  }

  /** The status the repository computes is the one a successful sync run stores. */
  lemma SyncStatusAgreesWithRun(db: LocalStore.Db)
    ensures SyncStatus(db) == Orchestrator.TerminalStatus(true, db)
  {
  }
}

=== FILE: settings.dfy ===
/** The preference rules of `Settings`, over the shared preferences as a map from
    key to value. Writing a null string removes the key, as SharedPreferences
    does; a missing key reads as the getter's default. */
module Settings {
  import opened Wrappers
  import opened Entities
  import opened CommonUtils

  datatype Pref = PStr(s: string) | PInt(i: int) | PBool(b: bool)

  type Prefs = map<string, Pref>

  const PathSeparator: string := "/"
  const DefaultSyncDirectory: string := "/.laano_sync"
  const WhiteListDelimiter: string := ", "
  const DefaultWhiteList: string := "id, page"

  /** Keys named by resource strings in the app; their text is not part of this
      model, only that they are distinct from the other keys. */
  const SyncDirectoryKey: string := "pref_key_sync_directory"
  const WhiteListKey: string := "pref_key_clipboard_parameter_white_list"

  const LastSyncTimeKey: string := "LAST_SYNC_TIME"
  const SyncStatusKey: string := "SYNC_STATUS"
  const LinkFilterIdKey: string := "LINK_FILTER"
  const FavoriteFilterIdKey: string := "FAVORITE_FILTER"
  const NoteFilterIdKey: string := "NOTE_FILTER"

  /** `SyncAdapter.SYNC_STATUS_*`. */
  const StatusUnknown: int := 0
  const StatusSynced: int := 1
  const StatusUnsynced: int := 2
  const StatusError: int := 3
  const StatusConflict: int := 4

  const DefaultLastSyncTime: int := 0

  // ---------------------------------------------------------------------------
  // The preference store

  function GetString(p: Prefs, key: string, default: Option<string>): (r: Option<string>)
    ensures key in p && p[key].PStr? ==> r == Some(p[key].s)
    ensures key !in p ==> r == default
  {
    if key in p && p[key].PStr? then Some(p[key].s) else default
  }

  /** `putString`: a null value removes the key. */
  function PutString(p: Prefs, key: string, value: Option<string>): (r: Prefs)
    ensures GetString(r, key, None) == value
    ensures forall k :: k != key ==> (k in r <==> k in p) && (k in r ==> r[k] == p[k])
  {
    if value.None? then p - {key} else p[key := PStr(value.value)]
  }

  function GetInt(p: Prefs, key: string, default: int): (r: int)
    ensures key !in p ==> r == default
  {
    if key in p && p[key].PInt? then p[key].i else default
  }

  function PutInt(p: Prefs, key: string, value: int): (r: Prefs)
    ensures GetInt(r, key, 0) == value && key in r
    ensures forall k :: k != key ==> (k in r <==> k in p) && (k in r ==> r[k] == p[k])
  {
    p[key := PInt(value)]
  }

  // ---------------------------------------------------------------------------
  // Sync directory

  /** `normalizeSyncDirectory`: the default for a null or empty value, otherwise
      the value made absolute. */
  function NormalizeSyncDirectory(d: Option<string>): (r: string)
    ensures |r| > 0 && r[0] == '/'
    ensures IsNullOrEmpty(d) ==> r == DefaultSyncDirectory
    ensures !IsNullOrEmpty(d) && d.value[0] == '/' ==> r == d.value
    ensures !IsNullOrEmpty(d) && d.value[0] != '/' ==> r == PathSeparator + d.value
  {
    if IsNullOrEmpty(d) then DefaultSyncDirectory
    else if d.value[0] == '/' then d.value
    else PathSeparator + d.value
  }

  /** Normalising twice is normalising once, and a normalised value is its own
      normal form. */
  lemma NormalizeIdempotent(d: Option<string>)
    ensures NormalizeSyncDirectory(Some(NormalizeSyncDirectory(d))) == NormalizeSyncDirectory(d)
  {
  }

  function SyncDirectory(p: Prefs): string {
    GetString(p, SyncDirectoryKey, Some(DefaultSyncDirectory)).GetOr(DefaultSyncDirectory)
  }

  function LastSyncedETag(p: Prefs, k: Kind): Option<string> {
    GetString(p, LastSyncedETagKey(k), None)
  }

  /** `SETTING_LAST_*_SYNC_TIME` of each collection. */
  function CollectionSyncTimeKey(k: Kind): string {
    match k
    case LinkKind => "LAST_LINKS_SYNC_TIME"
    case FavoriteKind => "LAST_FAVORITES_SYNC_TIME"
    case NoteKind => "LAST_NOTES_SYNC_TIME"
  }

  function LastCollectionSyncTime(p: Prefs, k: Kind): int {
    GetInt(p, CollectionSyncTimeKey(k), DefaultLastSyncTime)
  }

  /** `updateLast{Links,Favorites,Notes}SyncTime`: that collection's time
      becomes `now`, the other collections' times and every other setting are
      kept. */
  function UpdateLastCollectionSyncTime(p: Prefs, k: Kind, now: int): (r: Prefs)
    ensures LastCollectionSyncTime(r, k) == now
    ensures forall k2 :: k2 != k ==> LastCollectionSyncTime(r, k2) == LastCollectionSyncTime(p, k2)
    ensures forall key :: key != CollectionSyncTimeKey(k) ==> (key in r <==> key in p) && (key in r ==> r[key] == p[key])
  {
    var r := PutInt(p, CollectionSyncTimeKey(k), now);
    assert forall k2 :: k2 != k ==> CollectionSyncTimeKey(k2) != CollectionSyncTimeKey(k) by {
      forall k2 | k2 != k ensures CollectionSyncTimeKey(k2) != CollectionSyncTimeKey(k) {
        assert CollectionSyncTimeKey(k2)[5] != CollectionSyncTimeKey(k)[5];
      }
    }
    r
  }

  /** The collection time keys are none of the other sync keys. */
  lemma CollectionSyncTimeKeysDistinct(k: Kind, k2: Kind)
    ensures CollectionSyncTimeKey(k2) != LastSyncedETagKey(k)
    ensures CollectionSyncTimeKey(k2) != SyncStatusKey && CollectionSyncTimeKey(k2) != LastSyncTimeKey
  {
    assert CollectionSyncTimeKey(k2)[4] != LastSyncedETagKey(k)[4];
    assert CollectionSyncTimeKey(k2)[5] != LastSyncTimeKey[5];
  }

  function SyncStatus(p: Prefs): int {
    GetInt(p, SyncStatusKey, StatusUnknown)
  }

  function LastSyncTime(p: Prefs): int {
    GetInt(p, LastSyncTimeKey, DefaultLastSyncTime)
  }

  /** The keys `resetSyncState` writes. */
  predicate IsSyncStateKey(key: string) {
    key == LastSyncedETagKey(LinkKind) || key == LastSyncedETagKey(FavoriteKind)
    || key == LastSyncedETagKey(NoteKind) || key == LastSyncTimeKey || key == SyncStatusKey
  }

  /** `setSyncStatus`: the last-sync time becomes `now` unless the status is
      UNSYNCED or UNKNOWN; the status is stored. */
  function SetSyncStatus(p: Prefs, status: int, now: int): (r: Prefs)
    ensures SyncStatus(r) == status
    ensures LastSyncTime(r) == (if status != StatusUnsynced && status != StatusUnknown then now else LastSyncTime(p))
    ensures forall k :: k != SyncStatusKey && k != LastSyncTimeKey ==> (k in r <==> k in p) && (k in r ==> r[k] == p[k])
  {
    var q := if status != StatusUnsynced && status != StatusUnknown then PutInt(p, LastSyncTimeKey, now) else p;
    PutInt(q, SyncStatusKey, status)
  }

  /** `resetSyncState`: no collection has a last-synced ETag any more, the
      last-sync time is 0 and the status UNSYNCED; nothing else changes. */
  function ResetSyncState(p: Prefs): (r: Prefs)
    ensures forall k :: LastSyncedETag(r, k).None?
    ensures LastSyncTime(r) == DefaultLastSyncTime && SyncStatus(r) == StatusUnsynced
    ensures forall key :: !IsSyncStateKey(key) ==> (key in r <==> key in p) && (key in r ==> r[key] == p[key])
  {
    var q1 := PutString(p, LastSyncedETagKey(LinkKind), None);
    var q2 := PutString(q1, LastSyncedETagKey(FavoriteKind), None);
    var q3 := PutString(q2, LastSyncedETagKey(NoteKind), None);
    var q4 := PutInt(q3, LastSyncTimeKey, DefaultLastSyncTime);
    var r := SetSyncStatus(q4, StatusUnsynced, 0);
    r
  }

  /** The Java `setSyncDirectory`: the normalised value is written, and the
      sync state reset, only when it differs from the stored directory. */
  function SetSyncDirectory(p: Prefs, d: Option<string>): (r: Prefs)
    ensures SyncDirectory(r) == NormalizeSyncDirectory(d)
    ensures SyncDirectory(p) == NormalizeSyncDirectory(d) ==> r == p
    ensures SyncDirectory(p) != NormalizeSyncDirectory(d) ==>
      SyncStatus(r) == StatusUnsynced && forall k :: LastSyncedETag(r, k).None?
  {
    var n := NormalizeSyncDirectory(d);
    if SyncDirectory(p) == n then p
    else
      var r := ResetSyncState(PutString(p, SyncDirectoryKey, Some(n)));
      assert !IsSyncStateKey(SyncDirectoryKey);
      r
  }

  /** The Kotlin `syncDirectory` setter as written: inside the setter the name
      `syncDirectory` is the incoming value, so the "old value" it compares
      with is the input itself, not the stored directory. */
  function SetSyncDirectoryAsWritten(p: Prefs, d: Option<string>): (r: Prefs) {
    var n := NormalizeSyncDirectory(d);
    if d == Some(n) then p else ResetSyncState(PutString(p, SyncDirectoryKey, Some(n)))
  }

  /** An already normalised new directory is silently dropped by the Kotlin
      setter: the stored directory stays "/a" although "/b" was set, and the
      sync state is not reset. The Java setter stores "/b". */
  lemma KotlinSetterDropsNormalisedInput()
    ensures var p := map[SyncDirectoryKey := PStr("/a")];
      SyncDirectory(SetSyncDirectoryAsWritten(p, Some("/b"))) == "/a"
      && SyncDirectory(SetSyncDirectory(p, Some("/b"))) == "/b"
  {
    var p := map[SyncDirectoryKey := PStr("/a")];
    assert NormalizeSyncDirectory(Some("/b")) == "/b";
  }

  /** And an unnormalised input equal to the stored directory after
      normalisation resets the sync state in Kotlin, where Java does nothing. */
  lemma KotlinSetterResetsUnchanged()
    ensures var p := map[SyncDirectoryKey := PStr("/a"), SyncStatusKey := PInt(StatusSynced)];
      SyncStatus(SetSyncDirectoryAsWritten(p, Some("a"))) == StatusUnsynced
      && SetSyncDirectory(p, Some("a")) == p
  {
    assert NormalizeSyncDirectory(Some("a")) == "/a";
  }

  // ---------------------------------------------------------------------------
  // Filters

  /** The filter types are an enum not part of this model: `count` values,
      `all` the ordinal of ALL. */
  datatype FilterTypes = FilterTypes(count: nat, all: nat)
  {
    predicate Valid() { all < count }
  }

  /** `getFilterType`: the stored ordinal when it names a value, ALL otherwise
      (also when nothing is stored). */
  function GetFilterType(p: Prefs, key: string, ft: FilterTypes): (r: nat)
    requires ft.Valid()
    ensures r < ft.count
    ensures var o := GetInt(p, key, ft.all); 0 <= o < ft.count ==> r == o
    ensures var o := GetInt(p, key, ft.all); !(0 <= o < ft.count) ==> r == ft.all
  {
    var o := GetInt(p, key, ft.all);
    if 0 <= o < ft.count then o else ft.all
  }

  /** `setFilterType`: a null type is ignored; a type is written only when it
      differs from the one read back. Afterwards the given type reads back. */
  function SetFilterType(p: Prefs, key: string, ft: FilterTypes, t: Option<nat>): (r: Prefs)
    requires ft.Valid() && (t.Some? ==> t.value < ft.count)
    ensures t.None? ==> r == p
    ensures t.Some? ==> GetFilterType(r, key, ft) == t.value
    ensures t.Some? && GetFilterType(p, key, ft) == t.value ==> r == p
    ensures forall k :: k != key ==> (k in r <==> k in p) && (k in r ==> r[k] == p[k])
  {
    if t.None? || GetFilterType(p, key, ft) == t.value then p else PutInt(p, key, t.value)
  }

  /** `setLinkFilterId` and its twins: the id is written (a null one removes
      it) only when it differs from the stored one; a null id also drops the
      cached filter object, reported as the second component. */
  function SetFilterId(p: Prefs, key: string, id: Option<string>): (r: (Prefs, bool))
    ensures GetString(r.0, key, None) == id
    ensures GetString(p, key, None) == id ==> r.0 == p
    ensures r.1 <==> id.None?
    ensures forall k :: k != key ==> (k in r.0 <==> k in p) && (k in r.0 ==> r.0[k] == p[k])
  {
    var stored := GetString(p, key, None);
    if stored.None? && id.None? then (p, true)
    else if stored.None? != id.None? then (PutString(p, key, id), id.None?)
    else if id.value != stored.value then (PutString(p, key, id), false)
    else (p, false)
  }

  /** `resetLinkFilterId` and its twins: the filter id is cleared only when it
      is the given id. */
  function ResetFilterId(p: Prefs, key: string, id: Option<string>): (r: (Prefs, bool))
    ensures var stored := GetString(p, key, None);
      if stored.Some? && stored == id then GetString(r.0, key, None).None? && r.1
      else r == (p, false)
  {
    var stored := GetString(p, key, None);
    if stored.None? || id.None? then (p, false)
    else if stored.value == id.value then SetFilterId(p, key, None)
    else (p, false)
  }

  // ---------------------------------------------------------------------------
  // Clipboard parameter whitelist

  /** `d` occurs in `s` at position `j`. */
  predicate OccursAt(s: string, d: string, j: int) {
    0 <= j && j + |d| <= |s| && s[j..j + |d|] == d
  }

  /** The first position where `d` occurs in `s`. */
  function Find(s: string, d: string): (r: Option<nat>)
    requires |d| > 0
    ensures r.Some? ==> OccursAt(s, d, r.value)
    ensures r.Some? ==> forall j :: j < r.value ==> !OccursAt(s, d, j)
    ensures r.None? ==> forall j :: !OccursAt(s, d, j)
    decreases |s|
  {
    if |s| < |d| then None
    else if s[..|d|] == d then Some(0)
    else
      var t := Find(s[1..], d);
      if t.None? then
        assert forall j :: OccursAt(s, d, j) ==> j == 0 || OccursAt(s[1..], d, j - 1);
        None
      else
        assert forall j :: OccursAt(s, d, j) ==> j == 0 || OccursAt(s[1..], d, j - 1);
        assert s[t.value + 1..t.value + 1 + |d|] == s[1..][t.value..t.value + |d|];
        Some(t.value + 1)
  }

  /** The pieces between the occurrences of `d`, empty ones included. */
  function SplitAll(s: string, d: string): (r: seq<string>)
    requires |d| > 0
    ensures |r| > 0
    decreases |s|
  {
    var i := Find(s, d);
    if i.None? then [s] else [s[..i.value]] + SplitAll(s[i.value + |d|..], d)
  }

  /** Joining the pieces with the delimiter gives the string back. */
  lemma {:induction false} SplitAllJoin(s: string, d: string)
    requires |d| > 0
    ensures Join(SplitAll(s, d), d) == s
    decreases |s|
  {
    var i := Find(s, d);
    if i.Some? {
      var rest := s[i.value + |d|..];
      SplitAllJoin(rest, d);
      assert s == s[..i.value] + d + rest;
    }
  }

  /** No piece contains the delimiter. */
  lemma {:induction false} SplitAllPiecesClean(s: string, d: string)
    requires |d| > 0
    ensures forall k, j :: 0 <= k < |SplitAll(s, d)| ==> !OccursAt(SplitAll(s, d)[k], d, j)
    decreases |s|
  {
    var i := Find(s, d);
    if i.Some? {
      var p := s[..i.value];
      assert forall j :: OccursAt(p, d, j) ==> OccursAt(s, d, j);
      SplitAllPiecesClean(s[i.value + |d|..], d);
    }
  }

  /** `String.split` with no limit drops trailing empty strings. */
  function DropTrailingEmpty(parts: seq<string>): (r: seq<string>)
    ensures |r| <= |parts| && r == parts[..|r|]
    ensures |r| > 0 ==> r[|r| - 1] != ""
    ensures forall j :: |r| <= j < |parts| ==> parts[j] == ""
  {
    if |parts| == 0 then []
    else if parts[|parts| - 1] == "" then DropTrailingEmpty(parts[..|parts| - 1])
    else parts
  }

  /** `getClipboardParameterWhiteListArray`: [] for a null or empty setting,
      otherwise the setting split on ", " (the default is "id, page"). */
  function WhiteListArray(p: Prefs): (r: seq<string>)
  {
    var v := GetString(p, WhiteListKey, Some(DefaultWhiteList));
    if IsNullOrEmpty(v) then [] else DropTrailingEmpty(SplitAll(v.value, WhiteListDelimiter))
  }

  /** The Kotlin `getClipboardParameterWhiteListArray`, which the app runs:
      Kotlin's `split` keeps trailing empty pieces, so a setting that ends in
      ", " yields a final "" where the Java version drops it. */
  function WhiteListArrayKotlin(p: Prefs): (r: seq<string>)
  {
    var v := GetString(p, WhiteListKey, Some(DefaultWhiteList));
    if IsNullOrEmpty(v) then [] else SplitAll(v.value, WhiteListDelimiter)
  }

  /** The Kotlin whitelist of a non-empty setting joins back to the setting
      with no entry holding the delimiter; the Java whitelist is the Kotlin one
      without its trailing empty entries. */
  lemma KotlinWhiteListJoins(p: Prefs)
    ensures var v := GetString(p, WhiteListKey, Some(DefaultWhiteList));
      !IsNullOrEmpty(v) ==>
      Join(WhiteListArrayKotlin(p), WhiteListDelimiter) == v.value
      && forall k, j :: 0 <= k < |WhiteListArrayKotlin(p)| ==> !OccursAt(WhiteListArrayKotlin(p)[k], WhiteListDelimiter, j)
    ensures var v := GetString(p, WhiteListKey, Some(DefaultWhiteList));
      IsNullOrEmpty(v) <==> WhiteListArrayKotlin(p) == []
    ensures WhiteListArray(p) == DropTrailingEmpty(WhiteListArrayKotlin(p))
  {
    var v := GetString(p, WhiteListKey, Some(DefaultWhiteList));
    if !IsNullOrEmpty(v) {
      SplitAllJoin(v.value, WhiteListDelimiter);
      SplitAllPiecesClean(v.value, WhiteListDelimiter);
    }
  }

  /** "page, " has its delimiter right after "page". */
  lemma FindInPageComma(w: string)
    requires w == "page, "
    ensures Find(w, WhiteListDelimiter) == Some(4)
  {
    assert w[..2] != WhiteListDelimiter by { assert w[..2][0] == 'p'; }
    assert w[1..][..2] != WhiteListDelimiter by { assert w[1..][..2][0] == 'a'; }
    assert w[2..][..2] != WhiteListDelimiter by { assert w[2..][..2][0] == 'g'; }
    assert w[3..][..2] != WhiteListDelimiter by { assert w[3..][..2][0] == 'e'; }
    assert w[4..][..2] == WhiteListDelimiter;
    assert Find(w[4..], WhiteListDelimiter) == Some(0);
    assert Find(w[3..], WhiteListDelimiter) == Some(1);
    assert Find(w[2..], WhiteListDelimiter) == Some(2);
    assert Find(w[1..], WhiteListDelimiter) == Some(3);
  }

  /** "id, page, " splits into "id", "page" and a final "". */
  lemma SplitTrailingDelimiter(v: string)
    requires v == "id, page, "
    ensures SplitAll(v, WhiteListDelimiter) == ["id", "page", ""]
  {
    assert v[..2] != WhiteListDelimiter by { assert v[..2][0] == 'i'; }
    assert v[1..][..2] != WhiteListDelimiter by { assert v[1..][..2][0] == 'd'; }
    assert v[2..][..2] == WhiteListDelimiter;
    assert Find(v[2..], WhiteListDelimiter) == Some(0);
    assert Find(v[1..], WhiteListDelimiter) == Some(1);
    assert Find(v, WhiteListDelimiter) == Some(2);
    var rest := v[4..];
    FindInPageComma(rest);
    assert rest[..4] == "page" && rest[6..] == "";
    assert Find("", WhiteListDelimiter) == None;
    assert SplitAll(rest[6..], WhiteListDelimiter) == [""];
    assert SplitAll(rest, WhiteListDelimiter) == ["page", ""];
    assert v[..2] == "id";
    assert SplitAll(v, WhiteListDelimiter) == [v[..2]] + SplitAll(rest, WhiteListDelimiter);
  }

  /** The two versions part on a setting with a trailing delimiter: for
      "id, page, " Kotlin gives ["id", "page", ""] and Java ["id", "page"]. */
  lemma TrailingDelimiterWhiteLists(p: Prefs, v: string)
    requires v == "id, page, " && p == map[WhiteListKey := PStr(v)]
    ensures WhiteListArrayKotlin(p) == ["id", "page", ""]
    ensures WhiteListArray(p) == ["id", "page"]
  {
    assert GetString(p, WhiteListKey, Some(DefaultWhiteList)) == Some(v);
    assert !IsNullOrEmpty(Some(v)) by { assert |v| > 0; }
    SplitTrailingDelimiter(v);
    var ks: seq<string> := ["id", "page", ""];
    assert ks[..|ks| - 1] == ["id", "page"];
    assert DropTrailingEmpty(ks) == DropTrailingEmpty(["id", "page"]);
  }

  /** The default setting has its first delimiter right after "id". */
  lemma FindInDefault()
    ensures Find(DefaultWhiteList, WhiteListDelimiter) == Some(2)
  {
    var v := DefaultWhiteList;
    assert v[..2] != WhiteListDelimiter by { assert v[..2][0] == 'i'; }
    assert v[1..][..2] != WhiteListDelimiter by { assert v[1..][..2][0] == 'd'; }
    assert v[2..][..2] == WhiteListDelimiter;
    assert Find(v[2..], WhiteListDelimiter) == Some(0);
    assert Find(v[1..], WhiteListDelimiter) == Some(1);
  }

  /** "page" holds no delimiter. */
  lemma FindInPage()
    ensures Find("page", WhiteListDelimiter) == None
  {
    var w := "page";
    assert w[..2] != WhiteListDelimiter by { assert w[..2][0] == 'p'; }
    assert w[1..][..2] != WhiteListDelimiter by { assert w[1..][..2][0] == 'a'; }
    assert w[2..][..2] != WhiteListDelimiter by { assert w[2..][..2][0] == 'g'; }
    assert Find(w[3..], WhiteListDelimiter) == None;
  }

  /** With nothing stored, the whitelist is ["id", "page"]. */
  lemma DefaultWhiteListArray()
    ensures WhiteListArray(map[]) == ["id", "page"]
  {
    var v := DefaultWhiteList;
    FindInDefault();
    FindInPage();
    assert v[..2] == "id" && v[4..] == "page";
    assert SplitAll(v, WhiteListDelimiter) == ["id", "page"];
  }

  /** A setting that does not end in an empty entry is the join of its
      whitelist, and no entry contains the delimiter. */
  lemma WhiteListJoins(p: Prefs)
    ensures var v := GetString(p, WhiteListKey, Some(DefaultWhiteList));
      !IsNullOrEmpty(v) && SplitAll(v.value, WhiteListDelimiter)[|SplitAll(v.value, WhiteListDelimiter)| - 1] != "" ==>
      Join(WhiteListArray(p), WhiteListDelimiter) == v.value
      && forall k, j :: 0 <= k < |WhiteListArray(p)| ==> !OccursAt(WhiteListArray(p)[k], WhiteListDelimiter, j)
  {
    var v := GetString(p, WhiteListKey, Some(DefaultWhiteList));
    if !IsNullOrEmpty(v) {
      SplitAllJoin(v.value, WhiteListDelimiter);
      SplitAllPiecesClean(v.value, WhiteListDelimiter);
    }
  }
}

=== FILE: sync_log.dfy ===
/** The sync log: one `SyncResult` row per reconciled record, kept in the
    `sync_result` table and drained by the repository through `getIds`. */
module SyncLog {
  import opened Wrappers
  import opened Entities

  /** `SyncResultEntry.Result`. */
  datatype Result = Uploaded | Downloaded | Deleted | Synced | Related | Conflict | Error

  /** `Enum.name()`. */
  function ResultName(r: Result): string {
    match r
    case Uploaded => "UPLOADED"
    case Downloaded => "DOWNLOADED"
    case Deleted => "DELETED"
    case Synced => "SYNCED"
    case Related => "RELATED"
    case Conflict => "CONFLICT"
    case Error => "ERROR"
  }

  /** `Result.valueOf`; None stands for its IllegalArgumentException. */
  function ResultValueOf(s: string): (r: Option<Result>)
    ensures r.Some? ==> ResultName(r.value) == s
  {
    if s == "UPLOADED" then Some(Uploaded)
    else if s == "DOWNLOADED" then Some(Downloaded)
    else if s == "DELETED" then Some(Deleted)
    else if s == "SYNCED" then Some(Synced)
    else if s == "RELATED" then Some(Related)
    else if s == "CONFLICT" then Some(Conflict)
    else if s == "ERROR" then Some(Error)
    else None
  }

  /** The stored name of a result reads back as the same result. */
  lemma ResultNameRoundTrip(r: Result)
    ensures ResultValueOf(ResultName(r)) == Some(r)
  {
  }

  datatype SyncResult = SyncResult(
    rowId: int,
    created: int,
    started: int,
    entry: string,
    entryId: string,
    result: Result,
    applied: bool)

  /** The short constructor: no row yet, created now. */
  function NewSyncResult(now: int, started: int, entry: string, entryId: string,
                         result: Result, applied: bool): (r: SyncResult)
    ensures r.rowId == -1 && r.created == now
    ensures r.started == started && r.entry == entry && r.entryId == entryId
    ensures r.result == result && r.applied == applied
  {
    SyncResult(-1, now, started, entry, entryId, result, applied)
  }

  // ---------------------------------------------------------------------------
  // Columns

  datatype Column = IdCol | CreatedCol | StartedCol | EntryCol | EntryIdCol | ResultCol | AppliedCol

  datatype Value = IntV(i: int) | StrV(s: string) | BoolV(b: bool)

  /** Every field but the row id; the result is stored by name. */
  function GetContentValues(r: SyncResult): (cv: map<Column, Value>)
    ensures IdCol !in cv
    ensures ResultCol in cv && cv[ResultCol] == StrV(ResultName(r.result))
    ensures EntryIdCol in cv && cv[EntryIdCol] == StrV(r.entryId)
  {
    map[CreatedCol := IntV(r.created), StartedCol := IntV(r.started), EntryCol := StrV(r.entry),
        EntryIdCol := StrV(r.entryId), ResultCol := StrV(ResultName(r.result)),
        AppliedCol := BoolV(r.applied)]
  }

  /** `SyncResult.from(ContentValues)`; None where a column is missing or the
      result name is unknown. */
  function FromContentValues(cv: map<Column, Value>): (r: Option<SyncResult>)
    ensures r.Some? ==> IdCol in cv && cv[IdCol] == IntV(r.value.rowId)
    ensures r.Some? ==> ResultCol in cv && cv[ResultCol] == StrV(ResultName(r.value.result))
  {
    if IdCol !in cv || !cv[IdCol].IntV? then None
    else if CreatedCol !in cv || !cv[CreatedCol].IntV? then None
    else if StartedCol !in cv || !cv[StartedCol].IntV? then None
    else if EntryCol !in cv || !cv[EntryCol].StrV? then None
    else if EntryIdCol !in cv || !cv[EntryIdCol].StrV? then None
    else if ResultCol !in cv || !cv[ResultCol].StrV? then None
    else if AppliedCol !in cv || !cv[AppliedCol].BoolV? then None
    else
      var result := ResultValueOf(cv[ResultCol].s);
      if result.None? then None
      else Some(SyncResult(cv[IdCol].i, cv[CreatedCol].i, cv[StartedCol].i, cv[EntryCol].s,
                           cv[EntryIdCol].s, result.value, cv[AppliedCol].b))
  }

  /** Content values read back once the row id is added; without it they do not. */
  lemma ContentValuesRoundTrip(r: SyncResult)
    ensures FromContentValues(GetContentValues(r)[IdCol := IntV(r.rowId)]) == Some(r)
    ensures FromContentValues(GetContentValues(r)) == None
  {
    ResultNameRoundTrip(r.result);
  }

  /** `toString`: "entry : entryId -> RESULT". */
  function ToString(r: SyncResult): string {
    r.entry + " : " + r.entryId + " -> " + ResultName(r.result)
  }

  /** The text starts with the entry and ends with the result's name. */
  lemma ToStringParts(r: SyncResult)
    ensures var s := ToString(r);
      |s| >= |r.entry| + |ResultName(r.result)|
      && s[..|r.entry|] == r.entry
      && s[|s| - |ResultName(r.result)|..] == ResultName(r.result)
  {
    var s := ToString(r);
    assert s == r.entry + (" : " + r.entryId + " -> " + ResultName(r.result));
    assert s == (r.entry + " : " + r.entryId + " -> ") + ResultName(r.result);
  }

  // ---------------------------------------------------------------------------
  // The table

  /** `GLOBAL_SYNC_LOG_KEEPING_PERIOD_DAYS`. */
  const KeepingPeriodDays: int := 7
  const SecondsPerDay: int := 86400

  /** Rows in row-id order; `lastRowId` is the AUTOINCREMENT counter. */
  datatype Log = Log(rows: seq<SyncResult>, lastRowId: int)

  predicate Valid(l: Log) {
    l.lastRowId >= 0
    && (forall i :: 0 <= i < |l.rows| ==> 0 < l.rows[i].rowId <= l.lastRowId)
    && (forall i, j :: 0 <= i < j < |l.rows| ==> l.rows[i].rowId < l.rows[j].rowId)
  }

  const EmptyLog: Log := Log([], 0)

  /** `log`: inserts the result under the next row id and reports whether that
      id is positive. */
  function Append(l: Log, r: SyncResult): (res: (Log, bool))
    requires Valid(l)
    ensures Valid(res.0) && res.1
    ensures res.0.rows == l.rows + [r.(rowId := l.lastRowId + 1)]
  {
    var id := l.lastRowId + 1;
    (Log(l.rows + [r.(rowId := id)], id), id > 0)
  }

  /** `getThreshold`: `MAX(_ID)` read with `getLong`. On an empty table SQL's
      NULL reads as 0, so the `Long.MAX_VALUE` branch is never reached. */
  function Threshold(l: Log): (t: int)
    requires Valid(l)
    ensures l.rows == [] ==> t == 0
    ensures forall i :: 0 <= i < |l.rows| ==> l.rows[i].rowId <= t
    ensures l.rows != [] ==> exists i :: 0 <= i < |l.rows| && l.rows[i].rowId == t
  {
    if l.rows == [] then 0 else l.rows[|l.rows| - 1].rowId
  }

  /** An unapplied row of `entry` at or below the threshold; a threshold that is
      not positive means no bound. */
  predicate Pending(r: SyncResult, entry: string, threshold: int) {
    r.entry == entry && !r.applied && (threshold <= 0 || r.rowId <= threshold)
  }

  /** `markAsApplied`: sets `applied` on the pending rows of `entry` and counts them. */
  function MarkAsApplied(l: Log, entry: string, threshold: int): (res: (Log, nat))
    requires Valid(l)
    ensures Valid(res.0) && res.0.lastRowId == l.lastRowId && |res.0.rows| == |l.rows|
    ensures forall i :: 0 <= i < |l.rows| ==>
      res.0.rows[i] == (if Pending(l.rows[i], entry, threshold) then l.rows[i].(applied := true) else l.rows[i])
    ensures res.1 == |Filter(l.rows, entry, threshold)|
  {
    var rows := seq(|l.rows|, i requires 0 <= i < |l.rows| =>
      if Pending(l.rows[i], entry, threshold) then l.rows[i].(applied := true) else l.rows[i]);
    (Log(rows, l.lastRowId), CountPending(l.rows, entry, threshold))
  }

  function CountPending(rows: seq<SyncResult>, entry: string, threshold: int): (n: nat)
    ensures n == |Filter(rows, entry, threshold)|
  {
    if rows == [] then 0
    else CountPending(rows[..|rows| - 1], entry, threshold)
         + (if Pending(rows[|rows| - 1], entry, threshold) then 1 else 0)
  }

  /** The pending rows, in row order. */
  function Filter(rows: seq<SyncResult>, entry: string, threshold: int): (r: seq<SyncResult>)
    ensures forall x :: x in r <==> x in rows && Pending(x, entry, threshold)
    ensures |r| <= |rows|
  {
    if rows == [] then []
    else
      var init := Filter(rows[..|rows| - 1], entry, threshold);
      var last := rows[|rows| - 1];
      assert rows == rows[..|rows| - 1] + [last];
      if Pending(last, entry, threshold) then init + [last] else init
  }

  /** The first occurrence of each element, in order (SQL `DISTINCT`). */
  function Distinct<T(==,!new)>(s: seq<T>): (r: seq<T>)
    ensures forall x :: x in r <==> x in s
    ensures forall i, j :: 0 <= i < j < |r| ==> r[i] != r[j]
  {
    if s == [] then []
    else
      var init := Distinct(s[..|s| - 1]);
      var last := s[|s| - 1];
      assert s == s[..|s| - 1] + [last];
      if last in init then init else init + [last]
  }

  function Pairs(rows: seq<SyncResult>): (r: seq<(string, Result)>)
    ensures |r| == |rows|
    ensures forall i :: 0 <= i < |rows| ==> r[i] == (rows[i].entryId, rows[i].result)
  {
    seq(|rows|, i requires 0 <= i < |rows| => (rows[i].entryId, rows[i].result))
  }

  /** `getIds(entry)`: the distinct (entry id, result) pairs of the pending rows
      at or below the current threshold, and the log with exactly those rows
      marked applied. */
  function GetIds(l: Log, entry: string): (res: (seq<(string, Result)>, Log))
    requires Valid(l)
    ensures Valid(res.1)
  {
    var threshold := Threshold(l);
    var pending := Filter(l.rows, entry, threshold);
    (Distinct(Pairs(pending)), MarkAsApplied(l, entry, threshold).0)
  }

  /** What `getIds` returns and what it marks agree: a pair is reported exactly
      when some unapplied row of the entry carries it, each pair once, and
      afterwards no row of the entry is left unapplied; the other rows are unchanged. */
  lemma GetIdsDrains(l: Log, entry: string)
    requires Valid(l)
    ensures forall p :: p in GetIds(l, entry).0 <==> UnappliedPair(l, entry, p)
    ensures forall i, j :: 0 <= i < j < |GetIds(l, entry).0| ==> GetIds(l, entry).0[i] != GetIds(l, entry).0[j]
    ensures forall i :: 0 <= i < |GetIds(l, entry).1.rows| && GetIds(l, entry).1.rows[i].entry == entry ==>
      GetIds(l, entry).1.rows[i].applied
    ensures forall i :: 0 <= i < |l.rows| && l.rows[i].entry != entry ==> GetIds(l, entry).1.rows[i] == l.rows[i]
  {
    GetIdsPairs(l, entry);
  }

  /** Some unapplied row of `entry` carries the pair `p`. */
  ghost predicate UnappliedPair(l: Log, entry: string, p: (string, Result)) {
    exists i :: 0 <= i < |l.rows| && l.rows[i].entry == entry && !l.rows[i].applied
                && p == (l.rows[i].entryId, l.rows[i].result)
  }

  /** The reported pairs are those of the unapplied rows of the entry. */
  lemma GetIdsPairs(l: Log, entry: string)
    requires Valid(l)
    ensures forall p :: p in GetIds(l, entry).0 <==> UnappliedPair(l, entry, p)
  {
    var pending := Filter(l.rows, entry, Threshold(l));
    assert GetIds(l, entry).0 == Distinct(Pairs(pending));
    forall p ensures p in Pairs(pending) <==> UnappliedPair(l, entry, p) {
      if p in Pairs(pending) {
        ReportedIsUnapplied(l, entry, pending, p);
      }
      if UnappliedPair(l, entry, p) {
        UnappliedIsReported(l, entry, pending, p);
      }
    }
  }

  lemma ReportedIsUnapplied(l: Log, entry: string, pending: seq<SyncResult>, p: (string, Result))
    requires Valid(l) && pending == Filter(l.rows, entry, Threshold(l))
    requires p in Pairs(pending)
    ensures UnappliedPair(l, entry, p)
  {
    var k :| 0 <= k < |pending| && Pairs(pending)[k] == p;
    assert pending[k] in l.rows;
    var i :| 0 <= i < |l.rows| && l.rows[i] == pending[k];
    assert l.rows[i].entry == entry && !l.rows[i].applied && p == (l.rows[i].entryId, l.rows[i].result);
  }

  lemma UnappliedIsReported(l: Log, entry: string, pending: seq<SyncResult>, p: (string, Result))
    requires Valid(l) && pending == Filter(l.rows, entry, Threshold(l))
    requires UnappliedPair(l, entry, p)
    ensures p in Pairs(pending)
  {
    var i :| 0 <= i < |l.rows| && l.rows[i].entry == entry && !l.rows[i].applied
             && p == (l.rows[i].entryId, l.rows[i].result);
    assert Pending(l.rows[i], entry, Threshold(l));
    assert l.rows[i] in pending;
    var k :| 0 <= k < |pending| && pending[k] == l.rows[i];
    assert Pairs(pending)[k] == p;
  }

  /** On an empty table `getIds` reports nothing and changes nothing. */
  lemma GetIdsOnEmpty(entry: string)
    ensures GetIds(EmptyLog, entry) == ([], EmptyLog)
  {
  }

  // ---------------------------------------------------------------------------
  // Freshness

  /** SQLite's integer division of `started` by 1000, which truncates toward zero. */
  function StartedSeconds(started: int): int {
    if started >= 0 then started / 1000 else -((-started) / 1000)
  }

  /** `datetime(started / 1000, 'unixepoch') > datetime('now', '-7 day')`. */
  predicate IsFresh(r: SyncResult, nowSeconds: int) {
    StartedSeconds(r.started) > nowSeconds - KeepingPeriodDays * SecondsPerDay
  }

  /** Inserts into a list ordered by `created`, after every row with the same time. */
  function InsertByCreated(sorted: seq<SyncResult>, x: SyncResult): (r: seq<SyncResult>)
    requires SortedByCreated(sorted)
    ensures SortedByCreated(r)
    ensures multiset(r) == multiset(sorted) + multiset{x}
    ensures |r| == |sorted| + 1
    ensures r[|r| - 1] == x || (sorted != [] && r[|r| - 1] == sorted[|sorted| - 1])
  {
    if sorted == [] then [x]
    else
      var last := sorted[|sorted| - 1];
      var init := sorted[..|sorted| - 1];
      assert sorted == init + [last];
      if last.created <= x.created then
        SortedAppend(sorted, x);
        sorted + [x]
      else
        var ins := InsertByCreated(init, x);
        assert ins[|ins| - 1].created <= last.created;
        SortedAppend(ins, last);
        var r := ins + [last];
        assert multiset(r) == multiset(ins) + multiset{last};
        r
  }

  /** A row no earlier than the last of a sorted list keeps it sorted. */
  lemma SortedAppend(s: seq<SyncResult>, x: SyncResult)
    requires SortedByCreated(s) && s != [] && s[|s| - 1].created <= x.created
    ensures SortedByCreated(s + [x])
  {
    var r := s + [x];
    forall i, j | 0 <= i < j < |r| ensures r[i].created <= r[j].created {
      if j == |s| {
        assert r[i] == s[i] && s[i].created <= s[|s| - 1].created;
      } else {
        assert r[i] == s[i] && r[j] == s[j];
      }
    }
  }

  predicate SortedByCreated(s: seq<SyncResult>) {
    forall i, j :: 0 <= i < j < |s| ==> s[i].created <= s[j].created
  }

  /** `ORDER BY created ASC`, keeping row order between equal times. */
  function SortByCreated(s: seq<SyncResult>): (r: seq<SyncResult>)
    ensures SortedByCreated(r)
    ensures multiset(r) == multiset(s)
  {
    if s == [] then []
    else
      assert s == s[..|s| - 1] + [s[|s| - 1]];
      InsertByCreated(SortByCreated(s[..|s| - 1]), s[|s| - 1])
  }

  function FreshRows(rows: seq<SyncResult>, nowSeconds: int): (r: seq<SyncResult>)
    ensures forall x :: x in r <==> x in rows && IsFresh(x, nowSeconds) && x.result != Related
    ensures multiset(r) <= multiset(rows)
  {
    if rows == [] then []
    else
      var init := FreshRows(rows[..|rows| - 1], nowSeconds);
      var last := rows[|rows| - 1];
      assert rows == rows[..|rows| - 1] + [last];
      if IsFresh(last, nowSeconds) && last.result != Related then init + [last] else init
  }

  /** `getFresh`: the rows of the last seven days that are not RELATED, oldest first. */
  function GetFresh(l: Log, nowSeconds: int): (r: seq<SyncResult>)
    ensures SortedByCreated(r)
    ensures forall x :: x in r <==> x in l.rows && IsFresh(x, nowSeconds) && x.result != Related
  {
    var kept := FreshRows(l.rows, nowSeconds);
    var r := SortByCreated(kept);
    assert forall x :: x in r <==> x in kept by {
      forall x ensures x in r <==> x in kept {
        assert x in r <==> x in multiset(r);
        assert x in kept <==> x in multiset(kept);
      }
    }
    r
  }

  function KeepFresh(rows: seq<SyncResult>, nowSeconds: int): (r: seq<SyncResult>)
    ensures forall x :: x in r <==> x in rows && IsFresh(x, nowSeconds)
    ensures |r| <= |rows|
  {
    if rows == [] then []
    else
      var init := KeepFresh(rows[..|rows| - 1], nowSeconds);
      var last := rows[|rows| - 1];
      assert rows == rows[..|rows| - 1] + [last];
      if IsFresh(last, nowSeconds) then init + [last] else init
  }

  /** Dropping rows keeps the row ids ascending and within the counter. */
  lemma {:induction false} KeepFreshValid(rows: seq<SyncResult>, nowSeconds: int, lastRowId: int)
    requires Valid(Log(rows, lastRowId))
    ensures Valid(Log(KeepFresh(rows, nowSeconds), lastRowId))
  {
    if rows != [] {
      var init := rows[..|rows| - 1];
      var last := rows[|rows| - 1];
      assert Valid(Log(init, lastRowId)) by {
        assert forall i :: 0 <= i < |init| ==> init[i] == rows[i];
      }
      KeepFreshValid(init, nowSeconds, lastRowId);
      var kept := KeepFresh(init, nowSeconds);
      if IsFresh(last, nowSeconds) {
        forall i | 0 <= i < |kept| ensures kept[i].rowId < last.rowId {
          assert kept[i] in init;
          var k :| 0 <= k < |init| && init[k] == kept[i];
          assert rows[k] == kept[i];
        }
        AppendLaterValid(kept, last, lastRowId);
      }
    }
  }

  /** A row whose id is above every id so far, and within the counter, may
      go at the end. */
  lemma AppendLaterValid(rows: seq<SyncResult>, last: SyncResult, lastRowId: int)
    requires Valid(Log(rows, lastRowId)) && 0 < last.rowId <= lastRowId
    requires forall i :: 0 <= i < |rows| ==> rows[i].rowId < last.rowId
    ensures Valid(Log(rows + [last], lastRowId))
  {
    var r := rows + [last];
    assert forall i :: 0 <= i < |rows| ==> r[i] == rows[i];
  }

  /** `cleanup`: deletes the rows older than the keeping period and counts them. */
  function Cleanup(l: Log, nowSeconds: int): (res: (Log, int))
    requires Valid(l)
    ensures Valid(res.0)
    ensures res.0.lastRowId == l.lastRowId
    ensures forall x :: x in res.0.rows <==> x in l.rows && IsFresh(x, nowSeconds)
    ensures res.1 == |l.rows| - |res.0.rows| && res.1 >= 0
  {
    var kept := KeepFresh(l.rows, nowSeconds);
    KeepFreshValid(l.rows, nowSeconds, l.lastRowId);
    (Log(kept, l.lastRowId), |l.rows| - |kept|)
  }

  /** Cleaning up never hides a fresh entry: `getFresh` sees the same rows before
      and after. */
  lemma CleanupKeepsFresh(l: Log, nowSeconds: int)
    requires Valid(l)
    ensures forall x :: x in GetFresh(Cleanup(l, nowSeconds).0, nowSeconds) <==> x in GetFresh(l, nowSeconds)
  {
  }

  // ---------------------------------------------------------------------------
  // Writing and draining the log of one collection

  /** The `entry` a collection files a result under. A link or favorite cannot
      log RELATED (None stands for the RuntimeException it throws); a note logs
      RELATED under the link table, because it concerns the note's link. */
  function EntryOf(k: Kind, result: Result): (r: Option<string>)
    ensures r.None? <==> k != NoteKind && result == Related
    ensures r.Some? && result != Related ==> r.value == TableName(k)
    ensures r.Some? && result == Related ==> r.value == TableName(LinkKind)
  {
    if result == Related then (if k == NoteKind then Some(TableName(LinkKind)) else None)
    else Some(TableName(k))
  }

  /** `logSyncResult`: None when the result is rejected, otherwise the log with
      one more row (applied as given) and whether its id is positive. */
  function LogSyncResult(l: Log, k: Kind, now: int, started: int, entryId: string,
                         result: Result, applied: bool): (r: Option<(Log, bool)>)
    requires Valid(l)
    ensures r.None? <==> k != NoteKind && result == Related
    ensures r.Some? ==> (Valid(r.value.0) && r.value.1
      && |r.value.0.rows| == |l.rows| + 1 && r.value.0.rows[..|l.rows|] == l.rows)
    ensures r.Some? ==> (var row := r.value.0.rows[|l.rows|];
      row.entryId == entryId && row.result == result && row.applied == applied
      && row.started == started && Some(row.entry) == EntryOf(k, result))
  {
    var entry := EntryOf(k, result);
    if entry.None? then None
    else
      var res := Append(l, NewSyncResult(now, started, entry.value, entryId, result, applied));
      assert res.0.rows[..|l.rows|] == l.rows;
      Some(res)
  }

  /** The number of rows an update through the `SYNC_RESULT_<entry>` uri reports
      and whether it notifies observers (only when that number is positive). */
  datatype ProviderUpdate = ProviderUpdate(log: Log, numRows: int, notifies: bool)

  /** `markSyncResultsAsApplied` of a collection, through the provider's update
      with the `entry = <table>` condition ANDed on; the count is the number of
      rows the update changed. */
  function MarkThroughProvider(l: Log, k: Kind, threshold: int): (r: ProviderUpdate)
    requires Valid(l)
    ensures r.log == MarkAsApplied(l, TableName(k), threshold).0
    ensures r.numRows == |Filter(l.rows, TableName(k), threshold)|
    ensures r.notifies <==> exists i :: 0 <= i < |l.rows| && Pending(l.rows[i], TableName(k), threshold)
  {
    var (l2, n) := MarkAsApplied(l, TableName(k), threshold);
    var pending := Filter(l.rows, TableName(k), threshold);
    assert n > 0 ==> pending[0] in l.rows && Pending(pending[0], TableName(k), threshold);
    assert forall i :: 0 <= i < |l.rows| && Pending(l.rows[i], TableName(k), threshold) ==> l.rows[i] in pending;
    ProviderUpdate(l2, n, n > 0)
  }

  /** The same update as the provider is written: the `SYNC_RESULT_NOTE` case has
      no `break`, so after marking the note rows it falls into the favorite case,
      which runs a second update restricted to `entry = 'note' AND entry =
      'favorite'`; that matches nothing, and its 0 is what is reported. */
  function MarkThroughProviderAsWritten(l: Log, k: Kind, threshold: int): (r: ProviderUpdate)
    requires Valid(l)
    ensures r.log == MarkAsApplied(l, TableName(k), threshold).0
    ensures k != NoteKind ==> r == MarkThroughProvider(l, k, threshold)
    ensures k == NoteKind ==> r.numRows == 0 && !r.notifies
  {
    if k != NoteKind then MarkThroughProvider(l, k, threshold)
    else
      var (l2, _) := MarkAsApplied(l, TableName(NoteKind), threshold);
      var secondPass := CountBoth(l2.rows, TableName(NoteKind), TableName(FavoriteKind));
      ProviderUpdate(l2, secondPass, secondPass > 0)
  }

  /** Rows whose entry equals both names at once. */
  function CountBoth(rows: seq<SyncResult>, a: string, b: string): (n: nat)
    ensures a != b ==> n == 0
  {
    if rows == [] then 0
    else CountBoth(rows[..|rows| - 1], a, b)
         + (if rows[|rows| - 1].entry == a && rows[|rows| - 1].entry == b then 1 else 0)
  }

  /** One unapplied note result: the provider as written marks it yet reports
      0 rows and notifies nobody; the corrected update reports 1 and notifies. */
  lemma NoteMarkCountLost()
    ensures var l := Log([SyncResult(1, 0, 0, "note", "id", Uploaded, false)], 1);
      Valid(l)
      && MarkThroughProviderAsWritten(l, NoteKind, 0).log.rows[0].applied
      && MarkThroughProviderAsWritten(l, NoteKind, 0).numRows == 0
      && !MarkThroughProviderAsWritten(l, NoteKind, 0).notifies
      && MarkThroughProvider(l, NoteKind, 0).numRows == 1
      && MarkThroughProvider(l, NoteKind, 0).notifies
  {
    var l := Log([SyncResult(1, 0, 0, "note", "id", Uploaded, false)], 1);
    assert Pending(l.rows[0], TableName(NoteKind), 0);
    assert l.rows[0] in Filter(l.rows, TableName(NoteKind), 0);
  }
}

=== FILE: sync_state.dfy ===
/** The per-record synchronisation state: a row id, the remote ETag the record
    was last reconciled against, a duplicate ordinal and three flags. */
module SyncStates {
  import opened Wrappers

  /** The six fields of a record's sync state. Dafny's structural equality on
      this datatype is the Kotlin `equals`, which compares all six fields. */
  datatype SyncState = SyncState(
    rowId: int,
    eTag: Option<string>,
    duplicated: int,
    conflicted: bool,
    deleted: bool,
    synced: bool)
  {
    /** A record is a numbered duplicate when its ordinal is non-zero. */
    predicate IsDuplicated() {
      duplicated != 0
    }
  }

  /** The named states a transition can move a record to. */
  datatype State = Unsynced | Synced | Deleted | ConflictedUpdate | ConflictedDelete

  /** The state of a record that has never been stored or synced. */
  const Default: SyncState := SyncState(-1, None, 0, false, false, false)

  /** The transition constructor: rowId, eTag and the duplicate ordinal are carried
      over from the prior state (the default one when there is none), and the three
      flags are set by the target state. */
  function Transition(prior: Option<SyncState>, state: State): (r: SyncState)
    ensures var b := prior.GetOr(Default);
      r.rowId == b.rowId && r.eTag == b.eTag && r.duplicated == b.duplicated
    ensures r.synced <==> state == Synced
    ensures r.deleted <==>
      (state == Deleted || state == ConflictedDelete || (state == Unsynced && prior.GetOr(Default).deleted))
    ensures r.conflicted <==>
      (prior.GetOr(Default).conflicted || state == ConflictedUpdate || state == ConflictedDelete)
  {
    var b := prior.GetOr(Default);
    match state
    case Unsynced => b.(synced := false)
    case Synced => b.(deleted := false, synced := true)
    case Deleted => b.(deleted := true, synced := false)
    case ConflictedUpdate => b.(conflicted := true, deleted := false, synced := false)
    case ConflictedDelete => b.(conflicted := true, deleted := true, synced := false)
  }

  /** The single-argument constructor: a transition from no prior state. */
  function OfState(state: State): (r: SyncState)
    ensures r.rowId == -1 && r.eTag == None && r.duplicated == 0
    ensures r.conflicted <==> state == ConflictedUpdate || state == ConflictedDelete
  {
    Transition(None, state)
  }

  /** The (eTag, state) constructor: the state constructor with the ETag replaced. */
  function WithETag(eTag: string, state: State): (r: SyncState)
    ensures r.eTag == Some(eTag)
    ensures r.rowId == -1 && r.duplicated == 0
    ensures r.synced <==> state == Synced
  {
    OfState(state).(eTag := Some(eTag))
  }

  /** The duplicate constructor; None stands for the IllegalArgumentException it
      throws without an ETag or with an ordinal that is not positive. */
  function Duplicate(eTag: Option<string>, duplicated: int): (r: Option<SyncState>)
    ensures r.Some? <==> eTag.Some? && duplicated > 0
    ensures r.Some? ==> r.value.eTag == eTag && r.value.duplicated == duplicated
    ensures r.Some? ==> r.value.rowId == -1 && r.value.IsDuplicated()
    ensures r.Some? ==> r.value.conflicted && r.value.synced && !r.value.deleted
  {
    if eTag.None? || duplicated <= 0 then None
    else Some(SyncState(-1, eTag, duplicated, true, false, true))
  }

  /** A transition never yields a state that is both synced and deleted, and it
      never clears `conflicted`. */
  lemma TransitionInvariants(prior: Option<SyncState>, state: State)
    ensures var r := Transition(prior, state); !(r.synced && r.deleted)
    ensures prior.Some? && prior.value.conflicted ==> Transition(prior, state).conflicted
  {
  }

  /** Applying the same transition twice is the same as applying it once. */
  lemma TransitionIdempotent(prior: Option<SyncState>, state: State)
    ensures Transition(Some(Transition(prior, state)), state) == Transition(prior, state)
  {
  }

  /** Only the last of two transitions decides the flags, except that `conflicted`
      persists and UNSYNCED keeps the deletion flag of the state before it. */
  lemma TransitionComposition(prior: Option<SyncState>, first: State, second: State)
    requires second != Unsynced
    ensures var once := Transition(prior, second);
      var twice := Transition(Some(Transition(prior, first)), second);
      twice.synced == once.synced && twice.deleted == once.deleted
      && (twice.conflicted <==> once.conflicted || first == ConflictedUpdate || first == ConflictedDelete)
  {
  }

  // ---------------------------------------------------------------------------
  // Store columns

  /** The columns of a record's sync state in the local store. */
  datatype Column = RowIdCol | ETagCol | DuplicatedCol | ConflictedCol | DeletedCol | SyncedCol

  /** A ContentValues cell; `NullV` is an explicit null. */
  datatype Value = IntV(i: int) | StrV(s: string) | BoolV(b: bool) | NullV

  type ContentValues = map<Column, Value>

  /** The columns an update writes: never the row id, the ETag only when there is
      one (so an update can never clear a stored ETag), always the ordinal and flags. */
  function GetContentValues(s: SyncState): (cv: ContentValues)
    ensures RowIdCol !in cv
    ensures ETagCol in cv <==> s.eTag.Some?
    ensures ETagCol in cv ==> cv[ETagCol] == StrV(s.eTag.value)
    ensures DuplicatedCol in cv && cv[DuplicatedCol] == IntV(s.duplicated)
    ensures ConflictedCol in cv && cv[ConflictedCol] == BoolV(s.conflicted)
    ensures DeletedCol in cv && cv[DeletedCol] == BoolV(s.deleted)
    ensures SyncedCol in cv && cv[SyncedCol] == BoolV(s.synced)
  {
    var flags := map[DuplicatedCol := IntV(s.duplicated), ConflictedCol := BoolV(s.conflicted),
                     DeletedCol := BoolV(s.deleted), SyncedCol := BoolV(s.synced)];
    if s.eTag.Some? then flags[ETagCol := StrV(s.eTag.value)] else flags
  }

  /** Reads a state back from content values. None stands for the exception raised
      when `_ID` or one of the non-null columns is missing; an absent ETag is null. */
  function FromContentValues(cv: ContentValues): (r: Option<SyncState>)
    ensures r.Some? ==> RowIdCol in cv && cv[RowIdCol] == IntV(r.value.rowId)
    ensures RowIdCol !in cv ==> r.None?
    ensures r.Some? && ETagCol !in cv ==> r.value.eTag.None?
  {
    if RowIdCol !in cv || !cv[RowIdCol].IntV? then None
    else if DuplicatedCol !in cv || !cv[DuplicatedCol].IntV? then None
    else if ConflictedCol !in cv || !cv[ConflictedCol].BoolV? then None
    else if DeletedCol !in cv || !cv[DeletedCol].BoolV? then None
    else if SyncedCol !in cv || !cv[SyncedCol].BoolV? then None
    else
      var eTag := if ETagCol in cv && cv[ETagCol].StrV? then Some(cv[ETagCol].s) else None;
      Some(SyncState(cv[RowIdCol].i, eTag, cv[DuplicatedCol].i,
                     cv[ConflictedCol].b, cv[DeletedCol].b, cv[SyncedCol].b))
  }

  /** Content values round-trip once the row id is added back; without it the
      read fails. */
  lemma ContentValuesRoundTrip(s: SyncState)
    ensures FromContentValues(GetContentValues(s)[RowIdCol := IntV(s.rowId)]) == Some(s)
    ensures FromContentValues(GetContentValues(s)) == None
  {
  }

  /** A stored state's cell in column `c`; None for SQL NULL. */
  function ColumnOf(s: SyncState, c: Column): Option<Value> {
    match c
    case RowIdCol => Some(IntV(s.rowId))
    case ETagCol => if s.eTag.Some? then Some(StrV(s.eTag.value)) else None
    case DuplicatedCol => Some(IntV(s.duplicated))
    case ConflictedCol => Some(BoolV(s.conflicted))
    case DeletedCol => Some(BoolV(s.deleted))
    case SyncedCol => Some(BoolV(s.synced))
  }

  /** Content values whose cells fit their columns: the ETag may be null, the
      other columns may not. */
  predicate WellTyped(cv: ContentValues) {
    (RowIdCol in cv ==> cv[RowIdCol].IntV?)
    && (ETagCol in cv ==> cv[ETagCol].StrV? || cv[ETagCol].NullV?)
    && (DuplicatedCol in cv ==> cv[DuplicatedCol].IntV?)
    && (ConflictedCol in cv ==> cv[ConflictedCol].BoolV?)
    && (DeletedCol in cv ==> cv[DeletedCol].BoolV?)
    && (SyncedCol in cv ==> cv[SyncedCol].BoolV?)
  }

  /** An SQL UPDATE of a stored state with the given content values. */
  function ApplyValues(s: SyncState, cv: ContentValues): SyncState {
    SyncState(
      if RowIdCol in cv && cv[RowIdCol].IntV? then cv[RowIdCol].i else s.rowId,
      if ETagCol in cv && cv[ETagCol].StrV? then Some(cv[ETagCol].s)
      else if ETagCol in cv && cv[ETagCol].NullV? then None
      else s.eTag,
      if DuplicatedCol in cv && cv[DuplicatedCol].IntV? then cv[DuplicatedCol].i else s.duplicated,
      if ConflictedCol in cv && cv[ConflictedCol].BoolV? then cv[ConflictedCol].b else s.conflicted,
      if DeletedCol in cv && cv[DeletedCol].BoolV? then cv[DeletedCol].b else s.deleted,
      if SyncedCol in cv && cv[SyncedCol].BoolV? then cv[SyncedCol].b else s.synced)
  }

  /** An update merges only the supplied columns: a supplied column takes its new
      value (a null ETag becomes SQL NULL), every other column keeps its stored one. */
  lemma ApplyValuesMergesSupplied(s: SyncState, cv: ContentValues, c: Column)
    requires WellTyped(cv)
    ensures ColumnOf(ApplyValues(s, cv), c) ==
      (if c in cv then (if cv[c].NullV? then None else Some(cv[c])) else ColumnOf(s, c))
  {
  }

  /** Writing a state's content values keeps the row id, takes the ordinal and the
      flags, and takes the ETag only when there is one: an update never clears a
      stored ETag. */
  lemma UpdateNeverClearsETag(stored: SyncState, written: SyncState)
    ensures var r := ApplyValues(stored, GetContentValues(written));
      r.rowId == stored.rowId
      && r.eTag == (if written.eTag.Some? then written.eTag else stored.eTag)
      && r.duplicated == written.duplicated && r.conflicted == written.conflicted
      && r.deleted == written.deleted && r.synced == written.synced
  {
  }

  /** How SQLite stores a boolean column. */
  function StoredFlag(b: bool): (i: int)
    ensures i == 0 || i == 1
    ensures i == 1 <==> b
  {
    if b then 1 else 0
  }

  /** Reads a state from a cursor row: a flag is set exactly when its column holds 1. */
  function FromCursor(rowId: int, eTag: Option<string>, duplicated: int,
                      conflicted: int, deleted: int, synced: int): (r: SyncState)
    ensures r.rowId == rowId && r.eTag == eTag && r.duplicated == duplicated
    ensures r.conflicted <==> conflicted == 1
    ensures r.deleted <==> deleted == 1
    ensures r.synced <==> synced == 1
  {
    SyncState(rowId, eTag, duplicated, conflicted == 1, deleted == 1, synced == 1)
  }

  /** A state stored with its flags as 0/1 reads back unchanged. */
  lemma CursorRoundTrip(s: SyncState)
    ensures FromCursor(s.rowId, s.eTag, s.duplicated, StoredFlag(s.conflicted),
                       StoredFlag(s.deleted), StoredFlag(s.synced)) == s
  {
  }
}

=== FILE: uuid_keys.dfy ===
/** Record ids: a random 128-bit UUID written as its 16 big-endian bytes in the
    URL-safe base64 alphabet without padding or line wrapping (section 5 of RFC 4648),
    which gives a 22-character key. */
module UuidKeys {
  import opened Wrappers

  newtype byte = x: int | 0 <= x < 256

  /** The length every generated key has, and the only thing `isKeyValidUuid` checks. */
  const KeyLength: nat := 22

  const TwoTo63: int := 0x8000_0000_0000_0000
  const TwoTo64: int := 0x1_0000_0000_0000_0000

  /** A Java `long`. */
  predicate IsLong(x: int) {
    -TwoTo63 <= x < TwoTo63
  }

  /** A `java.util.UUID`: its most and least significant 64-bit halves. */
  datatype Uuid = Uuid(msb: int, lsb: int)

  predicate ValidUuid(u: Uuid) {
    IsLong(u.msb) && IsLong(u.lsb)
  }

  // ---------------------------------------------------------------------------
  // The base64url alphabet

  /** The character for a 6-bit value: A-Z, a-z, 0-9, '-', '_'. */
  function CharOf(i: int): (c: char)
    requires 0 <= i < 64
  {
    if i < 26 then (('A' as int) + i) as char
    else if i < 52 then (('a' as int) + i - 26) as char
    else if i < 62 then (('0' as int) + i - 52) as char
    else if i == 62 then '-'
    else '_'
  }

  /** The 6-bit value of an alphabet character; None for any other character. */
  function IndexOf(c: char): (r: Option<int>)
    ensures r.Some? ==> 0 <= r.value < 64 && CharOf(r.value) == c
  {
    if 'A' <= c <= 'Z' then Some(c as int - 'A' as int)
    else if 'a' <= c <= 'z' then Some(c as int - 'a' as int + 26)
    else if '0' <= c <= '9' then Some(c as int - '0' as int + 52)
    else if c == '-' then Some(62)
    else if c == '_' then Some(63)
    else None
  }

  lemma IndexOfCharOf(i: int)
    requires 0 <= i < 64
    ensures IndexOf(CharOf(i)) == Some(i)
  {
  }

  // ---------------------------------------------------------------------------
  // Encoding and decoding

  /** Base64url without padding: every 3 bytes give 4 characters, a trailing
      1 or 2 bytes give 2 or 3 characters. */
  function Encode(bs: seq<byte>): (cs: string)
    decreases |bs|
  {
    if |bs| >= 3 then Quad(bs[0], bs[1], bs[2]) + Encode(bs[3..])
    else if |bs| == 2 then
      var b0, b1 := bs[0] as int, bs[1] as int;
      [CharOf(b0 / 4), CharOf((b0 % 4) * 16 + b1 / 16), CharOf((b1 % 16) * 4)]
    else if |bs| == 1 then
      var b0 := bs[0] as int;
      [CharOf(b0 / 4), CharOf((b0 % 4) * 16)]
    else ""
  }

  /** The four characters of one group of three bytes. */
  function Quad(x: byte, y: byte, z: byte): (cs: string)
    ensures |cs| == 4
  {
    var b0, b1, b2 := x as int, y as int, z as int;
    [CharOf(b0 / 4), CharOf((b0 % 4) * 16 + b1 / 16), CharOf((b1 % 16) * 4 + b2 / 64), CharOf(b2 % 64)]
  }

  /** The bytes of 2, 3 or 4 alphabet values, in the way the decoder emits them. */
  function Bytes2(i0: int, i1: int): (r: byte)
    requires 0 <= i0 < 64 && 0 <= i1 < 64
  {
    (i0 * 4 + i1 / 16) as byte
  }

  function Bytes3(i1: int, i2: int): (r: byte)
    requires 0 <= i1 < 64 && 0 <= i2 < 64
  {
    ((i1 % 16) * 16 + i2 / 4) as byte
  }

  function Bytes4(i2: int, i3: int): (r: byte)
    requires 0 <= i2 < 64 && 0 <= i3 < 64
  {
    ((i2 % 4) * 64 + i3) as byte
  }

  /** Strict base64url decoding of unpadded text, group by group: the reference
      the decoder is measured against. None for a character outside the
      alphabet, or a lone trailing character. */
  function DecodeGroups(cs: string): (r: Option<seq<byte>>)
    decreases |cs|
  {
    if |cs| == 0 then Some([])
    else if |cs| == 1 then None
    else if IndexOf(cs[0]).None? || IndexOf(cs[1]).None? then None
    else
      var i0, i1 := IndexOf(cs[0]).value, IndexOf(cs[1]).value;
      if |cs| == 2 then Some([Bytes2(i0, i1)])
      else if IndexOf(cs[2]).None? then None
      else
        var i2 := IndexOf(cs[2]).value;
        if |cs| == 3 then Some([Bytes2(i0, i1), Bytes3(i1, i2)])
        else if IndexOf(cs[3]).None? then None
        else
          var i3 := IndexOf(cs[3]).value;
          var rest := DecodeGroups(cs[4..]);
          if rest.None? then None
          else Some([Bytes2(i0, i1), Bytes3(i1, i2), Bytes4(i2, i3)] + rest.value)
  }

  /** The number of characters the encoder writes for n bytes. */
  function EncodedLength(n: nat): nat {
    (n / 3) * 4 + (if n % 3 == 0 then 0 else n % 3 + 1)
  }

  lemma {:induction false} EncodeLength(bs: seq<byte>)
    ensures |Encode(bs)| == EncodedLength(|bs|)
    decreases |bs|
  {
    if |bs| >= 3 {
      EncodeLength(bs[3..]);
    }
  }

  /** Three bytes survive a trip through their four characters. */
  lemma GroupRoundTrip(b0: int, b1: int, b2: int)
    requires 0 <= b0 < 256 && 0 <= b1 < 256 && 0 <= b2 < 256
    ensures var i0, i1, i2, i3 := b0 / 4, (b0 % 4) * 16 + b1 / 16, (b1 % 16) * 4 + b2 / 64, b2 % 64;
      0 <= i0 < 64 && 0 <= i1 < 64 && 0 <= i2 < 64 && 0 <= i3 < 64
      && Bytes2(i0, i1) as int == b0 && Bytes3(i1, i2) as int == b1 && Bytes4(i2, i3) as int == b2
  {
  }

  /** Strict decoding inverts encoding for every byte sequence. */
  lemma {:induction false} DecodeGroupsEncode(bs: seq<byte>)
    ensures DecodeGroups(Encode(bs)) == Some(bs)
    decreases |bs|
  {
    if |bs| >= 3 {
      DecodeGroupsEncode(bs[3..]);
      DecodeEncodeGroup(bs, Encode(bs), Encode(bs[3..]));
    } else {
      DecodeEncodeShort(bs);
    }
  }

  /** A full group of three bytes decodes back once the rest does. */
  lemma DecodeEncodeGroup(bs: seq<byte>, cs: string, tail: string)
    requires |bs| >= 3 && cs == Quad(bs[0], bs[1], bs[2]) + tail && DecodeGroups(tail) == Some(bs[3..])
    ensures DecodeGroups(cs) == Some(bs)
  {
    DecodeQuad(bs[0], bs[1], bs[2], tail);
    assert [bs[0], bs[1], bs[2]] + bs[3..] == bs;
  }

  /** A group's four characters decode to its three bytes, ahead of whatever
      the rest decodes to. */
  lemma DecodeQuad(x: byte, y: byte, z: byte, rest: string)
    requires DecodeGroups(rest).Some?
    ensures DecodeGroups(Quad(x, y, z) + rest) == Some([x, y, z] + DecodeGroups(rest).value)
  {
    var b0, b1, b2 := x as int, y as int, z as int;
    var i0, i1, i2, i3 := b0 / 4, (b0 % 4) * 16 + b1 / 16, (b1 % 16) * 4 + b2 / 64, b2 % 64;
    GroupRoundTrip(b0, b1, b2);
    DecodeFour(i0, i1, i2, i3, rest);
  }

  /** A trailing one or two bytes (or none) decode back. */
  lemma DecodeEncodeShort(bs: seq<byte>)
    requires |bs| < 3
    ensures DecodeGroups(Encode(bs)) == Some(bs)
  {
    if |bs| == 2 {
      DecodeEncodePair(bs[0], bs[1]);
      assert bs == [bs[0], bs[1]];
    } else if |bs| == 1 {
      DecodeEncodeSingle(bs[0]);
      assert bs == [bs[0]];
    }
  }

  lemma DecodeEncodePair(x: byte, y: byte)
    ensures DecodeGroups(Encode([x, y])) == Some([x, y])
  {
    var b0, b1 := x as int, y as int;
    var i0, i1, i2 := b0 / 4, (b0 % 4) * 16 + b1 / 16, (b1 % 16) * 4;
    GroupRoundTrip(b0, b1, 0);
    assert Encode([x, y]) == [CharOf(i0), CharOf(i1), CharOf(i2)];
    DecodeThree(i0, i1, i2);
  }

  lemma DecodeEncodeSingle(x: byte)
    ensures DecodeGroups(Encode([x])) == Some([x])
  {
    var b0 := x as int;
    var i0, i1 := b0 / 4, (b0 % 4) * 16;
    GroupRoundTrip(b0, 0, 0);
    assert Encode([x]) == [CharOf(i0), CharOf(i1)];
    DecodeTwo(i0, i1);
  }

  lemma DecodeTwo(i0: int, i1: int)
    requires 0 <= i0 < 64 && 0 <= i1 < 64
    ensures DecodeGroups([CharOf(i0), CharOf(i1)]) == Some([Bytes2(i0, i1)])
  {
    IndexOfCharOf(i0);
    IndexOfCharOf(i1);
  }

  lemma DecodeThree(i0: int, i1: int, i2: int)
    requires 0 <= i0 < 64 && 0 <= i1 < 64 && 0 <= i2 < 64
    ensures DecodeGroups([CharOf(i0), CharOf(i1), CharOf(i2)]) == Some([Bytes2(i0, i1), Bytes3(i1, i2)])
  {
    IndexOfCharOf(i0);
    IndexOfCharOf(i1);
    IndexOfCharOf(i2);
  }

  lemma DecodeFour(i0: int, i1: int, i2: int, i3: int, rest: string)
    requires 0 <= i0 < 64 && 0 <= i1 < 64 && 0 <= i2 < 64 && 0 <= i3 < 64
    requires DecodeGroups(rest).Some?
    ensures DecodeGroups([CharOf(i0), CharOf(i1), CharOf(i2), CharOf(i3)] + rest)
      == Some([Bytes2(i0, i1), Bytes3(i1, i2), Bytes4(i2, i3)] + DecodeGroups(rest).value)
  {
    var cs := [CharOf(i0), CharOf(i1), CharOf(i2), CharOf(i3)] + rest;
    IndexOfCharOf(i0);
    IndexOfCharOf(i1);
    IndexOfCharOf(i2);
    IndexOfCharOf(i3);
    assert cs[4..] == rest;
  }

  // ---------------------------------------------------------------------------
  // The decoder of `android.util.Base64`

  /** A 6-bit value. */
  type Sextet = i: int | 0 <= i < 64

  /** Where the decoder stands: how many values of the current group it holds,
      that a second '=' is due (after "xx="), or that the padding is complete. */
  datatype DState =
    | Start
    | One(i0: Sextet)
    | Two(i0: Sextet, i1: Sextet)
    | Three(i0: Sextet, i1: Sextet, i2: Sextet)
    | ExpectPad
    | Closed

  /** A character the URL-safe decoding table marks SKIP: anything that is
      neither an alphabet character nor '=' (a non-ASCII character becomes
      UTF-8 bytes of 0x80 or more, all SKIP too). */
  predicate Skipped(c: char) {
    IndexOf(c).None? && c != '='
  }

  /** One character of input: the bytes it completes and the next state, or
      None where the decoder gives up. */
  function Step(st: DState, c: char): (r: Option<(seq<byte>, DState)>)
    ensures Skipped(c) ==> r == Some(([], st))
    ensures IndexOf(c).Some? && st.Three? ==> r.Some? && r.value.1 == Start && |r.value.0| == 3
    ensures IndexOf(c).Some? && !st.Three? ==> (r.Some? <==> st.Start? || st.One? || st.Two?)
    ensures c == '=' ==> (r.Some? <==> st.Two? || st.Three? || st.ExpectPad?)
    ensures c == '=' && r.Some? ==> r.value.1 == ExpectPad || r.value.1 == Closed
  {
    if IndexOf(c).Some? then
      var d: Sextet := IndexOf(c).value;
      match st
      case Start => Some(([], One(d)))
      case One(i0) => Some(([], Two(i0, d)))
      case Two(i0, i1) => Some(([], Three(i0, i1, d)))
      case Three(i0, i1, i2) => Some(([Bytes2(i0, i1), Bytes3(i1, i2), Bytes4(i2, d)], Start))
      case ExpectPad => None
      case Closed => None
    else if c == '=' then
      match st
      case Two(i0, i1) => Some(([Bytes2(i0, i1)], ExpectPad))
      case Three(i0, i1, i2) => Some(([Bytes2(i0, i1), Bytes3(i1, i2)], Closed))
      case ExpectPad => Some(([], Closed))
      case _ => None
    else Some(([], st))
  }

  /** The end of input: a partial group of two or three values gives its one or
      two bytes; a lone value, or a missing second '=', is an error. */
  function Finish(st: DState): (r: Option<seq<byte>>)
    ensures r.None? <==> st.One? || st.ExpectPad?
    ensures r.Some? ==> |r.value| < 3
  {
    match st
    case Start => Some([])
    case One(_) => None
    case Two(i0, i1) => Some([Bytes2(i0, i1)])
    case Three(i0, i1, i2) => Some([Bytes2(i0, i1), Bytes3(i1, i2)])
    case ExpectPad => None
    case Closed => Some([])
  }

  /** Bytes already emitted ahead of the outcome of the rest; a later error
      still fails the whole call. */
  function Prepend(out: seq<byte>, r: Option<seq<byte>>): (q: Option<seq<byte>>)
    ensures q.Some? <==> r.Some?
    ensures q.Some? ==> q.value == out + r.value
    ensures out == [] ==> q == r
  {
    assert r.Some? ==> [] + r.value == r.value;
    if r.None? then None else Some(out + r.value)
  }

  function Run(cs: string, st: DState): (r: Option<seq<byte>>)
    decreases |cs|
  {
    if cs == [] then Finish(st)
    else
      var s := Step(st, cs[0]);
      if s.None? then None else Prepend(s.value.0, Run(cs[1..], s.value.1))
  }

  /** `Base64.decode(key, URL_SAFE | NO_PADDING | NO_WRAP)`. None stands for its
      IllegalArgumentException. The flags do not make it strict: it skips
      every character outside the alphabet and accepts '=' padding. */
  function Decode(cs: string): (r: Option<seq<byte>>)
  {
    Run(cs, Start)
  }

  /** Four alphabet characters in a row pass through the states of a group and
      emit its three bytes. */
  lemma RunGroup(cs: string)
    requires |cs| >= 4 && forall i :: 0 <= i < 4 ==> IndexOf(cs[i]).Some?
    ensures var i0, i1, i2, i3 := IndexOf(cs[0]).value, IndexOf(cs[1]).value, IndexOf(cs[2]).value, IndexOf(cs[3]).value;
      Run(cs, Start) == Prepend([Bytes2(i0, i1), Bytes3(i1, i2), Bytes4(i2, i3)], Run(cs[4..], Start))
  {
    var i0: Sextet, i1: Sextet, i2: Sextet := IndexOf(cs[0]).value, IndexOf(cs[1]).value, IndexOf(cs[2]).value;
    assert cs[1..][0] == cs[1] && cs[1..][1..][0] == cs[2] && cs[1..][1..][1..][0] == cs[3];
    assert cs[1..][1..][1..][1..] == cs[4..];
    assert Run(cs[1..][1..][1..], Three(i0, i1, i2)) == Prepend(Step(Three(i0, i1, i2), cs[3]).value.0, Run(cs[4..], Start));
    assert Run(cs[1..][1..], Two(i0, i1)) == Run(cs[1..][1..][1..], Three(i0, i1, i2));
    assert Run(cs[1..], One(i0)) == Run(cs[1..][1..], Two(i0, i1));
  }

  /** On text made only of alphabet characters the decoder is the strict one. */
  lemma {:induction false} DecodeAlphabetIsStrict(cs: string)
    requires forall i :: 0 <= i < |cs| ==> IndexOf(cs[i]).Some?
    ensures Decode(cs) == DecodeGroups(cs)
    decreases |cs|
  {
    if |cs| >= 4 {
      RunGroup(cs);
      DecodeAlphabetIsStrict(cs[4..]);
    } else if |cs| > 0 {
      var i0: Sextet := IndexOf(cs[0]).value;
      assert Run(cs, Start) == Run(cs[1..], One(i0));
      if |cs| >= 2 {
        var i1: Sextet := IndexOf(cs[1]).value;
        assert cs[1..][0] == cs[1];
        assert Run(cs[1..], One(i0)) == Run(cs[2..], Two(i0, i1)) by { assert cs[1..][1..] == cs[2..]; }
        if |cs| == 3 {
          var i2: Sextet := IndexOf(cs[2]).value;
          assert cs[2..][0] == cs[2] && cs[2..][1..] == [];
          assert Run(cs[2..], Two(i0, i1)) == Run([], Three(i0, i1, i2));
        }
      }
    }
  }

  /** Decoding inverts encoding for every byte sequence. */
  lemma DecodeEncode(bs: seq<byte>)
    ensures Decode(Encode(bs)) == Some(bs)
  {
    EncodeAlphabet(bs);
    DecodeAlphabetIsStrict(Encode(bs));
    DecodeGroupsEncode(bs);
  }

  /** A skipped character anywhere leaves the result unchanged. */
  lemma {:induction false} RunSkips(a: string, c: char, b: string, st: DState)
    requires Skipped(c)
    ensures Run(a + [c] + b, st) == Run(a + b, st)
    decreases |a|
  {
    if a == [] {
      assert a + [c] + b == [c] + b && ([c] + b)[1..] == b && a + b == b;
    } else {
      assert (a + [c] + b)[0] == a[0] && (a + [c] + b)[1..] == a[1..] + [c] + b;
      assert (a + b)[0] == a[0] && (a + b)[1..] == a[1..] + b;
      var s := Step(st, a[0]);
      if s.Some? {
        RunSkips(a[1..], c, b, s.value.1);
      }
    }
  }

  /** The '=' padding the encoder would write without NO_PADDING. */
  function Padding(n: nat): (pad: string)
    ensures |pad| < 3 && (EncodedLength(n) + |pad|) % 4 == 0
    ensures forall i :: 0 <= i < |pad| ==> pad[i] == '='
  {
    if n % 3 == 1 then "==" else if n % 3 == 2 then "=" else ""
  }

  /** Padded text decodes as the unpadded text does. */
  lemma {:induction false} DecodePadded(bs: seq<byte>)
    ensures Decode(Encode(bs) + Padding(|bs|)) == Some(bs)
    decreases |bs|
  {
    if |bs| >= 3 {
      DecodePadded(bs[3..]);
      var pad := Padding(|bs|);
      assert pad == Padding(|bs[3..]|);
      assert Encode(bs) + pad == Quad(bs[0], bs[1], bs[2]) + (Encode(bs[3..]) + pad);
      DecodePaddedGroup(bs, Encode(bs) + pad, Encode(bs[3..]) + pad);
    } else {
      DecodePaddedShort(bs);
    }
  }

  /** A trailing one or two bytes, or none, come back from their padded text. */
  lemma DecodePaddedShort(bs: seq<byte>)
    requires |bs| < 3
    ensures Decode(Encode(bs) + Padding(|bs|)) == Some(bs)
  {
    if |bs| == 2 {
      assert bs == [bs[0], bs[1]];
      assert Padding(|bs|) == "=";
      DecodePaddedPair(bs[0], bs[1]);
    } else if |bs| == 1 {
      assert bs == [bs[0]];
      assert Padding(|bs|) == "==";
      DecodePaddedSingle(bs[0]);
    } else {
      assert Encode(bs) + Padding(|bs|) == [];
    }
  }

  /** A full group ahead of decodable text decodes to its bytes ahead of the
      text's. */
  lemma DecodePaddedGroup(bs: seq<byte>, cs: string, rest: string)
    requires |bs| >= 3 && cs == Quad(bs[0], bs[1], bs[2]) + rest && Decode(rest) == Some(bs[3..])
    ensures Decode(cs) == Some(bs)
  {
    RunQuad(bs[0], bs[1], bs[2], rest);
    assert [bs[0], bs[1], bs[2]] + bs[3..] == bs;
  }

  /** A group's four characters emit its three bytes ahead of the rest. */
  lemma RunQuad(x: byte, y: byte, z: byte, rest: string)
    ensures Run(Quad(x, y, z) + rest, Start) == Prepend([x, y, z], Run(rest, Start))
  {
    var b0, b1, b2 := x as int, y as int, z as int;
    GroupRoundTrip(b0, b1, b2);
    var cs := Quad(x, y, z) + rest;
    IndexOfCharOf(b0 / 4);
    IndexOfCharOf((b0 % 4) * 16 + b1 / 16);
    IndexOfCharOf((b1 % 16) * 4 + b2 / 64);
    IndexOfCharOf(b2 % 64);
    assert cs[4..] == rest;
    RunGroup(cs);
  }

  /** Two bytes come back from their three characters and one '='. */
  lemma DecodePaddedPair(x: byte, y: byte)
    ensures Decode(Encode([x, y]) + "=") == Some([x, y])
  {
    var b0, b1 := x as int, y as int;
    GroupRoundTrip(b0, b1, 0);
    var i0, i1, i2 := b0 / 4, (b0 % 4) * 16 + b1 / 16, (b1 % 16) * 4;
    assert Encode([x, y]) + "=" == [CharOf(i0), CharOf(i1), CharOf(i2), '='];
    RunThreePadded(i0, i1, i2);
  }

  lemma RunThreePadded(i0: Sextet, i1: Sextet, i2: Sextet)
    ensures Run([CharOf(i0), CharOf(i1), CharOf(i2), '='], Start) == Some([Bytes2(i0, i1), Bytes3(i1, i2)])
  {
    var cs := [CharOf(i0), CharOf(i1), CharOf(i2), '='];
    IndexOfCharOf(i0);
    IndexOfCharOf(i1);
    IndexOfCharOf(i2);
    assert Run(cs, Start) == Run(cs[1..], One(i0));
    assert Run(cs[1..], One(i0)) == Run(cs[2..], Two(i0, i1)) by { assert cs[1..][0] == cs[1] && cs[1..][1..] == cs[2..]; }
    assert Run(cs[2..], Two(i0, i1)) == Run(cs[3..], Three(i0, i1, i2)) by { assert cs[2..][0] == cs[2] && cs[2..][1..] == cs[3..]; }
    assert Run(cs[3..], Three(i0, i1, i2)) == Prepend([Bytes2(i0, i1), Bytes3(i1, i2)], Run([], Closed));
    assert [Bytes2(i0, i1), Bytes3(i1, i2)] + [] == [Bytes2(i0, i1), Bytes3(i1, i2)];
  }

  /** One byte comes back from its two characters and "==". */
  lemma DecodePaddedSingle(x: byte)
    ensures Decode(Encode([x]) + "==") == Some([x])
  {
    var b0 := x as int;
    GroupRoundTrip(b0, 0, 0);
    var i0, i1 := b0 / 4, (b0 % 4) * 16;
    assert Encode([x]) + "==" == [CharOf(i0), CharOf(i1), '=', '='];
    RunTwoPadded(i0, i1);
  }

  lemma RunTwoPadded(i0: Sextet, i1: Sextet)
    ensures Run([CharOf(i0), CharOf(i1), '=', '='], Start) == Some([Bytes2(i0, i1)])
  {
    var cs := [CharOf(i0), CharOf(i1), '=', '='];
    IndexOfCharOf(i0);
    IndexOfCharOf(i1);
    assert Run(cs, Start) == Run(cs[1..], One(i0));
    assert Run(cs[1..], One(i0)) == Run(cs[2..], Two(i0, i1)) by { assert cs[1..][0] == cs[1] && cs[1..][1..] == cs[2..]; }
    assert Run(cs[2..], Two(i0, i1)) == Prepend([Bytes2(i0, i1)], Run(cs[3..], ExpectPad)) by { assert cs[2..][0] == '=' && cs[2..][1..] == cs[3..]; }
    assert Run(cs[3..], ExpectPad) == Run([], Closed);
    assert [Bytes2(i0, i1)] + [] == [Bytes2(i0, i1)];
  }

  // ---------------------------------------------------------------------------
  // Longs as big-endian bytes

  function Pow256(n: nat): (p: nat)
    ensures p > 0
  {
    if n == 0 then 1 else 256 * Pow256(n - 1)
  }

  /** The n low-order base-256 digits of u, most significant first. */
  function ToBigEndian(u: nat, n: nat): (bs: seq<byte>)
    ensures |bs| == n
  {
    if n == 0 then [] else ToBigEndian(u / 256, n - 1) + [(u % 256) as byte]
  }

  function FromBigEndian(bs: seq<byte>): (u: nat)
    ensures u < Pow256(|bs|)
  {
    if |bs| == 0 then 0
    else
      var hi := FromBigEndian(bs[..|bs| - 1]);
      assert hi * 256 <= (Pow256(|bs| - 1) - 1) * 256;
      hi * 256 + bs[|bs| - 1] as int
  }

  lemma {:induction false} BigEndianRoundTrip(u: nat, n: nat)
    requires u < Pow256(n)
    ensures FromBigEndian(ToBigEndian(u, n)) == u
  {
    if n > 0 {
      var bs := ToBigEndian(u, n);
      assert u / 256 < Pow256(n - 1);
      BigEndianRoundTrip(u / 256, n - 1);
      assert bs[..|bs| - 1] == ToBigEndian(u / 256, n - 1);
    }
  }

  /** `ByteBuffer.putLong`: the 8 big-endian bytes of a two's-complement long. */
  function LongToBytes(x: int): (bs: seq<byte>)
    requires IsLong(x)
    ensures |bs| == 8
  {
    ToBigEndian(if x < 0 then x + TwoTo64 else x, 8)
  }

  /** `ByteBuffer.getLong`: 8 big-endian bytes read as a two's-complement long. */
  function LongFromBytes(bs: seq<byte>): (x: int)
    requires |bs| == 8
    ensures IsLong(x)
  {
    assert Pow256(8) == TwoTo64;
    var u := FromBigEndian(bs);
    if u >= TwoTo63 then u - TwoTo64 else u
  }

  lemma LongRoundTrip(x: int)
    requires IsLong(x)
    ensures LongFromBytes(LongToBytes(x)) == x
  {
    assert Pow256(8) == TwoTo64;
    BigEndianRoundTrip(if x < 0 then x + TwoTo64 else x, 8);
  }

  // ---------------------------------------------------------------------------
  // Keys

  /** `keyFromUuid`: the key of a UUID, always KeyLength characters. */
  function KeyFromUuid(u: Uuid): (key: string)
    requires ValidUuid(u)
    ensures |key| == KeyLength
  {
    var bs := LongToBytes(u.msb) + LongToBytes(u.lsb);
    EncodeLength(bs);
    Encode(bs)
  }

  /** `isKeyValidUuid`: only the length is checked. */
  predicate IsKeyValidUuid(key: string) {
    |key| == KeyLength
  }

  /** `uuidFromKey` with the too-short case returning null, like every other
      undecodable key: reads the first 16 decoded bytes as two longs. */
  function UuidFromKey(key: string): (r: Option<Uuid>)
    ensures r.Some? ==> ValidUuid(r.value)
    ensures r.Some? <==> Decode(key).Some? && |Decode(key).value| >= 16
  {
    var d := Decode(key);
    if d.None? || |d.value| < 16 then None
    else
      var bs := d.value;
      Some(Uuid(LongFromBytes(bs[..8]), LongFromBytes(bs[8..16])))
  }

  /** What `uuidFromKey` does as written: only the decoder's IllegalArgumentException
      is turned into null; a key that decodes to fewer than 16 bytes makes
      `getLong` throw a BufferUnderflowException that escapes. */
  datatype KeyOutcome = Parsed(uuid: Uuid) | Null | BufferUnderflow

  function UuidFromKeyAsWritten(key: string): (r: KeyOutcome)
    ensures r.Null? <==> Decode(key).None?
    ensures r.BufferUnderflow? <==> Decode(key).Some? && |Decode(key).value| < 16
    ensures r.Parsed? ==> UuidFromKey(key) == Some(r.uuid)
  {
    var d := Decode(key);
    if d.None? then Null
    else if |d.value| < 16 then BufferUnderflow
    else Parsed(UuidFromKey(key).value)
  }

  /** A well-formed key of fewer than 16 bytes (such as "AAAA", the encoding
      of three zero bytes, or the empty key) makes the method as written throw
      instead of returning null; as intended it is null. */
  lemma ShortKeyEscapes(bs: seq<byte>)
    requires |bs| < 16
    ensures UuidFromKeyAsWritten(Encode(bs)) == BufferUnderflow
    ensures UuidFromKey(Encode(bs)) == None
  {
    DecodeEncode(bs);
  }

  /** Every key the application generates decodes back to its UUID. */
  lemma UuidRoundTrip(u: Uuid)
    requires ValidUuid(u)
    ensures UuidFromKey(KeyFromUuid(u)) == Some(u)
    ensures IsKeyValidUuid(KeyFromUuid(u))
  {
    var a, b := LongToBytes(u.msb), LongToBytes(u.lsb);
    DecodeEncode(a + b);
    assert (a + b)[..8] == a && (a + b)[8..16] == b;
    LongRoundTrip(u.msb);
    LongRoundTrip(u.lsb);
  }

  /** The decoder is lenient, so a key need not be exactly what `keyFromUuid`
      wrote to read back as its UUID: the key with "==" appended does, and so
      does the key with a skipped character (a space, a '+', a '/') inserted
      anywhere. */
  lemma UuidKeyVariants(u: Uuid, i: nat, c: char)
    requires ValidUuid(u) && i <= KeyLength && Skipped(c)
    ensures UuidFromKey(KeyFromUuid(u) + "==") == Some(u)
    ensures UuidFromKey(KeyFromUuid(u)[..i] + [c] + KeyFromUuid(u)[i..]) == Some(u)
  {
    var bs := LongToBytes(u.msb) + LongToBytes(u.lsb);
    var key := KeyFromUuid(u);
    assert key == Encode(bs);
    UuidRoundTrip(u);
    DecodePadded(bs);
    DecodeEncode(bs);
    assert Padding(|bs|) == "==";
    assert Decode(key + "==") == Decode(key);
    RunSkips(key[..i], c, key[i..], Start);
    assert key[..i] + key[i..] == key;
    assert Decode(key[..i] + [c] + key[i..]) == Decode(key);
  }

  /** The 24-character key of 22 'A's and "==", and the 23-character key with
      a space inserted, both read back as the zero UUID. */
  lemma ZeroKeyVariants()
    ensures UuidFromKey(seq(22, _ => 'A') + "==") == Some(Uuid(0, 0))
    ensures UuidFromKey(seq(11, _ => 'A') + " " + seq(11, _ => 'A')) == Some(Uuid(0, 0))
  {
    ZeroUuidKey();
    var key := seq(22, _ => 'A');
    UuidKeyVariants(Uuid(0, 0), 11, ' ');
    assert key[..11] + [' '] + key[11..] == seq(11, _ => 'A') + " " + seq(11, _ => 'A');
  }

  /** Every character of an encoding is in the base64url alphabet. */
  lemma {:induction false} EncodeAlphabet(bs: seq<byte>)
    ensures forall i :: 0 <= i < |Encode(bs)| ==> IndexOf(Encode(bs)[i]).Some?
    decreases |bs|
  {
    forall v | 0 <= v < 64
      ensures IndexOf(CharOf(v)).Some?
    {
      IndexOfCharOf(v);
    }
    if |bs| >= 3 {
      EncodeAlphabet(bs[3..]);
    }
  }

  /** A generated key holds only alphabet characters, so in particular none of
      '/', '%', ':', '?' and '#'. */
  lemma KeyAlphabet(u: Uuid)
    requires ValidUuid(u)
    ensures forall i :: 0 <= i < |KeyFromUuid(u)| ==> IndexOf(KeyFromUuid(u)[i]).Some?
    ensures '/' !in KeyFromUuid(u) && '%' !in KeyFromUuid(u)
    ensures ':' !in KeyFromUuid(u) && '?' !in KeyFromUuid(u) && '#' !in KeyFromUuid(u)
  {
    EncodeAlphabet(LongToBytes(u.msb) + LongToBytes(u.lsb));
    assert IndexOf('/').None? && IndexOf('%').None?;
    assert IndexOf(':').None? && IndexOf('?').None? && IndexOf('#').None?;
  }

  /** The zero UUID is the key of 22 'A's, and that key reads back as zero. */
  lemma ZeroUuidKey()
    ensures KeyFromUuid(Uuid(0, 0)) == seq(22, _ => 'A')
    ensures UuidFromKey(seq(22, _ => 'A')) == Some(Uuid(0, 0))
  {
    var z := LongToBytes(0);
    assert z == seq(8, _ => 0 as byte);
    var bs := z + z;
    assert bs == seq(16, _ => 0 as byte);
    ZeroBytesEncode(16);
    UuidRoundTrip(Uuid(0, 0));
  }

  lemma {:induction false} ZeroBytesEncode(n: nat)
    requires n % 3 == 1
    ensures Encode(seq(n, _ => 0 as byte)) == seq(EncodedLength(n), _ => 'A')
    decreases n
  {
    var bs := seq(n, _ => 0 as byte);
    if n >= 3 {
      ZeroBytesEncode(n - 3);
      assert bs[3..] == seq(n - 3, _ => 0 as byte);
    }
  }
}

=== FILE: wrappers.dfy ===
/** Option stands in for Java's nullable references throughout the model. */
module Wrappers {

  /** None models a Java `null`; Some(v) a present value. */
  datatype Option<+T> = None | Some(value: T) {

    /** The value, or `default` when absent (Java's `x == null ? default : x`). */
    function GetOr(default: T): T {
      match this
      case Some(v) => v
      case None => default
    }
  }
}
